=== FILE: README.md ===
# Leviton load center integration, modelled in Dafny

The Leviton load center integration connects Home Assistant to Leviton's
cloud. Three kinds of Leviton hardware report through it:

- LWHEM hubs, each with its CT clamps;
- LDATA panels;
- the smart breakers behind either.

It discovers the account's devices over REST and keeps them in one store. A
websocket pushes live updates into that store. REST polling backs up the
push channel. Sensors, switches and buttons are built on the store.

This project models the core of that integration as pure functions and a
few methods over immutable data, and proves what the code promises about
them:

- **Energy accounting.** Live energy deltas are accumulated onto lifetime
  counters. Counters read back over REST are corrected against a persisted
  lifetime cache. Daily baselines are snapshotted at midnight and at setup.
  Ever-increasing sensors are clamped at their high-water marks.
- **Push dispatch.** A hub or panel message carries nested child updates; a
  breaker or CT message carries the device's own attributes. Messages are
  routed accordingly. First-generation breaker trips are synthesised.
- **The push connection.** Subscriptions depend on the hub firmware (2.0.0
  and later needs individual breaker subscriptions). The model covers the
  keepalive timers, the 90-second staleness watchdog, the disconnect
  handler, the proactive refresh and the five-step reconnect backoff.
- **The coordinator.** Discovery covers permissions, accounts, residences,
  hubs, panels, breakers and CTs. Each call's errors are contained to that
  call. The REST poll skips hubs while push is healthy. Firmware repair
  issues are raised and cleared, and setup steps run in a fixed order.
- **The presentation layer.** It covers the value functions of the sensor
  descriptions (legs, pole totals, calculated current, hub and panel
  aggregates) and the sensor platform's setup. It also covers entity
  availability, device information, unique ids, and the switch and button
  entities with their optimistic writes.
- **The older `leviton` integration's coordinator.** It stores CTs by
  integer id, merges pushed data as sent and refetches everything on every
  poll. Its push socket is never reconnected. As written, this coordinator
  and its config flow import the client from a misspelt package name
  (`aiolevtion`), so they never load. The model follows the coordinator
  with that import corrected (see Findings).

Representation choices:

- **Device records** are a fixed id, the classification flags the cloud
  client derives, and a raw attribute map (`Values.Fields`). A REST refresh
  replaces a record; a push message merges into its map (`Values.Merge`).
- **Energy** is an integer number of thousandths of a kWh. Python's
  `round(x, 3)` is therefore exact, and `round(x, 2)` is
  `Energy.Round2`. Power is whole watts. Voltage, current and frequency
  are reals.
- **Cloud calls** are parameters that answer `Ok`, `AuthErr` (the client's
  authentication error) or `ConnErr` (its connection error). A
  `Discovery.Backend` bundles the calls for one state of the cloud.
- **Dictionary iteration order** matters wherever the code takes the first
  match or stops at the first failure. There, the order is a sequence
  parameter that lists the dictionary's keys (`Store.Enumerates`).
- **Push energy rewriting** is a parameter (`Push.EnergyHooks`), used as
  `Push.ACCUMULATE`, which is the accumulation that `energy.py` defines.
  The push handler imports
  `normalize_breaker_energy` and `normalize_ct_energy`, which `energy.py`
  does not define (custom_components/leviton_load_center/websocket.py:17).
  The tests exercise accumulation. The model follows the code that exists
  and keeps the rule a parameter.
- **Python errors** are part of the model where the code lets them escape.
  `SensorDescriptions.Sensed` has a `Raises` case for the `TypeError` a
  breaker without a position causes. `Discovery.Failure` has an
  `Unhandled` case for an authentication error that nothing catches.

| file | module | models |
|---|---|---|
| wrappers.dfy | Wrappers | `Option`, `Call`, small helpers |
| values.dfy | Values | JSON values, `dict.get`, truthiness, `str()`, `int()` |
| store.dfy | Store | `LevitonData` and the device records |
| energy.dfy | Energy | custom_components/leviton_load_center/energy.py |
| push.dfy | Push | websocket.py notification handling |
| firmware.dfy | Firmware | websocket.py `needs_individual_breaker_subs` |
| connection.dfy | Connection | websocket.py connection life cycle |
| discovery.dfy | Discovery | coordinator.py discovery |
| coordinator.dfy | Coordinator | coordinator.py poll, firmware issues, setup |
| sensor_descriptions.dfy | SensorDescriptions | sensor_descriptions.py value functions |
| sensor_platform.dfy | SensorPlatform | sensor.py helpers and setup |
| entities.dfy | Entities | entity.py, switch.py, button.py |
| legacy.dfy | Legacy | homeassistant/components/leviton/coordinator.py |

## Model

| member | source | states |
|---|---|---|
| Values.Merge | custom_components/leviton_load_center/websocket.py:313 | a device update keeps every field the patch does not mention and takes every patched field as sent |
| Values.Str | custom_components/leviton_load_center/websocket.py:348 | the string form of a text is the text and of a whole number its decimal spelling; floats, lists and objects have none in this model |
| Values.ParseInt | custom_components/leviton_load_center/websocket.py:34 | a version piece parses only if something is left once surrounding whitespace is stripped |
| Values.ParseUnsigned | custom_components/leviton_load_center/websocket.py:34 | digits, with single underscores between them, parse to the number they spell |
| Values.ParseIntToString | custom_components/leviton_load_center/websocket.py:34 | parsing the decimal spelling of any whole number gives the number back |
| Values.IntToStringInjective | custom_components/leviton_load_center/coordinator.py:303 | different whole numbers have different decimal spellings |
| Store.CtKeyInjective | custom_components/leviton_load_center/coordinator.py:303 | two clamps stored under the same string key have the same id |
| Energy.Accumulate | custom_components/leviton_load_center/energy.py:38-45 | a counter above half of a positive stored lifetime is a lifetime (the larger of the two is kept); otherwise it is a delta added to the stored value; a non-negative delta never lowers the counter |
| Energy.AccumulateSlot | custom_components/leviton_load_center/energy.py:33-45 | only the chosen counter of the payload changes, and only when the payload carries it as a number; every other payload entry is kept |
| Energy.AccumulateStep | custom_components/leviton_load_center/energy.py:33-45 | handling one more counter extends the invariant that handled counters are accumulated and everything else is as sent |
| Energy.AccumulateBreakerEnergy | custom_components/leviton_load_center/energy.py:20-45 | a breaker payload's three counters (consumption, second-pole consumption, import) are accumulated against the stored breaker; a CT-only counter (second import) passes through untouched |
| Energy.AccumulateCtEnergy | custom_components/leviton_load_center/energy.py:48-70 | a CT payload's four counters are accumulated against the stored CT; all other entries are as sent |
| Energy.AccumulateRunAddsDeltas | custom_components/leviton_load_center/energy.py:38-45 | a run of small deltas adds up exactly: the lifetime after them is the start plus their sum |
| Energy.AccumulateRunMonotone | custom_components/leviton_load_center/energy.py:38-45 | a run of non-negative counters never lowers a non-negative lifetime |
| Energy.AccumulateExamples | custom_components/leviton_load_center/energy.py:38-45 | worked cases: small deltas add, a state-flood lifetime is kept, a first delta on a zero lifetime is stored as is |
| Energy.SaveLifetimeEnergy | custom_components/leviton_load_center/energy.py:194-216 | the persisted lifetime cache holds exactly the present counters, breakers' three and CTs' four, each with its present value, and no second import counter for any breaker |
| Energy.Decide | custom_components/leviton_load_center/energy.py:139-152 | per counter: below half of its cached value it is restored to cached plus value; new or larger it is adopted; otherwise the cache is kept; the three cases partition all inputs |
| Energy.CorrectEnergy | custom_components/leviton_load_center/energy.py:115-181 | every present counter is restored, adopted or kept as Decide says, in the store and in the cache; an absent counter leaves the cache entry alone; the cache is saved iff some counter was not kept; no device is added or removed |
| Energy.ReadingCorrected | custom_components/leviton_load_center/energy.py:141-147 | after correction a counter reads its restored value where one was decided, and its old reading everywhere else |
| Energy.CorrectEnergyCacheMonotone | custom_components/leviton_load_center/energy.py:140-152 | correcting never lowers a cached lifetime |
| Energy.CorrectionCoversReadings | custom_components/leviton_load_center/energy.py:140-181 | after a correction every present counter is in the persisted cache, at or below its cached value |
| Energy.CorrectEnergyIdempotent | custom_components/leviton_load_center/energy.py:115-181 | a second correction against the cache the first one saved changes nothing and saves nothing |
| Energy.Round2 | custom_components/leviton_load_center/energy.py:83 | rounding to hundredths of a kWh gives a multiple of ten thousandths within half a step of the input |
| Energy.CalcDailyEnergy | custom_components/leviton_load_center/energy.py:73-83 | absent without a lifetime or a baseline; otherwise the lifetime minus the baseline, clamped at zero, rounded to hundredths |
| Energy.DailyEnergyMonotone | custom_components/leviton_load_center/energy.py:73-83 | against a fixed baseline, daily energy does not decrease as the lifetime grows |
| Energy.SnapshotDailyBaselines | custom_components/leviton_load_center/energy.py:86-99 | each breaker with a reading gets its total (both poles when two-pole) as baseline, each CT its consumption total; the baselines of other devices are kept and nothing else is added |
| Energy.LoadDailyBaselines | custom_components/leviton_load_center/energy.py:183-192 | a non-empty stored set is adopted as is; otherwise a fresh snapshot is taken and saved; nothing but the baselines changes |
| Energy.SnapshotIdempotent | custom_components/leviton_load_center/energy.py:86-99 | snapshotting twice over the same devices gives the same baselines |
| Energy.HandleMidnight | custom_components/leviton_load_center/energy.py:218-223 | midnight takes a fresh snapshot, saves it, and saves the lifetime cache of the current counters |
| Energy.MidnightZeroesDailyEnergy | custom_components/leviton_load_center/energy.py:73-99 | right after midnight every breaker with a reading and every CT shows zero daily energy |
| Energy.DailyEnergyExample | custom_components/leviton_load_center/energy.py:73-83 | worked cases: 1500 kWh over a 1400 kWh baseline is 100 kWh; a lifetime below its baseline reads zero |
| Energy.ClampIncreasing | custom_components/leviton_load_center/energy.py:225-240 | a value below the key's high-water mark returns the mark and leaves the marks alone; otherwise the value becomes the mark; the result is never below the value nor below the old mark |
| Energy.ClampRunIncreasing | custom_components/leviton_load_center/energy.py:225-240 | along any run of values for one key the clamped outputs never decrease |
| Discovery.MapError | custom_components/leviton_load_center/coordinator.py:213-218 | a failed permissions call maps to ConfigEntryAuthFailed exactly for an authentication error and to UpdateFailed exactly for a connection error |
| Discovery.AddBreakers | custom_components/leviton_load_center/coordinator.py:285-286 | storing fetched breakers adds exactly their ids; each id holds the last fetched breaker with that id, and other ids keep their record |
| Discovery.AddBreakersConcat | custom_components/leviton_load_center/coordinator.py:285-286 | storing two fetched breaker lists in turn stores the same map as storing their concatenation |
| Discovery.AddBreakersDetermined | custom_components/leviton_load_center/coordinator.py:285-286 | the key set and per-key values `AddBreakers` promises determine its result: any map with them is that result |
| Discovery.LatestBreaker | custom_components/leviton_load_center/coordinator.py:285-286 | the breaker a keyed store ends up holding for an id: present iff the id is listed, and then a listed breaker with that id |
| Discovery.LatestBreakerIsLast | custom_components/leviton_load_center/coordinator.py:285-286 | that breaker is the list's last entry with the id, so later fetches of an id overwrite earlier ones |
| Discovery.AddCts | custom_components/leviton_load_center/coordinator.py:302-303 | storing fetched CTs adds exactly the text of their integer ids; each key holds the last fetched CT with that key, and other keys keep their record |
| Discovery.AddCtsConcat | custom_components/leviton_load_center/coordinator.py:302-303 | storing two fetched CT lists in turn stores the same map as storing their concatenation |
| Discovery.AddCtsDetermined | custom_components/leviton_load_center/coordinator.py:302-303 | the key set and per-key values `AddCts` promises determine its result |
| Discovery.LatestCt | custom_components/leviton_load_center/coordinator.py:302-303 | the CT a keyed store ends up holding for a key: present iff the key is listed, and then a listed CT with that key |
| Discovery.LatestCtIsLast | custom_components/leviton_load_center/coordinator.py:302-303 | that CT is the list's last entry with the key, so later fetches of a key overwrite earlier ones |
| Discovery.AddHubs | custom_components/leviton_load_center/coordinator.py:266-270 | storing fetched hubs adds exactly their ids; each id holds the last listed hub with that id, and other ids keep their record |
| Discovery.LatestHub | custom_components/leviton_load_center/coordinator.py:266-270 | the hub a keyed store ends up holding for an id: present iff the id is listed, and then a listed hub with that id |
| Discovery.AddHubsConcat | custom_components/leviton_load_center/coordinator.py:266-270 | storing two hub lists in turn stores the same map as storing their concatenation |
| Discovery.AddPanels | custom_components/leviton_load_center/coordinator.py:326-331 | storing fetched panels adds exactly their ids; each id holds the last listed panel with that id, and other ids keep their record |
| Discovery.LatestPanel | custom_components/leviton_load_center/coordinator.py:326-331 | the panel a keyed store ends up holding for an id: present iff the id is listed, and then a listed panel with that id |
| Discovery.AddPanelsConcat | custom_components/leviton_load_center/coordinator.py:326-331 | storing two panel lists in turn stores the same map as storing their concatenation |
| Discovery.AddBreakersWithin | custom_components/leviton_load_center/coordinator.py:285-286 | storing fetched breakers into a store whose records all belong to a set leaves every record in that set when the fetched ones do too |
| Discovery.AddCtsWithin | custom_components/leviton_load_center/coordinator.py:302-303 | storing fetched CTs into a store whose records all belong to a set leaves every record in that set when the fetched ones do too |
| Discovery.AddHubsWithin | custom_components/leviton_load_center/coordinator.py:266-270 | storing fetched hubs into a store whose records all belong to a set leaves every record in that set when the fetched ones do too |
| Discovery.AddPanelsWithin | custom_components/leviton_load_center/coordinator.py:326-331 | storing fetched panels into a store whose records all belong to a set leaves every record in that set when the fetched ones do too |
| Discovery.HubStep | custom_components/leviton_load_center/coordinator.py:266-314 | one hub is stored under its id, then its bandwidth is reset and its breakers and CTs fetched; a connection error loses only that call; the step fails iff one of those calls answers with an authentication error; otherwise the breaker and CT maps are exactly the old ones with the fetched lists stored in order |
| Discovery.HubsFold | custom_components/leviton_load_center/coordinator.py:263-318 | the hubs of a residence in order: fails iff some hub's own calls raise an authentication error; otherwise adds exactly those hubs and their fetched breakers and CTs, leaving panels alone |
| Discovery.HubsFoldRecords | custom_components/leviton_load_center/coordinator.py:266-314 | a successful hub walk stores every hub under its id and, under each breaker and CT key, the last record the hubs' fetches return under it in walk order, other keys keeping their record |
| Discovery.HubsFoldKeyed | custom_components/leviton_load_center/coordinator.py:270-303 | every record added while searching hubs sits under its own id |
| Discovery.PanelsFold | custom_components/leviton_load_center/coordinator.py:321-359 | the panels of a residence in order: fails iff some panel's bandwidth reset or breaker fetch raises an authentication error; otherwise adds exactly those panels and their fetched breakers, leaving hubs and CTs alone |
| Discovery.PanelsFoldRecords | custom_components/leviton_load_center/coordinator.py:326-359 | a successful panel walk stores every panel under its id and, under each breaker id, the last record the panels' fetches return under it, other ids keeping their record |
| Discovery.ResidenceDevices | custom_components/leviton_load_center/coordinator.py:258-363 | one residence: a connection error on the hub or panel list skips that list; the search fails iff some call raises an authentication error; otherwise exactly the residence's hubs, panels, breakers and CTs are added |
| Discovery.ResidenceDevicesRecords | custom_components/leviton_load_center/coordinator.py:258-363 | a successful residence search stores its hubs and panels under their ids and, under each breaker and CT key, the last record its fetches return (hubs' breakers before panels'), other keys keeping their record |
| Discovery.HubPhase | custom_components/leviton_load_center/coordinator.py:262-318 | the hub half of a residence search, with the hub list's own connection error contained |
| Discovery.PanelPhase | custom_components/leviton_load_center/coordinator.py:320-363 | the panel half of a residence search, with the panel list's own connection error contained |
| Discovery.AddResidences | custom_components/leviton_load_center/coordinator.py:237-239 | storing an account's residences adds exactly their ids; each id holds the last listed residence with that id, and other ids keep their record |
| Discovery.LatestResidence | custom_components/leviton_load_center/coordinator.py:237-239 | the residence a keyed store ends up holding for an id: present iff the id is listed, and then a listed residence with that id |
| Discovery.LatestResidenceIsLast | custom_components/leviton_load_center/coordinator.py:237-239 | that residence is the list's last entry with the id, so later listings of an id overwrite earlier ones |
| Discovery.ResidencesOneMore | custom_components/leviton_load_center/coordinator.py:255-256 | searching one more residence adds exactly that residence's hubs and panels to those found |
| Discovery.ResidenceChildrenOneMore | custom_components/leviton_load_center/coordinator.py:255-256 | searching one more residence adds exactly that residence's breakers and CTs to those found |
| Discovery.RecordsOneMore | custom_components/leviton_load_center/coordinator.py:255-256 | searching one more residence adds that residence's fetched records to those of the searched set, and keeps the earlier ones |
| Discovery.ResidenceFromFetches | custom_components/leviton_load_center/coordinator.py:255-256 | when every stored record came from the searched residences' fetches, searching one more residence keeps that true for the enlarged set |
| Discovery.SearchOne | custom_components/leviton_load_center/coordinator.py:255-256 | one more residence of the search: fails iff that residence raises an authentication error; otherwise the found devices are exactly those of the searched residences, each under its own id and each a record some searched residence's fetch returned |
| Discovery.CollectResidences | custom_components/leviton_load_center/coordinator.py:233-245 | the account residences are collected unless an account's fetch raises an authentication error; a connection error skips only that account; the collected keys are exactly the residences the accounts list |
| Discovery.SearchResidences | custom_components/leviton_load_center/coordinator.py:255-256 | searching a set of residences fails iff one of them raises an authentication error, and otherwise finds exactly their devices, each under its own id and each a record one of their fetches returned |
| Discovery.DiscoverDevices | custom_components/leviton_load_center/coordinator.py:211-256 | a permission error becomes ConfigEntryAuthFailed or UpdateFailed; otherwise discovery fails iff an authentication error escapes an account or residence; on success the store holds only the account residences, but the devices of every residence named directly or through an account, each under its own id and each a record those residences' fetches returned, with no baselines |
| Coordinator.StatusOf | custom_components/leviton_load_center/coordinator.py:454-457 | a call is fine exactly when it answers, an authentication failure exactly when it raises the authentication error |
| Coordinator.FirstFailure | custom_components/leviton_load_center/coordinator.py:430-457 | a sequence of calls fails only as ConfigEntryAuthFailed or UpdateFailed |
| Coordinator.FirstFailureNone | custom_components/leviton_load_center/coordinator.py:430-457 | the calls succeed as a whole iff every call answers |
| Coordinator.FirstFailureAuth | custom_components/leviton_load_center/coordinator.py:454-455 | the poll fails as ConfigEntryAuthFailed iff the first call that does not answer raises the authentication error |
| Coordinator.FirstFailureConcat | custom_components/leviton_load_center/coordinator.py:430-457 | the first failure of two call runs in a row is the first run's, or else the second's |
| Coordinator.PollHub | custom_components/leviton_load_center/coordinator.py:433-443 | one hub: its record is stored under the requested id, then its breakers, then its CTs; the first failing call ends it, keeping what was stored; on success exactly the fetched breakers and CTs are added, each key holding the last fetched record with that key and every other key its old record |
| Coordinator.PollPanel | custom_components/leviton_load_center/coordinator.py:446-452 | one panel: its record under the requested id, then its breakers; on success exactly the fetched breakers are added, each id holding the last fetched breaker with that id and every other id its old record; hubs and CTs are untouched |
| Coordinator.PollHubs | custom_components/leviton_load_center/coordinator.py:433-443 | every hub in order, stopping at the first failing call; on success each listed hub holds what the cloud returned and every other hub is unchanged |
| Coordinator.PollHubsChildren | custom_components/leviton_load_center/coordinator.py:437-443 | a successful hub refresh adds exactly the breakers and CTs the hubs' fetches return; each key holds the last record fetched under it across all hubs in poll order (`Coordinator.HubsBreakers`, `Coordinator.HubsCts`), and a key no hub returned keeps its old record |
| Coordinator.PollHubsBreakerRecords | custom_components/leviton_load_center/coordinator.py:433-443 | the hubs' breaker fetches, one after another, store the same map as storing all their breakers at once |
| Coordinator.PollHubsCtRecords | custom_components/leviton_load_center/coordinator.py:433-443 | the hubs' CT fetches, one after another, store the same map as storing all their CTs at once |
| Coordinator.PollPanels | custom_components/leviton_load_center/coordinator.py:446-452 | every panel in order, stopping at the first failing call; on success each panel holds what the cloud returned |
| Coordinator.PollPanelsChildren | custom_components/leviton_load_center/coordinator.py:450-452 | a successful panel refresh adds exactly the breakers the panels' fetches return; each id holds the last breaker fetched under it across all panels in poll order, and an id no panel returned keeps its old record |
| Coordinator.PollPanelsBreakerRecords | custom_components/leviton_load_center/coordinator.py:446-452 | the panels' breaker fetches, one after another, store the same map as storing all their breakers at once |
| Coordinator.Poll | custom_components/leviton_load_center/coordinator.py:410-457 | with push up and no panels nothing is called and the store is returned; hubs are refetched only while push is down, panels always; the failure is that of the first failing call; no hub or panel appears or disappears and none is removed |
| Coordinator.PollChildren | custom_components/leviton_load_center/coordinator.py:430-452 | a successful poll adds exactly the breakers and CTs its fetches return: the hubs' only while push is down, and the panels' |
| Coordinator.PushUpSkipsHubs | custom_components/leviton_load_center/coordinator.py:417-432 | with push up the poll makes exactly two calls per panel and no hub call, and none at all without panels |
| Coordinator.PollFailsIffCallFails | custom_components/leviton_load_center/coordinator.py:430-457 | the poll fails iff one of the calls it makes fails |
| Coordinator.Settle | custom_components/leviton_load_center/coordinator.py:459-463 | after a successful poll the counters are corrected and the lifetime cache is overwritten with exactly the corrected counters; the devices stay |
| Coordinator.UpdateData | custom_components/leviton_load_center/coordinator.py:410-463 | a failed poll keeps its partial store and leaves the lifetime cache alone; a successful one is settled; the skip case returns the store as is; nothing is removed |
| Coordinator.IssueId | custom_components/leviton_load_center/coordinator.py:369 | the issue id is the fixed prefix followed by the device id, so distinct devices get distinct issues |
| Coordinator.DecideIssue | custom_components/leviton_load_center/coordinator.py:371-387 | a device's issue is present afterwards iff it needs an update, and no other issue changes |
| Coordinator.HubIssues | custom_components/leviton_load_center/coordinator.py:368-387 | after the hub pass each hub has an issue iff its downloaded firmware is set and differs from its version; issues of unlisted devices are untouched |
| Coordinator.PanelIssues | custom_components/leviton_load_center/coordinator.py:389-408 | after the panel pass each panel has an issue iff its update availability is set and is not UP_TO_DATE; issues of unlisted devices are untouched |
| Coordinator.CheckFirmware | custom_components/leviton_load_center/coordinator.py:366-408 | panels decide their issue (overriding a hub of the same id); other hubs decide theirs; issues of unknown devices are left as they were |
| Coordinator.CheckFirmwareIdempotent | custom_components/leviton_load_center/coordinator.py:366-408 | checking firmware twice on the same store changes nothing more |
| Coordinator.CheckFirmwareOrderFree | custom_components/leviton_load_center/coordinator.py:368-389 | the resulting issues do not depend on the order in which hubs and panels are visited |
| Coordinator.CorrectOnSetUp | custom_components/leviton_load_center/coordinator.py:197 | the first correction keeps the discovered devices and counters, and the persisted lifetime cache then covers every counter |
| Coordinator.StartUp | custom_components/leviton_load_center/coordinator.py:197-200 | after discovery: correct the counters, connect push with the corrected store, adopt stored baselines or snapshot the corrected counters, then decide the firmware issues on the final store |
| Coordinator.SetUp | custom_components/leviton_load_center/coordinator.py:194-200 | a failed discovery ends setup with nothing else changed; otherwise the devices are those discovered and the later steps run in order as StartUp states |
| Coordinator.SetUpStartsDayAtZero | custom_components/leviton_load_center/coordinator.py:199 | when setup snapshots the baselines, every device shows zero daily energy right away |
| Push.Children | custom_components/leviton_load_center/websocket.py:338-345 | the child entries walked are exactly the object entries of the nested list, in list order: the k-th entry is the object at the k-th object position (`Push.DictPositions`); anything that is not a list yields none |
| Push.DictPositions | custom_components/leviton_load_center/websocket.py:338 | the positions listed are increasing, each holds an object, and every object position of the list is listed |
| Push.Objects | custom_components/leviton_load_center/websocket.py:338-339 | the entries kept are the list's objects, one per object position, in the order the loop visits them |
| Push.OwnFields | custom_components/leviton_load_center/websocket.py:356-361 | a hub or panel keeps every payload field except its child arrays, with the values as sent |
| Push.BreakerTarget | custom_components/leviton_load_center/websocket.py:306-308 | a breaker update is applied iff its id is a non-empty string naming a known breaker |
| Push.SynthesiseTrip | custom_components/leviton_load_center/websocket.py:311-312 | a remote trip on a breaker that cannot be switched back on remotely adds a software-trip state only when the payload carries no state of its own; every sent field is kept |
| Push.UpdateBreaker | custom_components/leviton_load_center/websocket.py:297-314 | every field the energy hook returns is stored as it returns it, every other stored field except the state is kept, and a payload without a state records a software trip iff it reports a remote trip on a breaker that cannot be switched back on remotely, else keeps the stored state |
| Push.LiveBreakerUpdate | custom_components/leviton_load_center/websocket.py:297-314 | with accumulation as the energy hook, pushed fields other than the three breaker counters are stored as sent, each pushed counter is added onto the stored one, and stored fields the payload does not name, other than the state, are kept |
| Push.ApplyBreakers | custom_components/leviton_load_center/websocket.py:339-341 | a pass over child breaker entries keeps the breaker set, reports an update iff some entry names a known breaker, and leaves each breaker as the entries naming it, applied in order, make it (so an unnamed breaker is unchanged) |
| Push.UnnamedBreakerUnchanged | custom_components/leviton_load_center/websocket.py:339-341 | a breaker no child entry names is left exactly as it was |
| Push.LastBreakerEntryWins | custom_components/leviton_load_center/websocket.py:339-341 | when several child entries name one breaker, a non-counter field takes the value of the last entry that carries it |
| Push.CtTarget | custom_components/leviton_load_center/websocket.py:346-349 | a nested CT entry is applied iff its id is present and its string form names a known CT |
| Push.UpdateCt | custom_components/leviton_load_center/websocket.py:350-353 | every field the energy hook returns is stored as it returns it and every other stored field is kept |
| Push.LiveCtUpdate | custom_components/leviton_load_center/websocket.py:350-353 | with accumulation as the energy hook, pushed non-counter fields are stored as sent and stored fields the payload does not name are kept |
| Push.ApplyCts | custom_components/leviton_load_center/websocket.py:344-354 | a pass over child CT entries keeps the CT set, reports an update iff some entry names a known CT, and leaves each CT as the entries naming it, applied in order, make it |
| Push.Targets | custom_components/leviton_load_center/websocket.py:324-403 | a dropped notification touches nothing, and whatever a notification touches is a device already known |
| Push.HubMessage | custom_components/leviton_load_center/websocket.py:336-364 | a hub message merges the hub's own fields into that hub only, gives each known breaker and CT the value the in-order pass over the nested entries naming it gives, leaves panels alone and notifies iff something was touched |
| Push.HubChildren | custom_components/leviton_load_center/websocket.py:338-354 | the nested breaker and CT arrays of a hub message give each known breaker and CT the value the in-order pass over the entries naming it gives, leave everything else alone, and notify iff some entry named a known device |
| Push.PanelMessage | custom_components/leviton_load_center/websocket.py:366-381 | a panel message merges the panel's own fields into that panel only, gives each known breaker the value the in-order pass over the nested entries naming it gives, leaves hubs and CTs alone and notifies iff something was touched |
| Push.BreakerMessage | custom_components/leviton_load_center/websocket.py:383-387 | a direct breaker message updates only the breaker its model id names, with that id forced into the payload |
| Push.CtMessage | custom_components/leviton_load_center/websocket.py:389-396 | a direct CT message updates only the CT its model id names |
| Push.Dispatch | custom_components/leviton_load_center/websocket.py:317-417 | a notification never adds or removes devices, listeners are told iff some known device was updated, and every untouched device is unchanged |
| Push.IgnoredMessagesChangeNothing | custom_components/leviton_load_center/websocket.py:324-329 | an empty payload, a missing model id or an unknown model leaves the data unchanged and tells no listener |
| Push.TripStateAfterUpdate | custom_components/leviton_load_center/websocket.py:311-313 | after an update the breaker's state is the one sent, else a software trip when a remote trip cannot be undone remotely, else the previous state |
| Push.BreakerEnergyAccumulated | custom_components/leviton_load_center/websocket.py:310 | a pushed breaker energy reading is stored as the running total plus the delta, not as the raw reading |
| Push.CtEnergyAccumulated | custom_components/leviton_load_center/websocket.py:350-352 | a pushed CT energy reading is stored as the running total plus the delta |
| Push.DirectBreakerIdForced | custom_components/leviton_load_center/websocket.py:385 | a direct breaker message stores the model id as the breaker's id |
| Push.SingleChildApplied | custom_components/leviton_load_center/websocket.py:339-341 | a single child entry naming a known breaker is applied to that breaker and reported |
| Push.HubRouted | custom_components/leviton_load_center/websocket.py:338-354 | the breakers and CTs after a hub message are exactly those after applying its nested breaker and CT arrays |
| Push.NestedBreakerExample | custom_components/leviton_load_center/websocket.py:336-341 | a nested delta of 250 on a breaker at 3400000 leaves it at 3400250 |
| Push.PushImportFails | custom_components/leviton_load_center/websocket.py:17 | example: neither energy hook the push module imports is defined by the energy module, so that import cannot succeed |
| Push.AccumulateImportResolves | custom_components/leviton_load_center/energy.py:20-70 | example: the accumulate hooks the live handler is modelled with are both defined by the energy module |
| Push.DirectTarget | custom_components/leviton_load_center/websocket.py:389-396 | a direct CT message is applied iff the string form of its model id names a known CT; the older coordinator targets direct breaker messages the same way |
| Connection.StopKeepalive | custom_components/leviton_load_center/websocket.py:224-234 | stopping cancels all three timers and touches nothing else |
| Connection.StartKeepalive | custom_components/leviton_load_center/websocket.py:190-221 | after a start the refresh and watchdog timers run, the bandwidth timer runs iff there is a hub, and nothing but the timers changes |
| Connection.ParentHub | custom_components/leviton_load_center/websocket.py:131-133 | a breaker belongs to a hub iff its hub reference names a known hub |
| Connection.Subscriptions | custom_components/leviton_load_center/websocket.py:93-139 | every hub and every panel is subscribed, and a breaker is subscribed on its own iff its hub's firmware no longer nests breaker updates |
| Connection.HubTopics | custom_components/leviton_load_center/websocket.py:95-100 | the hub topics are exactly the known hubs |
| Connection.PanelTopics | custom_components/leviton_load_center/websocket.py:105-108 | the panel topics are exactly the known panels |
| Connection.BreakerTopics | custom_components/leviton_load_center/websocket.py:118-139 | the breaker topics are exactly the breakers of hubs that need individual subscriptions |
| Connection.Connect | custom_components/leviton_load_center/websocket.py:59-148 | without a session nothing happens; a socket that fails to open leaves none; an open socket resets the staleness clock, registers both callbacks and starts the timers; reconnect bookkeeping is untouched |
| Connection.HandleNotification | custom_components/leviton_load_center/websocket.py:317-322 | every message, dropped or not, resets the staleness clock before it is routed |
| Connection.HandleDisconnect | custom_components/leviton_load_center/websocket.py:420-432 | a disconnect releases the socket, callbacks and timers and hands off one reconnect unless one is already running |
| Connection.Watchdog | custom_components/leviton_load_center/websocket.py:251-275 | the watchdog acts only on a held socket, outside a reconnect, after 90 seconds of silence, and then tears down and hands off exactly one reconnect |
| Connection.WatchdogActsAsDisconnect | custom_components/leviton_load_center/websocket.py:251-275 | a stale watchdog firing has the same effect as a disconnect event |
| Connection.NotificationKeepsWatchdogQuiet | custom_components/leviton_load_center/websocket.py:255-257 | a notification keeps the watchdog idle for the next 90 seconds |
| Connection.WatchdogFiresOnce | custom_components/leviton_load_center/websocket.py:251-275 | two watchdog ticks hand off at most one reconnect, and a second tick after a forced reconnect does nothing |
| Connection.WsRefresh | custom_components/leviton_load_center/websocket.py:236-249 | the refresh does nothing without a socket, reconnects with a fresh clock when it can, and never hands off a reconnect |
| Connection.FailedRefreshStrandsPush | custom_components/leviton_load_center/websocket.py:236-249 | a refresh whose reconnect fails leaves no socket and no reconnect, and neither the watchdog nor a later refresh recovers it |
| Connection.WsRefreshRecovering | custom_components/leviton_load_center/websocket.py:236-249 | the corrected refresh agrees with the original when the reconnect succeeds and otherwise hands off one reconnect |
| Connection.RecoveringRefreshSchedulesReconnect | custom_components/leviton_load_center/websocket.py:236-249 | after the corrected refresh there is a socket or a pending reconnect, and no timer is left running without a socket |
| Connection.Elapsed | custom_components/leviton_load_center/websocket.py:442-449 | at least the first 10-second wait has passed before any attempt |
| Connection.Reconnect | custom_components/leviton_load_center/websocket.py:434-490 | a second reconnect does nothing; otherwise attempts continue only past unreachable-API or failed-connect rounds, stop at the first success or authentication error, request re-authentication on the latter, give up after five, and always clear the reconnecting flag |
| Connection.TotalBackoff | custom_components/leviton_load_center/websocket.py:442 | example: the five waits add up to 520 seconds |
| Firmware.Split | custom_components/leviton_load_center/websocket.py:34 | splitting yields at least one piece and no piece contains the separator |
| Firmware.JoinSplit | custom_components/leviton_load_center/websocket.py:34 | joining the pieces with the separator gives back the version string |
| Firmware.ParseAll | custom_components/leviton_load_center/websocket.py:34 | the pieces parse as a whole iff each piece parses, position by position |
| Firmware.ParseVersion | custom_components/leviton_load_center/websocket.py:34 | a version parses to one number per dotted piece, and fails iff some piece is not a number |
| Firmware.NeedsIndividualBreakerSubs | custom_components/leviton_load_center/websocket.py:23-41 | a non-text or unparsable version asks for individual breaker subscriptions; a parsed one asks iff its number tuple is not below (2, 0, 0) |
| Firmware.ThreePartVersions | custom_components/leviton_load_center/websocket.py:23-41 | for every version text a.b.c with non-negative b and c, individual breaker subscriptions are needed iff the major number a is at least 2 |
| Firmware.ThreePartOrder | custom_components/leviton_load_center/websocket.py:35-41 | a three-part version with non-negative minor and patch numbers is below 2.0.0 iff its major number is below 2 |
| Firmware.MajorVersionDecides | custom_components/leviton_load_center/websocket.py:35 | a major version of 3 or more is new, of 1 or less is old |
| Firmware.PrefixesOfTwo | custom_components/leviton_load_center/websocket.py:35 | 2 and 2.0 compare below 2.0.0 and anything extending 2.0.0 does not |
| Firmware.SplitPiece | custom_components/leviton_load_center/websocket.py:34 | a separator-free prefix followed by the separator becomes the first piece |
| Firmware.VersionExampleNew | custom_components/leviton_load_center/websocket.py:23-41 | firmware 2.0.13 needs individual breaker subscriptions |
| Firmware.VersionExampleOld | custom_components/leviton_load_center/websocket.py:23-41 | firmware 1.7.6 does not |
| Firmware.VersionExampleUnknown | custom_components/leviton_load_center/websocket.py:31-41 | a missing version and the version "invalid" both do |
| SensorDescriptions.IsOnLeg | custom_components/leviton_load_center/sensor_descriptions.py:375-382 | leg 1 holds the positions congruent to 1 or 2 modulo 4 and leg 2 the rest, and any leg other than 1 is read as leg 2 |
| SensorDescriptions.LegByResidue | custom_components/leviton_load_center/sensor_descriptions.py:156-167 | the pairwise alternation of slots is exactly a residue test modulo 4, including for positions below 1 |
| SensorDescriptions.BreakerLeg | custom_components/leviton_load_center/sensor_descriptions.py:156-167 | a two-pole breaker is on both legs, a positioned one-pole breaker on the leg of its slot, and an unpositioned one-pole breaker raises |
| SensorDescriptions.BreakerPower | custom_components/leviton_load_center/sensor_descriptions.py:96-102 | power is unknown iff pole 1 is unknown; a two-pole breaker adds pole 2, counting it zero when unknown |
| SensorDescriptions.StatusOptionsExact | custom_components/leviton_load_center/sensor_descriptions.py:105-128 | the declared status options are exactly the values the state mapping can give |
| SensorDescriptions.BreakerStatus | custom_components/leviton_load_center/sensor_descriptions.py:138-142 | the status is unknown iff the state is missing or unmapped, and otherwise is a declared option |
| SensorDescriptions.RemoteStatus | custom_components/leviton_load_center/sensor_descriptions.py:130-133 | the remote status is on or off exactly for the two remote states, and unknown otherwise |
| SensorDescriptions.ProtectFirmware | custom_components/leviton_load_center/sensor_descriptions.py:170-176 | the protection firmware is the first non-empty of the SiLabs, GFCI and AFCI versions |
| SensorDescriptions.BreakerEnergy | custom_components/leviton_load_center/sensor_descriptions.py:145-153 | lifetime energy is unknown iff pole 1 is unknown; a two-pole breaker adds pole 2 |
| SensorDescriptions.BreakerDaily | custom_components/leviton_load_center/sensor_descriptions.py:474-476 | the breaker's daily energy exists iff it has a lifetime reading and a baseline; it is zero when the reading has not passed the baseline, and otherwise the reading minus the baseline rounded to hundredths of a kWh |
| SensorDescriptions.CtPower | custom_components/leviton_load_center/sensor_descriptions.py:587 | clamp power adds both legs, a missing leg counting zero |
| SensorDescriptions.CtCurrent | custom_components/leviton_load_center/sensor_descriptions.py:595 | clamp current adds both legs, a missing leg counting zero |
| SensorDescriptions.CtEnergy | custom_components/leviton_load_center/sensor_descriptions.py:441-443 | clamp energy is the sum of both legs when both are known, the known leg when only one is, and zero when neither is |
| SensorDescriptions.CtImport | custom_components/leviton_load_center/sensor_descriptions.py:661-663 | clamp import energy is the sum of both import legs when both are known, the known leg when only one is, and zero when neither is |
| SensorDescriptions.CtDaily | custom_components/leviton_load_center/sensor_descriptions.py:604-606 | the clamp's daily energy exists iff it has a baseline; it is zero when the clamp energy has not passed the baseline, and otherwise the clamp energy minus the baseline rounded to hundredths of a kWh |
| SensorDescriptions.HubFirmwareUpdate | custom_components/leviton_load_center/sensor_descriptions.py:836-844 | the hub shows the downloaded version exactly when one is downloaded and differs from the running one, else "Up to date" |
| SensorDescriptions.PanelFirmwareUpdate | custom_components/leviton_load_center/sensor_descriptions.py:1030-1038 | the panel shows the offered version exactly when an update is available and not UP_TO_DATE, else "Up to date" |
| SensorDescriptions.ParentHub | custom_components/leviton_load_center/sensor_descriptions.py:198-199 | a breaker has a parent hub iff its non-empty hub reference names a known hub |
| SensorDescriptions.Divisor | custom_components/leviton_load_center/sensor_descriptions.py:191-203 | two-pole breakers divide by 208 or 240 volts by option, one-pole breakers by their own voltage, else their hub leg's, else 120; the divisor is never zero, and only a positionless breaker reaching the hub raises |
| SensorDescriptions.RoundHundredths | custom_components/leviton_load_center/sensor_descriptions.py:208 | the shown current is within half a hundredth of the exact quotient |
| SensorDescriptions.CalcCurrentBy | custom_components/leviton_load_center/sensor_descriptions.py:179-208 | without the option or without power the reported current is shown; otherwise the current is power over the divisor, to the hundredth, raising exactly when the divisor does |
| SensorDescriptions.CalcCurrent | custom_components/leviton_load_center/sensor_descriptions.py:179-208 | the sensor's calculation, which can only raise for a breaker without a position |
| SensorDescriptions.CurrentFromHubVoltage | custom_components/leviton_load_center/sensor_descriptions.py:197-203 | a one-pole breaker with no voltage of its own divides by its hub's voltage on the breaker's leg |
| SensorDescriptions.Average | custom_components/leviton_load_center/sensor_descriptions.py:289-292 | averaging two optional readings gives the one present, or the midpoint of both |
| SensorDescriptions.AverageBetween | custom_components/leviton_load_center/sensor_descriptions.py:289-292 | the average lies between the two readings |
| SensorDescriptions.WhemVoltage | custom_components/leviton_load_center/sensor_descriptions.py:289-292 | the hub voltage is unknown iff both legs are |
| SensorDescriptions.WhemFrequency | custom_components/leviton_load_center/sensor_descriptions.py:295-298 | the hub frequency is unknown iff both legs are |
| SensorDescriptions.PanelVoltage | custom_components/leviton_load_center/sensor_descriptions.py:317-320 | the panel voltage is unknown iff both legs are |
| SensorDescriptions.WhemTotalPower | custom_components/leviton_load_center/sensor_descriptions.py:211-225 | the hub's clamps decide when it has any, else its breakers; with neither the value is unknown |
| SensorDescriptions.WhemTotalCurrent | custom_components/leviton_load_center/sensor_descriptions.py:228-242 | with clamps the value is the sum of both legs' current over the hub's clamps; otherwise with breakers it is their pole-1 current sum; with neither it is unknown |
| SensorDescriptions.WhemTotalEnergy | custom_components/leviton_load_center/sensor_descriptions.py:245-261 | with clamps the value is the hub's clamps' lifetime energy; otherwise with breakers it is their lifetime energy sum; with neither it is unknown |
| SensorDescriptions.HubCtDaily | custom_components/leviton_load_center/sensor_descriptions.py:267-274 | the clamps' energy since their baselines, each clamped at zero, is never negative |
| SensorDescriptions.HubBreakerDaily | custom_components/leviton_load_center/sensor_descriptions.py:278-284 | the breakers' daily energies add up to a non-negative number of hundredths |
| SensorDescriptions.WhemDailyEnergy | custom_components/leviton_load_center/sensor_descriptions.py:264-286 | clamps with a baseline decide, else breakers with a daily value; unknown iff there is neither, and always a whole number of hundredths |
| SensorDescriptions.FirstCt | custom_components/leviton_load_center/sensor_descriptions.py:301-306 | the first clamp of the hub in store order: present iff the hub has a clamp, and no earlier clamp in the order belongs to the hub |
| SensorDescriptions.WhemLegPower | custom_components/leviton_load_center/sensor_descriptions.py:301-306 | a leg's power is read from the hub's first clamp only, and is unknown without a clamp |
| SensorDescriptions.WhemLegCurrent | custom_components/leviton_load_center/sensor_descriptions.py:309-314 | a leg's current is read from the hub's first clamp only, and is unknown without a clamp |
| SensorDescriptions.ClampsTakePrecedence | custom_components/leviton_load_center/sensor_descriptions.py:211-261 | once a hub has a clamp, its breakers cannot change its total power, current or energy |
| SensorDescriptions.PanelTotalPower | custom_components/leviton_load_center/sensor_descriptions.py:323-331 | the panel total is unknown iff the panel has no breaker, and otherwise is the power sum over the panel's breakers |
| SensorDescriptions.PanelTotalCurrent | custom_components/leviton_load_center/sensor_descriptions.py:334-346 | the panel current is unknown iff the panel has no breaker, and otherwise is the pole-1 current sum over its breakers |
| SensorDescriptions.PanelTotalEnergy | custom_components/leviton_load_center/sensor_descriptions.py:349-357 | the panel energy is unknown iff the panel has no breaker, and otherwise is the lifetime energy sum over its breakers |
| SensorDescriptions.PanelDailyEnergy | custom_components/leviton_load_center/sensor_descriptions.py:360-372 | the panel daily energy is unknown iff no breaker of the panel has one, and otherwise is the sum of its breakers' daily values, a whole number of hundredths |
| SensorDescriptions.PanelLegPower | custom_components/leviton_load_center/sensor_descriptions.py:385-395 | a leg's power raises iff a breaker of the panel has no position, is unknown iff no breaker is on the leg, and is otherwise the leg's pole-1 power |
| SensorDescriptions.PanelLegCurrent | custom_components/leviton_load_center/sensor_descriptions.py:398-410 | a leg's current raises iff a breaker of the panel has no position, is unknown iff no breaker is on the leg, and otherwise is the pole-1 current sum of the leg's breakers |
| SensorDescriptions.PanelLegsCoverPanel | custom_components/leviton_load_center/sensor_descriptions.py:385-395 | the two legs' power adds up to the pole-1 power of every breaker of the panel |
| SensorDescriptions.PanelTotalIsLegSum | custom_components/leviton_load_center/sensor_descriptions.py:323-331 | without two-pole breakers the panel total equals the sum of its two legs |
| SensorDescriptions.LegSumZero | custom_components/leviton_load_center/sensor_descriptions.py:385-395 | a leg with no breaker sums to zero |
| SensorDescriptions.PanelFrequency | custom_components/leviton_load_center/sensor_descriptions.py:423-438 | a leg's frequency is decided by the first breaker whose step decides (`SensorDescriptions.FrequencyStep`): unknown iff no breaker decides, and otherwise the first deciding breaker's non-zero reading, or a raise for a positionless breaker of the panel |
| SensorDescriptions.FrequencyStep | custom_components/leviton_load_center/sensor_descriptions.py:431-437 | one loop turn: it raises iff the breaker is the panel's and has no position, returns the reading iff the breaker sits on the leg and reads non-zero, and otherwise moves on |
| SensorDescriptions.FrequencyDecidedByPrefix | custom_components/leviton_load_center/sensor_descriptions.py:431-438 | once a prefix of the breakers decides the frequency, breakers after it do not change it |
| SensorDescriptions.PanelFrequencyAvg | custom_components/leviton_load_center/sensor_descriptions.py:413-420 | the average frequency cannot raise once every breaker of the panel has a position |
| Entities.ShouldIncludeBreaker | custom_components/leviton_load_center/entity.py:139-146 | breakers that are themselves current sensors never get entities; with the hide option, placeholders without a sensor are hidden; otherwise every breaker is included |
| Entities.Available | custom_components/leviton_load_center/entity.py:43-65 | an entity is available only after a successful update and while its device is present; a breaker follows its known hub when it names one, else its known panel, and is available when its parent is unknown |
| Entities.HubOverridesPanel | custom_components/leviton_load_center/entity.py:55-64 | a breaker that names a hub takes its availability from the hub alone, whatever the panels say |
| Entities.BreakerDeviceInfo | custom_components/leviton_load_center/entity.py:94-118 | the breaker device is named by its name or "Breaker <position>", shows the basic models as "Basic Breaker", and hangs under its known hub, else its known panel, else nothing |
| Entities.CtDeviceInfo | custom_components/leviton_load_center/entity.py:121-136 | the clamp device is an "LWHEM CT" named by its name when that is truthy, else "CT Channel <channel>", under its hub exactly when that hub is known |
| Entities.WhemDeviceInfo | custom_components/leviton_load_center/entity.py:68-78 | the hub device has no parent, carries the hub's model, and is named by its name when that is truthy, else "LWHEM <id>" |
| Entities.PanelDeviceInfo | custom_components/leviton_load_center/entity.py:81-91 | the panel device is an "LDATA" without a parent, named by its name when that is truthy, else "Panel <id>" |
| Entities.Render | custom_components/leviton_load_center/entity.py:97 | `str()` of a stored position or channel: the decimal text of an integer, the text itself, "None", and "True"/"False" for booleans |
| Entities.UniqueId | custom_components/leviton_load_center/entity.py:39-40 | the unique id is the entry id, the device id and the description key joined by underscores, each recoverable at its position |
| Entities.UniqueIdsDistinct | custom_components/leviton_load_center/entity.py:39-40 | two devices never share a unique id for the same description |
| Entities.WriteField | custom_components/leviton_load_center/switch.py:103-106 | an optimistic write changes one field of one breaker and nothing else in the store |
| Entities.Command | custom_components/leviton_load_center/switch.py:88-126 | a command changes the store only when the call answers; a connection error fails the action and an authentication error is rejected; a missing breaker is left alone and nobody is told |
| Entities.SwitchIsOnAsWritten | custom_components/leviton_load_center/switch.py:73-86 | as written: missing breaker unknown, RemoteON on, RemoteOFF off, and otherwise on only for ManualON |
| Entities.SwitchIsOn | custom_components/leviton_load_center/switch.py:73-86 | the remote state decides when it is RemoteON or RemoteOFF; otherwise the switch reads on for ManualON and for the communication states |
| Entities.CommunicatingReadsOff | custom_components/leviton_load_center/switch.py:81-86 | a breaker reporting COMMUNICATING with no remote state reads off as written but on when corrected |
| Entities.SwitchReadingsAgree | custom_components/leviton_load_center/switch.py:81-86 | outside the communication states the two readings agree |
| Entities.TurnOn | custom_components/leviton_load_center/switch.py:88-106 | a successful turn-on marks the breaker RemoteON, so the switch reads on, and tells listeners; a connection error fails without a change |
| Entities.TurnOff | custom_components/leviton_load_center/switch.py:108-126 | a successful turn-off marks the breaker RemoteOFF, so the switch reads off, and tells listeners; a connection error fails without a change |
| Entities.IdentifyIsOn | custom_components/leviton_load_center/switch.py:132-138 | the identify switch reads the breaker's blink flag, and is unknown for a missing breaker |
| Entities.SetIdentify | custom_components/leviton_load_center/switch.py:140-174 | a successful identify command sets the blink flag to the requested value without changing how the breaker switch reads |
| Entities.SetUpSwitches | custom_components/leviton_load_center/switch.py:32-65 | nothing in read-only mode; otherwise an identify switch for every included smart breaker and a breaker switch for exactly those that can be switched on remotely |
| Entities.ControlAvailable | custom_components/leviton_load_center/entity.py:17-19 | a breaker control is available only when the breaker entity is, and never while the breaker is in an offline state |
| Entities.SetUpButtons | custom_components/leviton_load_center/button.py:45-81 | nothing in read-only mode; otherwise a trip button for exactly the included first-generation smart breakers and exactly one identify button per hub |
| Entities.WhemIdentifyAvailable | custom_components/leviton_load_center/button.py:117-125 | the hub identify button is available iff the last update succeeded, the hub is present and it is connected |
| Entities.TripPress | custom_components/leviton_load_center/button.py:89-108 | a successful trip marks the breaker software-tripped, which the status sensor shows as software_trip, and tells listeners; a connection error fails without a change |
| Entities.LoadButtons | custom_components/leviton_load_center/button.py:24-30 | the button platform fails to load exactly when an imported name is missing from the entity module, and names what is missing; once loaded it makes the trip buttons |
| Entities.ButtonImportFails | custom_components/leviton_load_center/button.py:24-30 | the one name the entity module lacks is the breaker control entity |
| Entities.ButtonImportResolves | custom_components/leviton_load_center/button.py:24-30 | adding the breaker control entity resolves every import |
| SensorPlatform.OddEvenOnLeg | custom_components/leviton_load_center/sensor.py:303-305 | this presentation puts odd positions on leg 1 and even positions on leg 2, and no position on any other leg |
| SensorPlatform.OddEvenLeg | custom_components/leviton_load_center/sensor.py:106-112 | a two-pole breaker is on both legs, a positioned one-pole breaker on leg 1 iff its position is odd, and an unpositioned one raises |
| SensorPlatform.ParityFromQuarter | custom_components/leviton_load_center/sensor.py:106-112 | parity is determined by the residue modulo 4 |
| SensorPlatform.LegConventionsAgree | custom_components/leviton_load_center/sensor.py:106-112 | the odd/even rule and the pairwise rule place a one-pole breaker alike exactly for positions congruent to 0 or 1 modulo 4 |
| SensorPlatform.CalcCurrentOddEven | custom_components/leviton_load_center/sensor.py:124-153 | without the option or without power the reported current is shown, and only a positionless breaker can raise |
| SensorPlatform.CalcCurrentConventionsAgree | custom_components/leviton_load_center/sensor.py:124-153 | the two presentations compute the same current whenever the breaker's position is on the same leg under both rules |
| SensorPlatform.WhemTotalPowerCtOnly | custom_components/leviton_load_center/sensor.py:156-164 | the hub total is unknown iff the hub has no clamp, and otherwise is the power sum over the hub's clamps |
| SensorPlatform.WhemTotalCurrentCtOnly | custom_components/leviton_load_center/sensor.py:167-175 | the hub current is unknown iff the hub has no clamp, and otherwise is the current sum over the hub's clamps |
| SensorPlatform.WhemTotalEnergyCtOnly | custom_components/leviton_load_center/sensor.py:178-188 | the hub energy is unknown iff the hub has no clamp, and otherwise is the lifetime energy sum over the hub's clamps |
| SensorPlatform.WhemDailyEnergyCtOnly | custom_components/leviton_load_center/sensor.py:191-205 | the hub daily energy is unknown iff no clamp of the hub has a baseline, and otherwise is the clamps' daily sum rounded to hundredths |
| SensorPlatform.CtOnlyTotalsAgree | custom_components/leviton_load_center/sensor.py:156-205 | where the hub has clamps the clamp-only totals equal the totals with breaker fallback, and without a counted clamp the clamp-only daily energy is unknown |
| SensorPlatform.PanelLegPowerOddEven | custom_components/leviton_load_center/sensor.py:294-309 | a leg's power raises iff the leg is 1 or 2 and a breaker of the panel has no position, is unknown for any other leg or a leg without breakers, and is otherwise the leg's pole-1 power |
| SensorPlatform.PanelLegCurrentOddEven | custom_components/leviton_load_center/sensor.py:312-326 | a leg's current raises iff the leg is 1 or 2 and a breaker of the panel has no position, is unknown for any other leg or one without breakers, and otherwise is the pole-1 current sum of the leg's breakers |
| SensorPlatform.LegSumOddEvenZero | custom_components/leviton_load_center/sensor.py:294-309 | a leg with no breaker sums to zero |
| SensorPlatform.PanelLegsOddEvenCoverPanel | custom_components/leviton_load_center/sensor.py:294-309 | the two odd/even legs' power adds up to the pole-1 power of every breaker of the panel |
| SensorPlatform.PanelFrequencyOddEven | custom_components/leviton_load_center/sensor.py:339-356 | leg 1 reads the first pole-1 frequency present on the leg; leg 2 prefers pole 2's frequency and falls back to pole 1's; the first breaker whose step decides (`SensorPlatform.FrequencyStepOddEven`) gives the result, unknown iff none does, and for other legs |
| SensorPlatform.FrequencyStepOddEven | custom_components/leviton_load_center/sensor.py:344-355 | one loop turn: other legs never decide; it raises iff the breaker is the panel's and positionless; leg 1 returns a present pole-1 reading of an odd-position breaker; leg 2 returns pole 2's reading of an even-position breaker, else its pole-1 reading |
| SensorPlatform.PanelFrequencyAvgOddEven | custom_components/leviton_load_center/sensor.py:329-336 | the average frequency cannot raise once every breaker of the panel has a position |
| SensorPlatform.BreakerSensors | custom_components/leviton_load_center/sensor.py:967-976 | a breaker gets exactly the descriptions whose existence rule it meets |
| SensorPlatform.SetUpBreakerSensors | custom_components/leviton_load_center/sensor.py:963-976 | breaker sensors exist exactly for included breakers and the descriptions whose rule they meet |
| SensorPlatform.DeviceSensors | custom_components/leviton_load_center/sensor.py:985-988 | a device gets one sensor per description |
| SensorPlatform.SetUpDeviceSensors | custom_components/leviton_load_center/sensor.py:978-1000 | every listed device outside the skipped set gets every description, and no other |
| SensorPlatform.UnusedCts | custom_components/leviton_load_center/sensor.py:980-981 | the skipped clamps are exactly those whose usage type is NOT_USED |
| SensorPlatform.SetUpSensors | custom_components/leviton_load_center/sensor.py:954-1000 | the platform creates the breaker sensors of included breakers by rule, every description for each used clamp, each hub and each panel, and no device sensor for a breaker |
| SensorPlatform.NativeValue | custom_components/leviton_load_center/sensor.py:1028-1080 | a sensor's value is unknown iff its device is gone, and otherwise is its description's value for the device |
| SensorPlatform.AvailableBreakerHasValue | custom_components/leviton_load_center/sensor.py:1028-1035 | an available breaker sensor always has its device to read from |
| Legacy.AddCts | homeassistant/components/leviton/coordinator.py:136-139 | storing fetched clamps adds exactly their integer ids; each id holds the last fetched clamp with that id, and other ids keep their record |
| Legacy.AddCtsConcat | homeassistant/components/leviton/coordinator.py:136-139 | storing two fetched clamp lists in turn stores the same map as storing their concatenation |
| Legacy.AddCtsDetermined | homeassistant/components/leviton/coordinator.py:136-139 | the key set and per-id values `AddCts` promises determine its result |
| Legacy.LatestCt | homeassistant/components/leviton/coordinator.py:136-139 | the clamp a keyed store ends up holding for an id: present iff the id is listed, and then a listed clamp with that id |
| Legacy.LatestCtIsLast | homeassistant/components/leviton/coordinator.py:136-139 | that clamp is the list's last entry with the id, so later fetches of an id overwrite earlier ones |
| Legacy.HubStep | homeassistant/components/leviton/coordinator.py:124-143 | a hub is stored under its id; its breakers and clamps are added when their fetches answer, a connection error skips them, and only an authentication error escapes; without one the breaker and clamp maps are exactly the old ones with the fetched lists stored in order |
| Legacy.HubCtsStep | homeassistant/components/leviton/coordinator.py:136-143 | a hub's clamp fetch stores the fetched clamps in order when it answers, loses them on a connection error and escapes on an authentication error, touching nothing else |
| Legacy.HubsFold | homeassistant/components/leviton/coordinator.py:122-143 | the hubs of a residence are stored with every answered breaker and clamp, and the walk fails iff some fetch raises an authentication error |
| Legacy.HubsFoldRecords | homeassistant/components/leviton/coordinator.py:122-143 | a hub walk without an authentication error stores every hub under its id and, under each breaker and clamp id, the last record the hubs' fetches return under it, other ids keeping their record |
| Legacy.PanelsFold | homeassistant/components/leviton/coordinator.py:150-162 | the panels of a residence are stored with every answered breaker list, and the walk fails iff some fetch raises an authentication error |
| Legacy.PanelsFoldRecords | homeassistant/components/leviton/coordinator.py:150-162 | a panel walk without an authentication error stores every panel under its id and, under each breaker id, the last record the panels' fetches return under it |
| Legacy.ResidenceStep | homeassistant/components/leviton/coordinator.py:119-166 | one residence adds exactly the hubs, panels, breakers and clamps its answered fetches list, and fails iff some fetch raises an authentication error |
| Legacy.ResidenceStepRecords | homeassistant/components/leviton/coordinator.py:119-166 | a residence walk without an authentication error stores its hubs and panels under their ids and, under each breaker and clamp id, the last record its fetches return (hubs' breakers before panels') |
| Legacy.ResidenceAuthAsNewer | homeassistant/components/leviton/coordinator.py:119-166 | this walk fails on authentication exactly where the newer walk would if its bandwidth resets always answered |
| Legacy.ResidencesFold | homeassistant/components/leviton/coordinator.py:116-117 | walking the residences only ever adds devices, and fails iff some residence's fetch raises an authentication error |
| Legacy.ResidencesFoldKeys | homeassistant/components/leviton/coordinator.py:116-117 | the walk adds exactly the devices listed for the residences it visits |
| Legacy.ResidencesFoldRecords | homeassistant/components/leviton/coordinator.py:112-117 | walking the residences in list order without an authentication error stores, under each id, the last record their fetches return in that order, other ids keeping their record |
| Legacy.FoldFromEmptyKeyed | homeassistant/components/leviton/coordinator.py:112-117 | a walk from an empty store stores exactly the fetched records, last one wins, each under its own id |
| Legacy.OrderIdsAsSets | homeassistant/components/leviton/coordinator.py:116-117 | the devices a walk adds depend only on which residences it visits, not their order |
| Legacy.ListKeys | homeassistant/components/leviton/coordinator.py:112 | the residence list holds each residence exactly once |
| Legacy.FoldOverSet | homeassistant/components/leviton/coordinator.py:112-117 | a walk over any listing of a residence set fails, and finds devices, as the set itself determines |
| Legacy.DiscoverDevices | homeassistant/components/leviton/coordinator.py:83-117 | a permission failure is an authentication or update failure; otherwise the residences of every answering account are kept, discovery fails only on an authentication error, every device they list is stored under its own id holding the last record fetched under it in the order of the kept residence list, and push starts down |
| Legacy.PollHub | homeassistant/components/leviton/coordinator.py:296-306 | refreshing a hub replaces it and adds its breakers and clamps, failing at the first call that does not answer; on success each breaker id and clamp id holds the last fetched record with it, and every other id its old record |
| Legacy.PollHubs | homeassistant/components/leviton/coordinator.py:296-306 | refreshing the hubs replaces each known hub by its answer, leaves others alone, and fails at the first call that does not answer |
| Legacy.PollHubsChildren | homeassistant/components/leviton/coordinator.py:300-306 | a successful hub refresh adds exactly the breakers and clamps the hubs list; each id holds the last record fetched under it across all hubs in poll order, and an id no hub returned keeps its old record |
| Legacy.PollHubsBreakerRecords | homeassistant/components/leviton/coordinator.py:296-306 | the hubs' breaker fetches, one after another, store the same map as storing all their breakers at once |
| Legacy.PollHubsCtRecords | homeassistant/components/leviton/coordinator.py:296-306 | the hubs' clamp fetches, one after another, store the same map as storing all their clamps at once |
| Legacy.PollPanel | homeassistant/components/leviton/coordinator.py:309-315 | refreshing a panel replaces it and adds its breakers, failing at the first call that does not answer; on success each breaker id holds the last fetched breaker with it, and every other id its old record |
| Legacy.PollPanels | homeassistant/components/leviton/coordinator.py:309-315 | refreshing the panels replaces each known panel by its answer, leaves others alone, and fails at the first call that does not answer |
| Legacy.PollPanelsChildren | homeassistant/components/leviton/coordinator.py:313-315 | a successful panel refresh adds exactly the breakers the panels list; each id holds the last breaker fetched under it across all panels in poll order, and an id no panel returned keeps its old record |
| Legacy.PollPanelsBreakerRecords | homeassistant/components/leviton/coordinator.py:309-315 | the panels' breaker fetches, one after another, store the same map as storing all their breakers at once |
| Legacy.Poll | homeassistant/components/leviton/coordinator.py:292-326 | polling refreshes every hub and panel whether or not push is up, then rediscovers every residence; it never removes a device, fails as an authentication or update failure only, and succeeds only when every refresh answered |
| Legacy.PollKeys | homeassistant/components/leviton/coordinator.py:292-319 | a successful poll keeps exactly the hubs and panels it had plus those the repeated residence search finds |
| Legacy.PollChildKeys | homeassistant/components/leviton/coordinator.py:292-319 | a successful poll adds exactly the refreshed hubs' and panels' breakers and clamps and those the repeated residence search finds |
| Legacy.Disconnect | homeassistant/components/leviton/coordinator.py:286-290 | a disconnect marks push down and changes nothing else |
| Legacy.NoReconnect | homeassistant/components/leviton/coordinator.py:286-326 | after a disconnect no poll brings push back |
| Legacy.UpdateBreaker | homeassistant/components/leviton/coordinator.py:233 | the pushed fields are stored exactly as sent and every other stored field is kept, with no energy adjustment or trip synthesis |
| Legacy.UpdateCt | homeassistant/components/leviton/coordinator.py:241 | the pushed fields are stored exactly as sent and every other stored field is kept |
| Legacy.ApplyBreakers | homeassistant/components/leviton/coordinator.py:229-234 | a pass over child breaker entries keeps the breaker set, reports an update iff an entry names a known breaker, and leaves each breaker as the entries naming it, merged in order, make it |
| Legacy.UnnamedBreakerUnchanged | homeassistant/components/leviton/coordinator.py:229-234 | a breaker no child entry names is left exactly as it was |
| Legacy.LastBreakerEntryWins | homeassistant/components/leviton/coordinator.py:229-234 | when several child entries name one breaker, every field takes the value of the last entry that carries it |
| Legacy.IntKey | homeassistant/components/leviton/coordinator.py:239-240 | a clamp id matches an integer key when it is an integer, or a boolean read as 0 or 1; nothing else matches |
| Legacy.ChildCtTarget | homeassistant/components/leviton/coordinator.py:239-240 | a nested clamp entry is applied iff its id is truthy and equals a known integer key, so an id of 0 never matches |
| Legacy.ApplyCts | homeassistant/components/leviton/coordinator.py:237-242 | a pass over child clamp entries keeps the clamp set, reports an update iff an entry names a known clamp, and leaves each clamp as the entries naming it, merged in order, make it |
| Legacy.DirectCtTarget | homeassistant/components/leviton/coordinator.py:277-281 | a direct clamp message is applied iff its model id is an integer key of a known clamp |
| Legacy.Targets | homeassistant/components/leviton/coordinator.py:222-281 | a dropped notification touches nothing, and whatever a notification touches is a device already known |
| Legacy.HubMessage | homeassistant/components/leviton/coordinator.py:227-252 | a hub message merges the hub's own fields into that hub only, gives each known breaker and clamp the value the in-order merge of the nested entries naming it gives, and notifies iff something was touched |
| Legacy.PanelMessage | homeassistant/components/leviton/coordinator.py:254-269 | a panel message merges the panel's own fields into that panel only, gives each known breaker the value the in-order merge of the nested entries naming it gives, and notifies iff something was touched |
| Legacy.BreakerMessage | homeassistant/components/leviton/coordinator.py:271-275 | a direct breaker message updates only the breaker its model id names, with the payload as sent |
| Legacy.CtMessage | homeassistant/components/leviton/coordinator.py:277-281 | a direct clamp message updates only the clamp its integer model id names |
| Legacy.Dispatch | homeassistant/components/leviton/coordinator.py:215-284 | a notification never adds or removes devices, listeners are told iff some known device was updated, and every untouched device is unchanged |
| Legacy.HubRouted | homeassistant/components/leviton/coordinator.py:227-252 | the breakers and clamps after a hub notification are exactly what the passes over the hub's nested breaker and clamp arrays produce |
| Legacy.IgnoredMessagesChangeNothing | homeassistant/components/leviton/coordinator.py:222-223 | an empty payload, a missing model id or an unknown model leaves the data unchanged and tells no listener |
| Legacy.PayloadStoredAsSent | homeassistant/components/leviton/coordinator.py:271-275 | pushed energy readings are stored raw, and a breaker's state changes only when the payload carries one |
| Legacy.CtKeyingExamples | homeassistant/components/leviton/coordinator.py:238-281 | a nested clamp with id 0 is ignored, a direct message for clamp 0 is applied, and a direct message whose id is the text "7" is ignored |
| Legacy.LegacyImportFails | homeassistant/components/leviton/coordinator.py:9-19 | as written, the coordinator and the config flow import from the package "aiolevtion", which is not the installed client package, so those two modules fail to load while the setup module and switch platform resolve |
| Legacy.LegacyImportResolves | homeassistant/components/leviton/config_flow.py:10-16 | with the package name spelled as the setup module spells it, every module's client import resolves |

## Left out

- **I/O and scheduling.** The REST client, the websocket transport, Home Assistant's storage, the event loop, timers and the issue registry are not modelled. Each cloud call is an answer passed in, elapsed time is a number, and an issue is its key and translation key.
- **Bandwidth handling.** The sleeps and bandwidth toggles around subscriptions, and what the bandwidth keepalive sends, are left out. They change no store state. `Connection.StartKeepalive` models only which timers run.
- **Shutdown.** Websocket shutdown and the coordinator's `async_shutdown` only cancel tasks and close the socket. They are left out.
- **The midnight timer.** Its registration and the date arithmetic are left out. `Energy.HandleMidnight` models what one midnight does.
- **Reconnect answers.** `Connection.Reconnect` receives the connection answers as a sequence, one per attempt, instead of as a callable.
- **Non-connection exceptions.** `Connection.Connect` takes the outcome of one connection attempt as a boolean. In the source, any other exception from `ws.connect`, authentication errors included, escapes the handler. That path is not modelled.
- **Definitions from const.py.** const.py of `custom_components/leviton_load_center` is not part of this model. The model assumes:
  - the breaker state strings;
  - the 120 V default voltage;
  - the option names and their defaults;
  - the "UP_TO_DATE" panel firmware marker.
- **Floating point.** Energy is exact thousandths of a kWh. `Energy.Round2` rounds half up to a multiple of ten thousandths, which is not bit-exact with Python's `round` on floats. Voltages, currents and frequencies are exact reals, so the two-decimal rounding of calculated current is a real-valued half-up rounding.
- **Value equality across types.** Python's cross-type equality (1 == 1.0 == True) and float device ids are not modelled. Ids are strings, or integers where the code uses integers.
- **Malformed child entries.** `Push.Children` skips a non-object entry in a pushed child array, where Python would raise on it. A `ResidentialBreaker` or `IotCt` value that is not a list gives no entries in the model. Python iterates it instead (custom_components/leviton_load_center/websocket.py:338-344, homeassistant/components/leviton/coordinator.py:229-239): a number, boolean or None raises TypeError, and a non-empty string or object yields keys or characters whose `.get` raises AttributeError. Only an empty string or object gives no entries there too. The raise is not modelled.
- **Integer parsing.** Python's `int()` also accepts non-ASCII digits and non-ASCII whitespace. `Values.ParseInt` accepts ASCII digits, single underscores between them, an optional sign and surrounding ASCII whitespace.
- **The identify button.** `LevitonWhemIdentifyButton.async_press` only sends a command and writes no state, so only its availability is modelled.
- **Other files.** Diagnostics, config and options flows, `__init__.py` setup entry points, and the presentation files of the older `leviton` integration are outside the modelled core:
  - homeassistant/components/leviton/entity.py;
  - homeassistant/components/leviton/switch.py;
  - homeassistant/components/leviton/binary_sensor.py;
  - homeassistant/components/leviton_load_center/switch.py.
- **The older coordinator's connect.** `_connect_websocket` and `async_shutdown` in the older coordinator are left out. Only its disconnect handler, which never reconnects, is modelled.
- **Normalizing hooks.** The push handler's energy hook is a parameter, and the model instantiates it only with accumulation (`Push.ACCUMULATE`). The normalizing hooks that websocket.py imports have no definition in energy.py, so there is no behaviour of theirs to model.

Contracts stated weaker than the source's promise:

- Entities.Render: follows `str()` for integers, strings, booleans and None. It renders floats, lists and objects as the empty string, where Python would print their representation.
- SensorDescriptions.WhemVoltage: states only when the value is unknown. The average is stated generically by `SensorDescriptions.AverageBetween`.
- SensorDescriptions.WhemFrequency: states only when the value is unknown.
- SensorDescriptions.PanelVoltage: states only when the value is unknown.
- SensorDescriptions.PanelFrequencyAvg: states only that a positioned panel does not raise.
- SensorDescriptions.CalcCurrent: states the fallback cases and when it raises. The divisor choice is stated by `SensorDescriptions.Divisor`, not the quotient itself.
- SensorPlatform.CalcCurrentOddEven: likewise, the fallback cases and when it raises.
- SensorPlatform.PanelFrequencyAvgOddEven: states only that a positioned panel does not raise.
- Store.EnergyKey and Energy.Accumulate: energy.py keeps its caches under flattened strings. Breaker counters are `f"{breaker_id}{suffix}"` with suffixes "", "_2" and "_import" (custom_components/leviton_load_center/energy.py:130-138 and 196-205). CT counters are `f"ct_{ct_id}{suffix}"` (energy.py:155-164 and 206-215). Daily baselines are keyed by `breaker_id` and `f"ct_{ct_id}"` (energy.py:84-99). Such strings can collide. Breaker "X" with suffix "_2" and breaker "X_2" share a key. Breaker "ct_5" and CT 5 share a baseline key. Breaker "ct" with suffix "_2" and CT 2 share a key. The model keys the caches by a typed `(device, counter)` pair, so it assumes that device ids never collide this way.
- Values.ParseInt: its contract states only that a parsed string is non-empty after stripping. The round trip is stated by `Values.ParseIntToString`. The accepted grammar is stated nowhere.
- Discovery.HubsFold: its contract states the key sets; the stored records are stated by `Discovery.HubsFoldRecords`, kept apart so the fold's own proof stays small.
- Discovery.PanelsFold: likewise, with the records stated by `Discovery.PanelsFoldRecords`.
- Discovery.ResidenceDevices: likewise, with the records stated by `Discovery.ResidenceDevicesRecords`.
- Discovery.SearchResidences: the residences are searched as a set, in no stated order, so its contract says that each stored record is one some searched residence's fetch returned under that id, not which one wins when two residences return the same id.
- Discovery.DiscoverDevices: likewise, each stored record is one the searched residences' fetches returned, without saying which wins for an id two residences share.
- Legacy.HubsFold: its contract states the key sets; the stored records are stated by `Legacy.HubsFoldRecords`.
- Legacy.PanelsFold: likewise, with the records stated by `Legacy.PanelsFoldRecords`.
- Legacy.ResidenceStep: likewise, with the records stated by `Legacy.ResidenceStepRecords`.
- Legacy.ResidencesFold: likewise, with the records stated by `Legacy.ResidencesFoldRecords`.

## Findings

| source | as written | input that shows it | evidently intended | confidence | as-written member | corrected member |
|---|---|---|---|---|---|---|
| custom_components/leviton_load_center/switch.py:81-86 | `is_on` is true only for the "ManualON" state when the remote state is empty | a breaker with an empty remote state and current state "COMMUNICATING" reads off | tests/test_switch.py:98-109 expects "NotCommunicating", "CommunicationFailure" and "COMMUNICATING" to read on | not executed | Entities.SwitchIsOnAsWritten, Entities.CommunicatingReadsOff | Entities.SwitchIsOn, Entities.SwitchReadingsAgree |
| custom_components/leviton_load_center/button.py:24-30 | the button module imports `LevitonBreakerControlEntity`, which entity.py does not define | loading the button platform against entity.py as written | the control entity is defined in entity.py and the import resolves | not executed | Entities.ButtonImportFails, Entities.LoadButtons | Entities.ButtonImportResolves, Entities.ControlAvailable |
| custom_components/leviton_load_center/websocket.py:17 | the push module imports `normalize_breaker_energy` and `normalize_ct_energy`, which energy.py does not define | importing websocket.py against energy.py as written | the live handler runs the accumulate functions of energy.py, as tests/test_coordinator.py:671-736 expect | not executed | Push.PushImportFails | Push.AccumulateImportResolves, Push.BreakerEnergyAccumulated |
| custom_components/leviton_load_center/websocket.py:236-249 | a failed proactive refresh clears the socket but schedules no reconnect | refresh time reached, and the new connection attempt answers with a connection error | the socket is reconnected with backoff, as the disconnect handler does | not executed | Connection.WsRefresh, Connection.FailedRefreshStrandsPush | Connection.WsRefreshRecovering, Connection.RecoveringRefreshSchedulesReconnect |
| homeassistant/components/leviton/coordinator.py:9-19 | the coordinator and the config flow (config_flow.py:10-16) import the client classes from `aiolevtion`, while the setup module and switch platform import them from `aioleviton` | loading the integration: the setup module imports the coordinator, whose client import names a package that is not installed | both modules import from `aioleviton` | not executed | Legacy.LegacyImportFails | Legacy.LegacyImportResolves, Legacy.Dispatch |

=== FILE: connection.dfy ===
/**
 * The push connection's life cycle: connecting and subscribing, the
 * staleness watchdog, the disconnect handler, the proactive refresh and
 * the bounded reconnect loop. The socket, the timers and the background
 * task are reduced to flags; time is an integer clock in seconds.
 */
module Connection {
  import opened Wrappers
  import opened Values
  import opened Store
  import opened Firmware
  import Push

  /** Seconds of silence after which the watchdog forces a reconnect. */
  const SILENCE_LIMIT := 90

  /** The waits before each reconnect attempt, in seconds. */
  const DELAYS: seq<nat> := [10, 30, 60, 120, 300]

  /**
   * `WebSocketManager`'s state. `ws` is "a socket is held"; the two
   * callback flags stand for the registered unsubscribe handles; the three
   * timer flags for the 55-minute refresh, the 30-second watchdog and the
   * 60-second bandwidth keepalive; `reconnectTasks` counts reconnect tasks
   * handed to the background; `reauth` records that re-authentication was
   * requested.
   */
  datatype Manager = Manager(
    ws: bool,
    reconnecting: bool,
    lastNotification: int,
    notificationCb: bool,
    disconnectCb: bool,
    refreshTimer: bool,
    watchdogTimer: bool,
    bandwidthTimer: bool,
    reconnectTasks: nat,
    reauth: bool)
  {
    predicate TimersStopped() {
      !refreshTimer && !watchdogTimer && !bandwidthTimer
    }
  }

  /** The manager as constructed: no socket, clock mark 0. */
  const INITIAL: Manager := Manager(false, false, 0, false, false, false, false, false, 0, false)

  /** `_stop_keepalive`. */
  function StopKeepalive(m: Manager): (r: Manager)
    ensures r.TimersStopped()
    ensures r.(refreshTimer := m.refreshTimer, watchdogTimer := m.watchdogTimer, bandwidthTimer := m.bandwidthTimer) == m
  {
    m.(refreshTimer := false, watchdogTimer := false, bandwidthTimer := false)
  }

  /** `_start_keepalive`: the bandwidth timer only runs when there are hubs. */
  function StartKeepalive(m: Manager, data: LevitonData): (r: Manager)
    ensures r.refreshTimer && r.watchdogTimer
    ensures r.bandwidthTimer <==> data.whems != map[]
    ensures StopKeepalive(r) == StopKeepalive(m)
  {
    StopKeepalive(m).(refreshTimer := true, watchdogTimer := true, bandwidthTimer := data.whems != map[])
  }

  // ---------------------------------------------------------------------
  // Connecting
  // ---------------------------------------------------------------------

  /** A push subscription. */
  datatype Topic = HubTopic(hub: string) | PanelTopic(panel: string) | BreakerTopic(breaker: string)

  /** The hub a breaker hangs off, when it names a known hub. */
  function ParentHub(data: LevitonData, b: string): (r: Option<string>)
    requires b in data.breakers
    ensures r.Some? <==> data.breakers[b].HubRef().Text? && data.breakers[b].HubRef().s in data.whems
    ensures r.Some? ==> data.breakers[b].HubRef() == Text(r.value) && r.value in data.whems
  {
    match data.breakers[b].HubRef()
    case Text(h) => if h in data.whems then Some(h) else None
    case _ => None
  }

  /** A breaker gets its own subscription when its hub's firmware no longer nests breaker updates. */
  predicate SubscribedIndividually(data: LevitonData, b: string) {
    && b in data.breakers
    && ParentHub(data, b).Some?
    && NeedsIndividualBreakerSubs(data.whems[ParentHub(data, b).value].Version())
  }

  /**
   * The subscriptions `connect` asks for: every hub, every panel, and each
   * breaker of a hub whose firmware no longer nests breaker updates.
   */
  function Subscriptions(data: LevitonData): (r: set<Topic>)
    ensures forall h :: HubTopic(h) in r <==> h in data.whems
    ensures forall p :: PanelTopic(p) in r <==> p in data.panels
    ensures forall b :: BreakerTopic(b) in r <==> SubscribedIndividually(data, b)
  {
    HubTopics(data) + PanelTopics(data) + BreakerTopics(data)
  }

  function HubTopics(data: LevitonData): (r: set<Topic>)
    ensures forall t :: t in r <==> t.HubTopic? && t.hub in data.whems
  {
    set h | h in data.whems :: HubTopic(h)
  }

  function PanelTopics(data: LevitonData): (r: set<Topic>)
    ensures forall t :: t in r <==> t.PanelTopic? && t.panel in data.panels
  {
    set p | p in data.panels :: PanelTopic(p)
  }

  function BreakerTopics(data: LevitonData): (r: set<Topic>)
    ensures forall t :: t in r <==> t.BreakerTopic? && SubscribedIndividually(data, t.breaker)
  {
    set b | b in data.breakers && SubscribedIndividually(data, b) :: BreakerTopic(b)
  }

  /**
   * `connect`: nothing without a session; a socket that fails to open
   * leaves none; a socket that opens resets the staleness clock,
   * registers both callbacks and starts the timers. Subscription failures
   * are logged and do not change the state.
   */
  function Connect(m: Manager, data: LevitonData, session: bool, socketUp: bool, now: int): (r: Manager)
    ensures !session ==> r == m
    ensures session && !socketUp ==> r == m.(ws := false)
    ensures session && socketUp ==>
              r.ws && r.lastNotification == now && r.notificationCb && r.disconnectCb &&
              r.refreshTimer && r.watchdogTimer && (r.bandwidthTimer <==> data.whems != map[])
    ensures r.reconnecting == m.reconnecting && r.reconnectTasks == m.reconnectTasks && r.reauth == m.reauth
  {
    if !session then m
    else if !socketUp then m.(ws := false)
    else StartKeepalive(m.(ws := true, lastNotification := now, notificationCb := true, disconnectCb := true), data)
  }

  // ---------------------------------------------------------------------
  // Notifications, the watchdog and disconnects
  // ---------------------------------------------------------------------

  datatype Delivered = Delivered(manager: Manager, received: Push.Received)

  /**
   * `_handle_ws_notification`: the staleness clock is reset first, for
   * every message, including those then dropped or ignored.
   */
  function HandleNotification(m: Manager, now: int, data: LevitonData, n: Push.Notification, hooks: Push.EnergyHooks): (r: Delivered)
    ensures r.manager == m.(lastNotification := now)
    ensures r.received == Push.Dispatch(data, n, hooks)
  {
    Delivered(m.(lastNotification := now), Push.Dispatch(data, n, hooks))
  }

  /**
   * `_handle_ws_disconnect`: the socket and callbacks are dropped, the
   * timers stopped, and one reconnect task scheduled unless one runs.
   */
  function HandleDisconnect(m: Manager): (r: Manager)
    ensures !r.ws && !r.notificationCb && !r.disconnectCb && r.TimersStopped()
    ensures r.reconnectTasks == m.reconnectTasks + (if m.reconnecting then 0 else 1)
    ensures r.reconnecting == m.reconnecting && r.reauth == m.reauth && r.lastNotification == m.lastNotification
  {
    var s := StopKeepalive(m.(ws := false, notificationCb := false, disconnectCb := false));
    if m.reconnecting then s else s.(reconnectTasks := s.reconnectTasks + 1)
  }

  /** True when the watchdog acts: a socket, no reconnect running, and 90 s of silence. */
  predicate Stale(m: Manager, now: int) {
    m.ws && !m.reconnecting && now - m.lastNotification >= SILENCE_LIMIT
  }

  /**
   * `_async_ws_watchdog`: with a stale socket, the disconnect callback is
   * removed before the socket is closed (so the disconnect handler does
   * not also fire), the timers are stopped and exactly one reconnect is
   * scheduled; otherwise nothing happens.
   */
  function Watchdog(m: Manager, now: int): (r: Manager)
    ensures !Stale(m, now) ==> r == m
    ensures Stale(m, now) ==> !r.ws && !r.disconnectCb && !r.notificationCb && r.TimersStopped()
    ensures Stale(m, now) ==> r.reconnectTasks == m.reconnectTasks + 1 && !r.reconnecting
  {
    if !m.ws || m.reconnecting then m
    else if now - m.lastNotification < SILENCE_LIMIT then m
    else
      var closed := StopKeepalive(m.(disconnectCb := false, notificationCb := false, ws := false));
      if !closed.reconnecting then closed.(reconnectTasks := closed.reconnectTasks + 1) else closed
  }

  /** A firing watchdog leaves the manager exactly as a disconnect would. */
  lemma WatchdogActsAsDisconnect(m: Manager, now: int)
    requires Stale(m, now)
    ensures Watchdog(m, now) == HandleDisconnect(m)
  {
  }

  /** A message within the last 90 seconds keeps the watchdog quiet. */
  lemma {:induction false} NotificationKeepsWatchdogQuiet(m: Manager, now: int, later: int, data: LevitonData,
                                                          n: Push.Notification, hooks: Push.EnergyHooks)
    requires now <= later < now + SILENCE_LIMIT
    ensures Watchdog(HandleNotification(m, now, data, n, hooks).manager, later) == HandleNotification(m, now, data, n, hooks).manager
  {
    var d := HandleNotification(m, now, data, n, hooks);
    assert d.manager.lastNotification == now;
    assert !Stale(d.manager, later);
  }

  /** After it fires, the watchdog stays quiet: no second reconnect is scheduled. */
  lemma {:induction false} WatchdogFiresOnce(m: Manager, now: int, later: int)
    ensures Watchdog(Watchdog(m, now), later).reconnectTasks <= m.reconnectTasks + 1
    ensures Stale(m, now) ==> Watchdog(Watchdog(m, now), later) == Watchdog(m, now)
  {
    if Stale(m, now) {
      assert !Watchdog(m, now).ws;
    } else {
      assert Watchdog(m, now) == m;
      if Stale(m, later) {
        assert Watchdog(m, later).reconnectTasks == m.reconnectTasks + 1;
      }
    }
  }

  // ---------------------------------------------------------------------
  // Proactive refresh
  // ---------------------------------------------------------------------

  /**
   * `_async_ws_refresh`: with a socket, it is closed (disconnect callback
   * removed first) and `connect` runs again; without one, nothing. No
   * reconnect is scheduled when the new socket fails to open.
   */
  function WsRefresh(m: Manager, data: LevitonData, session: bool, socketUp: bool, now: int): (r: Manager)
    ensures !m.ws ==> r == m
    ensures m.ws && session && socketUp ==> r.ws && r.lastNotification == now
    ensures r.reconnectTasks == m.reconnectTasks && r.reconnecting == m.reconnecting
  {
    if !m.ws then m
    else Connect(m.(disconnectCb := false, notificationCb := false, ws := false), data, session, socketUp, now)
  }

  /**
   * As written, a refresh whose new socket does not open leaves no socket,
   * no reconnect task, and a watchdog and refresh timer that both return
   * early from then on: push stays down until the integration reloads.
   */
  lemma {:induction false} FailedRefreshStrandsPush(m: Manager, data: LevitonData, session: bool, now: int, later: int,
                                                    socketUp: bool)
    requires m.ws && !m.reconnecting
    ensures var r := WsRefresh(m, data, session, false, now);
              && !r.ws && !r.reconnecting && r.reconnectTasks == m.reconnectTasks
              && Watchdog(r, later) == r
              && WsRefresh(r, data, session, socketUp, later) == r
  {
    var r := WsRefresh(m, data, session, false, now);
    assert !r.ws;
  }

  /**
   * The refresh as evidently intended: a socket that does not come back
   * is handled like a disconnect, so one reconnect is scheduled.
   */
  function WsRefreshRecovering(m: Manager, data: LevitonData, session: bool, socketUp: bool, now: int): (r: Manager)
    ensures !m.ws ==> r == m
    ensures m.ws && session && socketUp ==> r == WsRefresh(m, data, session, socketUp, now)
    ensures m.ws && !r.ws ==> r.reconnectTasks == m.reconnectTasks + (if m.reconnecting then 0 else 1)
  {
    var r := WsRefresh(m, data, session, socketUp, now);
    if m.ws && !r.ws then HandleDisconnect(r) else r
  }

  /** With the corrected refresh, a refresh that loses the socket always leaves a reconnect pending. */
  lemma {:induction false} RecoveringRefreshSchedulesReconnect(m: Manager, data: LevitonData, session: bool, socketUp: bool, now: int)
    requires m.ws && !m.reconnecting
    ensures var r := WsRefreshRecovering(m, data, session, socketUp, now);
              r.ws || r.reconnectTasks == m.reconnectTasks + 1
    ensures var r := WsRefreshRecovering(m, data, session, socketUp, now);
              !r.ws ==> r.TimersStopped()
  {
    var w := WsRefresh(m, data, session, socketUp, now);
    if !w.ws {
      assert WsRefreshRecovering(m, data, session, socketUp, now) == HandleDisconnect(w);
    }
  }

  // ---------------------------------------------------------------------
  // Reconnect with back-off
  // ---------------------------------------------------------------------

  /**
   * An attempt that ends the loop: its token check is refused, or the
   * check passes, a session exists and the socket opens.
   */
  predicate Decisive(j: nat, session: bool, permission: seq<Call<()>>, socketUp: seq<bool>)
    requires j < |permission| && j < |socketUp|
  {
    permission[j].AuthErr? || (permission[j].Ok? && session && socketUp[j])
  }

  /** Seconds waited before the first `j` attempts have been made. */
  function Elapsed(j: nat): (r: nat)
    requires j <= |DELAYS|
    ensures j > 0 ==> r >= 10
  {
    if j == 0 then 0 else Elapsed(j - 1) + DELAYS[j - 1]
  }

  /**
   * `_reconnect`. A second call while one runs returns at once. Otherwise
   * the flag is raised and up to five attempts are made, attempt `j`
   * waiting `DELAYS[j]` seconds first: the token check `permission[j]`
   * either refuses (re-authentication is requested and the loop ends),
   * cannot reach the server (the next attempt follows), or passes, after
   * which `connect` runs with socket outcome `socketUp[j]` and the loop
   * ends if a socket is held. The flag is cleared on every way out.
   */
  method Reconnect(m: Manager, data: LevitonData, session: bool, permission: seq<Call<()>>, socketUp: seq<bool>, start: int)
    returns (r: Manager, attempts: nat, clock: int)
    requires !m.ws
    requires |permission| == |DELAYS| && |socketUp| == |DELAYS|
    ensures m.reconnecting ==> r == m && attempts == 0 && clock == start
    ensures !r.reconnecting || m.reconnecting
    ensures r.reconnectTasks == m.reconnectTasks
    ensures !m.reconnecting ==> 1 <= attempts <= |DELAYS| && clock == start + Elapsed(attempts)
    ensures !m.reconnecting ==> forall j :: 0 <= j < attempts - 1 ==> !Decisive(j, session, permission, socketUp)
    ensures !m.reconnecting && attempts < |DELAYS| ==> Decisive(attempts - 1, session, permission, socketUp)
    ensures !m.reconnecting ==>
              (r.ws <==> permission[attempts - 1].Ok? && session && socketUp[attempts - 1])
    ensures !m.reconnecting ==> (r.reauth <==> m.reauth || permission[attempts - 1].AuthErr?)
    ensures r.ws ==> r.lastNotification == clock && r.notificationCb && r.disconnectCb && r.watchdogTimer
    ensures !m.reconnecting && (forall j :: 0 <= j < |DELAYS| ==> permission[j].ConnErr?) ==>
              attempts == |DELAYS| && !r.ws && clock == start + 520
  {
    if m.reconnecting {
      return m, 0, start;
    }
    var cur := m.(reconnecting := true);
    var k := 0;
    var t := start;
    var done := false;
    while k < |DELAYS| && !done
      invariant 0 <= k <= |DELAYS|
      invariant t == start + Elapsed(k)
      invariant done ==> k > 0 && Decisive(k - 1, session, permission, socketUp)
      invariant forall j :: 0 <= j < k && (j < k - 1 || !done) ==> !Decisive(j, session, permission, socketUp)
      invariant cur.ws <==> k > 0 && permission[k - 1].Ok? && session && socketUp[k - 1]
      invariant cur.reauth <==> m.reauth || (k > 0 && permission[k - 1].AuthErr?)
      invariant cur.ws ==> cur.lastNotification == t && cur.notificationCb && cur.disconnectCb && cur.watchdogTimer
      invariant cur.reconnecting && cur.reconnectTasks == m.reconnectTasks
      invariant !done ==> !cur.ws && cur.reauth == m.reauth
      decreases |DELAYS| - k
    {
      t := t + DELAYS[k];
      match permission[k] {
        case AuthErr =>
          cur := cur.(reauth := true);
          done := true;
        case ConnErr =>
        case Ok(_) =>
          cur := Connect(cur, data, session, socketUp[k], t);
          if cur.ws {
            done := true;
          }
      }
      k := k + 1;
    }
    r := cur.(reconnecting := false);
    attempts := k;
    clock := t;
    TotalBackoff();
  }

  /**
   * A worked instance for the constant delay list, not a general law:
   * its five waits of 10, 30, 60, 120 and 300 seconds add up to 520.
   */
  lemma TotalBackoff()
    ensures Elapsed(|DELAYS|) == 520
  {
    assert Elapsed(1) == 10;
    assert Elapsed(2) == 40;
    assert Elapsed(3) == 100;
    assert Elapsed(4) == 220;
  }
}

=== FILE: coordinator.dfy ===
/**
 * The coordinator's periodic work and its first refresh: the REST poll
 * (which devices it refetches depending on push health, how a failing call
 * ends it), the energy correction and lifetime save that follow a
 * successful poll, the firmware repair issues, and the order of the setup
 * steps.
 */
module Coordinator {
  import opened Wrappers
  import opened Values
  import opened Store
  import opened Discovery
  import opened Energy
  import Connection

  // ---------------------------------------------------------------------
  // The call log of a poll
  // ---------------------------------------------------------------------

  /** How one cloud call answered. */
  datatype Status = Fine | Auth | Conn

  function StatusOf<T>(c: Call<T>): (s: Status)
    ensures s == Fine <==> c.Ok?
    ensures s == Auth <==> c.AuthErr?
  {
    match c
    case Ok(_) => Fine
    case AuthErr => Auth
    case ConnErr => Conn
  }

  /**
   * The failure a run of calls ends with: the first call that does not
   * answer ends the poll, an authentication error as `ConfigEntryAuthFailed`
   * and a connection error as `UpdateFailed`.
   */
  function FirstFailure(calls: seq<Status>): (r: Option<Failure>)
    ensures r.Some? ==> r.value == AuthFailed || r.value == UpdateFailed
    decreases |calls|
  {
    if calls == [] then None
    else if calls[0] == Auth then Some(AuthFailed)
    else if calls[0] == Conn then Some(UpdateFailed)
    else FirstFailure(calls[1..])
  }

  /** A run of calls fails iff one of its calls fails. */
  lemma {:induction false} FirstFailureNone(calls: seq<Status>)
    ensures FirstFailure(calls).None? <==> forall i :: 0 <= i < |calls| ==> calls[i] == Fine
    decreases |calls|
  {
    if calls != [] {
      FirstFailureNone(calls[1..]);
      assert forall i :: 1 <= i < |calls| ==> calls[i] == calls[1..][i - 1];
    }
  }

  /**
   * It fails with `ConfigEntryAuthFailed` iff some call answers with an
   * authentication error and every call before it succeeded.
   */
  lemma {:induction false} FirstFailureAuth(calls: seq<Status>)
    ensures FirstFailure(calls) == Some(AuthFailed) <==>
              exists i :: 0 <= i < |calls| && calls[i] == Auth && forall j :: 0 <= j < i ==> calls[j] == Fine
    decreases |calls|
  {
    if calls != [] {
      FirstFailureAuth(calls[1..]);
      if FirstFailure(calls) == Some(AuthFailed) && calls[0] == Fine {
        var i :| 0 <= i < |calls[1..]| && calls[1..][i] == Auth && forall j :: 0 <= j < i ==> calls[1..][j] == Fine;
        assert calls[i + 1] == Auth;
        assert forall j :: 0 <= j < i + 1 ==> calls[j] == Fine by {
          forall j | 0 <= j < i + 1 ensures calls[j] == Fine {
            if j > 0 { assert calls[j] == calls[1..][j - 1]; }
          }
        }
      }
      if FirstFailure(calls) != Some(AuthFailed) && calls[0] == Fine {
        forall i | 0 <= i < |calls| && calls[i] == Auth
          ensures exists j :: 0 <= j < i && calls[j] != Fine
        {
          assert i > 0;
          assert calls[1..][i - 1] == Auth;
          var j :| 0 <= j < i - 1 && calls[1..][j] != Fine;
          assert calls[j + 1] != Fine;
        }
      }
    }
  }

  /** Calls run in sequence: the first run's failure wins, else the second's. */
  lemma {:induction false} FirstFailureConcat(a: seq<Status>, b: seq<Status>)
    ensures FirstFailure(a + b) == if FirstFailure(a).Some? then FirstFailure(a) else FirstFailure(b)
    decreases |a|
  {
    if a != [] {
      assert (a + b)[1..] == a[1..] + b;
      FirstFailureConcat(a[1..], b);
    } else {
      assert a + b == b;
    }
  }

  /** The calls refetching one hub: the hub itself, its breakers, its CTs. */
  function HubCalls(b: Backend, id: string): seq<Status> {
    [StatusOf(b.hub(id)), StatusOf(b.hubBreakers(id)), StatusOf(b.hubCts(id))]
  }

  /** The calls refetching one panel: the panel itself, its breakers. */
  function PanelCalls(b: Backend, id: string): seq<Status> {
    [StatusOf(b.panel(id)), StatusOf(b.panelBreakers(id))]
  }

  function HubsCalls(b: Backend, order: seq<string>): seq<Status>
    decreases |order|
  {
    if order == [] then [] else HubCalls(b, order[0]) + HubsCalls(b, order[1..])
  }

  function PanelsCalls(b: Backend, order: seq<string>): seq<Status>
    decreases |order|
  {
    if order == [] then [] else PanelCalls(b, order[0]) + PanelsCalls(b, order[1..])
  }

  /**
   * The calls a poll makes, in order: none when push is up and there are
   * no panels; otherwise every hub (only while push is down), then every
   * panel.
   */
  function PollCalls(b: Backend, data: LevitonData, wsUp: bool, hubOrder: seq<string>, panelOrder: seq<string>): seq<Status> {
    if wsUp && data.panels == map[] then []
    else if wsUp then PanelsCalls(b, panelOrder)
    else HubsCalls(b, hubOrder) + PanelsCalls(b, panelOrder)
  }

  // ---------------------------------------------------------------------
  // The poll
  // ---------------------------------------------------------------------

  /**
   * The store a poll leaves behind, and how it failed. A failing call does
   * not undo what earlier calls wrote: the store is changed in place.
   */
  datatype Polled = Polled(data: LevitonData, failure: Option<Failure>)

  /** Every device stays, new breakers and CTs may appear, residences and baselines are kept. */
  predicate Grows(before: LevitonData, after: LevitonData) {
    && before.whems.Keys <= after.whems.Keys
    && before.panels.Keys <= after.panels.Keys
    && before.breakers.Keys <= after.breakers.Keys
    && before.cts.Keys <= after.cts.Keys
    && after.residences == before.residences
    && after.dailyBaselines == before.dailyBaselines
  }

  /** Breaker ids the successful breaker fetches of the listed hubs return. */
  function HubsBreakerIds(b: Backend, order: seq<string>): set<string>
    decreases |order|
  {
    if order == [] then {} else FetchedBreakerIds(b.hubBreakers(order[0])) + HubsBreakerIds(b, order[1..])
  }

  function HubsCtKeys(b: Backend, order: seq<string>): set<string>
    decreases |order|
  {
    if order == [] then {} else FetchedCtKeys(b.hubCts(order[0])) + HubsCtKeys(b, order[1..])
  }

  function PanelsBreakerIds(b: Backend, order: seq<string>): set<string>
    decreases |order|
  {
    if order == [] then {} else FetchedBreakerIds(b.panelBreakers(order[0])) + PanelsBreakerIds(b, order[1..])
  }

  /** The breaker records the listed hubs' fetches return, in poll order. */
  function HubsBreakers(b: Backend, order: seq<string>): seq<Breaker>
    decreases |order|
  {
    if order == [] then [] else Fetched(b.hubBreakers(order[0])) + HubsBreakers(b, order[1..])
  }

  function HubsCts(b: Backend, order: seq<string>): seq<Ct>
    decreases |order|
  {
    if order == [] then [] else Fetched(b.hubCts(order[0])) + HubsCts(b, order[1..])
  }

  function PanelsBreakers(b: Backend, order: seq<string>): seq<Breaker>
    decreases |order|
  {
    if order == [] then [] else Fetched(b.panelBreakers(order[0])) + PanelsBreakers(b, order[1..])
  }

  /**
   * One hub: the record is stored under the id it was requested by, then
   * its breakers by id, then its CTs by `str(id)`.
   */
  function PollHub(b: Backend, id: string, data: LevitonData): (r: Polled)
    ensures r.failure == FirstFailure(HubCalls(b, id))
    ensures Grows(data, r.data) && r.data.whems.Keys <= data.whems.Keys + {id} && r.data.panels == data.panels
    ensures r.failure.None? ==> r.data.whems == data.whems[id := b.hub(id).value]
    ensures r.failure.None? ==> r.data.breakers.Keys == data.breakers.Keys + FetchedBreakerIds(b.hubBreakers(id))
    ensures r.failure.None? ==> r.data.cts.Keys == data.cts.Keys + FetchedCtKeys(b.hubCts(id))
    ensures r.failure.None? ==> b.hubBreakers(id).Ok? && b.hubCts(id).Ok?
    ensures r.failure.None? ==> forall k :: k in r.data.breakers ==>
              r.data.breakers[k] == if LatestBreaker(b.hubBreakers(id).value, k).Some? then LatestBreaker(b.hubBreakers(id).value, k).value else data.breakers[k]
    ensures r.failure.None? ==> forall k :: k in r.data.cts ==>
              r.data.cts[k] == if LatestCt(b.hubCts(id).value, k).Some? then LatestCt(b.hubCts(id).value, k).value else data.cts[k]
  {
    var calls := HubCalls(b, id);
    FirstFailureNone(calls);
    assert FirstFailure(calls[1..][1..]) == FirstFailure([calls[2]]);
    match b.hub(id)
    case AuthErr => Polled(data, Some(AuthFailed))
    case ConnErr => Polled(data, Some(UpdateFailed))
    case Ok(h) =>
      var d1 := data.(whems := data.whems[id := h]);
      match b.hubBreakers(id)
      case AuthErr => Polled(d1, Some(AuthFailed))
      case ConnErr => Polled(d1, Some(UpdateFailed))
      case Ok(bs) =>
        var d2 := d1.(breakers := AddBreakers(d1.breakers, bs));
        match b.hubCts(id)
        case AuthErr => Polled(d2, Some(AuthFailed))
        case ConnErr => Polled(d2, Some(UpdateFailed))
        case Ok(cs) => Polled(d2.(cts := AddCts(d2.cts, cs)), None)
  }

  /** One panel: the record under its requested id, then its breakers. */
  function PollPanel(b: Backend, id: string, data: LevitonData): (r: Polled)
    ensures r.failure == FirstFailure(PanelCalls(b, id))
    ensures Grows(data, r.data) && r.data.panels.Keys <= data.panels.Keys + {id}
    ensures r.data.whems == data.whems && r.data.cts == data.cts
    ensures r.failure.None? ==> r.data.panels == data.panels[id := b.panel(id).value]
    ensures r.failure.None? ==> r.data.breakers.Keys == data.breakers.Keys + FetchedBreakerIds(b.panelBreakers(id))
    ensures r.failure.None? ==> b.panelBreakers(id).Ok?
    ensures r.failure.None? ==> forall k :: k in r.data.breakers ==>
              r.data.breakers[k] == if LatestBreaker(b.panelBreakers(id).value, k).Some? then LatestBreaker(b.panelBreakers(id).value, k).value else data.breakers[k]
  {
    FirstFailureNone(PanelCalls(b, id));
    match b.panel(id)
    case AuthErr => Polled(data, Some(AuthFailed))
    case ConnErr => Polled(data, Some(UpdateFailed))
    case Ok(p) =>
      var d1 := data.(panels := data.panels[id := p]);
      match b.panelBreakers(id)
      case AuthErr => Polled(d1, Some(AuthFailed))
      case ConnErr => Polled(d1, Some(UpdateFailed))
      case Ok(bs) => Polled(d1.(breakers := AddBreakers(d1.breakers, bs)), None)
  }

  /** The hubs in order, stopping at the first failing call. */
  function PollHubs(b: Backend, order: seq<string>, data: LevitonData): (r: Polled)
    ensures r.failure == FirstFailure(HubsCalls(b, order))
    ensures Grows(data, r.data) && r.data.panels == data.panels
    ensures forall x :: x in r.data.whems ==> x in data.whems || x in order
    ensures r.failure.None? ==> forall x :: x in order ==> x in r.data.whems && b.hub(x) == Ok(r.data.whems[x])
    ensures r.failure.None? ==> forall x :: x in data.whems && x !in order ==> x in r.data.whems && r.data.whems[x] == data.whems[x]
    decreases |order|
  {
    if order == [] then Polled(data, None)
    else
      var one := PollHub(b, order[0], data);
      FirstFailureConcat(HubCalls(b, order[0]), HubsCalls(b, order[1..]));
      if one.failure.Some? then one
      else PollHubs(b, order[1..], one.data)
  }

  /**
   * A successful hub poll adds exactly the breakers and CTs the hubs'
   * fetches return, and each key holds the last record fetched under it
   * across all hubs in poll order, or its old record if none was.
   */
  lemma PollHubsChildren(b: Backend, order: seq<string>, data: LevitonData)
    ensures var r := PollHubs(b, order, data);
            && (r.failure.None? ==> r.data.breakers.Keys == data.breakers.Keys + HubsBreakerIds(b, order))
            && (r.failure.None? ==> r.data.cts.Keys == data.cts.Keys + HubsCtKeys(b, order))
    ensures var r := PollHubs(b, order, data);
            r.failure.None? ==> forall k :: LatestBreaker(HubsBreakers(b, order), k).Some? ==>
              k in r.data.breakers && r.data.breakers[k] == LatestBreaker(HubsBreakers(b, order), k).value
    ensures var r := PollHubs(b, order, data);
            r.failure.None? ==> forall k :: k in data.breakers && LatestBreaker(HubsBreakers(b, order), k).None? ==>
              k in r.data.breakers && r.data.breakers[k] == data.breakers[k]
    ensures var r := PollHubs(b, order, data);
            r.failure.None? ==> forall k :: LatestCt(HubsCts(b, order), k).Some? ==>
              k in r.data.cts && r.data.cts[k] == LatestCt(HubsCts(b, order), k).value
    ensures var r := PollHubs(b, order, data);
            r.failure.None? ==> forall k :: k in data.cts && LatestCt(HubsCts(b, order), k).None? ==>
              k in r.data.cts && r.data.cts[k] == data.cts[k]
  {
    PollHubsBreakers(b, order, data);
    PollHubsCts(b, order, data);
    PollHubsBreakerRecords(b, order, data);
    PollHubsCtRecords(b, order, data);
  }

  lemma {:induction false} PollHubsBreakers(b: Backend, order: seq<string>, data: LevitonData)
    ensures var r := PollHubs(b, order, data);
            r.failure.None? ==> r.data.breakers.Keys == data.breakers.Keys + HubsBreakerIds(b, order)
    decreases |order|
  {
    if order != [] {
      var one := PollHub(b, order[0], data);
      if one.failure.None? {
        PollHubsBreakers(b, order[1..], one.data);
      }
    }
  }

  lemma {:induction false} PollHubsCts(b: Backend, order: seq<string>, data: LevitonData)
    ensures var r := PollHubs(b, order, data);
            r.failure.None? ==> r.data.cts.Keys == data.cts.Keys + HubsCtKeys(b, order)
    decreases |order|
  {
    if order != [] {
      var one := PollHub(b, order[0], data);
      if one.failure.None? {
        PollHubsCts(b, order[1..], one.data);
      }
    }
  }

  /** A successful hub poll stores the breakers as one `AddBreakers` of all hubs' fetches would. */
  lemma {:induction false} PollHubsBreakerRecords(b: Backend, order: seq<string>, data: LevitonData)
    ensures PollHubs(b, order, data).failure.None? ==>
              PollHubs(b, order, data).data.breakers == AddBreakers(data.breakers, HubsBreakers(b, order))
    decreases |order|
  {
    if order != [] {
      var one := PollHub(b, order[0], data);
      if one.failure.None? {
        assert PollHubs(b, order, data) == PollHubs(b, order[1..], one.data);
        var bs := b.hubBreakers(order[0]).value;
        assert HubsBreakers(b, order) == bs + HubsBreakers(b, order[1..]);
        AddBreakersDetermined(data.breakers, bs, one.data.breakers);
        PollHubsBreakerRecords(b, order[1..], one.data);
        AddBreakersConcat(data.breakers, bs, HubsBreakers(b, order[1..]));
      }
    }
  }

  lemma {:induction false} PollHubsCtRecords(b: Backend, order: seq<string>, data: LevitonData)
    ensures PollHubs(b, order, data).failure.None? ==>
              PollHubs(b, order, data).data.cts == AddCts(data.cts, HubsCts(b, order))
    decreases |order|
  {
    if order != [] {
      var one := PollHub(b, order[0], data);
      if one.failure.None? {
        assert PollHubs(b, order, data) == PollHubs(b, order[1..], one.data);
        var cs := b.hubCts(order[0]).value;
        assert HubsCts(b, order) == cs + HubsCts(b, order[1..]);
        AddCtsDetermined(data.cts, cs, one.data.cts);
        PollHubsCtRecords(b, order[1..], one.data);
        AddCtsConcat(data.cts, cs, HubsCts(b, order[1..]));
      }
    }
  }

  /** The panels in order, stopping at the first failing call. */
  function PollPanels(b: Backend, order: seq<string>, data: LevitonData): (r: Polled)
    ensures r.failure == FirstFailure(PanelsCalls(b, order))
    ensures Grows(data, r.data) && r.data.whems == data.whems && r.data.cts == data.cts
    ensures forall x :: x in r.data.panels ==> x in data.panels || x in order
    ensures r.failure.None? ==> forall x :: x in order ==> x in r.data.panels && b.panel(x) == Ok(r.data.panels[x])
    ensures r.failure.None? ==> forall x :: x in data.panels && x !in order ==> x in r.data.panels && r.data.panels[x] == data.panels[x]
    decreases |order|
  {
    if order == [] then Polled(data, None)
    else
      var one := PollPanel(b, order[0], data);
      FirstFailureConcat(PanelCalls(b, order[0]), PanelsCalls(b, order[1..]));
      if one.failure.Some? then one
      else PollPanels(b, order[1..], one.data)
  }

  /**
   * A successful panel poll adds exactly the breakers the panels' fetches
   * return, and each id holds the last record fetched under it across all
   * panels in poll order, or its old record if none was.
   */
  lemma PollPanelsChildren(b: Backend, order: seq<string>, data: LevitonData)
    ensures var r := PollPanels(b, order, data);
            r.failure.None? ==> r.data.breakers.Keys == data.breakers.Keys + PanelsBreakerIds(b, order)
    ensures var r := PollPanels(b, order, data);
            r.failure.None? ==> forall k :: LatestBreaker(PanelsBreakers(b, order), k).Some? ==>
              k in r.data.breakers && r.data.breakers[k] == LatestBreaker(PanelsBreakers(b, order), k).value
    ensures var r := PollPanels(b, order, data);
            r.failure.None? ==> forall k :: k in data.breakers && LatestBreaker(PanelsBreakers(b, order), k).None? ==>
              k in r.data.breakers && r.data.breakers[k] == data.breakers[k]
  {
    PollPanelsBreakers(b, order, data);
    PollPanelsBreakerRecords(b, order, data);
  }

  lemma {:induction false} PollPanelsBreakers(b: Backend, order: seq<string>, data: LevitonData)
    ensures var r := PollPanels(b, order, data);
            r.failure.None? ==> r.data.breakers.Keys == data.breakers.Keys + PanelsBreakerIds(b, order)
    decreases |order|
  {
    if order != [] {
      var one := PollPanel(b, order[0], data);
      if one.failure.None? {
        PollPanelsBreakers(b, order[1..], one.data);
      }
    }
  }

  /** A successful panel poll stores the breakers as one `AddBreakers` of all panels' fetches would. */
  lemma {:induction false} PollPanelsBreakerRecords(b: Backend, order: seq<string>, data: LevitonData)
    ensures PollPanels(b, order, data).failure.None? ==>
              PollPanels(b, order, data).data.breakers == AddBreakers(data.breakers, PanelsBreakers(b, order))
    decreases |order|
  {
    if order != [] {
      var one := PollPanel(b, order[0], data);
      if one.failure.None? {
        assert PollPanels(b, order, data) == PollPanels(b, order[1..], one.data);
        var bs := b.panelBreakers(order[0]).value;
        assert PanelsBreakers(b, order) == bs + PanelsBreakers(b, order[1..]);
        AddBreakersDetermined(data.breakers, bs, one.data.breakers);
        PollPanelsBreakerRecords(b, order[1..], one.data);
        AddBreakersConcat(data.breakers, bs, PanelsBreakers(b, order[1..]));
      }
    }
  }

  /**
   * The REST part of `_async_update_data`. With push up and no panels it
   * returns the store untouched without a call; otherwise hubs (with their
   * breakers and CTs) are refetched only while push is down, and panels
   * (with their breakers) always. Every refetched record lands under the
   * key it was requested by, so no device appears or disappears.
   */
  function Poll(b: Backend, data: LevitonData, wsUp: bool, hubOrder: seq<string>, panelOrder: seq<string>): (r: Polled)
    requires Enumerates(hubOrder, data.whems.Keys) && Enumerates(panelOrder, data.panels.Keys)
    ensures wsUp && data.panels == map[] ==> r == Polled(data, None)
    ensures r.failure == FirstFailure(PollCalls(b, data, wsUp, hubOrder, panelOrder))
    ensures Grows(data, r.data) && r.data.whems.Keys == data.whems.Keys && r.data.panels.Keys == data.panels.Keys
    ensures wsUp ==> r.data.whems == data.whems && r.data.cts == data.cts
    ensures r.failure.None? && !wsUp ==> forall x :: x in data.whems ==> b.hub(x) == Ok(r.data.whems[x])
    ensures r.failure.None? && data.panels != map[] ==> forall x :: x in data.panels ==> b.panel(x) == Ok(r.data.panels[x])
  {
    EmptyOrder(panelOrder, data.panels.Keys);
    if wsUp && data.panels == map[] then Polled(data, None)
    else
      var hubs := if wsUp then Polled(data, None) else PollHubs(b, hubOrder, data);
      if !wsUp then
        FirstFailureConcat(HubsCalls(b, hubOrder), PanelsCalls(b, panelOrder));
        if hubs.failure.Some? then hubs else PollPanels(b, panelOrder, hubs.data)
      else PollPanels(b, panelOrder, hubs.data)
  }

  /**
   * A successful poll adds exactly the breakers and CTs its fetches return:
   * those of the hubs (only while push is down) and of the panels.
   */
  lemma PollChildren(b: Backend, data: LevitonData, wsUp: bool, hubOrder: seq<string>, panelOrder: seq<string>)
    requires Enumerates(hubOrder, data.whems.Keys) && Enumerates(panelOrder, data.panels.Keys)
    ensures var r := Poll(b, data, wsUp, hubOrder, panelOrder);
            r.failure.None? && wsUp ==> r.data.breakers.Keys == data.breakers.Keys + PanelsBreakerIds(b, panelOrder)
    ensures var r := Poll(b, data, wsUp, hubOrder, panelOrder);
            r.failure.None? && wsUp ==> r.data.cts.Keys == data.cts.Keys
    ensures var r := Poll(b, data, wsUp, hubOrder, panelOrder);
            r.failure.None? && !wsUp ==> r.data.breakers.Keys == data.breakers.Keys + HubsBreakerIds(b, hubOrder) + PanelsBreakerIds(b, panelOrder)
    ensures var r := Poll(b, data, wsUp, hubOrder, panelOrder);
            r.failure.None? && !wsUp ==> r.data.cts.Keys == data.cts.Keys + HubsCtKeys(b, hubOrder)
  {
    if wsUp {
      PollChildrenPushUp(b, data, hubOrder, panelOrder);
    } else {
      PollChildrenPushDown(b, data, hubOrder, panelOrder);
    }
  }

  lemma PollChildrenPushDown(b: Backend, data: LevitonData, hubOrder: seq<string>, panelOrder: seq<string>)
    requires Enumerates(hubOrder, data.whems.Keys) && Enumerates(panelOrder, data.panels.Keys)
    ensures var r := Poll(b, data, false, hubOrder, panelOrder);
            && (r.failure.None? ==> r.data.breakers.Keys == data.breakers.Keys + HubsBreakerIds(b, hubOrder) + PanelsBreakerIds(b, panelOrder))
            && (r.failure.None? ==> r.data.cts.Keys == data.cts.Keys + HubsCtKeys(b, hubOrder))
  {
    PollHubsChildren(b, hubOrder, data);
    PollPanelsChildren(b, panelOrder, PollHubs(b, hubOrder, data).data);
  }

  lemma PollChildrenPushUp(b: Backend, data: LevitonData, hubOrder: seq<string>, panelOrder: seq<string>)
    requires Enumerates(hubOrder, data.whems.Keys) && Enumerates(panelOrder, data.panels.Keys)
    ensures var r := Poll(b, data, true, hubOrder, panelOrder);
            && (r.failure.None? ==> r.data.breakers.Keys == data.breakers.Keys + PanelsBreakerIds(b, panelOrder))
            && (r.failure.None? ==> r.data.cts.Keys == data.cts.Keys)
  {
    EmptyOrder(panelOrder, data.panels.Keys);
    PollPanelsChildren(b, panelOrder, data);
  }

  /** With push up, a poll never calls a hub endpoint: hubs are fully pushed. */
  lemma {:induction false} PushUpSkipsHubs(b: Backend, data: LevitonData, hubOrder: seq<string>, panelOrder: seq<string>)
    requires Enumerates(hubOrder, data.whems.Keys) && Enumerates(panelOrder, data.panels.Keys)
    ensures |PollCalls(b, data, true, hubOrder, panelOrder)| == 2 * |panelOrder|
    ensures data.panels == map[] ==> PollCalls(b, data, true, hubOrder, panelOrder) == []
  {
    PanelsCallsLength(b, panelOrder);
    EmptyOrder(panelOrder, data.panels.Keys);
  }

  lemma {:induction false} PanelsCallsLength(b: Backend, order: seq<string>)
    ensures |PanelsCalls(b, order)| == 2 * |order|
    decreases |order|
  {
    if order != [] { PanelsCallsLength(b, order[1..]); }
  }

  /** The poll fails iff one of the calls it makes fails. */
  lemma PollFailsIffCallFails(b: Backend, data: LevitonData, wsUp: bool, hubOrder: seq<string>, panelOrder: seq<string>)
    requires Enumerates(hubOrder, data.whems.Keys) && Enumerates(panelOrder, data.panels.Keys)
    ensures var calls := PollCalls(b, data, wsUp, hubOrder, panelOrder);
            Poll(b, data, wsUp, hubOrder, panelOrder).failure.None? <==> forall i :: 0 <= i < |calls| ==> calls[i] == Fine
  {
    FirstFailureNone(PollCalls(b, data, wsUp, hubOrder, panelOrder));
  }

  // ---------------------------------------------------------------------
  // The periodic refresh
  // ---------------------------------------------------------------------

  /** The store, the persisted lifetime cache, and the refresh's failure. */
  datatype Refresh = Refresh(data: LevitonData, lifetime: Option<map<EnergyKey, int>>, failure: Option<Failure>)

  /**
   * What follows a successful poll: `correct_energy_values`, then
   * `save_lifetime_energy`, which overwrites the cache with exactly the
   * corrected store's counters.
   */
  function Settle(polled: LevitonData, lifetime: Option<map<EnergyKey, int>>): (r: Refresh)
    ensures r.failure.None? && SameDevices(polled, r.data) && r.lifetime.Some?
    ensures forall k :: k in r.lifetime.value <==> Reading(r.data, k).Some?
    ensures forall k :: k in r.lifetime.value ==> r.lifetime.value[k] == Reading(r.data, k).value
  {
    var corrected := CorrectEnergy(polled, lifetime);
    Refresh(corrected.data, Some(SaveLifetimeEnergy(corrected.data)), None)
  }

  /**
   * `_async_update_data`: the poll, then (only when it succeeded and was
   * not skipped) the energy correction and the lifetime save. A failed
   * poll leaves the partially refreshed store and the cache as they are.
   */
  function UpdateData(b: Backend, data: LevitonData, lifetime: Option<map<EnergyKey, int>>, wsUp: bool,
                      hubOrder: seq<string>, panelOrder: seq<string>): (r: Refresh)
    requires Enumerates(hubOrder, data.whems.Keys) && Enumerates(panelOrder, data.panels.Keys)
    ensures wsUp && data.panels == map[] ==> r == Refresh(data, lifetime, None)
    ensures r.failure == Poll(b, data, wsUp, hubOrder, panelOrder).failure
    ensures r.failure.Some? ==> r.data == Poll(b, data, wsUp, hubOrder, panelOrder).data && r.lifetime == lifetime
    ensures r.failure.None? && !(wsUp && data.panels == map[]) ==> r == Settle(Poll(b, data, wsUp, hubOrder, panelOrder).data, lifetime)
    ensures Grows(data, r.data)
  {
    if wsUp && data.panels == map[] then Refresh(data, lifetime, None)
    else
      var polled := Poll(b, data, wsUp, hubOrder, panelOrder);
      if polled.failure.Some? then Refresh(polled.data, lifetime, polled.failure) else Settle(polled.data, lifetime)
  }

  // ---------------------------------------------------------------------
  // Firmware repair issues
  // ---------------------------------------------------------------------

  const ISSUE_PREFIX := "firmware_update_"
  const UP_TO_DATE := "UP_TO_DATE"

  /** The repair issue id of a device. */
  function IssueId(id: string): (r: string)
    ensures |r| == |ISSUE_PREFIX| + |id| && r[|ISSUE_PREFIX|..] == id
  {
    ISSUE_PREFIX + id
  }

  /** A hub has downloaded firmware other than the version it runs. */
  predicate HubNeedsUpdate(h: Hub) {
    Truthy(Get(h.fields, DOWNLOADED)) && Get(h.fields, DOWNLOADED) != h.Version()
  }

  /** A panel reports an update availability other than "UP_TO_DATE". */
  predicate PanelNeedsUpdate(p: Panel) {
    Truthy(Get(p.fields, UPDATE_AVAILABILITY)) && Get(p.fields, UPDATE_AVAILABILITY) != Text(UP_TO_DATE)
  }

  /** The ids a visiting order lists. */
  function Listed(order: seq<string>): (r: set<string>)
    ensures forall x :: x in r <==> x in order
  {
    set x | x in order
  }

  /** The issue ids of a set of device ids. */
  function IssueIds(ids: set<string>): (r: set<string>)
    ensures forall id :: IssueId(id) in r <==> id in ids
  {
    set id | id in ids :: IssueId(id)
  }

  /** One device's decision: create its issue or delete it. */
  function DecideIssue(issues: set<string>, id: string, needed: bool): (r: set<string>)
    ensures IssueId(id) in r <==> needed
    ensures forall x :: x != IssueId(id) ==> (x in r <==> x in issues)
  {
    if needed then issues + {IssueId(id)} else issues - {IssueId(id)}
  }

  /** The hub loop over the given order. */
  function HubIssues(issues: set<string>, whems: map<string, Hub>, order: seq<string>): (r: set<string>)
    requires forall i :: 0 <= i < |order| ==> order[i] in whems
    ensures forall id :: id in order ==> (IssueId(id) in r <==> HubNeedsUpdate(whems[id]))
    ensures forall x :: x !in IssueIds(Listed(order)) ==> (x in r <==> x in issues)
    decreases |order|
  {
    if order == [] then issues
    else
      IssueIdsSplit(order);
      HubIssues(DecideIssue(issues, order[0], HubNeedsUpdate(whems[order[0]])), whems, order[1..])
  }

  /** The panel loop over the given order. */
  function PanelIssues(issues: set<string>, panels: map<string, Panel>, order: seq<string>): (r: set<string>)
    requires forall i :: 0 <= i < |order| ==> order[i] in panels
    ensures forall id :: id in order ==> (IssueId(id) in r <==> PanelNeedsUpdate(panels[id]))
    ensures forall x :: x !in IssueIds(Listed(order)) ==> (x in r <==> x in issues)
    decreases |order|
  {
    if order == [] then issues
    else
      IssueIdsSplit(order);
      PanelIssues(DecideIssue(issues, order[0], PanelNeedsUpdate(panels[order[0]])), panels, order[1..])
  }

  lemma IssueIdsSplit(order: seq<string>)
    requires order != []
    ensures IssueIds(Listed(order)) == {IssueId(order[0])} + IssueIds(Listed(order[1..]))
  {
    assert Listed(order) == {order[0]} + Listed(order[1..]);
  }

  /**
   * `_check_firmware_updates`: every hub, then every panel, creates or
   * deletes its issue. A hub's issue exists iff it downloaded firmware
   * other than its running version; a panel's iff it reports an update
   * availability other than "UP_TO_DATE" (the panel loop runs second, so
   * it decides an id shared with a hub). Issues of other ids are left alone.
   */
  function CheckFirmware(issues: set<string>, data: LevitonData, hubOrder: seq<string>, panelOrder: seq<string>): (r: set<string>)
    requires Enumerates(hubOrder, data.whems.Keys) && Enumerates(panelOrder, data.panels.Keys)
    ensures forall id :: id in data.panels ==> (IssueId(id) in r <==> PanelNeedsUpdate(data.panels[id]))
    ensures forall id :: id in data.whems && id !in data.panels ==> (IssueId(id) in r <==> HubNeedsUpdate(data.whems[id]))
    ensures forall x :: x !in IssueIds(data.whems.Keys + data.panels.Keys) ==> (x in r <==> x in issues)
  {
    assert Listed(hubOrder) == data.whems.Keys;
    assert Listed(panelOrder) == data.panels.Keys;
    var afterHubs := HubIssues(issues, data.whems, hubOrder);
    IssueIdsUnion(data.whems.Keys, data.panels.Keys);
    PanelIssues(afterHubs, data.panels, panelOrder)
  }

  lemma IssueIdsUnion(a: set<string>, b: set<string>)
    ensures IssueIds(a + b) == IssueIds(a) + IssueIds(b)
  {
  }

  /** Re-checking the same store changes nothing. */
  lemma CheckFirmwareIdempotent(issues: set<string>, data: LevitonData, hubOrder: seq<string>, panelOrder: seq<string>)
    requires Enumerates(hubOrder, data.whems.Keys) && Enumerates(panelOrder, data.panels.Keys)
    ensures var once := CheckFirmware(issues, data, hubOrder, panelOrder);
            CheckFirmware(once, data, hubOrder, panelOrder) == once
  {
    var once := CheckFirmware(issues, data, hubOrder, panelOrder);
    var twice := CheckFirmware(once, data, hubOrder, panelOrder);
    forall x ensures x in twice <==> x in once {
      if x in IssueIds(data.whems.Keys + data.panels.Keys) {
        var y :| y in data.whems.Keys + data.panels.Keys && x == IssueId(y);
      }
    }
    assert twice == once;
  }

  /** The issues do not depend on the order the devices are visited in. */
  lemma CheckFirmwareOrderFree(issues: set<string>, data: LevitonData, h1: seq<string>, p1: seq<string>, h2: seq<string>, p2: seq<string>)
    requires Enumerates(h1, data.whems.Keys) && Enumerates(p1, data.panels.Keys)
    requires Enumerates(h2, data.whems.Keys) && Enumerates(p2, data.panels.Keys)
    ensures CheckFirmware(issues, data, h1, p1) == CheckFirmware(issues, data, h2, p2)
  {
    var a := CheckFirmware(issues, data, h1, p1);
    var c := CheckFirmware(issues, data, h2, p2);
    forall x ensures x in a <==> x in c {
      if x in IssueIds(data.whems.Keys + data.panels.Keys) {
        var y :| y in data.whems.Keys + data.panels.Keys && x == IssueId(y);
      }
    }
    assert a == c;
  }

  // ---------------------------------------------------------------------
  // The first refresh
  // ---------------------------------------------------------------------

  /** What the first refresh leaves: the store (none when discovery failed), the push manager, both persisted stores and the issues. */
  datatype Setup = Setup(
    data: Option<LevitonData>,
    manager: Connection.Manager,
    lifetime: Option<map<EnergyKey, int>>,
    baselines: Option<map<DeviceRef, int>>,
    issues: set<string>,
    failure: Option<Failure>)

  /**
   * The order of the steps after discovery, as seen in what they leave:
   * the devices are those discovered; the persisted lifetime store covers
   * every counter of the final store; push was connected with the
   * corrected store; baselines were adopted from storage, or else
   * snapshotted from the corrected counters; the issues were decided on
   * the final store.
   */
  ghost predicate StartedFrom(found: LevitonData, r: Setup, m: Connection.Manager, session: bool, socketUp: bool, now: int,
                              baselines: Option<map<DeviceRef, int>>, issues: set<string>,
                              hubOrder: set<string> -> seq<string>, panelOrder: set<string> -> seq<string>)
    requires forall s :: Enumerates(hubOrder(s), s) && Enumerates(panelOrder(s), s)
  {
    && r.failure.None?
    && r.data.Some?
    && var d := r.data.value;
    && SameDevices(found.(dailyBaselines := d.dailyBaselines), d)
    && r.manager == Connection.Connect(m, d, session, socketUp, now)
    && r.lifetime.Some?
    && (forall k :: Reading(d, k).Some? ==> k in r.lifetime.value && Reading(d, k).value <= r.lifetime.value[k])
    && (baselines.Some? && |baselines.value| > 0 ==> d.dailyBaselines == baselines.value && r.baselines == baselines)
    && (!(baselines.Some? && |baselines.value| > 0) ==>
          d.dailyBaselines == SnapshotDailyBaselines(d) && r.baselines == Some(d.dailyBaselines))
    && r.issues == CheckFirmware(issues, d, hubOrder(d.whems.Keys), panelOrder(d.panels.Keys))
  }

  /**
   * The first `correct_energy_values` of setup: the corrected store keeps
   * the discovered devices, and the persisted lifetime store covers every
   * counter of it.
   */
  method CorrectOnSetUp(found: LevitonData, lifetime: Option<map<EnergyKey, int>>)
    returns (corrected: LevitonData, saved: map<EnergyKey, int>)
    ensures SameDevices(found, corrected)
    ensures forall k :: Reading(corrected, k).Some? <==> Reading(found, k).Some?
    ensures forall k :: Reading(corrected, k).Some? ==> k in saved && Reading(corrected, k).value <= saved[k]
  {
    var r := CorrectEnergy(found, lifetime);
    CorrectionCoversReadings(found, lifetime);
    forall k ensures Reading(r.data, k).Some? <==> Reading(found, k).Some? {
      assert CorrectedKey(r, found, Readings(found), lifetime.GetOr(map[]), k);
    }
    corrected, saved := r.data, Persisted(r, lifetime);
  }

  /** The steps after discovery, in order: correct the energy values, connect push, load the baselines, check firmware. */
  method StartUp(found: LevitonData, m: Connection.Manager, session: bool, socketUp: bool, now: int,
                 lifetime: Option<map<EnergyKey, int>>, baselines: Option<map<DeviceRef, int>>, issues: set<string>,
                 hubOrder: set<string> -> seq<string>, panelOrder: set<string> -> seq<string>)
    returns (r: Setup)
    requires forall s :: Enumerates(hubOrder(s), s) && Enumerates(panelOrder(s), s)
    ensures StartedFrom(found, r, m, session, socketUp, now, baselines, issues, hubOrder, panelOrder)
  {
    var corrected, saved := CorrectOnSetUp(found, lifetime);
    var loaded := LoadDailyBaselines(corrected, baselines);
    var d := loaded.data;
    // `_async_setup` connects push before loading the baselines; push reads only the hubs, which loading leaves alone.
    var manager := Connection.Connect(m, d, session, socketUp, now);
    assert forall k :: Reading(d, k) == Reading(corrected, k);
    if !(baselines.Some? && |baselines.value| > 0) {
      SnapshotIdempotent(corrected, d);
    }
    r := Setup(Some(d), manager, Some(saved), loaded.stored, CheckFirmware(issues, d, hubOrder(d.whems.Keys), panelOrder(d.panels.Keys)), None);
  }

  /**
   * `_async_setup`: discover, then the steps after discovery. A failed
   * discovery ends it with nothing else done. The midnight timer is left
   * out; the dictionary orders for the firmware check are the callers'.
   */
  method SetUp(b: Backend, m: Connection.Manager, session: bool, socketUp: bool, now: int,
               lifetime: Option<map<EnergyKey, int>>, baselines: Option<map<DeviceRef, int>>, issues: set<string>,
               hubOrder: set<string> -> seq<string>, panelOrder: set<string> -> seq<string>)
    returns (r: Setup)
    requires forall s :: Enumerates(hubOrder(s), s) && Enumerates(panelOrder(s), s)
    ensures b.permissions.AuthErr? ==> r.failure == Some(AuthFailed)
    ensures b.permissions.ConnErr? ==> r.failure == Some(UpdateFailed)
    ensures b.permissions.Ok? ==> (r.failure.Some? <==> DiscoveryAuthError(b, b.permissions.value))
    ensures r.failure.Some? <==> r.data.None?
    ensures r.failure.Some? ==> r.manager == m && r.lifetime == lifetime && r.baselines == baselines && r.issues == issues
    ensures r.data.Some? ==> r.data.value.whems.Keys == HubIdsIn(b, ResidenceIds(b, b.permissions.value))
    ensures r.data.Some? ==> r.data.value.panels.Keys == PanelIdsIn(b, ResidenceIds(b, b.permissions.value))
    ensures r.data.Some? ==> r.data.value.breakers.Keys == BreakerIdsIn(b, ResidenceIds(b, b.permissions.value))
    ensures r.data.Some? ==> r.data.value.cts.Keys == CtKeysIn(b, ResidenceIds(b, b.permissions.value))
    ensures r.data.Some? ==> exists found :: StartedFrom(found, r, m, session, socketUp, now, baselines, issues, hubOrder, panelOrder)
  {
    var found := DiscoverDevices(b);
    if found.Failed? {
      return Setup(None, m, lifetime, baselines, issues, Some(found.failure));
    }
    r := StartUp(found.value, m, session, socketUp, now, lifetime, baselines, issues, hubOrder, panelOrder);
  }

  /**
   * Without stored baselines, right after setup every CT's daily energy is
   * zero: the baseline snapshot is taken from the corrected store.
   */
  lemma SetUpStartsDayAtZero(d: LevitonData)
    requires d.dailyBaselines == SnapshotDailyBaselines(d)
    ensures forall id :: id in d.cts ==> CalcDailyEnergy(CtRef(id), Some(d.cts[id].TotalEnergy()), d.dailyBaselines) == Some(0)
    ensures forall id :: id in d.breakers && d.breakers[id].TotalEnergy().Some? ==>
              CalcDailyEnergy(BreakerRef(id), d.breakers[id].TotalEnergy(), d.dailyBaselines) == Some(0)
  {
  }
}

=== FILE: discovery.dfy ===
/**
 * Device discovery: which residences are searched, which devices each
 * cloud call contributes, and how a failing call is contained to its own
 * branch. The cloud calls are shared with the poll (module Coordinator).
 */
module Discovery {
  import opened Wrappers
  import opened Values
  import opened Store

  /** One entry of the account's permission list. */
  datatype Permission = Permission(residenceId: Option<int>, accountId: Option<int>)

  /**
   * The cloud calls discovery and polling make, each answering with a
   * value, an authentication error or a connection error.
   */
  datatype Backend = Backend(
    permissions: Call<seq<Permission>>,
    accountResidences: int -> Call<seq<Residence>>,
    residenceHubs: int -> Call<seq<Hub>>,
    hubBandwidthReset: string -> Call<()>,
    hubBreakers: string -> Call<seq<Breaker>>,
    hubCts: string -> Call<seq<Ct>>,
    residencePanels: int -> Call<seq<Panel>>,
    panelBandwidthReset: string -> Call<()>,
    panelBreakers: string -> Call<seq<Breaker>>,
    hub: string -> Call<Hub>,
    panel: string -> Call<Panel>)

  /**
   * How a refresh fails: `ConfigEntryAuthFailed`, `UpdateFailed`, or an
   * authentication error escaping a handler that only catches connection
   * errors.
   */
  datatype Failure = AuthFailed | UpdateFailed | Unhandled

  /** The error mapping used around the permission call and the poll. */
  function MapError<T>(c: Call<T>): (f: Failure)
    requires !c.Ok?
    ensures c.AuthErr? <==> f == AuthFailed
    ensures c.ConnErr? <==> f == UpdateFailed
  {
    if c.AuthErr? then AuthFailed else UpdateFailed
  }

  // ---------------------------------------------------------------------
  // Records stored under their own id
  // ---------------------------------------------------------------------

  predicate HubsKeyed(m: map<string, Hub>) { forall k :: k in m ==> m[k].id == k }
  predicate PanelsKeyed(m: map<string, Panel>) { forall k :: k in m ==> m[k].id == k }
  predicate BreakersKeyed(m: map<string, Breaker>) { forall k :: k in m ==> m[k].id == k }
  predicate CtsKeyed(m: map<string, Ct>) { forall k :: k in m ==> m[k].Key() == k }

  /** Every device map holds each record under its own id (CTs under `str(id)`). */
  predicate Keyed(d: Found) {
    HubsKeyed(d.whems) && PanelsKeyed(d.panels) && BreakersKeyed(d.breakers) && CtsKeyed(d.cts)
  }

  /** The devices found so far. */
  datatype Found = Found(whems: map<string, Hub>, panels: map<string, Panel>, breakers: map<string, Breaker>, cts: map<string, Ct>)

  const NONE_FOUND: Found := Found(map[], map[], map[], map[])

  /** The ids of a fetched list, as the keys they are stored under. */
  function BreakerIds(bs: seq<Breaker>): set<string> { set b | b in bs :: b.id }
  function CtKeys(cs: seq<Ct>): set<string> { set c | c in cs :: c.Key() }
  function HubIds(hs: seq<Hub>): set<string> { set h | h in hs :: h.id }
  function PanelIds(ps: seq<Panel>): set<string> { set p | p in ps :: p.id }
  function ResidenceIdsOf(rs: seq<Residence>): set<int> { set x | x in rs :: x.id }

  /** The last record of a fetched list stored under `k`, if any: the one a keyed store ends up holding. */
  function LatestBreaker(bs: seq<Breaker>, k: string): (r: Option<Breaker>)
    ensures r.Some? <==> k in BreakerIds(bs)
    ensures r.Some? ==> r.value in bs && r.value.id == k
    decreases |bs|
  {
    if bs == [] then None
    else
      assert forall b :: b in bs <==> b == bs[0] || b in bs[1..];
      var later := LatestBreaker(bs[1..], k);
      if later.Some? then later else if bs[0].id == k then Some(bs[0]) else None
  }

  /** The latest record under `k` is the last entry of the list with that key. */
  lemma {:induction false} LatestBreakerIsLast(bs: seq<Breaker>, k: string, i: nat)
    requires i < |bs| && bs[i].id == k
    requires forall j :: i < j < |bs| ==> bs[j].id != k
    ensures LatestBreaker(bs, k) == Some(bs[i])
    decreases |bs|
  {
    if i > 0 {
      assert forall j :: i - 1 < j < |bs| - 1 ==> bs[1..][j] == bs[j + 1];
      LatestBreakerIsLast(bs[1..], k, i - 1);
    } else {
      forall b | b in bs[1..]
        ensures b.id != k
      {
        var j :| 0 <= j < |bs[1..]| && bs[1..][j] == b;
        assert bs[j + 1] == b;
      }
    }
  }

  /** `for b in bs: breakers[b.id] = b`. */
  function AddBreakers(m: map<string, Breaker>, bs: seq<Breaker>): (r: map<string, Breaker>)
    ensures r.Keys == m.Keys + BreakerIds(bs)
    ensures BreakersKeyed(m) ==> BreakersKeyed(r)
    ensures forall k {:trigger LatestBreaker(bs, k)} :: k in r ==> r[k] == if LatestBreaker(bs, k).Some? then LatestBreaker(bs, k).value else m[k]
    decreases |bs|
  {
    if bs == [] then m
    else
      var r := AddBreakers(m[bs[0].id := bs[0]], bs[1..]);
      assert forall b :: b in bs <==> b == bs[0] || b in bs[1..];
      r
  }

  /** The last record of a fetched list stored under `k`, if any: the one a keyed store ends up holding. */
  function LatestCt(cs: seq<Ct>, k: string): (r: Option<Ct>)
    ensures r.Some? <==> k in CtKeys(cs)
    ensures r.Some? ==> r.value in cs && r.value.Key() == k
    decreases |cs|
  {
    if cs == [] then None
    else
      assert forall c :: c in cs <==> c == cs[0] || c in cs[1..];
      var later := LatestCt(cs[1..], k);
      if later.Some? then later else if cs[0].Key() == k then Some(cs[0]) else None
  }

  /** The latest record under `k` is the last entry of the list with that key. */
  lemma {:induction false} LatestCtIsLast(cs: seq<Ct>, k: string, i: nat)
    requires i < |cs| && cs[i].Key() == k
    requires forall j :: i < j < |cs| ==> cs[j].Key() != k
    ensures LatestCt(cs, k) == Some(cs[i])
    decreases |cs|
  {
    if i > 0 {
      assert forall j :: i - 1 < j < |cs| - 1 ==> cs[1..][j] == cs[j + 1];
      LatestCtIsLast(cs[1..], k, i - 1);
    } else {
      forall c | c in cs[1..]
        ensures c.Key() != k
      {
        var j :| 0 <= j < |cs[1..]| && cs[1..][j] == c;
        assert cs[j + 1] == c;
      }
    }
  }

  /** `for c in cs: cts[str(c.id)] = c`. */
  function AddCts(m: map<string, Ct>, cs: seq<Ct>): (r: map<string, Ct>)
    ensures r.Keys == m.Keys + CtKeys(cs)
    ensures CtsKeyed(m) ==> CtsKeyed(r)
    ensures forall k {:trigger LatestCt(cs, k)} :: k in r ==> r[k] == if LatestCt(cs, k).Some? then LatestCt(cs, k).value else m[k]
    decreases |cs|
  {
    if cs == [] then m
    else
      var r := AddCts(m[cs[0].Key() := cs[0]], cs[1..]);
      assert forall c :: c in cs <==> c == cs[0] || c in cs[1..];
      r
  }

  /** The last hub of a fetched list with id `k`, if any. */
  function LatestHub(hs: seq<Hub>, k: string): (r: Option<Hub>)
    ensures r.Some? <==> k in HubIds(hs)
    ensures r.Some? ==> r.value in hs && r.value.id == k
    decreases |hs|
  {
    if hs == [] then None
    else
      assert forall h :: h in hs <==> h == hs[0] || h in hs[1..];
      var later := LatestHub(hs[1..], k);
      if later.Some? then later else if hs[0].id == k then Some(hs[0]) else None
  }

  /** `for whem in whems: data.whems[whem.id] = whem`. */
  function AddHubs(m: map<string, Hub>, hs: seq<Hub>): (r: map<string, Hub>)
    ensures r.Keys == m.Keys + HubIds(hs)
    ensures HubsKeyed(m) ==> HubsKeyed(r)
    ensures forall k {:trigger LatestHub(hs, k)} :: k in r ==> r[k] == if LatestHub(hs, k).Some? then LatestHub(hs, k).value else m[k]
    decreases |hs|
  {
    if hs == [] then m
    else
      var r := AddHubs(m[hs[0].id := hs[0]], hs[1..]);
      assert forall h :: h in hs <==> h == hs[0] || h in hs[1..];
      r
  }

  /** The last panel of a fetched list with id `k`, if any. */
  function LatestPanel(ps: seq<Panel>, k: string): (r: Option<Panel>)
    ensures r.Some? <==> k in PanelIds(ps)
    ensures r.Some? ==> r.value in ps && r.value.id == k
    decreases |ps|
  {
    if ps == [] then None
    else
      assert forall p :: p in ps <==> p == ps[0] || p in ps[1..];
      var later := LatestPanel(ps[1..], k);
      if later.Some? then later else if ps[0].id == k then Some(ps[0]) else None
  }

  /** `for panel in panels: data.panels[panel.id] = panel`. */
  function AddPanels(m: map<string, Panel>, ps: seq<Panel>): (r: map<string, Panel>)
    ensures r.Keys == m.Keys + PanelIds(ps)
    ensures PanelsKeyed(m) ==> PanelsKeyed(r)
    ensures forall k {:trigger LatestPanel(ps, k)} :: k in r ==> r[k] == if LatestPanel(ps, k).Some? then LatestPanel(ps, k).value else m[k]
    decreases |ps|
  {
    if ps == [] then m
    else
      var r := AddPanels(m[ps[0].id := ps[0]], ps[1..]);
      assert forall p :: p in ps <==> p == ps[0] || p in ps[1..];
      r
  }

  /** Records stored from a set `s` by `AddBreakers` stay within `s`. */
  lemma AddBreakersWithin(m: map<string, Breaker>, bs: seq<Breaker>, s: set<Breaker>)
    requires forall k :: k in m ==> m[k] in s
    requires forall x :: x in bs ==> x in s
    ensures forall k :: k in AddBreakers(m, bs) ==> AddBreakers(m, bs)[k] in s
  {
    forall k | k in AddBreakers(m, bs)
      ensures AddBreakers(m, bs)[k] in s
    {
      var latest := LatestBreaker(bs, k);
    }
  }

  lemma AddCtsWithin(m: map<string, Ct>, cs: seq<Ct>, s: set<Ct>)
    requires forall k :: k in m ==> m[k] in s
    requires forall x :: x in cs ==> x in s
    ensures forall k :: k in AddCts(m, cs) ==> AddCts(m, cs)[k] in s
  {
    forall k | k in AddCts(m, cs)
      ensures AddCts(m, cs)[k] in s
    {
      var latest := LatestCt(cs, k);
    }
  }

  lemma AddHubsWithin(m: map<string, Hub>, hs: seq<Hub>, s: set<Hub>)
    requires forall k :: k in m ==> m[k] in s
    requires forall x :: x in hs ==> x in s
    ensures forall k :: k in AddHubs(m, hs) ==> AddHubs(m, hs)[k] in s
  {
    forall k | k in AddHubs(m, hs)
      ensures AddHubs(m, hs)[k] in s
    {
      var latest := LatestHub(hs, k);
    }
  }

  lemma AddPanelsWithin(m: map<string, Panel>, ps: seq<Panel>, s: set<Panel>)
    requires forall k :: k in m ==> m[k] in s
    requires forall x :: x in ps ==> x in s
    ensures forall k :: k in AddPanels(m, ps) ==> AddPanels(m, ps)[k] in s
  {
    forall k | k in AddPanels(m, ps)
      ensures AddPanels(m, ps)[k] in s
    {
      var latest := LatestPanel(ps, k);
    }
  }

  /** Storing two fetched lists one after the other is storing their concatenation. */
  lemma {:induction false} AddHubsConcat(m: map<string, Hub>, xs: seq<Hub>, ys: seq<Hub>)
    ensures AddHubs(AddHubs(m, xs), ys) == AddHubs(m, xs + ys)
    decreases |xs|
  {
    if xs == [] {
      assert xs + ys == ys;
    } else {
      assert (xs + ys)[1..] == xs[1..] + ys;
      AddHubsConcat(m[xs[0].id := xs[0]], xs[1..], ys);
    }
  }

  lemma {:induction false} AddPanelsConcat(m: map<string, Panel>, xs: seq<Panel>, ys: seq<Panel>)
    ensures AddPanels(AddPanels(m, xs), ys) == AddPanels(m, xs + ys)
    decreases |xs|
  {
    if xs == [] {
      assert xs + ys == ys;
    } else {
      assert (xs + ys)[1..] == xs[1..] + ys;
      AddPanelsConcat(m[xs[0].id := xs[0]], xs[1..], ys);
    }
  }

  lemma {:induction false} AddBreakersConcat(m: map<string, Breaker>, xs: seq<Breaker>, ys: seq<Breaker>)
    ensures AddBreakers(AddBreakers(m, xs), ys) == AddBreakers(m, xs + ys)
    decreases |xs|
  {
    if xs == [] {
      assert xs + ys == ys;
    } else {
      assert (xs + ys)[1..] == xs[1..] + ys;
      AddBreakersConcat(m[xs[0].id := xs[0]], xs[1..], ys);
    }
  }

  /** A map with the keys and values `AddBreakers` promises is the map it returns. */
  lemma AddBreakersDetermined(m: map<string, Breaker>, bs: seq<Breaker>, r: map<string, Breaker>)
    requires r.Keys == m.Keys + BreakerIds(bs)
    requires forall k :: k in r ==> r[k] == if LatestBreaker(bs, k).Some? then LatestBreaker(bs, k).value else m[k]
    ensures r == AddBreakers(m, bs)
  {
    var a := AddBreakers(m, bs);
    assert forall k :: k in r ==> r[k] == a[k];
  }

  lemma {:induction false} AddCtsConcat(m: map<string, Ct>, xs: seq<Ct>, ys: seq<Ct>)
    ensures AddCts(AddCts(m, xs), ys) == AddCts(m, xs + ys)
    decreases |xs|
  {
    if xs == [] {
      assert xs + ys == ys;
    } else {
      assert (xs + ys)[1..] == xs[1..] + ys;
      AddCtsConcat(m[xs[0].Key() := xs[0]], xs[1..], ys);
    }
  }

  lemma AddCtsDetermined(m: map<string, Ct>, cs: seq<Ct>, r: map<string, Ct>)
    requires r.Keys == m.Keys + CtKeys(cs)
    requires forall k :: k in r ==> r[k] == if LatestCt(cs, k).Some? then LatestCt(cs, k).value else m[k]
    ensures r == AddCts(m, cs)
  {
    var a := AddCts(m, cs);
    assert forall k :: k in r ==> r[k] == a[k];
  }

  // ---------------------------------------------------------------------
  // One residence
  // ---------------------------------------------------------------------

  /** The breaker ids a fetch contributes: all of them on success, none otherwise. */
  function FetchedBreakerIds(c: Call<seq<Breaker>>): set<string> {
    if c.Ok? then BreakerIds(c.value) else {}
  }

  /** The CT keys a fetch contributes. */
  function FetchedCtKeys(c: Call<seq<Ct>>): set<string> {
    if c.Ok? then CtKeys(c.value) else {}
  }

  /** The records a fetch returns: the list on success, nothing otherwise. */
  function Fetched<T>(c: Call<seq<T>>): seq<T> {
    if c.Ok? then c.value else []
  }

  /** The breaker records the hubs' fetches return, in discovery order. */
  function HubBreakerRecords(b: Backend, hs: seq<Hub>): seq<Breaker>
    decreases |hs|
  {
    if hs == [] then [] else Fetched(b.hubBreakers(hs[0].id)) + HubBreakerRecords(b, hs[1..])
  }

  function HubCtRecords(b: Backend, hs: seq<Hub>): seq<Ct>
    decreases |hs|
  {
    if hs == [] then [] else Fetched(b.hubCts(hs[0].id)) + HubCtRecords(b, hs[1..])
  }

  function PanelBreakerRecords(b: Backend, ps: seq<Panel>): seq<Breaker>
    decreases |ps|
  {
    if ps == [] then [] else Fetched(b.panelBreakers(ps[0].id)) + PanelBreakerRecords(b, ps[1..])
  }

  /** Breaker ids the hubs' breaker fetches contribute. */
  function HubBreakerIds(b: Backend, hs: seq<Hub>): set<string>
    decreases |hs|
  {
    if hs == [] then {} else FetchedBreakerIds(b.hubBreakers(hs[0].id)) + HubBreakerIds(b, hs[1..])
  }

  /** CT keys the hubs' CT fetches contribute. */
  function HubCtKeys(b: Backend, hs: seq<Hub>): set<string>
    decreases |hs|
  {
    if hs == [] then {} else FetchedCtKeys(b.hubCts(hs[0].id)) + HubCtKeys(b, hs[1..])
  }

  /**
   * True when one of the calls made for a discovered hub (the bandwidth
   * reset, the breaker fetch, the CT fetch) answers with an authentication
   * error: their handlers only catch connection errors.
   */
  predicate HubAuthError(b: Backend, id: string) {
    b.hubBandwidthReset(id).AuthErr? || b.hubBreakers(id).AuthErr? || b.hubCts(id).AuthErr?
  }

  /** True when the calls for some hub of the list answer with an authentication error. */
  predicate HubChildAuthError(b: Backend, hs: seq<Hub>) {
    exists h :: h in hs && HubAuthError(b, h.id)
  }

  /** One hub: it is kept, its bandwidth reset, then its breakers and CTs are fetched. */
  function HubStep(b: Backend, h: Hub, acc: Found): (r: Call<Found>)
    ensures !r.ConnErr?
    ensures r.AuthErr? <==> HubAuthError(b, h.id)
    ensures r.Ok? ==> r.value.whems.Keys == acc.whems.Keys + {h.id} && r.value.panels == acc.panels
    ensures r.Ok? ==> r.value.breakers.Keys == acc.breakers.Keys + FetchedBreakerIds(b.hubBreakers(h.id))
    ensures r.Ok? ==> r.value.cts.Keys == acc.cts.Keys + FetchedCtKeys(b.hubCts(h.id))
    ensures r.Ok? ==> r.value.whems == acc.whems[h.id := h]
    ensures r.Ok? ==> r.value.breakers == AddBreakers(acc.breakers, Fetched(b.hubBreakers(h.id)))
    ensures r.Ok? ==> r.value.cts == AddCts(acc.cts, Fetched(b.hubCts(h.id)))
  {
    var withHub := acc.(whems := acc.whems[h.id := h]);
    var bs := b.hubBreakers(h.id);
    var cs := b.hubCts(h.id);
    if HubAuthError(b, h.id) then AuthErr
    else
      var a1 := if bs.Ok? then withHub.(breakers := AddBreakers(withHub.breakers, bs.value)) else withHub;
      var a2 := if cs.Ok? then a1.(cts := AddCts(a1.cts, cs.value)) else a1;
      Ok(a2)
  }

  /**
   * The hubs of one residence, in order: each hub is kept, then its
   * breakers and CTs are fetched; a connection error on either fetch only
   * loses that fetch's devices.
   */
  function HubsFold(b: Backend, hs: seq<Hub>, acc: Found): (r: Call<Found>)
    ensures !r.ConnErr?
    ensures r.AuthErr? <==> HubChildAuthError(b, hs)
    ensures r.Ok? ==> r.value.whems.Keys == acc.whems.Keys + HubIds(hs)
    ensures r.Ok? ==> r.value.panels == acc.panels
    ensures r.Ok? ==> r.value.breakers.Keys == acc.breakers.Keys + HubBreakerIds(b, hs)
    ensures r.Ok? ==> r.value.cts.Keys == acc.cts.Keys + HubCtKeys(b, hs)
    decreases |hs|
  {
    if hs == [] then Ok(acc)
    else
      var step := HubStep(b, hs[0], acc);
      HubIdsSplit(b, hs);
      if step.Ok? then HubsFold(b, hs[1..], step.value) else AuthErr
  }

  /**
   * The records a successful hub fold stores: each hub, breaker and CT key
   * holds the last record fetched under it, in hub order, or its old one.
   */
  lemma {:induction false} HubsFoldRecords(b: Backend, hs: seq<Hub>, acc: Found)
    ensures HubsFold(b, hs, acc).Ok? ==> HubsFold(b, hs, acc).value.whems == AddHubs(acc.whems, hs)
    ensures HubsFold(b, hs, acc).Ok? ==> HubsFold(b, hs, acc).value.breakers == AddBreakers(acc.breakers, HubBreakerRecords(b, hs))
    ensures HubsFold(b, hs, acc).Ok? ==> HubsFold(b, hs, acc).value.cts == AddCts(acc.cts, HubCtRecords(b, hs))
    decreases |hs|
  {
    if hs != [] {
      var step := HubStep(b, hs[0], acc);
      if step.Ok? {
        assert HubsFold(b, hs, acc) == HubsFold(b, hs[1..], step.value);
        HubsFoldRecords(b, hs[1..], step.value);
        AddBreakersConcat(acc.breakers, Fetched(b.hubBreakers(hs[0].id)), HubBreakerRecords(b, hs[1..]));
        AddCtsConcat(acc.cts, Fetched(b.hubCts(hs[0].id)), HubCtRecords(b, hs[1..]));
      }
    }
  }

  /** One hub step keeps every record under its own id. */
  lemma HubStepKeyed(b: Backend, h: Hub, acc: Found)
    requires Keyed(acc)
    ensures HubStep(b, h, acc).Ok? ==> Keyed(HubStep(b, h, acc).value)
  {
    var withHub := acc.(whems := acc.whems[h.id := h]);
    assert Keyed(withHub);
  }

  /** The fold keeps every record under its own id. */
  lemma {:induction false} HubsFoldKeyed(b: Backend, hs: seq<Hub>, acc: Found)
    requires Keyed(acc)
    ensures HubsFold(b, hs, acc).Ok? ==> Keyed(HubsFold(b, hs, acc).value)
    decreases |hs|
  {
    if hs != [] {
      var step := HubStep(b, hs[0], acc);
      if step.Ok? {
        HubStepKeyed(b, hs[0], acc);
        HubsFoldKeyed(b, hs[1..], step.value);
      }
    }
  }

  lemma HubIdsSplit(b: Backend, hs: seq<Hub>)
    requires hs != []
    ensures HubIds(hs) == {hs[0].id} + HubIds(hs[1..])
    ensures HubChildAuthError(b, hs) <==> HubAuthError(b, hs[0].id) || HubChildAuthError(b, hs[1..])
    ensures HubBreakerIds(b, hs) == FetchedBreakerIds(b.hubBreakers(hs[0].id)) + HubBreakerIds(b, hs[1..])
    ensures HubCtKeys(b, hs) == FetchedCtKeys(b.hubCts(hs[0].id)) + HubCtKeys(b, hs[1..])
  {
    assert forall g :: g in hs <==> g == hs[0] || g in hs[1..];
  }

  /** Breaker ids the panels' breaker fetches contribute. */
  function PanelBreakerIds(b: Backend, ps: seq<Panel>): set<string>
    decreases |ps|
  {
    if ps == [] then {} else FetchedBreakerIds(b.panelBreakers(ps[0].id)) + PanelBreakerIds(b, ps[1..])
  }

  /** True when the bandwidth reset or the breaker fetch of a discovered panel answers with an authentication error. */
  predicate PanelAuthError(b: Backend, id: string) {
    b.panelBandwidthReset(id).AuthErr? || b.panelBreakers(id).AuthErr?
  }

  predicate PanelChildAuthError(b: Backend, ps: seq<Panel>) {
    exists p :: p in ps && PanelAuthError(b, p.id)
  }

  /** The panels of one residence, in order: each panel is kept, its bandwidth reset, then its breakers fetched. */
  function PanelsFold(b: Backend, ps: seq<Panel>, acc: Found): (r: Call<Found>)
    ensures !r.ConnErr?
    ensures r.AuthErr? <==> PanelChildAuthError(b, ps)
    ensures r.Ok? ==> r.value.panels.Keys == acc.panels.Keys + PanelIds(ps)
    ensures r.Ok? ==> r.value.whems == acc.whems && r.value.cts == acc.cts
    ensures r.Ok? ==> r.value.breakers.Keys == acc.breakers.Keys + PanelBreakerIds(b, ps)
    ensures r.Ok? && Keyed(acc) ==> Keyed(r.value)
    decreases |ps|
  {
    if ps == [] then Ok(acc)
    else
      var p := ps[0];
      assert forall q :: q in ps <==> q == p || q in ps[1..];
      var withPanel := acc.(panels := acc.panels[p.id := p]);
      var bs := b.panelBreakers(p.id);
      if PanelAuthError(b, p.id) then AuthErr
      else
        var a1 := if bs.Ok? then withPanel.(breakers := AddBreakers(withPanel.breakers, bs.value)) else withPanel;
        PanelsFold(b, ps[1..], a1)
  }

  /**
   * The records a successful panel fold stores: each panel and breaker key
   * holds the last record fetched under it, in panel order, or its old one.
   */
  lemma {:induction false} PanelsFoldRecords(b: Backend, ps: seq<Panel>, acc: Found)
    ensures PanelsFold(b, ps, acc).Ok? ==> PanelsFold(b, ps, acc).value.panels == AddPanels(acc.panels, ps)
    ensures PanelsFold(b, ps, acc).Ok? ==> PanelsFold(b, ps, acc).value.breakers == AddBreakers(acc.breakers, PanelBreakerRecords(b, ps))
    decreases |ps|
  {
    if ps != [] && !PanelAuthError(b, ps[0].id) {
      var p := ps[0];
      var bs := b.panelBreakers(p.id);
      var withPanel := acc.(panels := acc.panels[p.id := p]);
      var a1 := if bs.Ok? then withPanel.(breakers := AddBreakers(withPanel.breakers, bs.value)) else withPanel;
      assert PanelsFold(b, ps, acc) == PanelsFold(b, ps[1..], a1);
      PanelsFoldRecords(b, ps[1..], a1);
      AddBreakersConcat(acc.breakers, Fetched(bs), PanelBreakerRecords(b, ps[1..]));
    }
  }

  // ---------------------------------------------------------------------
  // What one residence contributes
  // ---------------------------------------------------------------------

  function FetchedHubIds(c: Call<seq<Hub>>): set<string> {
    if c.Ok? then HubIds(c.value) else {}
  }

  function FetchedPanelIds(c: Call<seq<Panel>>): set<string> {
    if c.Ok? then PanelIds(c.value) else {}
  }

  /** Breaker ids found in a residence: those of its hubs, then those of its panels. */
  function ResidenceBreakerIds(b: Backend, rid: int): set<string> {
    var hubs := b.residenceHubs(rid);
    var panels := b.residencePanels(rid);
    (if hubs.Ok? then HubBreakerIds(b, hubs.value) else {})
      + (if panels.Ok? then PanelBreakerIds(b, panels.value) else {})
  }

  /** The breaker records a residence's fetches return: its hubs', then its panels'. */
  function ResidenceBreakerRecords(b: Backend, rid: int): seq<Breaker> {
    HubBreakerRecords(b, Fetched(b.residenceHubs(rid))) + PanelBreakerRecords(b, Fetched(b.residencePanels(rid)))
  }

  function ResidenceCtRecords(b: Backend, rid: int): seq<Ct> {
    HubCtRecords(b, Fetched(b.residenceHubs(rid)))
  }

  function ResidenceCtKeys(b: Backend, rid: int): set<string> {
    var hubs := b.residenceHubs(rid);
    if hubs.Ok? then HubCtKeys(b, hubs.value) else {}
  }

  /**
   * True when a call made while discovering the residence answers with an
   * authentication error, which no handler there catches.
   */
  predicate ResidenceAuthError(b: Backend, rid: int) {
    var hubs := b.residenceHubs(rid);
    var panels := b.residencePanels(rid);
    || hubs.AuthErr?
    || (hubs.Ok? && HubChildAuthError(b, hubs.value))
    || panels.AuthErr?
    || (panels.Ok? && PanelChildAuthError(b, panels.value))
  }

  /**
   * `_discover_residence_devices`: the hubs (with their breakers and CTs),
   * then the panels (with their breakers). A connection error on the hub
   * or panel list only skips that list; an authentication error anywhere
   * escapes.
   */
  function ResidenceDevices(b: Backend, rid: int, acc: Found): (r: Call<Found>)
    ensures !r.ConnErr?
    ensures r.AuthErr? <==> ResidenceAuthError(b, rid)
    ensures r.Ok? ==> r.value.whems.Keys == acc.whems.Keys + FetchedHubIds(b.residenceHubs(rid))
    ensures r.Ok? ==> r.value.panels.Keys == acc.panels.Keys + FetchedPanelIds(b.residencePanels(rid))
    ensures r.Ok? ==> r.value.breakers.Keys == acc.breakers.Keys + ResidenceBreakerIds(b, rid)
    ensures r.Ok? ==> r.value.cts.Keys == acc.cts.Keys + ResidenceCtKeys(b, rid)
    ensures r.Ok? && Keyed(acc) ==> Keyed(r.value)
  {
    var afterHubs := HubPhase(b, b.residenceHubs(rid), acc);
    if afterHubs.AuthErr? then AuthErr
    else PanelPhase(b, b.residencePanels(rid), afterHubs.value)
  }

  /**
   * The records a residence's discovery stores: each key holds the last
   * record its fetches return under it (hubs' breakers before panels'),
   * or its old one.
   */
  lemma ResidenceDevicesRecords(b: Backend, rid: int, acc: Found)
    ensures var r := ResidenceDevices(b, rid, acc);
            && (r.Ok? ==> r.value.whems == AddHubs(acc.whems, Fetched(b.residenceHubs(rid))))
            && (r.Ok? ==> r.value.panels == AddPanels(acc.panels, Fetched(b.residencePanels(rid))))
            && (r.Ok? ==> r.value.breakers == AddBreakers(acc.breakers, ResidenceBreakerRecords(b, rid)))
            && (r.Ok? ==> r.value.cts == AddCts(acc.cts, ResidenceCtRecords(b, rid)))
  {
    var hubs := Fetched(b.residenceHubs(rid));
    var panels := Fetched(b.residencePanels(rid));
    var afterHubs := HubPhase(b, b.residenceHubs(rid), acc);
    if afterHubs.Ok? {
      HubsFoldRecords(b, hubs, acc);
      assert afterHubs.value.whems == AddHubs(acc.whems, hubs);
      assert afterHubs.value.breakers == AddBreakers(acc.breakers, HubBreakerRecords(b, hubs));
      assert afterHubs.value.cts == AddCts(acc.cts, HubCtRecords(b, hubs));
      PanelsFoldRecords(b, panels, afterHubs.value);
      AddBreakersConcat(acc.breakers, HubBreakerRecords(b, hubs), PanelBreakerRecords(b, panels));
    }
  }

  /** The hub half of a residence: a connection error on the hub list skips it. */
  function HubPhase(b: Backend, hubs: Call<seq<Hub>>, acc: Found): (r: Call<Found>)
    ensures !r.ConnErr?
    ensures r.AuthErr? <==> hubs.AuthErr? || (hubs.Ok? && HubChildAuthError(b, hubs.value))
    ensures r.Ok? ==> r.value.whems.Keys == acc.whems.Keys + FetchedHubIds(hubs) && r.value.panels == acc.panels
    ensures r.Ok? ==> r.value.breakers.Keys == acc.breakers.Keys + (if hubs.Ok? then HubBreakerIds(b, hubs.value) else {})
    ensures r.Ok? ==> r.value.cts.Keys == acc.cts.Keys + (if hubs.Ok? then HubCtKeys(b, hubs.value) else {})
    ensures r.Ok? && Keyed(acc) ==> Keyed(r.value)
  {
    if hubs.AuthErr? then AuthErr
    else if hubs.Ok? then
      if Keyed(acc) then HubsFoldKeyed(b, hubs.value, acc); HubsFold(b, hubs.value, acc)
      else HubsFold(b, hubs.value, acc)
    else Ok(acc)
  }

  /** The panel half of a residence: a connection error on the panel list skips it. */
  function PanelPhase(b: Backend, panels: Call<seq<Panel>>, acc: Found): (r: Call<Found>)
    ensures !r.ConnErr?
    ensures r.AuthErr? <==> panels.AuthErr? || (panels.Ok? && PanelChildAuthError(b, panels.value))
    ensures r.Ok? ==> r.value.panels.Keys == acc.panels.Keys + FetchedPanelIds(panels)
    ensures r.Ok? ==> r.value.whems == acc.whems && r.value.cts == acc.cts
    ensures r.Ok? ==> r.value.breakers.Keys == acc.breakers.Keys + (if panels.Ok? then PanelBreakerIds(b, panels.value) else {})
    ensures r.Ok? && Keyed(acc) ==> Keyed(r.value)
  {
    if panels.AuthErr? then AuthErr
    else if panels.Ok? then PanelsFold(b, panels.value, acc)
    else Ok(acc)
  }

  // ---------------------------------------------------------------------
  // The whole account
  // ---------------------------------------------------------------------

  /** The outcome of discovery or of a poll. */
  datatype Outcome<T> = Done(value: T) | Failed(failure: Failure)

  /** Residence ids named directly on a permission. */
  function DirectResidences(perms: seq<Permission>): set<int> {
    set p | p in perms && p.residenceId.Some? :: p.residenceId.value
  }

  /** Account ids named on a permission. */
  function Accounts(perms: seq<Permission>): set<int> {
    set p | p in perms && p.accountId.Some? :: p.accountId.value
  }

  function FetchedResidenceIds(c: Call<seq<Residence>>): set<int> {
    if c.Ok? then ResidenceIdsOf(c.value) else {}
  }

  /** Residence ids the account fetches that succeed contribute. */
  ghost function AccountResidenceIds(b: Backend, accounts: set<int>): set<int> {
    set a, x | a in accounts && x in FetchedResidenceIds(b.accountResidences(a)) :: x
  }

  /** Every residence discovery searches: the direct ones and those of the accounts. */
  ghost function ResidenceIds(b: Backend, perms: seq<Permission>): set<int> {
    DirectResidences(perms) + AccountResidenceIds(b, Accounts(perms))
  }

  ghost function HubIdsIn(b: Backend, rids: set<int>): set<string> {
    set r, x | r in rids && x in FetchedHubIds(b.residenceHubs(r)) :: x
  }

  ghost function PanelIdsIn(b: Backend, rids: set<int>): set<string> {
    set r, x | r in rids && x in FetchedPanelIds(b.residencePanels(r)) :: x
  }

  ghost function BreakerIdsIn(b: Backend, rids: set<int>): set<string> {
    set r, x | r in rids && x in ResidenceBreakerIds(b, r) :: x
  }

  ghost function CtKeysIn(b: Backend, rids: set<int>): set<string> {
    set r, x | r in rids && x in ResidenceCtKeys(b, r) :: x
  }

  /** The records the residences' fetches return, of each kind. */
  ghost function HubRecordsIn(b: Backend, rids: set<int>): set<Hub> {
    set r, x | r in rids && x in Fetched(b.residenceHubs(r)) :: x
  }

  ghost function PanelRecordsIn(b: Backend, rids: set<int>): set<Panel> {
    set r, x | r in rids && x in Fetched(b.residencePanels(r)) :: x
  }

  ghost function BreakerRecordsIn(b: Backend, rids: set<int>): set<Breaker> {
    set r, x | r in rids && x in ResidenceBreakerRecords(b, r) :: x
  }

  ghost function CtRecordsIn(b: Backend, rids: set<int>): set<Ct> {
    set r, x | r in rids && x in ResidenceCtRecords(b, r) :: x
  }

  /** Every stored device is a record the searched residences' fetches returned. */
  ghost predicate FromFetches(b: Backend, rids: set<int>, found: Found) {
    && (forall k :: k in found.whems ==> found.whems[k] in HubRecordsIn(b, rids))
    && (forall k :: k in found.panels ==> found.panels[k] in PanelRecordsIn(b, rids))
    && (forall k :: k in found.breakers ==> found.breakers[k] in BreakerRecordsIn(b, rids))
    && (forall k :: k in found.cts ==> found.cts[k] in CtRecordsIn(b, rids))
  }

  /** An authentication error that no handler of discovery catches. */
  ghost predicate DiscoveryAuthError(b: Backend, perms: seq<Permission>) {
    || (exists a :: a in Accounts(perms) && b.accountResidences(a).AuthErr?)
    || (exists r :: r in ResidenceIds(b, perms) && ResidenceAuthError(b, r))
  }

  predicate ResidencesKeyed(m: map<int, Residence>) {
    forall k :: k in m ==> m[k].id == k
  }

  /** One account's fetch: its residences on success, nothing on a connection error. */
  function AddFetched(m: map<int, Residence>, c: Call<seq<Residence>>): (r: map<int, Residence>)
    ensures r.Keys == m.Keys + FetchedResidenceIds(c)
    ensures ResidencesKeyed(m) ==> ResidencesKeyed(r)
  {
    if c.Ok? then AddResidences(m, c.value) else m
  }

  /** The last record of a fetched list stored under `k`, if any: the one a keyed store ends up holding. */
  function LatestResidence(rs: seq<Residence>, k: int): (r: Option<Residence>)
    ensures r.Some? <==> k in ResidenceIdsOf(rs)
    ensures r.Some? ==> r.value in rs && r.value.id == k
    decreases |rs|
  {
    if rs == [] then None
    else
      assert forall x :: x in rs <==> x == rs[0] || x in rs[1..];
      var later := LatestResidence(rs[1..], k);
      if later.Some? then later else if rs[0].id == k then Some(rs[0]) else None
  }

  /** The latest record under `k` is the last entry of the list with that key. */
  lemma {:induction false} LatestResidenceIsLast(rs: seq<Residence>, k: int, i: nat)
    requires i < |rs| && rs[i].id == k
    requires forall j :: i < j < |rs| ==> rs[j].id != k
    ensures LatestResidence(rs, k) == Some(rs[i])
    decreases |rs|
  {
    if i > 0 {
      assert forall j :: i - 1 < j < |rs| - 1 ==> rs[1..][j] == rs[j + 1];
      LatestResidenceIsLast(rs[1..], k, i - 1);
    } else {
      forall x | x in rs[1..]
        ensures x.id != k
      {
        var j :| 0 <= j < |rs[1..]| && rs[1..][j] == x;
        assert rs[j + 1] == x;
      }
    }
  }

  /** `for res in account_residences: residences[res.id] = res`. */
  function AddResidences(m: map<int, Residence>, rs: seq<Residence>): (r: map<int, Residence>)
    ensures r.Keys == m.Keys + ResidenceIdsOf(rs)
    ensures ResidencesKeyed(m) ==> ResidencesKeyed(r)
    ensures forall k :: k in r ==> r[k] == if LatestResidence(rs, k).Some? then LatestResidence(rs, k).value else m[k]
    decreases |rs|
  {
    if rs == [] then m
    else
      var r := AddResidences(m[rs[0].id := rs[0]], rs[1..]);
      assert forall x :: x in rs <==> x == rs[0] || x in rs[1..];
      r
  }

  /** Searching one more account adds that account's residences. */
  lemma AccountsOneMore(b: Backend, accounts: set<int>, a: int, ids: set<int>)
    requires ids == AccountResidenceIds(b, accounts)
    ensures ids + FetchedResidenceIds(b.accountResidences(a)) == AccountResidenceIds(b, accounts + {a})
  {
  }

  /** Searching one more residence adds that residence's hubs and panels. */
  lemma ResidencesOneMore(b: Backend, rids: set<int>, r: int)
    ensures HubIdsIn(b, rids + {r}) == HubIdsIn(b, rids) + FetchedHubIds(b.residenceHubs(r))
    ensures PanelIdsIn(b, rids + {r}) == PanelIdsIn(b, rids) + FetchedPanelIds(b.residencePanels(r))
  {
  }

  /** Searching one more residence adds the records its fetches return. */
  lemma RecordsOneMore(b: Backend, rids: set<int>, r: int)
    ensures forall x :: x in Fetched(b.residenceHubs(r)) ==> x in HubRecordsIn(b, rids + {r})
    ensures forall x :: x in Fetched(b.residencePanels(r)) ==> x in PanelRecordsIn(b, rids + {r})
    ensures forall x :: x in ResidenceBreakerRecords(b, r) ==> x in BreakerRecordsIn(b, rids + {r})
    ensures forall x :: x in ResidenceCtRecords(b, r) ==> x in CtRecordsIn(b, rids + {r})
    ensures HubRecordsIn(b, rids) <= HubRecordsIn(b, rids + {r}) && PanelRecordsIn(b, rids) <= PanelRecordsIn(b, rids + {r})
    ensures BreakerRecordsIn(b, rids) <= BreakerRecordsIn(b, rids + {r}) && CtRecordsIn(b, rids) <= CtRecordsIn(b, rids + {r})
  {
  }

  /** A residence search keeps every stored record one the searched residences' fetches returned. */
  lemma ResidenceFromFetches(b: Backend, searched: set<int>, rid: int, found: Found)
    requires FromFetches(b, searched, found)
    ensures ResidenceDevices(b, rid, found).Ok? ==> FromFetches(b, searched + {rid}, ResidenceDevices(b, rid, found).value)
  {
    if ResidenceDevices(b, rid, found).Ok? {
      ResidenceDevicesRecords(b, rid, found);
      RecordsOneMore(b, searched, rid);
      var s := searched + {rid};
      AddHubsWithin(found.whems, Fetched(b.residenceHubs(rid)), HubRecordsIn(b, s));
      AddPanelsWithin(found.panels, Fetched(b.residencePanels(rid)), PanelRecordsIn(b, s));
      AddBreakersWithin(found.breakers, ResidenceBreakerRecords(b, rid), BreakerRecordsIn(b, s));
      AddCtsWithin(found.cts, ResidenceCtRecords(b, rid), CtRecordsIn(b, s));
    }
  }

  /** Searching one more residence adds that residence's breakers and CTs. */
  lemma ResidenceChildrenOneMore(b: Backend, rids: set<int>, r: int)
    ensures BreakerIdsIn(b, rids + {r}) == BreakerIdsIn(b, rids) + ResidenceBreakerIds(b, r)
    ensures CtKeysIn(b, rids + {r}) == CtKeysIn(b, rids) + ResidenceCtKeys(b, r)
  {
  }

  /**
   * The account path: each account's residences are fetched and kept by
   * id; an account whose fetch fails to connect is skipped, and an
   * authentication error escapes (`None`).
   */
  method CollectResidences(b: Backend, accounts: set<int>) returns (r: Option<map<int, Residence>>)
    ensures r.None? <==> exists a :: a in accounts && b.accountResidences(a).AuthErr?
    ensures r.Some? ==> r.value.Keys == AccountResidenceIds(b, accounts)
    ensures r.Some? ==> ResidencesKeyed(r.value)
  {
    var residences: map<int, Residence> := map[];
    var todo := accounts;
    ghost var seen := {};
    while todo != {}
      invariant Collecting(b, accounts, todo, seen, residences)
      decreases |todo|
    {
      var a := Pick(todo);
      var fetched := b.accountResidences(a);
      if fetched.AuthErr? {
        return None;
      }
      CollectingStep(b, accounts, todo, seen, residences, a);
      residences := AddFetched(residences, fetched);
      todo, seen := todo - {a}, seen + {a};
    }
    r := Some(residences);
  }

  /** Part way through the accounts: `residences` holds those of `seen`, none of which failed. */
  ghost predicate Collecting(b: Backend, accounts: set<int>, todo: set<int>, seen: set<int>, residences: map<int, Residence>) {
    && todo + seen == accounts && todo !! seen
    && residences.Keys == AccountResidenceIds(b, seen)
    && ResidencesKeyed(residences)
    && forall a :: a in seen ==> !b.accountResidences(a).AuthErr?
  }

  /** One more account fetched without an authentication error extends `Collecting`. */
  lemma CollectingStep(b: Backend, accounts: set<int>, todo: set<int>, seen: set<int>, residences: map<int, Residence>, a: int)
    requires Collecting(b, accounts, todo, seen, residences) && a in todo && !b.accountResidences(a).AuthErr?
    ensures Collecting(b, accounts, todo - {a}, seen + {a}, AddFetched(residences, b.accountResidences(a)))
  {
    AccountsOneMore(b, seen, a, residences.Keys);
  }

  /** `found` holds exactly the devices of the searched residences, each under its own id. */
  ghost predicate Covers(b: Backend, searched: set<int>, found: Found) {
    && found.whems.Keys == HubIdsIn(b, searched)
    && found.panels.Keys == PanelIdsIn(b, searched)
    && found.breakers.Keys == BreakerIdsIn(b, searched)
    && found.cts.Keys == CtKeysIn(b, searched)
    && Keyed(found)
    && FromFetches(b, searched, found)
  }

  /** Part way through a search of `rids`: `searched` is covered and none of it failed. */
  ghost predicate Searching(b: Backend, rids: set<int>, left: set<int>, searched: set<int>, found: Found) {
    && left + searched == rids && left !! searched
    && Covers(b, searched, found)
    && forall x :: x in searched ==> !ResidenceAuthError(b, x)
  }

  /** Moving one residence from the unsearched to the searched side keeps the two a partition of the same set. */
  lemma MoveOne(left: set<int>, searched: set<int>, rid: int)
    requires rid in left && left !! searched
    ensures (left - {rid}) + (searched + {rid}) == left + searched
    ensures (left - {rid}) !! (searched + {rid})
    ensures |left - {rid}| < |left|
  {
  }

  /** One more residence searched: `Covers` extends to it unless an authentication error escapes. */
  method SearchOne(b: Backend, ghost rids: set<int>, left: set<int>, ghost searched: set<int>, found: Found)
    returns (r: Call<Found>, left': set<int>, ghost searched': set<int>)
    requires left != {} && Searching(b, rids, left, searched, found)
    ensures !r.ConnErr?
    ensures r.AuthErr? ==> exists x :: x in rids && ResidenceAuthError(b, x)
    ensures r.Ok? ==> Searching(b, rids, left', searched', r.value) && |left'| < |left|
  {
    var rid := Pick(left);
    r := ResidenceDevices(b, rid, found);
    ResidencesOneMore(b, searched, rid);
    ResidenceFromFetches(b, searched, rid, found);
    ResidenceChildrenOneMore(b, searched, rid);
    left', searched' := left - {rid}, searched + {rid};
    MoveOne(left, searched, rid);
  }

  /** Every residence's devices, searched in any order; an authentication error escapes. */
  method SearchResidences(b: Backend, rids: set<int>) returns (r: Call<Found>)
    ensures !r.ConnErr?
    ensures r.AuthErr? <==> exists x :: x in rids && ResidenceAuthError(b, x)
    ensures r.Ok? ==> Covers(b, rids, r.value)
  {
    var found := NONE_FOUND;
    var left := rids;
    ghost var searched := {};
    while left != {}
      invariant Searching(b, rids, left, searched, found)
      decreases |left|
    {
      var step;
      step, left, searched := SearchOne(b, rids, left, searched, found);
      if !step.Ok? {
        return AuthErr;
      }
      found := step.value;
    }
    r := Ok(found);
  }

  /**
   * `_discover_devices`: read the permissions, collect the residences
   * (direct ones and those of each account), then discover each
   * residence's devices into a store that holds only the account
   * residences.
   */
  method DiscoverDevices(b: Backend) returns (r: Outcome<LevitonData>)
    ensures b.permissions.AuthErr? ==> r == Failed(AuthFailed)
    ensures b.permissions.ConnErr? ==> r == Failed(UpdateFailed)
    ensures b.permissions.Ok? ==> (r.Failed? <==> DiscoveryAuthError(b, b.permissions.value))
    ensures b.permissions.Ok? && r.Failed? ==> r.failure == Unhandled
    ensures r.Done? ==> b.permissions.Ok?
    ensures r.Done? ==> r.value.residences.Keys == AccountResidenceIds(b, Accounts(b.permissions.value))
    ensures r.Done? ==> forall k :: k in r.value.residences ==> r.value.residences[k].id == k
    ensures r.Done? ==> r.value.whems.Keys == HubIdsIn(b, ResidenceIds(b, b.permissions.value))
    ensures r.Done? ==> r.value.panels.Keys == PanelIdsIn(b, ResidenceIds(b, b.permissions.value))
    ensures r.Done? ==> r.value.breakers.Keys == BreakerIdsIn(b, ResidenceIds(b, b.permissions.value))
    ensures r.Done? ==> r.value.cts.Keys == CtKeysIn(b, ResidenceIds(b, b.permissions.value))
    ensures r.Done? ==> Keyed(Found(r.value.whems, r.value.panels, r.value.breakers, r.value.cts))
    ensures r.Done? ==> FromFetches(b, ResidenceIds(b, b.permissions.value), Found(r.value.whems, r.value.panels, r.value.breakers, r.value.cts))
    ensures r.Done? ==> r.value.dailyBaselines == map[]
  {
    if !b.permissions.Ok? {
      return Failed(MapError(b.permissions));
    }
    var perms := b.permissions.value;
    var residences := CollectResidences(b, Accounts(perms));
    if residences.None? {
      return Failed(Unhandled);
    }
    var found := SearchResidences(b, DirectResidences(perms) + residences.value.Keys);
    if !found.Ok? {
      return Failed(Unhandled);
    }
    var f := found.value;
    r := Done(LevitonData(f.whems, f.panels, f.breakers, f.cts, residences.value, map[]));
  }
}

=== FILE: energy.dfy ===
/**
 * Energy accounting: accumulation of live deltas, correction of delta
 * values read back over REST, daily baselines, the persisted lifetime
 * cache and the high-water clamp for ever-increasing sensors.
 *
 * Energy is counted in integer thousandths of a kWh, so `round(x, 3)` is
 * the identity and `x > c * 0.5` reads `2 * x > c`.
 */
module Energy {
  import opened Wrappers
  import opened Values
  import opened Store

  // ---------------------------------------------------------------------
  // Live accumulation (streaming deltas)
  // ---------------------------------------------------------------------

  /**
   * The running total after one streamed reading `delta` arrives for a
   * counter that stood at `current` (missing counts as 0). A reading above
   * half of a positive total is itself a lifetime total and replaces the
   * running total (never lowering it); any other reading is a delta.
   */
  function Accumulate(delta: int, current: int): (r: int)
    ensures current > 0 && 2 * delta > current ==> r == Max(delta, current)
    ensures current <= 0 || 2 * delta <= current ==> r == current + delta
    ensures current >= 0 && delta >= 0 ==> r >= current
  {
    if current > 0 && 2 * delta > current then Max(delta, current) else current + delta
  }

  /**
   * Rewrites one counter of a streamed payload against the device's stored
   * attributes; a counter absent from the payload is left alone.
   */
  function AccumulateSlot(payload: Fields, stored: Fields, s: Slot): (r: Fields)
    ensures r.Keys == payload.Keys
    ensures forall k :: k in payload && k != WireKey(s) ==> r[k] == payload[k]
    ensures IntOf(payload, WireKey(s)).None? ==> r == payload
    ensures IntOf(payload, WireKey(s)).Some? ==>
              r[WireKey(s)] == Int(Accumulate(IntOf(payload, WireKey(s)).value, OrZero(IntOf(stored, WireKey(s)))))
  {
    match IntOf(payload, WireKey(s))
    case None => payload
    case Some(delta) => payload[WireKey(s) := Int(Accumulate(delta, OrZero(IntOf(stored, WireKey(s)))))]
  }

  lemma WireKeysDistinct()
    ensures forall s, t :: s != t ==> WireKey(s) != WireKey(t)
  {
  }

  /** The counter a wire attribute holds is determined by the attribute. */
  lemma WireKeyInjective()
    ensures forall s, t :: WireKey(s) == WireKey(t) ==> s == t
  {
    WireKeysDistinct();
  }

  /** True when `r` is `payload` with each listed counter accumulated onto `stored`. */
  ghost predicate AccumulatedFrom(r: Fields, payload: Fields, stored: Fields, slots: seq<Slot>) {
    && r.Keys == payload.Keys
    && (forall k :: k in payload && !(SlotOf(k).Some? && SlotOf(k).value in slots) ==> r[k] == payload[k])
    && (forall s :: s in slots && IntOf(payload, WireKey(s)).Some? ==>
          r[WireKey(s)] == Int(Accumulate(IntOf(payload, WireKey(s)).value, OrZero(IntOf(stored, WireKey(s))))))
    && (forall s :: s in slots && IntOf(payload, WireKey(s)).None? && WireKey(s) in payload ==>
          r[WireKey(s)] == payload[WireKey(s)])
  }

  /** Accumulating one more, not yet accumulated, counter extends `AccumulatedFrom`. */
  lemma AccumulateStep(r: Fields, payload: Fields, stored: Fields, slots: seq<Slot>, s: Slot)
    requires AccumulatedFrom(r, payload, stored, slots)
    requires s !in slots
    ensures AccumulatedFrom(AccumulateSlot(r, stored, s), payload, stored, slots + [s])
  {
    assert forall t :: t in slots + [s] <==> t in slots || t == s;
  }

  /** The live hook for a breaker notification: consumption, pole 2 and import. */
  function AccumulateBreakerEnergy(payload: Fields, b: Breaker): (r: Fields)
    ensures AccumulatedFrom(r, payload, b.fields, BREAKER_SLOTS)
    ensures Get(r, WireKey(Import2)) == Get(payload, WireKey(Import2))
  {
    var p1 := AccumulateSlot(payload, b.fields, Consumption);
    var p2 := AccumulateSlot(p1, b.fields, Consumption2);
    var p3 := AccumulateSlot(p2, b.fields, Import);
    AccumulateStep(payload, payload, b.fields, [], Consumption);
    AccumulateStep(p1, payload, b.fields, [Consumption], Consumption2);
    AccumulateStep(p2, payload, b.fields, [Consumption, Consumption2], Import);
    assert [Consumption, Consumption2] + [Import] == BREAKER_SLOTS;
    WireKeysDistinct();
    p3
  }

  /** The live hook for a CT notification: all four counters. */
  function AccumulateCtEnergy(payload: Fields, c: Ct): (r: Fields)
    ensures AccumulatedFrom(r, payload, c.fields, CT_SLOTS)
  {
    var p1 := AccumulateSlot(payload, c.fields, Consumption);
    var p2 := AccumulateSlot(p1, c.fields, Consumption2);
    var p3 := AccumulateSlot(p2, c.fields, Import);
    var p4 := AccumulateSlot(p3, c.fields, Import2);
    AccumulateStep(payload, payload, c.fields, [], Consumption);
    AccumulateStep(p1, payload, c.fields, [Consumption], Consumption2);
    AccumulateStep(p2, payload, c.fields, [Consumption, Consumption2], Import);
    AccumulateStep(p3, payload, c.fields, [Consumption, Consumption2, Import], Import2);
    assert [Consumption, Consumption2, Import] + [Import2] == CT_SLOTS;
    p4
  }

  /** The running total after a series of streamed readings. */
  function AccumulateRun(current: int, deltas: seq<int>): int
    decreases |deltas|
  {
    if deltas == [] then current else AccumulateRun(Accumulate(deltas[0], current), deltas[1..])
  }

  function Sum(xs: seq<int>): int
    decreases |xs|
  {
    if xs == [] then 0 else xs[0] + Sum(xs[1..])
  }

  /**
   * Non-negative readings that each stay at or below half of the starting
   * total are all treated as deltas: the running total ends at the start
   * plus their sum, never having dropped.
   */
  lemma {:induction false} AccumulateRunAddsDeltas(current: int, deltas: seq<int>)
    requires current >= 0
    requires forall i :: 0 <= i < |deltas| ==> 0 <= deltas[i] && 2 * deltas[i] <= current
    ensures AccumulateRun(current, deltas) == current + Sum(deltas)
    decreases |deltas|
  {
    if deltas != [] {
      var next := Accumulate(deltas[0], current);
      assert next == current + deltas[0];
      AccumulateRunAddsDeltas(next, deltas[1..]);
    }
  }

  /** Non-negative readings never lower the running total. */
  lemma {:induction false} AccumulateRunMonotone(current: int, deltas: seq<int>)
    requires current >= 0
    requires forall i :: 0 <= i < |deltas| ==> deltas[i] >= 0
    ensures AccumulateRun(current, deltas) >= current
    decreases |deltas|
  {
    if deltas != [] {
      AccumulateRunMonotone(Accumulate(deltas[0], current), deltas[1..]);
    }
  }

  /** The live-notification examples: 3400.0 + 0.25, 1500.0 + 0.1, 5000.0 + 0.5, and a full reading 3400.5. */
  lemma AccumulateExamples()
    ensures Accumulate(250, 3400000) == 3400250
    ensures Accumulate(100, 1500000) == 1500100
    ensures Accumulate(500, 5000000) == 5000500
    ensures Accumulate(3400500, 3400000) == 3400500
    ensures Accumulate(250, 0) == 250
  {
  }

  // ---------------------------------------------------------------------
  // Readings and the persisted lifetime cache
  // ---------------------------------------------------------------------

  /** The counter value the store currently holds for `k`, if any. */
  function Reading(data: LevitonData, k: EnergyKey): (r: Option<int>)
    ensures r.Some? && k.device.BreakerRef? ==>
              k.device.breaker in data.breakers && k.slot in BREAKER_SLOTS
    ensures r.Some? && k.device.CtRef? ==> k.device.ct in data.cts
  {
    match k.device
    case BreakerRef(id) =>
      if id in data.breakers && k.slot in BREAKER_SLOTS then data.breakers[id].Energy(k.slot) else None
    case CtRef(id) =>
      if id in data.cts then data.cts[id].Energy(k.slot) else None
  }

  /** Every counter the store could hold. */
  function Candidates(data: LevitonData): set<EnergyKey> {
    (set id, s | id in data.breakers && s in BREAKER_SLOTS :: EnergyKey(BreakerRef(id), s))
    + (set id, s | id in data.cts && s in CT_SLOTS :: EnergyKey(CtRef(id), s))
  }

  /**
   * All counters present in the store: what the lifetime cache is
   * overwritten with (each breaker's three and each CT's four, when set).
   */
  function Readings(data: LevitonData): (r: map<EnergyKey, int>)
    ensures forall k :: k in r <==> Reading(data, k).Some?
    ensures forall k :: k in r ==> r[k] == Reading(data, k).value
  {
    forall k | Reading(data, k).Some? ensures k in Candidates(data) {
      ReadingIsCandidate(data, k);
    }
    map k | k in Candidates(data) && Reading(data, k).Some? :: Reading(data, k).value
  }

  /** `save_lifetime_energy`: the persisted cache becomes exactly the present counters. */
  function SaveLifetimeEnergy(data: LevitonData): (stored: map<EnergyKey, int>)
    ensures forall id, s :: id in data.breakers && s in BREAKER_SLOTS && data.breakers[id].Energy(s).Some? ==>
              EnergyKey(BreakerRef(id), s) in stored && stored[EnergyKey(BreakerRef(id), s)] == data.breakers[id].Energy(s).value
    ensures forall id, s :: id in data.cts && data.cts[id].Energy(s).Some? ==>
              EnergyKey(CtRef(id), s) in stored && stored[EnergyKey(CtRef(id), s)] == data.cts[id].Energy(s).value
    ensures forall k :: k in stored ==> Reading(data, k) == Some(stored[k])
    // breakers report three counters; the second import counter is a clamp's only
    ensures forall id :: EnergyKey(BreakerRef(id), Import2) !in stored
  {
    Readings(data)
  }

  /**
   * What one REST value does against its cached lifetime value; `value` is
   * what the cache holds afterwards.
   */
  datatype Fix =
    | Keep(value: int)     // plausible lifetime value, cache already ahead or equal
    | Adopt(value: int)    // new or larger lifetime value: cache it
    | Restore(value: int)  // a streaming delta: add it to the cached lifetime

  function Decide(rest: int, cached: Option<int>): (f: Fix)
    ensures f.Restore? <==> cached.Some? && 2 * rest < cached.value
    ensures f.Restore? ==> f.value == cached.value + rest
    ensures f.Adopt? <==> (cached.None? || rest > cached.value) && !f.Restore?
    ensures f.Adopt? ==> f.value == rest
    ensures f.Keep? <==> cached.Some? && cached.value <= 2 * rest && rest <= cached.value
    ensures f.Keep? ==> f.value == cached.value
  {
    if cached.Some? && 2 * rest < cached.value then Restore(cached.value + rest)
    else if cached.None? || rest > cached.value then Adopt(rest)
    else Keep(cached.value)
  }

  function Lookup<K, V>(m: map<K, V>, k: K): (r: Option<V>)
    ensures r.Some? <==> k in m
    ensures r.Some? ==> r.value == m[k]
  {
    if k in m then Some(m[k]) else None
  }

  /** The decision for every present counter. */
  function Fixes(readings: map<EnergyKey, int>, cache: map<EnergyKey, int>): (r: map<EnergyKey, Fix>)
    ensures r.Keys == readings.Keys
  {
    map k | k in readings :: Decide(readings[k], Lookup(cache, k))
  }

  /** Restored value for counter `k`, if its decision is a restore. */
  function RestoredValue(fixes: map<EnergyKey, Fix>, k: EnergyKey): (r: Option<int>)
    ensures r.Some? <==> k in fixes && fixes[k].Restore?
    ensures r.Some? ==> r.value == fixes[k].value
  {
    if k in fixes && fixes[k].Restore? then Some(fixes[k].value) else None
  }

  /** The restored counters among `slots`, under their wire attribute. */
  function Restores(dev: DeviceRef, fixes: map<EnergyKey, Fix>, slots: seq<Slot>): (m: Fields)
    ensures forall s :: s in slots && RestoredValue(fixes, EnergyKey(dev, s)).Some? ==>
              WireKey(s) in m && m[WireKey(s)] == Int(RestoredValue(fixes, EnergyKey(dev, s)).value)
    ensures forall s :: WireKey(s) in m ==> s in slots && RestoredValue(fixes, EnergyKey(dev, s)).Some?
    ensures forall k :: k in m ==> IsEnergyWireKey(k)
  {
    WireKeyInjective();
    map s | s in slots && RestoredValue(fixes, EnergyKey(dev, s)).Some? ::
      WireKey(s) := Int(RestoredValue(fixes, EnergyKey(dev, s)).value)
  }

  /**
   * A device's attributes with each listed counter whose decision is a
   * restore overwritten by the restored value (`setattr`).
   */
  function RestoreFields(fields: Fields, dev: DeviceRef, fixes: map<EnergyKey, Fix>, slots: seq<Slot>): (r: Fields)
    ensures forall k :: k in fields && !IsEnergyWireKey(k) ==> k in r && r[k] == fields[k]
    ensures forall k :: k in r ==> k in fields || IsEnergyWireKey(k)
  {
    fields + Restores(dev, fixes, slots)
  }

  /** The store with every restored counter written back. */
  function Corrected(data: LevitonData, fixes: map<EnergyKey, Fix>): (r: LevitonData)
    ensures SameDevices(data, r)
    ensures forall id :: id in data.breakers ==>
              r.breakers[id].id == data.breakers[id].id && r.breakers[id].kind == data.breakers[id].kind
    ensures forall id :: id in data.cts ==> r.cts[id].id == data.cts[id].id
    ensures r.whems == data.whems && r.panels == data.panels
  {
    data.(breakers := RestoredBreakers(data.breakers, fixes), cts := RestoredCts(data.cts, fixes))
  }

  function RestoredBreakers(breakers: map<string, Breaker>, fixes: map<EnergyKey, Fix>): (r: map<string, Breaker>)
    ensures r.Keys == breakers.Keys
    ensures forall id :: id in breakers ==>
              r[id] == breakers[id].(fields := RestoreFields(breakers[id].fields, BreakerRef(id), fixes, BREAKER_SLOTS))
  {
    map id | id in breakers :: breakers[id].(fields := RestoreFields(breakers[id].fields, BreakerRef(id), fixes, BREAKER_SLOTS))
  }

  function RestoredCts(cts: map<string, Ct>, fixes: map<EnergyKey, Fix>): (r: map<string, Ct>)
    ensures r.Keys == cts.Keys
    ensures forall id :: id in cts ==> r[id] == cts[id].(fields := RestoreFields(cts[id].fields, CtRef(id), fixes, CT_SLOTS))
  {
    map id | id in cts :: cts[id].(fields := RestoreFields(cts[id].fields, CtRef(id), fixes, CT_SLOTS))
  }

  /** A present counter is a candidate. */
  lemma ReadingIsCandidate(data: LevitonData, k: EnergyKey)
    requires Reading(data, k).Some?
    ensures k in Candidates(data)
  {
    match k.device
    case BreakerRef(id) =>
    case CtRef(id) =>
      CtReportsEverySlot(k.slot);
  }

  /** A CT clamp reports every counter. */
  lemma CtReportsEverySlot(s: Slot)
    ensures s in CT_SLOTS
  {
    match s
    case Consumption => assert CT_SLOTS[0] == s;
    case Consumption2 => assert CT_SLOTS[1] == s;
    case Import => assert CT_SLOTS[2] == s;
    case Import2 => assert CT_SLOTS[3] == s;
  }

  /** Writing back restores changes exactly the restored counters. */
  lemma ReadingCorrected(data: LevitonData, fixes: map<EnergyKey, Fix>, corrected: LevitonData, k: EnergyKey)
    requires k in fixes ==> Reading(data, k).Some?
    requires corrected == Corrected(data, fixes)
    ensures RestoredValue(fixes, k).Some? ==> Reading(corrected, k) == RestoredValue(fixes, k)
    ensures RestoredValue(fixes, k).None? ==> Reading(corrected, k) == Reading(data, k)
  {
    if k.device.BreakerRef? {
      ReadingCorrectedBreaker(data, fixes, k);
    } else {
      ReadingCorrectedCt(data, fixes, k);
    }
  }

  /** The counter a device reports after its restores are written back. */
  lemma RestoredCounter(fields: Fields, dev: DeviceRef, fixes: map<EnergyKey, Fix>, slots: seq<Slot>, s: Slot)
    requires s in slots
    ensures RestoredValue(fixes, EnergyKey(dev, s)).Some? ==>
              IntOf(RestoreFields(fields, dev, fixes, slots), WireKey(s)) == RestoredValue(fixes, EnergyKey(dev, s))
    ensures RestoredValue(fixes, EnergyKey(dev, s)).None? ==>
              IntOf(RestoreFields(fields, dev, fixes, slots), WireKey(s)) == IntOf(fields, WireKey(s))
  {
    var m := Restores(dev, fixes, slots);
    assert RestoredValue(fixes, EnergyKey(dev, s)).None? ==> WireKey(s) !in m;
  }

  lemma ReadingCorrectedBreaker(data: LevitonData, fixes: map<EnergyKey, Fix>, k: EnergyKey)
    requires k in fixes ==> Reading(data, k).Some?
    requires k.device.BreakerRef?
    ensures RestoredValue(fixes, k).Some? ==> Reading(Corrected(data, fixes), k) == RestoredValue(fixes, k)
    ensures RestoredValue(fixes, k).None? ==> Reading(Corrected(data, fixes), k) == Reading(data, k)
  {
    var id := k.device.breaker;
    var breakers := Corrected(data, fixes).breakers;
    assert k == EnergyKey(BreakerRef(id), k.slot);
    if id in data.breakers && k.slot in BREAKER_SLOTS {
      var fields := data.breakers[id].fields;
      assert breakers[id].fields == RestoreFields(fields, BreakerRef(id), fixes, BREAKER_SLOTS);
      RestoredCounter(fields, BreakerRef(id), fixes, BREAKER_SLOTS, k.slot);
    } else {
      assert k !in fixes;
    }
  }

  lemma ReadingCorrectedCt(data: LevitonData, fixes: map<EnergyKey, Fix>, k: EnergyKey)
    requires k in fixes ==> Reading(data, k).Some?
    requires k.device.CtRef?
    ensures RestoredValue(fixes, k).Some? ==> Reading(Corrected(data, fixes), k) == RestoredValue(fixes, k)
    ensures RestoredValue(fixes, k).None? ==> Reading(Corrected(data, fixes), k) == Reading(data, k)
  {
    var id := k.device.ct;
    if id in data.cts {
      CorrectedCtCounter(data, fixes, id, k.slot);
    } else {
      assert k !in fixes;
    }
  }

  lemma CorrectedCtCounter(data: LevitonData, fixes: map<EnergyKey, Fix>, id: string, s: Slot)
    requires id in data.cts
    ensures var k := EnergyKey(CtRef(id), s);
      && (RestoredValue(fixes, k).Some? ==> Reading(Corrected(data, fixes), k) == RestoredValue(fixes, k))
      && (RestoredValue(fixes, k).None? ==> Reading(Corrected(data, fixes), k) == Reading(data, k))
  {
    var fields := data.cts[id].fields;
    assert Corrected(data, fixes).cts[id].fields == RestoreFields(fields, CtRef(id), fixes, CT_SLOTS);
    CtReportsEverySlot(s);
    RestoredCounter(fields, CtRef(id), fixes, CT_SLOTS, s);
  }

  /** The outcome of `correct_energy_values`. */
  datatype Correction = Correction(data: LevitonData, cache: map<EnergyKey, int>, saved: bool)

  /**
   * What `correct_energy_values` promises for one counter `k`, given the
   * present readings and the cache it started from.
   */
  ghost predicate CorrectedKey(r: Correction, data: LevitonData, readings: map<EnergyKey, int>, cache: map<EnergyKey, int>, k: EnergyKey) {
    && (k in readings && k in cache && 2 * readings[k] < cache[k] ==>
          k in r.cache && r.cache[k] == cache[k] + readings[k] && Reading(r.data, k) == Some(cache[k] + readings[k]))
    && (k in readings && (k !in cache || (readings[k] > cache[k] && 2 * readings[k] >= cache[k])) ==>
          k in r.cache && r.cache[k] == readings[k] && Reading(r.data, k) == Some(readings[k]))
    && (k in readings && k in cache && cache[k] <= 2 * readings[k] && readings[k] <= cache[k] ==>
          k in r.cache && r.cache[k] == cache[k] && Reading(r.data, k) == Some(readings[k]))
    && (k !in readings ==> Lookup(r.cache, k) == Lookup(cache, k) && Reading(r.data, k).None?)
  }

  /**
   * `correct_energy_values`: compares every present counter with the
   * persisted lifetime cache (a missing store reads as empty). A value
   * below half of its cached lifetime is a streaming delta and is replaced,
   * in the store and the cache, by the cached lifetime plus the delta; a
   * new or larger value is cached as is; the cache is saved iff something
   * changed.
   */
  function CorrectEnergy(data: LevitonData, stored: Option<map<EnergyKey, int>>): (r: Correction)
    ensures SameDevices(data, r.data)
    ensures forall k :: CorrectedKey(r, data, Readings(data), stored.GetOr(map[]), k)
    ensures r.saved <==> exists k :: k in Readings(data) && !Decide(Readings(data)[k], Lookup(stored.GetOr(map[]), k)).Keep?
  {
    var readings := Readings(data);
    var cache := stored.GetOr(map[]);
    var fixes := Fixes(readings, cache);
    var newCache := map k | k in cache.Keys + fixes.Keys :: if k in fixes then fixes[k].value else cache[k];
    var changed := exists k :: k in fixes && !fixes[k].Keep?;
    var r := Correction(Corrected(data, fixes), newCache, changed);
    CorrectEnergyKeys(data, readings, cache, fixes, r);
    r
  }

  lemma CorrectEnergyKeys(data: LevitonData, readings: map<EnergyKey, int>, cache: map<EnergyKey, int>,
                          fixes: map<EnergyKey, Fix>, r: Correction)
    requires readings == Readings(data) && fixes == Fixes(readings, cache)
    requires r.data == Corrected(data, fixes)
    requires r.cache == map k | k in cache.Keys + fixes.Keys :: if k in fixes then fixes[k].value else cache[k]
    requires r.saved == exists k :: k in fixes && !fixes[k].Keep?
    ensures forall k :: CorrectedKey(r, data, readings, cache, k)
    ensures r.saved <==> exists k :: k in readings && !Decide(readings[k], Lookup(cache, k)).Keep?
  {
    forall k ensures CorrectedKey(r, data, readings, cache, k) {
      CorrectionAt(data, readings, cache, fixes, r, k);
    }
  }

  /** One counter of `correct_energy_values`. */
  lemma CorrectionAt(data: LevitonData, readings: map<EnergyKey, int>, cache: map<EnergyKey, int>,
                     fixes: map<EnergyKey, Fix>, r: Correction, k: EnergyKey)
    requires readings == Readings(data) && fixes == Fixes(readings, cache)
    requires r.data == Corrected(data, fixes)
    requires r.cache == map k | k in cache.Keys + fixes.Keys :: if k in fixes then fixes[k].value else cache[k]
    ensures CorrectedKey(r, data, readings, cache, k)
  {
    ReadingCorrected(data, fixes, r.data, k);
    NewCacheAt(cache, fixes, r.cache, k);
    CorrectedKeyHolds(data, readings, cache, fixes, r, k);
  }

  /** The cache after correction: every decided counter's value, the other entries kept. */
  lemma NewCacheAt(cache: map<EnergyKey, int>, fixes: map<EnergyKey, Fix>, newCache: map<EnergyKey, int>, k: EnergyKey)
    requires newCache == map k | k in cache.Keys + fixes.Keys :: if k in fixes then fixes[k].value else cache[k]
    ensures k in newCache <==> k in cache || k in fixes
    ensures k in fixes ==> newCache[k] == fixes[k].value
    ensures k !in fixes && k in cache ==> newCache[k] == cache[k]
  {
  }

  lemma CorrectedKeyHolds(data: LevitonData, readings: map<EnergyKey, int>, cache: map<EnergyKey, int>,
                          fixes: map<EnergyKey, Fix>, r: Correction, k: EnergyKey)
    requires k in readings <==> Reading(data, k).Some?
    requires k in readings ==> readings[k] == Reading(data, k).value
    requires k in fixes <==> k in readings
    requires k in fixes ==> fixes[k] == Decide(readings[k], Lookup(cache, k))
    requires RestoredValue(fixes, k).Some? ==> Reading(r.data, k) == RestoredValue(fixes, k)
    requires RestoredValue(fixes, k).None? ==> Reading(r.data, k) == Reading(data, k)
    requires k in r.cache <==> k in cache || k in fixes
    requires k in fixes ==> r.cache[k] == fixes[k].value
    requires k !in fixes && k in cache ==> r.cache[k] == cache[k]
    ensures CorrectedKey(r, data, readings, cache, k)
  {
  }

  /** With non-negative counters the cache never goes down. */
  lemma CorrectEnergyCacheMonotone(data: LevitonData, stored: Option<map<EnergyKey, int>>)
    requires forall k :: k in Readings(data) ==> Readings(data)[k] >= 0
    ensures var r := CorrectEnergy(data, stored);
            forall k :: k in stored.GetOr(map[]) ==> k in r.cache && r.cache[k] >= stored.GetOr(map[])[k]
  {
    var r := CorrectEnergy(data, stored);
    forall k | k in stored.GetOr(map[]) ensures k in r.cache && r.cache[k] >= stored.GetOr(map[])[k] {
      assert CorrectedKey(r, data, Readings(data), stored.GetOr(map[]), k);
    }
  }

  /** The lifetime store after `correct_energy_values`: the new cache when it saved, the old one otherwise. */
  function Persisted(r: Correction, stored: Option<map<EnergyKey, int>>): map<EnergyKey, int> {
    if r.saved then r.cache else stored.GetOr(map[])
  }

  /**
   * After a correction every present counter is in the persisted lifetime
   * store, at or below the value held there: the next pass has a cached
   * lifetime to compare each counter against.
   */
  lemma CorrectionCoversReadings(data: LevitonData, stored: Option<map<EnergyKey, int>>)
    ensures var r := CorrectEnergy(data, stored);
            forall k :: Reading(r.data, k).Some? ==>
              k in Persisted(r, stored) && Reading(r.data, k).value <= Persisted(r, stored)[k]
  {
    var r := CorrectEnergy(data, stored);
    forall k | Reading(r.data, k).Some?
      ensures k in Persisted(r, stored) && Reading(r.data, k).value <= Persisted(r, stored)[k]
    {
      CoveredAt(data, stored, r, k);
    }
  }

  lemma CoveredAt(data: LevitonData, stored: Option<map<EnergyKey, int>>, r: Correction, k: EnergyKey)
    requires r == CorrectEnergy(data, stored) && Reading(r.data, k).Some?
    ensures k in Persisted(r, stored) && Reading(r.data, k).value <= Persisted(r, stored)[k]
  {
    var readings := Readings(data);
    var cache := stored.GetOr(map[]);
    assert CorrectedKey(r, data, readings, cache, k);
    assert k in readings;
    if !Decide(readings[k], Lookup(cache, k)).Keep? {
      assert r.saved;
    }
  }

  /**
   * With non-negative counters, a second correction pass against the cache
   * the first one produced finds nothing to do: nothing is saved, the
   * cache and every counter stay as they are.
   */
  lemma {:induction false} CorrectEnergyIdempotent(data: LevitonData, stored: Option<map<EnergyKey, int>>)
    requires forall k :: k in Readings(data) ==> Readings(data)[k] >= 0
    requires forall k :: k in stored.GetOr(map[]) ==> stored.GetOr(map[])[k] >= 0
    ensures var r := CorrectEnergy(data, stored);
            var r2 := CorrectEnergy(r.data, Some(r.cache));
            !r2.saved && r2.cache == r.cache && forall k :: Reading(r2.data, k) == Reading(r.data, k)
  {
    var cache := stored.GetOr(map[]);
    var readings := Readings(data);
    var r := CorrectEnergy(data, stored);
    var readings2 := Readings(r.data);
    var r2 := CorrectEnergy(r.data, Some(r.cache));
    forall k
      ensures k in readings2 ==> Decide(readings2[k], Lookup(r.cache, k)).Keep?
      ensures Lookup(r2.cache, k) == Lookup(r.cache, k) && Reading(r2.data, k) == Reading(r.data, k)
    {
      SecondPassKey(data, cache, readings, r, readings2, r2, k);
    }
    LookupExtensional(r2.cache, r.cache);
  }

  lemma LookupExtensional<K, V>(a: map<K, V>, b: map<K, V>)
    requires forall k :: Lookup(a, k) == Lookup(b, k)
    ensures a == b
  {
    forall k | k in a ensures k in b && a[k] == b[k] {
      assert Lookup(a, k) == Lookup(b, k);
    }
    forall k | k in b ensures k in a {
      assert Lookup(a, k) == Lookup(b, k);
    }
  }

  /** One counter of the second pass: its decision is a keep. */
  lemma SecondPassKey(data: LevitonData, cache: map<EnergyKey, int>, readings: map<EnergyKey, int>, r: Correction,
                      readings2: map<EnergyKey, int>, r2: Correction, k: EnergyKey)
    requires readings == Readings(data) && readings2 == Readings(r.data)
    requires k in readings ==> readings[k] >= 0
    requires k in cache ==> cache[k] >= 0
    requires CorrectedKey(r, data, readings, cache, k)
    requires CorrectedKey(r2, r.data, readings2, r.cache, k)
    ensures k in readings2 ==> Decide(readings2[k], Lookup(r.cache, k)).Keep?
    ensures Lookup(r2.cache, k) == Lookup(r.cache, k) && Reading(r2.data, k) == Reading(r.data, k)
  {
    assert k in readings2 <==> k in readings;
  }

  // ---------------------------------------------------------------------
  // Daily energy
  // ---------------------------------------------------------------------

  /**
   * `round(x, 2)` on a count of thousandths: the nearest multiple of ten,
   * halves rounding up.
   */
  function Round2(x: nat): (r: nat)
    ensures r % 10 == 0
    ensures r <= x + 5 && x < r + 5
  {
    (x + 5) / 10 * 10
  }

  lemma Round2Monotone(x: nat, y: nat)
    requires x <= y
    ensures Round2(x) <= Round2(y)
  {
    assert (x + 5) / 10 <= (y + 5) / 10;
  }

  /**
   * `calc_daily_energy`: the energy since the device's midnight baseline,
   * never negative, to the hundredth; absent without a reading or a
   * baseline.
   */
  function CalcDailyEnergy(dev: DeviceRef, lifetime: Option<int>, baselines: map<DeviceRef, int>): (r: Option<nat>)
    ensures r.None? <==> lifetime.None? || dev !in baselines
    ensures r.Some? ==> r.value % 10 == 0
    ensures r.Some? && lifetime.value <= baselines[dev] ==> r.value == 0
    ensures r.Some? && lifetime.value > baselines[dev] ==>
              r.value <= lifetime.value - baselines[dev] + 5 && lifetime.value - baselines[dev] < r.value + 5
  {
    if lifetime.None? || dev !in baselines then None
    else Some(Round2(Max(0, lifetime.value - baselines[dev])))
  }

  /** More lifetime energy never shows as less daily energy. */
  lemma {:induction false} DailyEnergyMonotone(dev: DeviceRef, a: int, b: int, baselines: map<DeviceRef, int>)
    requires dev in baselines && a <= b
    ensures CalcDailyEnergy(dev, Some(a), baselines).value <= CalcDailyEnergy(dev, Some(b), baselines).value
  {
    Round2Monotone(Max(0, a - baselines[dev]), Max(0, b - baselines[dev]));
  }

  /** The lifetime a breaker's daily-energy sensor measures from its baseline. */
  predicate Snapshotted(data: LevitonData, d: DeviceRef) {
    match d
    case BreakerRef(id) => id in data.breakers && data.breakers[id].TotalEnergy().Some?
    case CtRef(id) => id in data.cts
  }

  /**
   * `snapshot_daily_baselines`: every breaker with a reading and every CT
   * gets its current lifetime total as the new baseline; the baselines of
   * other devices are kept.
   */
  function SnapshotDailyBaselines(data: LevitonData): (r: map<DeviceRef, int>)
    ensures forall id :: id in data.breakers && data.breakers[id].TotalEnergy().Some? ==>
              BreakerRef(id) in r && r[BreakerRef(id)] == data.breakers[id].TotalEnergy().value
    ensures forall id :: id in data.cts ==> CtRef(id) in r && r[CtRef(id)] == data.cts[id].TotalEnergy()
    ensures forall d :: d in data.dailyBaselines && !Snapshotted(data, d) ==> d in r && r[d] == data.dailyBaselines[d]
    ensures forall d :: d in r ==> d in data.dailyBaselines || Snapshotted(data, d)
  {
    data.dailyBaselines + BreakerTotals(data) + CtTotals(data)
  }

  /** The current lifetime total of every breaker that has one. */
  function BreakerTotals(data: LevitonData): (m: map<DeviceRef, int>)
    ensures forall d :: d in m <==> d.BreakerRef? && Snapshotted(data, d)
    ensures forall id :: BreakerRef(id) in m ==> Snapshotted(data, BreakerRef(id)) && m[BreakerRef(id)] == data.breakers[id].TotalEnergy().value
  {
    map id | id in data.breakers && data.breakers[id].TotalEnergy().Some? ::
      BreakerRef(id) := data.breakers[id].TotalEnergy().value
  }

  /** The current lifetime total of every CT. */
  function CtTotals(data: LevitonData): (m: map<DeviceRef, int>)
    ensures forall d :: d in m <==> d.CtRef? && Snapshotted(data, d)
    ensures forall id :: CtRef(id) in m ==> id in data.cts && m[CtRef(id)] == data.cts[id].TotalEnergy()
  {
    map id | id in data.cts :: CtRef(id) := data.cts[id].TotalEnergy()
  }

  /**
   * The persisted baseline store is `None` when nothing was ever saved. A
   * non-empty stored map is adopted as is; otherwise the current values
   * are snapshotted and saved.
   */
  datatype Baselines = Baselines(data: LevitonData, stored: Option<map<DeviceRef, int>>)

  /** `load_daily_baselines`. */
  function LoadDailyBaselines(data: LevitonData, stored: Option<map<DeviceRef, int>>): (r: Baselines)
    ensures && r.stored == (if stored.Some? && |stored.value| > 0 then stored else Some(r.data.dailyBaselines))
            && r.data == data.(dailyBaselines := r.data.dailyBaselines)
            && r.data.dailyBaselines == (if stored.Some? && |stored.value| > 0 then stored.value else SnapshotDailyBaselines(data))
  {
    if stored.Some? && |stored.value| > 0 then Baselines(data.(dailyBaselines := stored.value), stored)
    else
      var d := data.(dailyBaselines := SnapshotDailyBaselines(data));
      Baselines(d, Some(d.dailyBaselines))
  }

  /**
   * A snapshot is a fixed point: snapshotting a store whose baselines were
   * just snapshotted from the same breakers and CTs changes nothing.
   */
  lemma SnapshotIdempotent(data: LevitonData, d: LevitonData)
    requires d.breakers == data.breakers && d.cts == data.cts
    requires d.dailyBaselines == SnapshotDailyBaselines(data)
    ensures SnapshotDailyBaselines(d) == d.dailyBaselines
  {
    var t := SnapshotDailyBaselines(d);
    forall x ensures (x in t <==> x in d.dailyBaselines) && (x in t ==> t[x] == d.dailyBaselines[x]) {
      SnapshotIdempotentAt(data, d, x);
    }
    MapsEqual(t, d.dailyBaselines);
  }

  lemma SnapshotIdempotentAt(data: LevitonData, d: LevitonData, x: DeviceRef)
    requires d.breakers == data.breakers && d.cts == data.cts
    requires d.dailyBaselines == SnapshotDailyBaselines(data)
    ensures x in SnapshotDailyBaselines(d) <==> x in d.dailyBaselines
    ensures x in d.dailyBaselines ==> SnapshotDailyBaselines(d)[x] == d.dailyBaselines[x]
  {
    assert Snapshotted(d, x) == Snapshotted(data, x);
  }

  /** Both persisted stores after the midnight rollover. */
  datatype Midnight = Midnight(data: LevitonData, baselines: map<DeviceRef, int>, lifetime: map<EnergyKey, int>)

  /** `handle_midnight`: snapshot and save the baselines, then save the lifetime cache. */
  function HandleMidnight(data: LevitonData): (r: Midnight)
    ensures && r.baselines == r.data.dailyBaselines
            && r.lifetime == SaveLifetimeEnergy(data)
            && r.data == data.(dailyBaselines := SnapshotDailyBaselines(data))
  {
    var d := data.(dailyBaselines := SnapshotDailyBaselines(data));
    Midnight(d, d.dailyBaselines, SaveLifetimeEnergy(data))
  }

  /** Right after midnight every breaker with a reading and every CT shows zero daily energy. */
  lemma MidnightZeroesDailyEnergy(data: LevitonData)
    ensures var m := HandleMidnight(data);
      && (forall id :: id in data.breakers && data.breakers[id].TotalEnergy().Some? ==>
            CalcDailyEnergy(BreakerRef(id), data.breakers[id].TotalEnergy(), m.data.dailyBaselines) == Some(0))
      && (forall id :: id in data.cts ==>
            CalcDailyEnergy(CtRef(id), Some(data.cts[id].TotalEnergy()), m.data.dailyBaselines) == Some(0))
  {
  }

  /** The example of a day: a lifetime of 1500.0 kWh over a 1400.0 kWh baseline is 100.0 kWh. */
  lemma DailyEnergyExample()
    ensures CalcDailyEnergy(BreakerRef("b"), Some(1500000), map[BreakerRef("b") := 1400000]) == Some(100000)
    ensures CalcDailyEnergy(BreakerRef("b"), Some(1300000), map[BreakerRef("b") := 1400000]) == Some(0)
  {
    assert Round2(100000) == 100000;
    assert Round2(0) == 0;
  }

  // ---------------------------------------------------------------------
  // High-water clamp
  // ---------------------------------------------------------------------

  /** The reported value and the high-water marks after one `clamp_increasing` call. */
  datatype Clamped = Clamped(value: int, marks: map<string, int>)

  /**
   * `clamp_increasing`: a value below the key's high-water mark reports
   * the mark; otherwise it becomes the new mark and is reported.
   */
  function ClampIncreasing(marks: map<string, int>, key: string, value: int): (r: Clamped)
    ensures key in marks && value < marks[key] ==> r.value == marks[key] && r.marks == marks
    ensures !(key in marks && value < marks[key]) ==> r.value == value && r.marks == marks[key := value]
    ensures key in r.marks && r.value == r.marks[key]
    ensures key in marks ==> r.value >= marks[key]
    ensures r.value >= value
  {
    if key in marks && value < marks[key] then Clamped(marks[key], marks)
    else Clamped(value, marks[key := value])
  }

  /** The values reported for a series of readings of one key. */
  function ClampRun(marks: map<string, int>, key: string, values: seq<int>): seq<int>
    decreases |values|
  {
    if values == [] then []
    else
      var c := ClampIncreasing(marks, key, values[0]);
      [c.value] + ClampRun(c.marks, key, values[1..])
  }

  /**
   * Whatever the readings, the reported series never decreases, never
   * reports below a reading, and never drops below an existing mark.
   */
  lemma {:induction false} ClampRunIncreasing(marks: map<string, int>, key: string, values: seq<int>)
    ensures |ClampRun(marks, key, values)| == |values|
    ensures forall i, j :: 0 <= i <= j < |values| ==> ClampRun(marks, key, values)[i] <= ClampRun(marks, key, values)[j]
    ensures forall i :: 0 <= i < |values| ==> ClampRun(marks, key, values)[i] >= values[i]
    ensures key in marks ==> forall i :: 0 <= i < |values| ==> ClampRun(marks, key, values)[i] >= marks[key]
    decreases |values|
  {
    if values != [] {
      var c := ClampIncreasing(marks, key, values[0]);
      var rest := ClampRun(c.marks, key, values[1..]);
      ClampRunIncreasing(c.marks, key, values[1..]);
      assert ClampRun(marks, key, values) == [c.value] + rest;
      forall i, j | 0 <= i <= j < |values|
        ensures ClampRun(marks, key, values)[i] <= ClampRun(marks, key, values)[j]
      {
        if i > 0 {
          assert ClampRun(marks, key, values)[i] == rest[i - 1];
          assert ClampRun(marks, key, values)[j] == rest[j - 1];
        } else if j > 0 {
          assert ClampRun(marks, key, values)[j] == rest[j - 1];
        }
      }
      forall i | 0 <= i < |values|
        ensures ClampRun(marks, key, values)[i] >= values[i]
      {
        if i > 0 {
          assert ClampRun(marks, key, values)[i] == rest[i - 1];
        }
      }
    }
  }
}

=== FILE: entities.dfy ===
/**
 * The entity layer: which breakers get entities, when an entity is
 * available (its device present, its parent hub or panel healthy), the
 * device information and unique ids, and the switch and button entities
 * with the optimistic store write each makes after a successful command.
 */
module Entities {
  import opened Wrappers
  import opened Values
  import opened Store
  import SensorDescriptions
  import Push

  /** The integration options the entity layer reads; both default to off. */
  datatype Options = Options(hideDummy: bool, readOnly: bool)

  // ---------------------------------------------------------------------
  // Which breakers get entities
  // ---------------------------------------------------------------------

  /**
   * `should_include_breaker`: never an LSBMA module itself; a placeholder
   * slot without an LSBMA only when dummies are not hidden.
   */
  function ShouldIncludeBreaker(b: Breaker, hideDummy: bool): (r: bool)
    ensures b.kind.isLsbma ==> !r
    ensures !b.kind.isLsbma && !hideDummy ==> r
    ensures !b.kind.isLsbma && hideDummy ==> (r <==> !b.kind.isPlaceholder || b.kind.hasLsbma)
  {
    if b.kind.isLsbma then false
    else if hideDummy && b.kind.isPlaceholder && !b.kind.hasLsbma then false
    else true
  }

  // ---------------------------------------------------------------------
  // Availability
  // ---------------------------------------------------------------------

  /** The store collection an entity looks its device up in. */
  datatype Collection = Breakers | Cts | Whems | Panels

  predicate Holds(data: LevitonData, c: Collection, id: string) {
    match c
    case Breakers => id in data.breakers
    case Cts => id in data.cts
    case Whems => id in data.whems
    case Panels => id in data.panels
  }

  /** A wire reference that names a hub of the store. */
  predicate KnownHub(data: LevitonData, ref: Value) {
    ref.Text? && ref.s in data.whems
  }

  /** A wire reference that names a panel of the store. */
  predicate KnownPanel(data: LevitonData, ref: Value) {
    ref.Text? && ref.s in data.panels
  }

  /** The breaker's parent is known and down: a disconnected hub, or, without a hub reference, an offline panel. */
  predicate ParentDown(data: LevitonData, b: Breaker) {
    if Truthy(b.HubRef()) then KnownHub(data, b.HubRef()) && !data.whems[b.HubRef().s].Connected()
    else Truthy(b.PanelRef()) && KnownPanel(data, b.PanelRef()) && !data.panels[b.PanelRef().s].online
  }

  /**
   * `LevitonEntity.available`: the coordinator's last update succeeded
   * (`up`) and the device is in the entity's collection; a breaker is
   * further unavailable while its parent is known and down.
   */
  function Available(up: bool, data: LevitonData, c: Collection, id: string): (r: bool)
    ensures r ==> up && Holds(data, c, id)
    ensures c != Breakers ==> (r <==> up && Holds(data, c, id))
    ensures c == Breakers && up && id in data.breakers && Truthy(data.breakers[id].HubRef()) ==>
              (r <==> !KnownHub(data, data.breakers[id].HubRef()) || data.whems[data.breakers[id].HubRef().s].Connected())
    ensures c == Breakers && up && id in data.breakers && !Truthy(data.breakers[id].HubRef()) && Truthy(data.breakers[id].PanelRef()) ==>
              (r <==> !KnownPanel(data, data.breakers[id].PanelRef()) || data.panels[data.breakers[id].PanelRef().s].online)
    ensures c == Breakers && up && id in data.breakers && !Truthy(data.breakers[id].HubRef()) && !Truthy(data.breakers[id].PanelRef()) ==> r
  {
    if !up || !Holds(data, c, id) then false
    else if c == Breakers then !ParentDown(data, data.breakers[id])
    else true
  }

  /**
   * A breaker that names a hub takes its availability from that hub
   * alone: the panels, online or not, play no part.
   */
  lemma HubOverridesPanel(up: bool, data: LevitonData, panels: map<string, Panel>, id: string)
    requires id in data.breakers && Truthy(data.breakers[id].HubRef())
    ensures Available(up, data, Breakers, id) == Available(up, data.(panels := panels), Breakers, id)
  {
  }

  // ---------------------------------------------------------------------
  // Device information and unique ids
  // ---------------------------------------------------------------------

  /** The parts of the device registry entry the integration chooses. */
  datatype DeviceInfo = DeviceInfo(identifier: string, name: Value, model: Value, via: Option<string>)

  /** `str(v)` of the values the store holds for positions and channels. */
  function Render(v: Value): (r: string)
    ensures v.Int? ==> r == IntToString(v.i)
    ensures v.Null? ==> r == "None"
    ensures v.Text? ==> r == v.s
    ensures v.Bool? ==> r == if v.b then "True" else "False"
    ensures v.Real? || v.List? || v.Dict? ==> r == ""
  {
    Str(v).GetOr("")
  }

  /** `a or b`: the first value when truthy, the second otherwise. */
  function Or(a: Value, b: Value): (r: Value)
    ensures Truthy(a) ==> r == a
    ensures !Truthy(a) ==> r == b
  {
    if Truthy(a) then a else b
  }

  const BASIC_MODELS: set<string> := {"NONE", "NONE-1", "NONE-2"}

  /**
   * `breaker_device_info`: the breaker's name or "Breaker <position>"; the
   * placeholder models shown as "Basic Breaker"; attached through its hub
   * when the hub is known, else through its panel when that is known.
   */
  function BreakerDeviceInfo(data: LevitonData, id: string): (r: DeviceInfo)
    requires id in data.breakers
    ensures r.identifier == id
    ensures var b := data.breakers[id];
            Truthy(Get(b.fields, NAME)) ==> r.name == Get(b.fields, NAME)
    ensures var b := data.breakers[id];
            !Truthy(Get(b.fields, NAME)) && b.Position().Some? ==> r.name == Text("Breaker " + IntToString(b.Position().value))
    ensures var m := Get(data.breakers[id].fields, MODEL);
            (m.Text? && m.s in BASIC_MODELS ==> r.model == Text("Basic Breaker")) &&
            (!(m.Text? && m.s in BASIC_MODELS) ==> r.model == m)
    ensures r.via.Some? ==> r.via.value in data.whems || r.via.value in data.panels
    ensures var b := data.breakers[id];
            Truthy(b.HubRef()) && KnownHub(data, b.HubRef()) ==> r.via == Some(b.HubRef().s)
    ensures var b := data.breakers[id];
            !(Truthy(b.HubRef()) && KnownHub(data, b.HubRef())) ==>
              (r.via.Some? <==> Truthy(b.PanelRef()) && KnownPanel(data, b.PanelRef())) &&
              (r.via.Some? ==> Text(r.via.value) == b.PanelRef())
  {
    var b := data.breakers[id];
    var m := Get(b.fields, MODEL);
    DeviceInfo(
      id,
      Or(Get(b.fields, NAME), Text("Breaker " + Render(Get(b.fields, POSITION)))),
      if m.Text? && m.s in BASIC_MODELS then Text("Basic Breaker") else m,
      if Truthy(b.HubRef()) && KnownHub(data, b.HubRef()) then Some(b.HubRef().s)
      else if Truthy(b.PanelRef()) && KnownPanel(data, b.PanelRef()) then Some(b.PanelRef().s)
      else None)
  }

  /** `ct_device_info`: the clamp's name or "CT Channel <channel>"; attached only to a known hub. */
  function CtDeviceInfo(data: LevitonData, key: string): (r: DeviceInfo)
    requires key in data.cts
    ensures r.identifier == key
    ensures r.model == Text("LWHEM CT")
    ensures var c := data.cts[key];
            Truthy(Get(c.fields, NAME)) ==> r.name == Get(c.fields, NAME)
    ensures var c := data.cts[key];
            !Truthy(Get(c.fields, NAME)) ==> r.name == Text("CT Channel " + Render(Get(c.fields, CHANNEL)))
    ensures var c := data.cts[key];
            r.via.Some? <==> Truthy(c.HubRef()) && KnownHub(data, c.HubRef())
    ensures r.via.Some? ==> r.via.value in data.whems && Text(r.via.value) == data.cts[key].HubRef()
  {
    var c := data.cts[key];
    DeviceInfo(
      key,
      Or(Get(c.fields, NAME), Text("CT Channel " + Render(Get(c.fields, CHANNEL)))),
      Text("LWHEM CT"),
      if Truthy(c.HubRef()) && KnownHub(data, c.HubRef()) then Some(c.HubRef().s) else None)
  }

  /** `whem_device_info`: the hub's name or "LWHEM <id>"; a hub is attached to nothing. */
  function WhemDeviceInfo(data: LevitonData, id: string): (r: DeviceInfo)
    requires id in data.whems
    ensures r.identifier == id && r.via.None?
    ensures Truthy(Get(data.whems[id].fields, NAME)) ==> r.name == Get(data.whems[id].fields, NAME)
    ensures !Truthy(Get(data.whems[id].fields, NAME)) ==> r.name == Text("LWHEM " + id)
    ensures r.model == Get(data.whems[id].fields, MODEL)
  {
    var h := data.whems[id];
    DeviceInfo(id, Or(Get(h.fields, NAME), Text("LWHEM " + id)), Get(h.fields, MODEL), None)
  }

  /** `panel_device_info`: the panel's name or "Panel <id>", model "LDATA". */
  function PanelDeviceInfo(data: LevitonData, id: string): (r: DeviceInfo)
    requires id in data.panels
    ensures r.identifier == id && r.via.None? && r.model == Text("LDATA")
    ensures Truthy(Get(data.panels[id].fields, NAME)) ==> r.name == Get(data.panels[id].fields, NAME)
    ensures !Truthy(Get(data.panels[id].fields, NAME)) ==> r.name == Text("Panel " + id)
  {
    var p := data.panels[id];
    DeviceInfo(id, Or(Get(p.fields, NAME), Text("Panel " + id)), Text("LDATA"), None)
  }

  /** The unique id `<entry unique id or "">_<device id>_<description key>`. */
  function UniqueId(entryUid: Option<string>, device: string, key: string): (r: string)
    ensures |r| == |entryUid.GetOr("")| + |device| + |key| + 2
    ensures r[..|entryUid.GetOr("")|] == entryUid.GetOr("")
    ensures r[|entryUid.GetOr("")| + 1..|entryUid.GetOr("")| + 1 + |device|] == device
    ensures r[|r| - |key|..] == key
  {
    entryUid.GetOr("") + "_" + device + "_" + key
  }

  /** Two devices never share a unique id for the same description. */
  lemma UniqueIdsDistinct(entryUid: Option<string>, d1: string, d2: string, key: string)
    requires d1 != d2
    ensures UniqueId(entryUid, d1, key) != UniqueId(entryUid, d2, key)
  {
    var n := |entryUid.GetOr("")|;
    var u1, u2 := UniqueId(entryUid, d1, key), UniqueId(entryUid, d2, key);
    if |d1| == |d2| {
      assert u1[n + 1..n + 1 + |d1|] == d1 && u2[n + 1..n + 1 + |d2|] == d2;
    } else {
      assert |u1| != |u2|;
    }
  }

  // ---------------------------------------------------------------------
  // Commands and their optimistic writes
  // ---------------------------------------------------------------------

  /**
   * How a command ends: the store after the optimistic write and whether
   * listeners were told; or the connection error surfaced as a Home
   * Assistant error; or the authentication error passed through.
   */
  datatype Outcome = Done(data: LevitonData, notified: bool) | ControlFailed | AuthRejected

  /** One wire field of one breaker set; everything else as it was. */
  function WriteField(data: LevitonData, id: string, key: string, v: Value): (r: LevitonData)
    requires id in data.breakers
    ensures r.breakers.Keys == data.breakers.Keys && id in r.breakers
    ensures r.breakers[id].id == data.breakers[id].id && r.breakers[id].kind == data.breakers[id].kind
    ensures Get(r.breakers[id].fields, key) == v
    ensures forall k :: k != key ==> Get(r.breakers[id].fields, k) == Get(data.breakers[id].fields, k)
    ensures forall other :: other in data.breakers && other != id ==> r.breakers[other] == data.breakers[other]
    ensures r == data.(breakers := r.breakers)
  {
    var b := data.breakers[id];
    data.(breakers := data.breakers[id := b.(fields := b.fields[key := v])])
  }

  /**
   * A breaker command: on success, the breaker (when still present) gets
   * `key := v` and listeners are told; on failure nothing changes.
   */
  function Command(data: LevitonData, id: string, key: string, v: Value, call: Call<()>): (r: Outcome)
    ensures r.Done? <==> call.Ok?
    ensures call.ConnErr? ==> r == ControlFailed
    ensures call.AuthErr? ==> r == AuthRejected
    ensures r.Done? ==> (r.notified <==> id in data.breakers) && r.data.breakers.Keys == data.breakers.Keys
    ensures r.Done? && id !in data.breakers ==> r.data == data
    ensures r.Done? && id in data.breakers ==> r.data == WriteField(data, id, key, v)
  {
    match call
    case Ok(_) => if id in data.breakers then Done(WriteField(data, id, key, v), true) else Done(data, false)
    case ConnErr => ControlFailed
    case AuthErr => AuthRejected
  }

  // ---------------------------------------------------------------------
  // Switches
  // ---------------------------------------------------------------------

  const REMOTE_ON := "RemoteON"
  const REMOTE_OFF := "RemoteOFF"
  const MANUAL_ON := "ManualON"

  /**
   * `LevitonBreakerSwitch.is_on` as written: none for a missing breaker;
   * the remote state when a remote command set one; otherwise on exactly
   * for ManualON.
   */
  function SwitchIsOnAsWritten(data: LevitonData, id: string): (r: Option<bool>)
    ensures r.None? <==> id !in data.breakers
    ensures id in data.breakers && data.breakers[id].RemoteState() == Some(REMOTE_ON) ==> r == Some(true)
    ensures id in data.breakers && data.breakers[id].RemoteState() == Some(REMOTE_OFF) ==> r == Some(false)
    ensures id in data.breakers && data.breakers[id].RemoteState() !in {Some(REMOTE_ON), Some(REMOTE_OFF)} ==>
              r == Some(data.breakers[id].CurrentState() == Some(MANUAL_ON))
  {
    if id !in data.breakers then None
    else
      var b := data.breakers[id];
      if b.RemoteState() == Some(REMOTE_ON) then Some(true)
      else if b.RemoteState() == Some(REMOTE_OFF) then Some(false)
      else Some(b.CurrentState() == Some(MANUAL_ON))
  }

  /** The states in which a breaker without a remote command reads on: ManualON and the communication states. */
  const ON_STATES: set<string> := {MANUAL_ON, "COMMUNICATING", "NotCommunicating", "CommunicationFailure"}

  /**
   * `is_on` as the switch's own tests expect it: a breaker that is only
   * reporting a communication state keeps reading on.
   */
  function SwitchIsOn(data: LevitonData, id: string): (r: Option<bool>)
    ensures r.None? <==> id !in data.breakers
    ensures id in data.breakers && data.breakers[id].RemoteState() == Some(REMOTE_ON) ==> r == Some(true)
    ensures id in data.breakers && data.breakers[id].RemoteState() == Some(REMOTE_OFF) ==> r == Some(false)
    ensures id in data.breakers && data.breakers[id].RemoteState() !in {Some(REMOTE_ON), Some(REMOTE_OFF)} ==>
              (r == Some(true) <==> data.breakers[id].CurrentState().Some? && data.breakers[id].CurrentState().value in ON_STATES)
  {
    if id !in data.breakers then None
    else
      var b := data.breakers[id];
      if b.RemoteState() == Some(REMOTE_ON) then Some(true)
      else if b.RemoteState() == Some(REMOTE_OFF) then Some(false)
      else Some(b.CurrentState().Some? && b.CurrentState().value in ON_STATES)
  }

  /**
   * The two readings differ on a breaker without a remote command that
   * reports COMMUNICATING: as written it reads off, the tests expect on.
   */
  lemma CommunicatingReadsOff(data: LevitonData, id: string)
    requires id in data.breakers
    requires data.breakers[id].RemoteState() == Some("")
    requires data.breakers[id].CurrentState() == Some("COMMUNICATING")
    ensures SwitchIsOnAsWritten(data, id) == Some(false)
    ensures SwitchIsOn(data, id) == Some(true)
  {
  }

  /** The two readings agree on every breaker whose state is not a communication state. */
  lemma SwitchReadingsAgree(data: LevitonData, id: string)
    requires id in data.breakers
    requires data.breakers[id].CurrentState().None? || data.breakers[id].CurrentState().value !in ON_STATES - {MANUAL_ON}
    ensures SwitchIsOn(data, id) == SwitchIsOnAsWritten(data, id)
  {
  }

  /** `async_turn_on`: on success the switch reads on and nothing but the remote state changed. */
  function TurnOn(data: LevitonData, id: string, call: Call<()>): (r: Outcome)
    ensures r.Done? <==> call.Ok?
    ensures call.ConnErr? ==> r == ControlFailed
    ensures r.Done? && id in data.breakers ==> r.notified && SwitchIsOn(r.data, id) == Some(true)
    ensures r.Done? && id in data.breakers ==> r.data == WriteField(data, id, REMOTE_STATE, Text(REMOTE_ON))
    ensures r.Done? && id !in data.breakers ==> r.data == data && !r.notified
  {
    Command(data, id, REMOTE_STATE, Text(REMOTE_ON), call)
  }

  /** `async_turn_off`: on success the switch reads off and nothing but the remote state changed. */
  function TurnOff(data: LevitonData, id: string, call: Call<()>): (r: Outcome)
    ensures r.Done? <==> call.Ok?
    ensures call.ConnErr? ==> r == ControlFailed
    ensures r.Done? && id in data.breakers ==> r.notified && SwitchIsOn(r.data, id) == Some(false)
    ensures r.Done? && id in data.breakers ==> r.data == WriteField(data, id, REMOTE_STATE, Text(REMOTE_OFF))
    ensures r.Done? && id !in data.breakers ==> r.data == data && !r.notified
  {
    Command(data, id, REMOTE_STATE, Text(REMOTE_OFF), call)
  }

  /** `LevitonBreakerIdentifySwitch.is_on`: the breaker's `blink_led`, none for a missing breaker. */
  function IdentifyIsOn(data: LevitonData, id: string): (r: Option<Value>)
    ensures r.None? <==> id !in data.breakers
    ensures r.Some? ==> r.value == Get(data.breakers[id].fields, BLINK_LED)
  {
    if id in data.breakers then Some(Get(data.breakers[id].fields, BLINK_LED)) else None
  }

  /** Starting or stopping the LED blink: on success the identify switch reads what was asked. */
  function SetIdentify(data: LevitonData, id: string, on: bool, call: Call<()>): (r: Outcome)
    ensures r.Done? <==> call.Ok?
    ensures call.ConnErr? ==> r == ControlFailed
    ensures r.Done? && id in data.breakers ==> r.notified && IdentifyIsOn(r.data, id) == Some(Bool(on))
    ensures r.Done? && id in data.breakers ==>
              SwitchIsOn(r.data, id) == SwitchIsOn(data, id) && SwitchIsOnAsWritten(r.data, id) == SwitchIsOnAsWritten(data, id)
    ensures r.Done? && id !in data.breakers ==> r.data == data
  {
    Command(data, id, BLINK_LED, Bool(on), call)
  }

  /** The switches of the switch platform: an on/off switch, an LED identify switch. */
  datatype SwitchEntity = BreakerSwitch(id: string) | IdentifySwitch(id: string)

  /** Smart breakers that pass the filter get switches. */
  predicate Switchable(b: Breaker, hideDummy: bool) {
    ShouldIncludeBreaker(b, hideDummy) && b.kind.isSmart
  }

  /**
   * The switch platform's setup: nothing in read-only mode; otherwise an
   * identify switch for every smart breaker that passes the filter, and
   * an on/off switch for those that can be switched on remotely.
   */
  method SetUpSwitches(data: LevitonData, opts: Options, order: seq<string>) returns (entities: seq<SwitchEntity>)
    requires Enumerates(order, data.breakers.Keys)
    ensures opts.readOnly ==> entities == []
    ensures !opts.readOnly ==> forall id :: IdentifySwitch(id) in entities <==>
              id in data.breakers && Switchable(data.breakers[id], opts.hideDummy)
    ensures !opts.readOnly ==> forall id :: BreakerSwitch(id) in entities <==>
              id in data.breakers && Switchable(data.breakers[id], opts.hideDummy) && data.breakers[id].CanRemoteOn()
  {
    entities := [];
    if opts.readOnly {
      return;
    }
    var i := 0;
    while i < |order|
      invariant 0 <= i <= |order|
      invariant forall id :: IdentifySwitch(id) in entities <==>
                  id in order[..i] && id in data.breakers && Switchable(data.breakers[id], opts.hideDummy)
      invariant forall id :: BreakerSwitch(id) in entities <==>
                  id in order[..i] && id in data.breakers && Switchable(data.breakers[id], opts.hideDummy) && data.breakers[id].CanRemoteOn()
    {
      var id := order[i];
      assert order[..i + 1] == order[..i] + [id];
      var b := data.breakers[id];
      if Switchable(b, opts.hideDummy) {
        if b.CanRemoteOn() {
          entities := entities + [BreakerSwitch(id)];
        }
        entities := entities + [IdentifySwitch(id)];
      }
      i := i + 1;
    }
    assert order[..i] == order;
  }

  // ---------------------------------------------------------------------
  // Buttons
  // ---------------------------------------------------------------------

  /** The buttons: a trip button for a breaker, an LED identify button for a hub. */
  datatype ButtonEntity = TripButton(id: string) | IdentifyButton(hub: string)

  /** First-generation smart breakers (not remotely switchable) that pass the filter get a trip button. */
  predicate Trippable(b: Breaker, hideDummy: bool) {
    ShouldIncludeBreaker(b, hideDummy) && b.kind.isSmart && !b.CanRemoteOn()
  }

  /** The breaker states in which the breaker cannot be reached. */
  const OFFLINE_STATES: set<string> := {"NotCommunicating", "CommunicationFailure", "UNDEFINED"}

  /**
   * The availability of a breaker control (the trip button): the breaker
   * entity's availability, and the breaker not in an offline state.
   */
  function ControlAvailable(up: bool, data: LevitonData, id: string): (r: bool)
    ensures r ==> Available(up, data, Breakers, id)
    ensures r ==> id in data.breakers && (data.breakers[id].CurrentState().None? || data.breakers[id].CurrentState().value !in OFFLINE_STATES)
    ensures Available(up, data, Breakers, id) && data.breakers[id].CurrentState() == Some(MANUAL_ON) ==> r
  {
    Available(up, data, Breakers, id) &&
    (data.breakers[id].CurrentState().None? || data.breakers[id].CurrentState().value !in OFFLINE_STATES)
  }

  /**
   * The button platform's setup: nothing in read-only mode; otherwise a
   * trip button per trippable breaker and exactly one identify button per
   * hub, after the trip buttons.
   */
  method SetUpButtons(data: LevitonData, opts: Options, breakerOrder: seq<string>, hubOrder: seq<string>)
    returns (entities: seq<ButtonEntity>)
    requires Enumerates(breakerOrder, data.breakers.Keys) && DictOrder(hubOrder, data.whems.Keys)
    ensures opts.readOnly ==> entities == []
    ensures !opts.readOnly ==> forall id :: TripButton(id) in entities <==>
              id in data.breakers && Trippable(data.breakers[id], opts.hideDummy)
    ensures !opts.readOnly ==> forall h :: IdentifyButton(h) in entities <==> h in data.whems
    ensures forall i, j :: 0 <= i < j < |entities| && entities[i].IdentifyButton? ==> entities[i] != entities[j]
  {
    entities := [];
    if opts.readOnly {
      return;
    }
    var trips: seq<ButtonEntity> := [];
    var i := 0;
    while i < |breakerOrder|
      invariant 0 <= i <= |breakerOrder|
      invariant forall k :: 0 <= k < |trips| ==> trips[k].TripButton?
      invariant forall id :: TripButton(id) in trips <==>
                  id in breakerOrder[..i] && id in data.breakers && Trippable(data.breakers[id], opts.hideDummy)
    {
      var id := breakerOrder[i];
      assert breakerOrder[..i + 1] == breakerOrder[..i] + [id];
      if Trippable(data.breakers[id], opts.hideDummy) {
        trips := trips + [TripButton(id)];
      }
      i := i + 1;
    }
    assert breakerOrder[..i] == breakerOrder;
    var identify := seq(|hubOrder|, k requires 0 <= k < |hubOrder| => IdentifyButton(hubOrder[k]));
    forall h | IdentifyButton(h) in identify ensures h in hubOrder {
      var k :| 0 <= k < |identify| && identify[k] == IdentifyButton(h);
      assert hubOrder[k] == h;
    }
    forall h | h in hubOrder ensures IdentifyButton(h) in identify {
      var k :| 0 <= k < |hubOrder| && hubOrder[k] == h;
      assert identify[k] == IdentifyButton(h);
    }
    entities := trips + identify;
    assert forall k :: 0 <= k < |trips| ==> entities[k].TripButton?;
    forall i, j | 0 <= i < j < |entities| && entities[i].IdentifyButton?
      ensures entities[i] != entities[j]
    {
      assert entities[i] == identify[i - |trips|] && entities[j] == identify[j - |trips|];
    }
  }

  /** `LevitonWhemIdentifyButton.available`: the hub is present and connected. */
  function WhemIdentifyAvailable(up: bool, data: LevitonData, hub: string): (r: bool)
    ensures r <==> up && hub in data.whems && data.whems[hub].Connected()
  {
    Available(up, data, Whems, hub) && data.whems[hub].Connected()
  }

  /**
   * `LevitonTripButton.async_press`: on success the breaker (when still
   * present) shows SoftwareTrip, which the status sensor reports as
   * "software_trip".
   */
  function TripPress(data: LevitonData, id: string, call: Call<()>): (r: Outcome)
    ensures r.Done? <==> call.Ok?
    ensures call.ConnErr? ==> r == ControlFailed
    ensures r.Done? && id in data.breakers ==>
              r.notified && id in r.data.breakers && r.data.breakers[id].CurrentState() == Some(Push.SOFTWARE_TRIP) &&
              SensorDescriptions.BreakerStatus(r.data.breakers[id]) == Some("software_trip")
    ensures r.Done? && id !in data.breakers ==> r.data == data
  {
    Command(data, id, CURRENT_STATE, Text(Push.SOFTWARE_TRIP), call)
  }

  // ---------------------------------------------------------------------
  // The button module's import
  // ---------------------------------------------------------------------

  const CONTROL_ENTITY := "LevitonBreakerControlEntity"

  /** The names the entity module defines. */
  const ENTITY_DEFINES: set<string> := {
    "_BREAKER_OFFLINE_STATES", "LevitonEntity", "whem_device_info", "panel_device_info",
    "breaker_device_info", "ct_device_info", "should_include_breaker"}

  /** The names the button module imports from the entity module. */
  const BUTTON_IMPORTS: set<string> := {
    CONTROL_ENTITY, "LevitonEntity", "breaker_device_info", "should_include_breaker", "whem_device_info"}

  /** What loading the button platform gives: its buttons, or the names an import could not find. */
  datatype ButtonPlatform = Loaded(buttons: seq<ButtonEntity>) | ImportFailed(missing: set<string>)

  /** Loading the button platform against an entity module that defines `defines`. */
  method LoadButtons(defines: set<string>, data: LevitonData, opts: Options, breakerOrder: seq<string>, hubOrder: seq<string>)
    returns (r: ButtonPlatform)
    requires Enumerates(breakerOrder, data.breakers.Keys) && DictOrder(hubOrder, data.whems.Keys)
    ensures r.ImportFailed? <==> !(BUTTON_IMPORTS <= defines)
    ensures r.ImportFailed? ==> r.missing == BUTTON_IMPORTS - defines
    ensures r.Loaded? && !opts.readOnly ==> forall id :: TripButton(id) in r.buttons <==>
              id in data.breakers && Trippable(data.breakers[id], opts.hideDummy)
  {
    if !(BUTTON_IMPORTS <= defines) {
      return ImportFailed(BUTTON_IMPORTS - defines);
    }
    var buttons := SetUpButtons(data, opts, breakerOrder, hubOrder);
    r := Loaded(buttons);
  }

  /**
   * As written, the entity module lacks the breaker control entity, so
   * the button module fails to import and no trip or identify button is
   * ever created.
   */
  lemma ButtonImportFails()
    ensures BUTTON_IMPORTS - ENTITY_DEFINES == {CONTROL_ENTITY}
  {
    assert CONTROL_ENTITY !in ENTITY_DEFINES;
    assert "LevitonEntity" in ENTITY_DEFINES;
    assert "breaker_device_info" in ENTITY_DEFINES;
    assert "should_include_breaker" in ENTITY_DEFINES;
    assert "whem_device_info" in ENTITY_DEFINES;
  }

  /** With the control entity defined, every import resolves. */
  lemma ButtonImportResolves()
    ensures BUTTON_IMPORTS <= ENTITY_DEFINES + {CONTROL_ENTITY}
  {
  }
}

=== FILE: firmware.dfy ===
/**
 * Hub firmware detection: from firmware 2.0.0 on, a hub no longer nests
 * its breakers' updates inside its own notifications, so each breaker
 * needs its own push subscription.
 */
module Firmware {
  import opened Wrappers
  import opened Values
  import opened Store

  /** `s.split(sep)`: the pieces between separators, at least one. */
  function Split(s: string, sep: char): (r: seq<string>)
    ensures |r| >= 1
    ensures forall i :: 0 <= i < |r| ==> sep !in r[i]
    decreases |s|
  {
    if s == [] then [""]
    else
      var rest := Split(s[1..], sep);
      if s[0] == sep then [""] + rest
      else [[s[0]] + rest[0]] + rest[1..]
  }

  /** `sep.join(parts)`. */
  function Join(parts: seq<string>, sep: char): string
    requires |parts| >= 1
    decreases |parts|
  {
    if |parts| == 1 then parts[0] else parts[0] + [sep] + Join(parts[1..], sep)
  }

  /** Splitting loses nothing: joining the pieces gives the text back. */
  lemma {:induction false} JoinSplit(s: string, sep: char)
    ensures Join(Split(s, sep), sep) == s
    decreases |s|
  {
    if s != [] {
      var rest := Split(s[1..], sep);
      JoinSplit(s[1..], sep);
      if s[0] == sep {
        assert Split(s, sep) == [""] + rest;
        assert ([""] + rest)[1..] == rest;
      } else {
        var r := Split(s, sep);
        assert r == [[s[0]] + rest[0]] + rest[1..];
        if |rest| == 1 {
          assert r == [[s[0]] + rest[0]];
        } else {
          assert r[1..] == rest[1..];
          assert Join(rest, sep) == rest[0] + [sep] + Join(rest[1..], sep);
        }
      }
    }
  }

  /** `tuple(int(x) for x in s.split("."))`, `None` where `int()` raises. */
  function ParseVersion(s: string): (r: Option<seq<int>>)
    ensures r.Some? ==> |r.value| == |Split(s, '.')|
    ensures r.Some? ==> forall i :: 0 <= i < |r.value| ==> ParseInt(Split(s, '.')[i]) == Some(r.value[i])
    ensures r.None? ==> exists i :: 0 <= i < |Split(s, '.')| && ParseInt(Split(s, '.')[i]).None?
  {
    ParseAll(Split(s, '.'))
  }

  function ParseAll(parts: seq<string>): (r: Option<seq<int>>)
    ensures r.Some? ==> |r.value| == |parts|
    ensures r.Some? ==> forall i :: 0 <= i < |parts| ==> ParseInt(parts[i]) == Some(r.value[i])
    ensures r.None? <==> exists i :: 0 <= i < |parts| && ParseInt(parts[i]).None?
  {
    if forall i :: 0 <= i < |parts| ==> ParseInt(parts[i]).Some? then
      Some(seq(|parts|, i requires 0 <= i < |parts| => ParseInt(parts[i]).value))
    else None
  }

  /** Python's ordering of integer tuples: lexicographic, a proper prefix first. */
  predicate TupleLess(a: seq<int>, b: seq<int>)
    decreases |a|
  {
    if a == [] then b != []
    else if b == [] then false
    else a[0] < b[0] || (a[0] == b[0] && TupleLess(a[1..], b[1..]))
  }

  /** The first firmware release that no longer nests breaker updates. */
  const NESTING_DROPPED: seq<int> := [2, 0, 0]

  /**
   * `needs_individual_breaker_subs`: true for a version at or after 2.0.0,
   * and also when the version is unknown, not text, or does not parse
   * (the newest behaviour is assumed).
   */
  function NeedsIndividualBreakerSubs(version: Value): (r: bool)
    ensures !version.Text? ==> r
    ensures version.Text? && ParseVersion(version.s).None? ==> r
    ensures version.Text? && ParseVersion(version.s).Some? ==> (r <==> !TupleLess(ParseVersion(version.s).value, NESTING_DROPPED))
  {
    if !version.Text? then true
    else
      match ParseVersion(version.s)
      case None => true
      case Some(parts) => !TupleLess(parts, NESTING_DROPPED)
  }

  /** A major version of 3 or more is new firmware; 1 or less is old. */
  lemma MajorVersionDecides(v: seq<int>)
    requires |v| >= 1
    ensures v[0] >= 3 ==> !TupleLess(v, NESTING_DROPPED)
    ensures v[0] <= 1 ==> TupleLess(v, NESTING_DROPPED)
  {
  }

  /** `2` and `2.0` sort before `2.0.0`; anything extending `2.0.0` does not. */
  lemma {:induction false} PrefixesOfTwo(v: seq<int>)
    ensures TupleLess([2], NESTING_DROPPED) && TupleLess([2, 0], NESTING_DROPPED)
    ensures !TupleLess(NESTING_DROPPED + v, NESTING_DROPPED)
  {
    var w := NESTING_DROPPED + v;
    assert w[1..] == [0, 0] + v && NESTING_DROPPED[1..] == [0, 0];
    assert w[1..][1..] == [0] + v && [0, 0][1..] == [0];
    assert w[1..][1..][1..] == v && [0][1..] == [];
    assert !TupleLess(v, []);
    assert !TupleLess([0] + v, [0]);
    assert !TupleLess([0, 0] + v, [0, 0]);
  }

  lemma DigitsValueSingle(c: char)
    requires IsDigit(c)
    ensures DigitsValue([c]) == DigitVal(c)
  {
    assert [c][..0] == [];
  }

  lemma SplitAtSeparator(sep: char, rest: string)
    ensures Split([sep] + rest, sep) == [""] + Split(rest, sep)
  {
    assert ([sep] + rest)[1..] == rest;
  }

  lemma SplitAtChar(c: char, sep: char, rest: string)
    requires c != sep
    ensures Split([c] + rest, sep) == [[c] + Split(rest, sep)[0]] + Split(rest, sep)[1..]
  {
    assert ([c] + rest)[1..] == rest;
  }

  /** A piece without the separator, then the separator, splits off as the first piece. */
  lemma {:induction false} SplitPiece(a: string, sep: char, rest: string)
    requires forall i :: 0 <= i < |a| ==> a[i] != sep
    ensures Split(a + [sep] + rest, sep) == [a] + Split(rest, sep)
    decreases |a|
  {
    if a == [] {
      assert a + [sep] + rest == [sep] + rest;
      SplitAtSeparator(sep, rest);
    } else {
      SplitPiece(a[1..], sep, rest);
      assert a + [sep] + rest == [a[0]] + (a[1..] + [sep] + rest);
      SplitAtChar(a[0], sep, a[1..] + [sep] + rest);
      assert [a[0]] + a[1..] == a;
    }
  }

  /** `x.y.z` with separator-free pieces splits into the three pieces. */
  lemma SplitThree(x: string, y: string, z: string)
    requires forall i :: 0 <= i < |x| ==> x[i] != '.'
    requires forall i :: 0 <= i < |y| ==> y[i] != '.'
    requires forall i :: 0 <= i < |z| ==> z[i] != '.'
    ensures Split(x + ['.'] + y + ['.'] + z, '.') == [x, y, z]
  {
    SplitNoSeparator(z, '.');
    SplitPiece(y, '.', z);
    assert x + ['.'] + y + ['.'] + z == x + ['.'] + (y + ['.'] + z);
    SplitPiece(x, '.', y + ['.'] + z);
  }

  /** Hub firmware 2.0.13 needs one subscription per breaker. */
  lemma VersionExampleNew(s: string)
    requires |s| == 6 && s[0] == '2' && s[1] == '.' && s[2] == '0' && s[3] == '.' && s[4] == '1' && s[5] == '3'
    ensures NeedsIndividualBreakerSubs(Text(s))
  {
    var x, y, z := [s[0]], [s[2]], [s[4], s[5]];
    SplitExample(s, x, y, z);
    NewerDigitPieces(s[0], s[2], s[4], s[5]);
    ParseTwoZeroAny(x, y, z);
  }

  /** Single digits parse as their own values, and two digits as a non-negative integer. */
  lemma NewerDigitPieces(a: char, b: char, c: char, d: char)
    requires IsDigit(a) && IsDigit(b) && IsDigit(c) && IsDigit(d)
    ensures ParseInt([a]) == Some(DigitVal(a)) && ParseInt([b]) == Some(DigitVal(b))
    ensures ParseInt([c, d]).Some? && ParseInt([c, d]).value >= 0
  {
    assert WellFormedDigits([a]) && WellFormedDigits([b]) && WellFormedDigits([c, d]);
    ParseUnsigned([a]);
    ParseUnsigned([b]);
    ParseUnsigned([c, d]);
    DigitsValueSingle(a);
    DigitsValueSingle(b);
  }

  lemma SplitExample(s: string, x: string, y: string, z: string)
    requires s == x + ['.'] + y + ['.'] + z
    requires forall i :: 0 <= i < |x| ==> x[i] != '.'
    requires forall i :: 0 <= i < |y| ==> y[i] != '.'
    requires forall i :: 0 <= i < |z| ==> z[i] != '.'
    ensures ParseVersion(s) == ParseAll([x, y, z])
  {
    SplitThree(x, y, z);
  }

  /** Pieces reading 2, 0 and anything non-negative make a version at or after 2.0.0. */
  lemma ParseTwoZeroAny(x: string, y: string, z: string)
    requires ParseInt(x) == Some(2) && ParseInt(y) == Some(0)
    requires ParseInt(z).Some? && ParseInt(z).value >= 0
    ensures ParseAll([x, y, z]).Some?
    ensures !TupleLess(ParseAll([x, y, z]).value, NESTING_DROPPED)
  {
    var parts := [x, y, z];
    forall i | 0 <= i < |parts|
      ensures ParseInt(parts[i]).Some?
    {
      if i == 0 {
        assert parts[i] == x;
      } else if i == 1 {
        assert parts[i] == y;
      } else {
        assert parts[i] == z;
      }
    }
    var v := ParseAll(parts).value;
    assert ParseInt(parts[0]) == Some(v[0]) && ParseInt(parts[1]) == Some(v[1]) && ParseInt(parts[2]) == Some(v[2]);
    AtLeastTwoZeroZero(v);
  }

  lemma AtLeastTwoZeroZero(v: seq<int>)
    requires |v| == 3 && v[0] == 2 && v[1] == 0 && v[2] >= 0
    ensures !TupleLess(v, NESTING_DROPPED)
  {
    assert v[1..][1..] == [v[2]];
    assert NESTING_DROPPED[1..][1..] == [0];
    assert !TupleLess([v[2]], [0]);
  }

  /** Hub firmware 1.7.6 still nests breaker updates. */
  lemma VersionExampleOld(s: string)
    requires |s| == 5 && s[0] == '1' && s[1] == '.' && s[2] == '7' && s[3] == '.' && s[4] == '6'
    ensures !NeedsIndividualBreakerSubs(Text(s))
  {
    var x, y, z := [s[0]], [s[2]], [s[4]];
    SplitExample(s, x, y, z);
    SingleDigitPieces(s[0], s[2], s[4]);
    OlderWhenMajorIsOne(s, x, y, z);
  }

  /** Single digits parse, the first as its own value. */
  lemma SingleDigitPieces(a: char, b: char, c: char)
    requires IsDigit(a) && IsDigit(b) && IsDigit(c)
    ensures ParseInt([a]) == Some(DigitVal(a)) && ParseInt([b]).Some? && ParseInt([c]).Some?
  {
    assert WellFormedDigits([a]) && WellFormedDigits([b]) && WellFormedDigits([c]);
    ParseUnsigned([a]);
    ParseUnsigned([b]);
    ParseUnsigned([c]);
    DigitsValueSingle(a);
  }

  /** Text whose pieces read 1 and then any two integers keeps the nested subscriptions. */
  lemma OlderWhenMajorIsOne(s: string, x: string, y: string, z: string)
    requires ParseVersion(s) == ParseAll([x, y, z])
    requires ParseInt(x) == Some(1) && ParseInt(y).Some? && ParseInt(z).Some?
    ensures !NeedsIndividualBreakerSubs(Text(s))
  {
    ParseOneAny(x, y, z);
  }

  /** Pieces reading 1 and then any two integers make a version before 2.0.0. */
  lemma ParseOneAny(x: string, y: string, z: string)
    requires ParseInt(x) == Some(1) && ParseInt(y).Some? && ParseInt(z).Some?
    ensures ParseAll([x, y, z]).Some?
    ensures TupleLess(ParseAll([x, y, z]).value, NESTING_DROPPED)
  {
    var parts := [x, y, z];
    forall i | 0 <= i < |parts|
      ensures ParseInt(parts[i]).Some?
    {
      if i == 0 {
        assert parts[i] == x;
      } else if i == 1 {
        assert parts[i] == y;
      } else {
        assert parts[i] == z;
      }
    }
    var v := ParseAll(parts).value;
    assert ParseInt(parts[0]) == Some(v[0]);
    MajorVersionDecides(v);
  }

  /**
   * For every dotted version `a.b.c` with non-negative minor and patch
   * numbers, individual breaker subscriptions are needed exactly when
   * the major number is 2 or more.
   */
  lemma ThreePartVersions(a: int, b: nat, c: nat)
    ensures NeedsIndividualBreakerSubs(Text(IntToString(a) + "." + IntToString(b) + "." + IntToString(c))) <==> a >= 2
  {
    var x, y, z := IntToString(a), IntToString(b), IntToString(c);
    DecimalHasNoSeparator(a);
    DecimalHasNoSeparator(b);
    DecimalHasNoSeparator(c);
    SplitExample(x + "." + y + "." + z, x, y, z);
    ParseDecimalParts(a, b, c);
    ThreePartOrder(ParseAll([x, y, z]).value);
  }

  /** Three decimal renderings parse back to the three numbers. */
  lemma ParseDecimalParts(a: int, b: int, c: int)
    ensures var r := ParseAll([IntToString(a), IntToString(b), IntToString(c)]);
            r.Some? && |r.value| == 3 && r.value[0] == a && r.value[1] == b && r.value[2] == c
  {
    ParseIntToString(a);
    ParseIntToString(b);
    ParseIntToString(c);
    ParseThreePieces(IntToString(a), IntToString(b), IntToString(c), a, b, c);
  }

  /** Three pieces that each parse give the tuple of their values. */
  lemma ParseThreePieces(x: string, y: string, z: string, a: int, b: int, c: int)
    requires ParseInt(x) == Some(a) && ParseInt(y) == Some(b) && ParseInt(z) == Some(c)
    ensures var r := ParseAll([x, y, z]);
            r.Some? && |r.value| == 3 && r.value[0] == a && r.value[1] == b && r.value[2] == c
  {
    var parts := [x, y, z];
    assert parts[0] == x && parts[1] == y && parts[2] == z;
    EveryPieceParses(x, y, z);
  }

  lemma EveryPieceParses(x: string, y: string, z: string)
    requires ParseInt(x).Some? && ParseInt(y).Some? && ParseInt(z).Some?
    ensures ParseAll([x, y, z]).Some?
  {
    var parts := [x, y, z];
    forall i | 0 <= i < |parts|
      ensures ParseInt(parts[i]).Some?
    {
      if i == 0 {
        assert parts[i] == x;
      } else if i == 1 {
        assert parts[i] == y;
      } else {
        assert parts[i] == z;
      }
    }
  }

  /** A decimal rendering never contains the version separator. */
  lemma DecimalHasNoSeparator(i: int)
    ensures forall k :: 0 <= k < |IntToString(i)| ==> IntToString(i)[k] != '.'
  {
    if i < 0 {
      assert IntToString(i) == "-" + NatToString(-i);
    }
  }

  /** A three-part version with non-negative minor and patch sorts before 2.0.0 exactly when its major is below 2. */
  lemma ThreePartOrder(v: seq<int>)
    requires |v| == 3 && v[1] >= 0 && v[2] >= 0
    ensures TupleLess(v, NESTING_DROPPED) <==> v[0] < 2
  {
    if v[0] == 2 {
      assert v[1..][1..] == [v[2]];
      assert NESTING_DROPPED[1..][1..] == [0];
      assert !TupleLess([v[2]], [0]);
    } else {
      MajorVersionDecides(v);
    }
  }

  /** An unknown or unparseable version assumes the newest firmware. */
  lemma VersionExampleUnknown()
    ensures NeedsIndividualBreakerSubs(Null)
    ensures NeedsIndividualBreakerSubs(Text("invalid"))
  {
    var s := "invalid";
    assert !IsSpace(s[0]) && !IsSpace(s[|s| - 1]);
    assert Strip(s) == s;
    assert !WellFormedDigits(s);
    assert ParseInt(s).None?;
    assert forall i :: 0 <= i < |Split(s, '.')| ==> ParseInt(Split(s, '.')[i]).None? by {
      assert Split(s, '.') == [s] by {
        assert forall i :: 0 <= i < |s| ==> s[i] != '.';
        SplitNoSeparator(s, '.');
      }
    }
  }

  /** Text without the separator is a single piece. */
  lemma {:induction false} SplitNoSeparator(s: string, sep: char)
    requires forall i :: 0 <= i < |s| ==> s[i] != sep
    ensures Split(s, sep) == [s]
    decreases |s|
  {
    if s != [] {
      SplitNoSeparator(s[1..], sep);
      assert [s[0]] + s[1..] == s;
    }
  }
}

=== FILE: legacy.dfy ===
/**
 * The older coordinator (the `leviton` integration): its store keeps CTs
 * under their integer id, discovery searches only the residences of the
 * permission's accounts, a push message is merged into the store as sent
 * (no energy rewriting, no trip state filled in), every poll refetches
 * every hub and panel and then runs residence discovery again, and a
 * socket disconnect is never followed by a reconnect.
 */
module Legacy {
  import opened Wrappers
  import opened Values
  import opened Store
  import Discovery
  import Coordinator
  import Push

  // ---------------------------------------------------------------------
  // The store
  // ---------------------------------------------------------------------

  /** The older `LevitonData`: CTs keyed by their integer id, no daily baselines. */
  datatype LegacyData = LegacyData(
    whems: map<string, Hub>,
    panels: map<string, Panel>,
    breakers: map<string, Breaker>,
    cts: map<int, Ct>,
    residences: map<int, Residence>)

  /** The coordinator's state: the store, the residence ids discovery found, and whether a socket is held. */
  datatype LegacyState = LegacyState(data: LegacyData, residenceIds: seq<int>, wsUp: bool)

  /** Every device stays and the residences are kept. */
  predicate Grows(before: LegacyData, after: LegacyData) {
    && before.whems.Keys <= after.whems.Keys
    && before.panels.Keys <= after.panels.Keys
    && before.breakers.Keys <= after.breakers.Keys
    && before.cts.Keys <= after.cts.Keys
    && after.residences == before.residences
  }

  /** The same devices under the same keys, and the same residences. */
  predicate SameLegacyDevices(a: LegacyData, b: LegacyData) {
    && a.whems.Keys == b.whems.Keys
    && a.panels.Keys == b.panels.Keys
    && a.breakers.Keys == b.breakers.Keys
    && a.cts.Keys == b.cts.Keys
    && a.residences == b.residences
  }

  function CtIds(cs: seq<Ct>): set<int> { set c | c in cs :: c.id }

  /** The last record of a fetched list stored under `k`, if any: the one a keyed store ends up holding. */
  function LatestCt(cs: seq<Ct>, k: int): (r: Option<Ct>)
    ensures r.Some? <==> k in CtIds(cs)
    ensures r.Some? ==> r.value in cs && r.value.id == k
    decreases |cs|
  {
    if cs == [] then None
    else
      assert forall c :: c in cs <==> c == cs[0] || c in cs[1..];
      var later := LatestCt(cs[1..], k);
      if later.Some? then later else if cs[0].id == k then Some(cs[0]) else None
  }

  /** The latest record under `k` is the last entry of the list with that id. */
  lemma {:induction false} LatestCtIsLast(cs: seq<Ct>, k: int, i: nat)
    requires i < |cs| && cs[i].id == k
    requires forall j :: i < j < |cs| ==> cs[j].id != k
    ensures LatestCt(cs, k) == Some(cs[i])
    decreases |cs|
  {
    if i > 0 {
      assert forall j :: i - 1 < j < |cs| - 1 ==> cs[1..][j] == cs[j + 1];
      LatestCtIsLast(cs[1..], k, i - 1);
    } else {
      forall c | c in cs[1..]
        ensures c.id != k
      {
        var j :| 0 <= j < |cs[1..]| && cs[1..][j] == c;
        assert cs[j + 1] == c;
      }
    }
  }

  /** `for ct in cts: self.data.cts[ct.id] = ct`. */
  function AddCts(m: map<int, Ct>, cs: seq<Ct>): (r: map<int, Ct>)
    ensures r.Keys == m.Keys + CtIds(cs)
    ensures (forall k :: k in m ==> m[k].id == k) ==> forall k :: k in r ==> r[k].id == k
    ensures forall k {:trigger LatestCt(cs, k)} :: k in r ==> r[k] == if LatestCt(cs, k).Some? then LatestCt(cs, k).value else m[k]
    decreases |cs|
  {
    if cs == [] then m
    else
      var r := AddCts(m[cs[0].id := cs[0]], cs[1..]);
      assert forall c :: c in cs <==> c == cs[0] || c in cs[1..];
      r
  }

  /** Storing two fetched lists one after the other is storing their concatenation. */
  lemma {:induction false} AddCtsConcat(m: map<int, Ct>, xs: seq<Ct>, ys: seq<Ct>)
    ensures AddCts(AddCts(m, xs), ys) == AddCts(m, xs + ys)
    decreases |xs|
  {
    if xs == [] {
      assert xs + ys == ys;
    } else {
      assert (xs + ys)[1..] == xs[1..] + ys;
      AddCtsConcat(m[xs[0].id := xs[0]], xs[1..], ys);
    }
  }

  /** A map with the keys and values `AddCts` promises is the map it returns. */
  lemma AddCtsDetermined(m: map<int, Ct>, cs: seq<Ct>, r: map<int, Ct>)
    requires r.Keys == m.Keys + CtIds(cs)
    requires forall k :: k in r ==> r[k] == if LatestCt(cs, k).Some? then LatestCt(cs, k).value else m[k]
    ensures r == AddCts(m, cs)
  {
    var a := AddCts(m, cs);
    assert forall k :: k in r ==> r[k] == a[k];
  }

  function FetchedCtIds(c: Call<seq<Ct>>): set<int> {
    if c.Ok? then CtIds(c.value) else {}
  }

  // ---------------------------------------------------------------------
  // One residence
  // ---------------------------------------------------------------------

  /** The progress of a discovery step: the store so far, and whether an authentication error escaped. */
  datatype Step = Step(data: LegacyData, authError: bool)

  /** The breaker or CT fetch of a discovered hub answers with an authentication error. */
  predicate HubAuthError(b: Discovery.Backend, id: string) {
    b.hubBreakers(id).AuthErr? || b.hubCts(id).AuthErr?
  }

  predicate HubsAuthError(b: Discovery.Backend, hs: seq<Hub>) {
    exists h :: h in hs && HubAuthError(b, h.id)
  }

  predicate PanelsAuthError(b: Discovery.Backend, ps: seq<Panel>) {
    exists p :: p in ps && b.panelBreakers(p.id).AuthErr?
  }

  lemma HubsAuthErrorSplit(b: Discovery.Backend, hs: seq<Hub>)
    requires hs != []
    ensures HubsAuthError(b, hs) <==> HubAuthError(b, hs[0].id) || HubsAuthError(b, hs[1..])
  {
    assert forall g :: g in hs <==> g == hs[0] || g in hs[1..];
  }

  /** CT ids the hubs' CT fetches contribute. */
  function HubCtIds(b: Discovery.Backend, hs: seq<Hub>): set<int>
    decreases |hs|
  {
    if hs == [] then {} else FetchedCtIds(b.hubCts(hs[0].id)) + HubCtIds(b, hs[1..])
  }

  /**
   * One hub: it is stored, then its breakers and its CTs are fetched; a
   * connection error loses only that fetch, an authentication error escapes.
   */
  function HubStep(b: Discovery.Backend, h: Hub, d: LegacyData): (r: Step)
    ensures Grows(d, r.data) && r.data.panels == d.panels
    ensures r.data.whems == d.whems[h.id := h]
    ensures r.authError <==> HubAuthError(b, h.id)
    ensures !r.authError ==> r.data.breakers.Keys == d.breakers.Keys + Discovery.FetchedBreakerIds(b.hubBreakers(h.id))
    ensures !r.authError ==> r.data.cts.Keys == d.cts.Keys + FetchedCtIds(b.hubCts(h.id))
    ensures !r.authError ==> r.data.breakers == Discovery.AddBreakers(d.breakers, Discovery.Fetched(b.hubBreakers(h.id)))
    ensures !r.authError ==> r.data.cts == AddCts(d.cts, Discovery.Fetched(b.hubCts(h.id)))
  {
    var d1 := d.(whems := d.whems[h.id := h]);
    var bs := b.hubBreakers(h.id);
    if bs.AuthErr? then Step(d1, true)
    else
      var d2 := if bs.Ok? then d1.(breakers := Discovery.AddBreakers(d1.breakers, bs.value)) else d1;
      HubCtsStep(b.hubCts(h.id), d2)
  }

  /** The CT fetch of a hub: stored on success, lost on a connection error, escaping on an authentication error. */
  function HubCtsStep(c: Call<seq<Ct>>, d: LegacyData): (r: Step)
    ensures r.data.whems == d.whems && r.data.panels == d.panels && r.data.breakers == d.breakers
    ensures r.data.residences == d.residences
    ensures r.authError <==> c.AuthErr?
    ensures r.data.cts.Keys == d.cts.Keys + FetchedCtIds(c)
    ensures !r.authError ==> r.data.cts == AddCts(d.cts, Discovery.Fetched(c))
  {
    match c
    case AuthErr => Step(d, true)
    case ConnErr => Step(d, false)
    case Ok(cs) => Step(d.(cts := AddCts(d.cts, cs)), false)
  }

  /** The hubs of a residence, in order, stopping where an authentication error escapes. */
  function HubsFold(b: Discovery.Backend, hs: seq<Hub>, d: LegacyData): (r: Step)
    ensures Grows(d, r.data) && r.data.panels == d.panels
    ensures r.authError <==> HubsAuthError(b, hs)
    ensures !r.authError ==> r.data.whems.Keys == d.whems.Keys + Discovery.HubIds(hs)
    ensures !r.authError ==> r.data.breakers.Keys == d.breakers.Keys + Discovery.HubBreakerIds(b, hs)
    ensures !r.authError ==> r.data.cts.Keys == d.cts.Keys + HubCtIds(b, hs)
    decreases |hs|
  {
    if hs == [] then Step(d, false)
    else
      Discovery.HubIdsSplit(b, hs);
      HubsAuthErrorSplit(b, hs);
      var one := HubStep(b, hs[0], d);
      if one.authError then one else HubsFold(b, hs[1..], one.data)
  }

  /**
   * The records the hubs' discovery stores: every hub under its id, and
   * each breaker and CT key the last record the fetches return under it.
   */
  lemma {:induction false} HubsFoldRecords(b: Discovery.Backend, hs: seq<Hub>, d: LegacyData)
    ensures !HubsFold(b, hs, d).authError ==> HubsFold(b, hs, d).data.whems == Discovery.AddHubs(d.whems, hs)
    ensures !HubsFold(b, hs, d).authError ==> HubsFold(b, hs, d).data.breakers == Discovery.AddBreakers(d.breakers, Discovery.HubBreakerRecords(b, hs))
    ensures !HubsFold(b, hs, d).authError ==> HubsFold(b, hs, d).data.cts == AddCts(d.cts, Discovery.HubCtRecords(b, hs))
    decreases |hs|
  {
    if hs != [] {
      var one := HubStep(b, hs[0], d);
      if !one.authError {
        assert HubsFold(b, hs, d) == HubsFold(b, hs[1..], one.data);
        HubsFoldRecords(b, hs[1..], one.data);
        Discovery.AddBreakersConcat(d.breakers, Discovery.Fetched(b.hubBreakers(hs[0].id)), Discovery.HubBreakerRecords(b, hs[1..]));
        AddCtsConcat(d.cts, Discovery.Fetched(b.hubCts(hs[0].id)), Discovery.HubCtRecords(b, hs[1..]));
      }
    }
  }

  /** The panels of a residence, in order: each is stored, then its breakers fetched. */
  function PanelsFold(b: Discovery.Backend, ps: seq<Panel>, d: LegacyData): (r: Step)
    ensures Grows(d, r.data) && r.data.whems == d.whems && r.data.cts == d.cts
    ensures r.authError <==> PanelsAuthError(b, ps)
    ensures !r.authError ==> r.data.panels.Keys == d.panels.Keys + Discovery.PanelIds(ps)
    ensures !r.authError ==> r.data.breakers.Keys == d.breakers.Keys + Discovery.PanelBreakerIds(b, ps)
    decreases |ps|
  {
    if ps == [] then Step(d, false)
    else
      var p := ps[0];
      assert forall q :: q in ps <==> q == p || q in ps[1..];
      var d1 := d.(panels := d.panels[p.id := p]);
      match b.panelBreakers(p.id)
      case AuthErr => Step(d1, true)
      case ConnErr => PanelsFold(b, ps[1..], d1)
      case Ok(bs) => PanelsFold(b, ps[1..], d1.(breakers := Discovery.AddBreakers(d1.breakers, bs)))
  }

  /** The records the panels' discovery stores: every panel under its id, and each breaker key the last record fetched under it. */
  lemma {:induction false} PanelsFoldRecords(b: Discovery.Backend, ps: seq<Panel>, d: LegacyData)
    ensures !PanelsFold(b, ps, d).authError ==> PanelsFold(b, ps, d).data.panels == Discovery.AddPanels(d.panels, ps)
    ensures !PanelsFold(b, ps, d).authError ==> PanelsFold(b, ps, d).data.breakers == Discovery.AddBreakers(d.breakers, Discovery.PanelBreakerRecords(b, ps))
    decreases |ps|
  {
    if ps != [] && !b.panelBreakers(ps[0].id).AuthErr? {
      var p := ps[0];
      var bs := b.panelBreakers(p.id);
      var d1 := d.(panels := d.panels[p.id := p]);
      var d2 := if bs.Ok? then d1.(breakers := Discovery.AddBreakers(d1.breakers, bs.value)) else d1;
      assert PanelsFold(b, ps, d) == PanelsFold(b, ps[1..], d2);
      PanelsFoldRecords(b, ps[1..], d2);
      Discovery.AddBreakersConcat(d.breakers, Discovery.Fetched(bs), Discovery.PanelBreakerRecords(b, ps[1..]));
    }
  }

  /** A call made while discovering the residence answers with an authentication error. */
  predicate ResidenceAuthError(b: Discovery.Backend, rid: int) {
    var hubs := b.residenceHubs(rid);
    var panels := b.residencePanels(rid);
    || hubs.AuthErr?
    || (hubs.Ok? && HubsAuthError(b, hubs.value))
    || panels.AuthErr?
    || (panels.Ok? && PanelsAuthError(b, panels.value))
  }

  function ResidenceCtIds(b: Discovery.Backend, rid: int): set<int> {
    var hubs := b.residenceHubs(rid);
    if hubs.Ok? then HubCtIds(b, hubs.value) else {}
  }

  /**
   * `_discover_residence_devices`: the hubs with their breakers and CTs,
   * then the panels with their breakers. A connection error on the hub or
   * panel list skips that list; an authentication error escapes, leaving
   * what was already stored.
   */
  function ResidenceStep(b: Discovery.Backend, rid: int, d: LegacyData): (r: Step)
    ensures Grows(d, r.data)
    ensures r.authError <==> ResidenceAuthError(b, rid)
    ensures !r.authError ==> r.data.whems.Keys == d.whems.Keys + Discovery.FetchedHubIds(b.residenceHubs(rid))
    ensures !r.authError ==> r.data.panels.Keys == d.panels.Keys + Discovery.FetchedPanelIds(b.residencePanels(rid))
    ensures !r.authError ==> r.data.breakers.Keys == d.breakers.Keys + Discovery.ResidenceBreakerIds(b, rid)
    ensures !r.authError ==> r.data.cts.Keys == d.cts.Keys + ResidenceCtIds(b, rid)
  {
    var hubs := b.residenceHubs(rid);
    var afterHubs :=
      if hubs.AuthErr? then Step(d, true)
      else if hubs.Ok? then HubsFold(b, hubs.value, d)
      else Step(d, false);
    if afterHubs.authError then afterHubs
    else
      var panels := b.residencePanels(rid);
      if panels.AuthErr? then Step(afterHubs.data, true)
      else if panels.Ok? then PanelsFold(b, panels.value, afterHubs.data)
      else afterHubs
  }

  /**
   * The records a residence's discovery stores: each key holds the last
   * record its fetches return under it (hubs' breakers before panels'),
   * or its old one.
   */
  lemma ResidenceStepRecords(b: Discovery.Backend, rid: int, d: LegacyData)
    ensures var r := ResidenceStep(b, rid, d);
            && (!r.authError ==> r.data.whems == Discovery.AddHubs(d.whems, Discovery.Fetched(b.residenceHubs(rid))))
            && (!r.authError ==> r.data.panels == Discovery.AddPanels(d.panels, Discovery.Fetched(b.residencePanels(rid))))
            && (!r.authError ==> r.data.breakers == Discovery.AddBreakers(d.breakers, Discovery.ResidenceBreakerRecords(b, rid)))
            && (!r.authError ==> r.data.cts == AddCts(d.cts, Discovery.ResidenceCtRecords(b, rid)))
  {
    var hubs := Discovery.Fetched(b.residenceHubs(rid));
    var panels := Discovery.Fetched(b.residencePanels(rid));
    var afterHubs := if b.residenceHubs(rid).AuthErr? then Step(d, true) else HubsFold(b, hubs, d);
    if !afterHubs.authError {
      HubsFoldRecords(b, hubs, d);
      assert afterHubs.data.whems == Discovery.AddHubs(d.whems, hubs);
      assert afterHubs.data.breakers == Discovery.AddBreakers(d.breakers, Discovery.HubBreakerRecords(b, hubs));
      assert afterHubs.data.cts == AddCts(d.cts, Discovery.HubCtRecords(b, hubs));
      PanelsFoldRecords(b, panels, afterHubs.data);
      Discovery.AddBreakersConcat(d.breakers, Discovery.HubBreakerRecords(b, hubs), Discovery.PanelBreakerRecords(b, panels));
    }
  }

  /**
   * The same residence discovery as the newer one, on a cloud whose
   * bandwidth resets always succeed: the older code makes no such call.
   */
  lemma ResidenceAuthAsNewer(b: Discovery.Backend, rid: int)
    ensures var quiet := b.(hubBandwidthReset := _ => Ok(()), panelBandwidthReset := _ => Ok(()));
            ResidenceAuthError(b, rid) <==> Discovery.ResidenceAuthError(quiet, rid)
  {
    var quiet := b.(hubBandwidthReset := _ => Ok(()), panelBandwidthReset := _ => Ok(()));
    assert forall id :: Discovery.HubAuthError(quiet, id) <==> HubAuthError(b, id);
    assert forall id :: Discovery.PanelAuthError(quiet, id) <==> b.panelBreakers(id).AuthErr?;
  }

  // ---------------------------------------------------------------------
  // Residences in order
  // ---------------------------------------------------------------------

  function OrderHubIds(b: Discovery.Backend, order: seq<int>): set<string>
    decreases |order|
  {
    if order == [] then {} else Discovery.FetchedHubIds(b.residenceHubs(order[0])) + OrderHubIds(b, order[1..])
  }

  function OrderPanelIds(b: Discovery.Backend, order: seq<int>): set<string>
    decreases |order|
  {
    if order == [] then {} else Discovery.FetchedPanelIds(b.residencePanels(order[0])) + OrderPanelIds(b, order[1..])
  }

  function OrderBreakerIds(b: Discovery.Backend, order: seq<int>): set<string>
    decreases |order|
  {
    if order == [] then {} else Discovery.ResidenceBreakerIds(b, order[0]) + OrderBreakerIds(b, order[1..])
  }

  function OrderCtIds(b: Discovery.Backend, order: seq<int>): set<int>
    decreases |order|
  {
    if order == [] then {} else ResidenceCtIds(b, order[0]) + OrderCtIds(b, order[1..])
  }

  /** The records the residences' fetches return, in search order. */
  function OrderHubRecords(b: Discovery.Backend, order: seq<int>): seq<Hub>
    decreases |order|
  {
    if order == [] then [] else Discovery.Fetched(b.residenceHubs(order[0])) + OrderHubRecords(b, order[1..])
  }

  function OrderPanelRecords(b: Discovery.Backend, order: seq<int>): seq<Panel>
    decreases |order|
  {
    if order == [] then [] else Discovery.Fetched(b.residencePanels(order[0])) + OrderPanelRecords(b, order[1..])
  }

  function OrderBreakerRecords(b: Discovery.Backend, order: seq<int>): seq<Breaker>
    decreases |order|
  {
    if order == [] then [] else Discovery.ResidenceBreakerRecords(b, order[0]) + OrderBreakerRecords(b, order[1..])
  }

  function OrderCtRecords(b: Discovery.Backend, order: seq<int>): seq<Ct>
    decreases |order|
  {
    if order == [] then [] else Discovery.ResidenceCtRecords(b, order[0]) + OrderCtRecords(b, order[1..])
  }

  predicate RediscoveryAuthError(b: Discovery.Backend, order: seq<int>) {
    exists x :: x in order && ResidenceAuthError(b, x)
  }

  /** Each residence of the list in turn, stopping where an authentication error escapes. */
  function ResidencesFold(b: Discovery.Backend, order: seq<int>, d: LegacyData): (r: Step)
    ensures Grows(d, r.data)
    ensures r.authError <==> RediscoveryAuthError(b, order)
    decreases |order|
  {
    if order == [] then Step(d, false)
    else
      assert forall x :: x in order <==> x == order[0] || x in order[1..];
      var one := ResidenceStep(b, order[0], d);
      if one.authError then one else ResidencesFold(b, order[1..], one.data)
  }

  /** A search without an authentication error adds exactly the devices of the listed residences. */
  lemma ResidencesFoldKeys(b: Discovery.Backend, order: seq<int>, d: LegacyData)
    ensures var r := ResidencesFold(b, order, d);
            !r.authError ==>
              && r.data.whems.Keys == d.whems.Keys + OrderHubIds(b, order)
              && r.data.panels.Keys == d.panels.Keys + OrderPanelIds(b, order)
              && r.data.breakers.Keys == d.breakers.Keys + OrderBreakerIds(b, order)
              && r.data.cts.Keys == d.cts.Keys + OrderCtIds(b, order)
  {
    ResidencesFoldDevices(b, order, d);
    ResidencesFoldChildren(b, order, d);
  }

  /** A search without an authentication error stores, under each key, the last record the residences' fetches return under it. */
  lemma {:induction false} ResidencesFoldRecords(b: Discovery.Backend, order: seq<int>, d: LegacyData)
    ensures var r := ResidencesFold(b, order, d);
            && (!r.authError ==> r.data.whems == Discovery.AddHubs(d.whems, OrderHubRecords(b, order)))
            && (!r.authError ==> r.data.panels == Discovery.AddPanels(d.panels, OrderPanelRecords(b, order)))
            && (!r.authError ==> r.data.breakers == Discovery.AddBreakers(d.breakers, OrderBreakerRecords(b, order)))
            && (!r.authError ==> r.data.cts == AddCts(d.cts, OrderCtRecords(b, order)))
    decreases |order|
  {
    if order != [] {
      var one := ResidenceStep(b, order[0], d);
      if !one.authError {
        assert ResidencesFold(b, order, d) == ResidencesFold(b, order[1..], one.data);
        ResidenceStepRecords(b, order[0], d);
        ResidencesFoldRecords(b, order[1..], one.data);
        Discovery.AddHubsConcat(d.whems, Discovery.Fetched(b.residenceHubs(order[0])), OrderHubRecords(b, order[1..]));
        Discovery.AddPanelsConcat(d.panels, Discovery.Fetched(b.residencePanels(order[0])), OrderPanelRecords(b, order[1..]));
        Discovery.AddBreakersConcat(d.breakers, Discovery.ResidenceBreakerRecords(b, order[0]), OrderBreakerRecords(b, order[1..]));
        AddCtsConcat(d.cts, Discovery.ResidenceCtRecords(b, order[0]), OrderCtRecords(b, order[1..]));
      }
    }
  }

  lemma {:induction false} ResidencesFoldDevices(b: Discovery.Backend, order: seq<int>, d: LegacyData)
    ensures var r := ResidencesFold(b, order, d);
            !r.authError ==>
              && r.data.whems.Keys == d.whems.Keys + OrderHubIds(b, order)
              && r.data.panels.Keys == d.panels.Keys + OrderPanelIds(b, order)
    decreases |order|
  {
    if order != [] {
      var one := ResidenceStep(b, order[0], d);
      if !one.authError {
        ResidencesFoldDevices(b, order[1..], one.data);
      }
    }
  }

  lemma {:induction false} ResidencesFoldChildren(b: Discovery.Backend, order: seq<int>, d: LegacyData)
    ensures var r := ResidencesFold(b, order, d);
            !r.authError ==>
              && r.data.breakers.Keys == d.breakers.Keys + OrderBreakerIds(b, order)
              && r.data.cts.Keys == d.cts.Keys + OrderCtIds(b, order)
    decreases |order|
  {
    if order != [] {
      var one := ResidenceStep(b, order[0], d);
      if !one.authError {
        ResidencesFoldChildren(b, order[1..], one.data);
      }
    }
  }

  /** The devices of a list of residences are those of the set of residences it lists. */
  lemma {:induction false} OrderIdsAsSets(b: Discovery.Backend, order: seq<int>)
    ensures OrderHubIds(b, order) == Discovery.HubIdsIn(b, set x | x in order)
    ensures OrderPanelIds(b, order) == Discovery.PanelIdsIn(b, set x | x in order)
    ensures OrderBreakerIds(b, order) == Discovery.BreakerIdsIn(b, set x | x in order)
    decreases |order|
  {
    if order != [] {
      OrderIdsAsSets(b, order[1..]);
      var rest := set x | x in order[1..];
      assert (set x | x in order) == rest + {order[0]};
      Discovery.ResidencesOneMore(b, rest, order[0]);
      Discovery.ResidenceChildrenOneMore(b, rest, order[0]);
    }
  }

  // ---------------------------------------------------------------------
  // Discovery
  // ---------------------------------------------------------------------

  /** `list(residences.keys())`: the keys, each once, in some order. */
  method ListKeys(s: set<int>) returns (order: seq<int>)
    ensures forall x :: x in order <==> x in s
    ensures forall i, j :: 0 <= i < j < |order| ==> order[i] != order[j]
  {
    order := [];
    var left := s;
    while left != {}
      invariant left <= s
      invariant forall x :: x in order <==> x in s && x !in left
      invariant forall i, j :: 0 <= i < j < |order| ==> order[i] != order[j]
      decreases |left|
    {
      var x := Pick(left);
      order := order + [x];
      left := left - {x};
    }
  }

  /** A search that starts from an empty store leaves every record under its own id. */
  lemma FoldFromEmptyKeyed(b: Discovery.Backend, order: seq<int>, d: LegacyData)
    requires d.whems == map[] && d.panels == map[] && d.breakers == map[] && d.cts == map[]
    ensures var r := ResidencesFold(b, order, d);
            && (!r.authError ==> r.data.whems == Discovery.AddHubs(map[], OrderHubRecords(b, order)))
            && (!r.authError ==> r.data.panels == Discovery.AddPanels(map[], OrderPanelRecords(b, order)))
            && (!r.authError ==> r.data.breakers == Discovery.AddBreakers(map[], OrderBreakerRecords(b, order)))
            && (!r.authError ==> r.data.cts == AddCts(map[], OrderCtRecords(b, order)))
            && (!r.authError ==> Discovery.HubsKeyed(r.data.whems) && Discovery.PanelsKeyed(r.data.panels))
            && (!r.authError ==> Discovery.BreakersKeyed(r.data.breakers))
            && (!r.authError ==> forall k :: k in r.data.cts ==> r.data.cts[k].id == k)
  {
    ResidencesFoldRecords(b, order, d);
    assert Discovery.HubsKeyed(d.whems) && Discovery.PanelsKeyed(d.panels) && Discovery.BreakersKeyed(d.breakers);
  }

  /** An authentication error escapes the search of some residence of the set. */
  predicate SomeResidenceAuthError(b: Discovery.Backend, ids: set<int>) {
    exists x :: x in ids && ResidenceAuthError(b, x)
  }

  /** Searching a list of residences is searching the set it lists. */
  lemma FoldOverSet(b: Discovery.Backend, order: seq<int>, ids: set<int>)
    requires forall x :: x in order <==> x in ids
    ensures RediscoveryAuthError(b, order) <==> SomeResidenceAuthError(b, ids)
    ensures OrderHubIds(b, order) == Discovery.HubIdsIn(b, ids)
    ensures OrderPanelIds(b, order) == Discovery.PanelIdsIn(b, ids)
    ensures OrderBreakerIds(b, order) == Discovery.BreakerIdsIn(b, ids)
  {
    var listed := set x | x in order;
    assert forall x :: x in listed <==> x in ids;
    assert listed == ids;
    OrderIdsAsSets(b, order);
  }

  /** The residences the older discovery searches: those of the permissions' accounts. */
  ghost function LegacyResidenceIds(b: Discovery.Backend): set<int>
    requires b.permissions.Ok?
  {
    Discovery.AccountResidenceIds(b, Discovery.Accounts(b.permissions.value))
  }

  /** An authentication error escapes the older discovery. */
  ghost predicate LegacyAuthError(b: Discovery.Backend)
    requires b.permissions.Ok?
  {
    || (exists a :: a in Discovery.Accounts(b.permissions.value) && b.accountResidences(a).AuthErr?)
    || SomeResidenceAuthError(b, LegacyResidenceIds(b))
  }

  /**
   * `_discover_devices`: read the permissions, fetch the residences of
   * each account, and discover the devices of those residences only: a
   * residence named directly on a permission is not searched.
   */
  method DiscoverDevices(b: Discovery.Backend) returns (r: Discovery.Outcome<LegacyState>)
    ensures b.permissions.AuthErr? ==> r == Discovery.Failed(Discovery.AuthFailed)
    ensures b.permissions.ConnErr? ==> r == Discovery.Failed(Discovery.UpdateFailed)
    ensures r.Done? ==> b.permissions.Ok?
    ensures b.permissions.Ok? && r.Failed? ==> r.failure == Discovery.Unhandled
    ensures b.permissions.Ok? ==> (r.Failed? <==> LegacyAuthError(b))
    ensures r.Done? ==> r.value.data.residences.Keys == LegacyResidenceIds(b)
    ensures r.Done? ==> forall x :: x in r.value.residenceIds <==> x in LegacyResidenceIds(b)
    ensures r.Done? ==> r.value.data.whems.Keys == Discovery.HubIdsIn(b, LegacyResidenceIds(b))
    ensures r.Done? ==> r.value.data.panels.Keys == Discovery.PanelIdsIn(b, LegacyResidenceIds(b))
    ensures r.Done? ==> r.value.data.breakers.Keys == Discovery.BreakerIdsIn(b, LegacyResidenceIds(b))
    ensures r.Done? ==> r.value.data.cts.Keys == OrderCtIds(b, r.value.residenceIds)
    ensures r.Done? ==> r.value.data.whems == Discovery.AddHubs(map[], OrderHubRecords(b, r.value.residenceIds))
    ensures r.Done? ==> r.value.data.panels == Discovery.AddPanels(map[], OrderPanelRecords(b, r.value.residenceIds))
    ensures r.Done? ==> r.value.data.breakers == Discovery.AddBreakers(map[], OrderBreakerRecords(b, r.value.residenceIds))
    ensures r.Done? ==> r.value.data.cts == AddCts(map[], OrderCtRecords(b, r.value.residenceIds))
    ensures r.Done? ==> Discovery.HubsKeyed(r.value.data.whems) && Discovery.PanelsKeyed(r.value.data.panels)
    ensures r.Done? ==> Discovery.BreakersKeyed(r.value.data.breakers)
    ensures r.Done? ==> forall k :: k in r.value.data.cts ==> r.value.data.cts[k].id == k
    ensures r.Done? ==> !r.value.wsUp
  {
    if !b.permissions.Ok? {
      return Discovery.Failed(Discovery.MapError(b.permissions));
    }
    var residences := Discovery.CollectResidences(b, Discovery.Accounts(b.permissions.value));
    if residences.None? {
      return Discovery.Failed(Discovery.Unhandled);
    }
    var order := ListKeys(residences.value.Keys);
    var start := LegacyData(map[], map[], map[], map[], residences.value);
    var found := ResidencesFold(b, order, start);
    FoldOverSet(b, order, residences.value.Keys);
    if found.authError {
      return Discovery.Failed(Discovery.Unhandled);
    }
    ResidencesFoldKeys(b, order, start);
    FoldFromEmptyKeyed(b, order, start);
    r := Discovery.Done(LegacyState(found.data, order, false));
  }

  // ---------------------------------------------------------------------
  // The poll
  // ---------------------------------------------------------------------

  /** The store a poll leaves behind, changed in place, and how it failed. */
  datatype Polled = Polled(data: LegacyData, failure: Option<Discovery.Failure>)

  function HubsCtIds(b: Discovery.Backend, order: seq<string>): set<int>
    decreases |order|
  {
    if order == [] then {} else FetchedCtIds(b.hubCts(order[0])) + HubsCtIds(b, order[1..])
  }

  /** One hub: the record under the requested id, then its breakers, then its CTs. */
  function PollHub(b: Discovery.Backend, id: string, d: LegacyData): (r: Polled)
    ensures r.failure == Coordinator.FirstFailure(Coordinator.HubCalls(b, id))
    ensures Grows(d, r.data) && r.data.whems.Keys <= d.whems.Keys + {id} && r.data.panels == d.panels
    ensures r.failure.None? ==> r.data.whems == d.whems[id := b.hub(id).value]
    ensures r.failure.None? ==> r.data.breakers.Keys == d.breakers.Keys + Discovery.FetchedBreakerIds(b.hubBreakers(id))
    ensures r.failure.None? ==> r.data.cts.Keys == d.cts.Keys + FetchedCtIds(b.hubCts(id))
    ensures r.failure.None? ==> b.hubBreakers(id).Ok? && b.hubCts(id).Ok?
    ensures r.failure.None? ==> forall k :: k in r.data.breakers ==>
              r.data.breakers[k] == if Discovery.LatestBreaker(b.hubBreakers(id).value, k).Some? then Discovery.LatestBreaker(b.hubBreakers(id).value, k).value else d.breakers[k]
    ensures r.failure.None? ==> forall k :: k in r.data.cts ==>
              r.data.cts[k] == if LatestCt(b.hubCts(id).value, k).Some? then LatestCt(b.hubCts(id).value, k).value else d.cts[k]
  {
    var calls := Coordinator.HubCalls(b, id);
    Coordinator.FirstFailureNone(calls);
    assert Coordinator.FirstFailure(calls[1..][1..]) == Coordinator.FirstFailure([calls[2]]);
    match b.hub(id)
    case AuthErr => Polled(d, Some(Discovery.AuthFailed))
    case ConnErr => Polled(d, Some(Discovery.UpdateFailed))
    case Ok(h) =>
      var d1 := d.(whems := d.whems[id := h]);
      match b.hubBreakers(id)
      case AuthErr => Polled(d1, Some(Discovery.AuthFailed))
      case ConnErr => Polled(d1, Some(Discovery.UpdateFailed))
      case Ok(bs) =>
        var d2 := d1.(breakers := Discovery.AddBreakers(d1.breakers, bs));
        match b.hubCts(id)
        case AuthErr => Polled(d2, Some(Discovery.AuthFailed))
        case ConnErr => Polled(d2, Some(Discovery.UpdateFailed))
        case Ok(cs) => Polled(d2.(cts := AddCts(d2.cts, cs)), None)
  }

  /** Every listed hub in order, stopping at the first failing call. */
  function PollHubs(b: Discovery.Backend, order: seq<string>, d: LegacyData): (r: Polled)
    ensures r.failure == Coordinator.FirstFailure(Coordinator.HubsCalls(b, order))
    ensures Grows(d, r.data) && r.data.panels == d.panels
    ensures forall x :: x in r.data.whems ==> x in d.whems || x in order
    ensures r.failure.None? ==> forall x :: x in order ==> x in r.data.whems && b.hub(x) == Ok(r.data.whems[x])
    ensures r.failure.None? ==> forall x :: x in d.whems && x !in order ==> r.data.whems[x] == d.whems[x]
    decreases |order|
  {
    if order == [] then Polled(d, None)
    else
      var one := PollHub(b, order[0], d);
      Coordinator.FirstFailureConcat(Coordinator.HubCalls(b, order[0]), Coordinator.HubsCalls(b, order[1..]));
      if one.failure.Some? then one
      else PollHubs(b, order[1..], one.data)
  }

  /**
   * A successful hub poll adds exactly the breakers and CTs the hubs'
   * fetches return, and each key holds the last record fetched under it
   * across all hubs in poll order, or its old record if none was.
   */
  lemma PollHubsChildren(b: Discovery.Backend, order: seq<string>, d: LegacyData)
    ensures var r := PollHubs(b, order, d);
            && (r.failure.None? ==> r.data.breakers.Keys == d.breakers.Keys + Coordinator.HubsBreakerIds(b, order))
            && (r.failure.None? ==> r.data.cts.Keys == d.cts.Keys + HubsCtIds(b, order))
    ensures var r := PollHubs(b, order, d);
            r.failure.None? ==> forall k :: Discovery.LatestBreaker(Coordinator.HubsBreakers(b, order), k).Some? ==>
              k in r.data.breakers && r.data.breakers[k] == Discovery.LatestBreaker(Coordinator.HubsBreakers(b, order), k).value
    ensures var r := PollHubs(b, order, d);
            r.failure.None? ==> forall k :: k in d.breakers && Discovery.LatestBreaker(Coordinator.HubsBreakers(b, order), k).None? ==>
              k in r.data.breakers && r.data.breakers[k] == d.breakers[k]
    ensures var r := PollHubs(b, order, d);
            r.failure.None? ==> forall k :: LatestCt(Coordinator.HubsCts(b, order), k).Some? ==>
              k in r.data.cts && r.data.cts[k] == LatestCt(Coordinator.HubsCts(b, order), k).value
    ensures var r := PollHubs(b, order, d);
            r.failure.None? ==> forall k :: k in d.cts && LatestCt(Coordinator.HubsCts(b, order), k).None? ==>
              k in r.data.cts && r.data.cts[k] == d.cts[k]
  {
    PollHubsBreakers(b, order, d);
    PollHubsCts(b, order, d);
    PollHubsBreakerRecords(b, order, d);
    PollHubsCtRecords(b, order, d);
  }

  /** A successful hub poll stores the breakers as one `AddBreakers` of all hubs' fetches would. */
  lemma {:induction false} PollHubsBreakerRecords(b: Discovery.Backend, order: seq<string>, d: LegacyData)
    ensures PollHubs(b, order, d).failure.None? ==>
              PollHubs(b, order, d).data.breakers == Discovery.AddBreakers(d.breakers, Coordinator.HubsBreakers(b, order))
    decreases |order|
  {
    if order != [] {
      var one := PollHub(b, order[0], d);
      if one.failure.None? {
        assert PollHubs(b, order, d) == PollHubs(b, order[1..], one.data);
        var bs := b.hubBreakers(order[0]).value;
        assert Coordinator.HubsBreakers(b, order) == bs + Coordinator.HubsBreakers(b, order[1..]);
        Discovery.AddBreakersDetermined(d.breakers, bs, one.data.breakers);
        PollHubsBreakerRecords(b, order[1..], one.data);
        Discovery.AddBreakersConcat(d.breakers, bs, Coordinator.HubsBreakers(b, order[1..]));
      }
    }
  }

  lemma {:induction false} PollHubsCtRecords(b: Discovery.Backend, order: seq<string>, d: LegacyData)
    ensures PollHubs(b, order, d).failure.None? ==>
              PollHubs(b, order, d).data.cts == AddCts(d.cts, Coordinator.HubsCts(b, order))
    decreases |order|
  {
    if order != [] {
      var one := PollHub(b, order[0], d);
      if one.failure.None? {
        assert PollHubs(b, order, d) == PollHubs(b, order[1..], one.data);
        var cs := b.hubCts(order[0]).value;
        assert Coordinator.HubsCts(b, order) == cs + Coordinator.HubsCts(b, order[1..]);
        AddCtsDetermined(d.cts, cs, one.data.cts);
        PollHubsCtRecords(b, order[1..], one.data);
        AddCtsConcat(d.cts, cs, Coordinator.HubsCts(b, order[1..]));
      }
    }
  }

  lemma {:induction false} PollHubsBreakers(b: Discovery.Backend, order: seq<string>, d: LegacyData)
    ensures var r := PollHubs(b, order, d);
            r.failure.None? ==> r.data.breakers.Keys == d.breakers.Keys + Coordinator.HubsBreakerIds(b, order)
    decreases |order|
  {
    if order != [] {
      var one := PollHub(b, order[0], d);
      if one.failure.None? {
        PollHubsBreakers(b, order[1..], one.data);
      }
    }
  }

  lemma {:induction false} PollHubsCts(b: Discovery.Backend, order: seq<string>, d: LegacyData)
    ensures var r := PollHubs(b, order, d);
            r.failure.None? ==> r.data.cts.Keys == d.cts.Keys + HubsCtIds(b, order)
    decreases |order|
  {
    if order != [] {
      var one := PollHub(b, order[0], d);
      if one.failure.None? {
        PollHubsCts(b, order[1..], one.data);
      }
    }
  }

  /** One panel: the record under the requested id, then its breakers. */
  function PollPanel(b: Discovery.Backend, id: string, d: LegacyData): (r: Polled)
    ensures r.failure == Coordinator.FirstFailure(Coordinator.PanelCalls(b, id))
    ensures Grows(d, r.data) && r.data.panels.Keys <= d.panels.Keys + {id}
    ensures r.data.whems == d.whems && r.data.cts == d.cts
    ensures r.failure.None? ==> r.data.panels == d.panels[id := b.panel(id).value]
    ensures r.failure.None? ==> r.data.breakers.Keys == d.breakers.Keys + Discovery.FetchedBreakerIds(b.panelBreakers(id))
    ensures r.failure.None? ==> b.panelBreakers(id).Ok?
    ensures r.failure.None? ==> forall k :: k in r.data.breakers ==>
              r.data.breakers[k] == if Discovery.LatestBreaker(b.panelBreakers(id).value, k).Some? then Discovery.LatestBreaker(b.panelBreakers(id).value, k).value else d.breakers[k]
  {
    Coordinator.FirstFailureNone(Coordinator.PanelCalls(b, id));
    match b.panel(id)
    case AuthErr => Polled(d, Some(Discovery.AuthFailed))
    case ConnErr => Polled(d, Some(Discovery.UpdateFailed))
    case Ok(p) =>
      var d1 := d.(panels := d.panels[id := p]);
      match b.panelBreakers(id)
      case AuthErr => Polled(d1, Some(Discovery.AuthFailed))
      case ConnErr => Polled(d1, Some(Discovery.UpdateFailed))
      case Ok(bs) => Polled(d1.(breakers := Discovery.AddBreakers(d1.breakers, bs)), None)
  }

  /** Every listed panel in order, stopping at the first failing call. */
  function PollPanels(b: Discovery.Backend, order: seq<string>, d: LegacyData): (r: Polled)
    ensures r.failure == Coordinator.FirstFailure(Coordinator.PanelsCalls(b, order))
    ensures Grows(d, r.data) && r.data.whems == d.whems && r.data.cts == d.cts
    ensures forall x :: x in r.data.panels ==> x in d.panels || x in order
    ensures r.failure.None? ==> forall x :: x in order ==> x in r.data.panels && b.panel(x) == Ok(r.data.panels[x])
    ensures r.failure.None? ==> forall x :: x in d.panels && x !in order ==> r.data.panels[x] == d.panels[x]
    decreases |order|
  {
    if order == [] then Polled(d, None)
    else
      var one := PollPanel(b, order[0], d);
      Coordinator.FirstFailureConcat(Coordinator.PanelCalls(b, order[0]), Coordinator.PanelsCalls(b, order[1..]));
      if one.failure.Some? then one
      else PollPanels(b, order[1..], one.data)
  }

  /**
   * A successful panel poll adds exactly the breakers the panels' fetches
   * return, and each id holds the last record fetched under it across all
   * panels in poll order, or its old record if none was.
   */
  lemma PollPanelsChildren(b: Discovery.Backend, order: seq<string>, d: LegacyData)
    ensures var r := PollPanels(b, order, d);
            r.failure.None? ==> r.data.breakers.Keys == d.breakers.Keys + Coordinator.PanelsBreakerIds(b, order)
    ensures var r := PollPanels(b, order, d);
            r.failure.None? ==> forall k :: Discovery.LatestBreaker(Coordinator.PanelsBreakers(b, order), k).Some? ==>
              k in r.data.breakers && r.data.breakers[k] == Discovery.LatestBreaker(Coordinator.PanelsBreakers(b, order), k).value
    ensures var r := PollPanels(b, order, d);
            r.failure.None? ==> forall k :: k in d.breakers && Discovery.LatestBreaker(Coordinator.PanelsBreakers(b, order), k).None? ==>
              k in r.data.breakers && r.data.breakers[k] == d.breakers[k]
  {
    PollPanelsBreakers(b, order, d);
    PollPanelsBreakerRecords(b, order, d);
  }

  lemma {:induction false} PollPanelsBreakers(b: Discovery.Backend, order: seq<string>, d: LegacyData)
    ensures var r := PollPanels(b, order, d);
            r.failure.None? ==> r.data.breakers.Keys == d.breakers.Keys + Coordinator.PanelsBreakerIds(b, order)
    decreases |order|
  {
    if order != [] {
      var one := PollPanel(b, order[0], d);
      if one.failure.None? {
        PollPanelsBreakers(b, order[1..], one.data);
      }
    }
  }

  /** A successful panel poll stores the breakers as one `AddBreakers` of all panels' fetches would. */
  lemma {:induction false} PollPanelsBreakerRecords(b: Discovery.Backend, order: seq<string>, d: LegacyData)
    ensures PollPanels(b, order, d).failure.None? ==>
              PollPanels(b, order, d).data.breakers == Discovery.AddBreakers(d.breakers, Coordinator.PanelsBreakers(b, order))
    decreases |order|
  {
    if order != [] {
      var one := PollPanel(b, order[0], d);
      if one.failure.None? {
        assert PollPanels(b, order, d) == PollPanels(b, order[1..], one.data);
        var bs := b.panelBreakers(order[0]).value;
        assert Coordinator.PanelsBreakers(b, order) == bs + Coordinator.PanelsBreakers(b, order[1..]);
        Discovery.AddBreakersDetermined(d.breakers, bs, one.data.breakers);
        PollPanelsBreakerRecords(b, order[1..], one.data);
        Discovery.AddBreakersConcat(d.breakers, bs, Coordinator.PanelsBreakers(b, order[1..]));
      }
    }
  }

  /** The refetch calls of a poll, in order: every hub, then every panel. */
  function RefetchCalls(b: Discovery.Backend, hubOrder: seq<string>, panelOrder: seq<string>): seq<Coordinator.Status> {
    Coordinator.HubsCalls(b, hubOrder) + Coordinator.PanelsCalls(b, panelOrder)
  }

  /** The state after a refresh, and how it failed. */
  datatype Refreshed = Refreshed(state: LegacyState, failure: Option<Discovery.Failure>)

  /**
   * `_async_update_data`: every hub (with its breakers and CTs) and every
   * panel (with its breakers) is refetched whether or not a socket is
   * held, then every discovered residence is searched again. The first
   * failing refetch ends the poll (`ConfigEntryAuthFailed` or
   * `UpdateFailed`); an authentication error during the search ends it
   * as `ConfigEntryAuthFailed`, a connection error there is contained.
   * Records are only added or overwritten, never removed.
   */
  function Poll(b: Discovery.Backend, s: LegacyState, hubOrder: seq<string>, panelOrder: seq<string>): (r: Refreshed)
    requires Enumerates(hubOrder, s.data.whems.Keys) && Enumerates(panelOrder, s.data.panels.Keys)
    ensures r.state.residenceIds == s.residenceIds && r.state.wsUp == s.wsUp
    ensures Grows(s.data, r.state.data)
    ensures Coordinator.FirstFailure(RefetchCalls(b, hubOrder, panelOrder)).Some? ==>
              r.failure == Coordinator.FirstFailure(RefetchCalls(b, hubOrder, panelOrder))
    ensures Coordinator.FirstFailure(RefetchCalls(b, hubOrder, panelOrder)).None? ==>
              (r.failure.Some? <==> RediscoveryAuthError(b, s.residenceIds))
    ensures r.failure.Some? ==> r.failure.value == Discovery.AuthFailed || r.failure.value == Discovery.UpdateFailed
    ensures r.failure.None? ==> forall x :: x in s.data.whems ==> b.hub(x).Ok?
    ensures r.failure.None? ==> forall x :: x in s.data.panels ==> b.panel(x).Ok?
  {
    Coordinator.FirstFailureConcat(Coordinator.HubsCalls(b, hubOrder), Coordinator.PanelsCalls(b, panelOrder));
    var hubs := PollHubs(b, hubOrder, s.data);
    if hubs.failure.Some? then Refreshed(s.(data := hubs.data), hubs.failure)
    else
      var panels := PollPanels(b, panelOrder, hubs.data);
      if panels.failure.Some? then Refreshed(s.(data := panels.data), panels.failure)
      else
        var again := ResidencesFold(b, s.residenceIds, panels.data);
        Refreshed(s.(data := again.data), if again.authError then Some(Discovery.AuthFailed) else None)
  }

  /**
   * A successful poll keeps the hubs and panels it had and adds those the
   * repeated residence search finds.
   */
  lemma PollKeys(b: Discovery.Backend, s: LegacyState, hubOrder: seq<string>, panelOrder: seq<string>)
    requires Enumerates(hubOrder, s.data.whems.Keys) && Enumerates(panelOrder, s.data.panels.Keys)
    ensures var r := Poll(b, s, hubOrder, panelOrder);
            r.failure.None? ==>
              && r.state.data.whems.Keys == s.data.whems.Keys + OrderHubIds(b, s.residenceIds)
              && r.state.data.panels.Keys == s.data.panels.Keys + OrderPanelIds(b, s.residenceIds)
  {
    var hubs := PollHubs(b, hubOrder, s.data);
    if hubs.failure.None? {
      var panels := PollPanels(b, panelOrder, hubs.data);
      ResidencesFoldKeys(b, s.residenceIds, panels.data);
      KeysUnchanged(s.data.whems.Keys, hubs.data.whems.Keys, hubOrder);
      KeysUnchanged(s.data.panels.Keys, panels.data.panels.Keys, panelOrder);
    }
  }

  /** Keys that only grow, and only by names already among them, stay the same. */
  lemma KeysUnchanged(before: set<string>, after: set<string>, order: seq<string>)
    requires before <= after
    requires forall x :: x in after ==> x in before || x in order
    requires forall x :: x in order ==> x in before
    ensures after == before
  {
  }

  /**
   * A successful poll keeps the breakers and CTs it had and adds those the
   * refetched hubs and panels list and those the repeated residence search finds.
   */
  lemma PollChildKeys(b: Discovery.Backend, s: LegacyState, hubOrder: seq<string>, panelOrder: seq<string>)
    requires Enumerates(hubOrder, s.data.whems.Keys) && Enumerates(panelOrder, s.data.panels.Keys)
    ensures var r := Poll(b, s, hubOrder, panelOrder);
            r.failure.None? ==>
              && r.state.data.breakers.Keys == s.data.breakers.Keys + Coordinator.HubsBreakerIds(b, hubOrder)
                   + Coordinator.PanelsBreakerIds(b, panelOrder) + OrderBreakerIds(b, s.residenceIds)
              && r.state.data.cts.Keys == s.data.cts.Keys + HubsCtIds(b, hubOrder) + OrderCtIds(b, s.residenceIds)
  {
    var hubs := PollHubs(b, hubOrder, s.data);
    PollHubsChildren(b, hubOrder, s.data);
    if hubs.failure.None? {
      var panels := PollPanels(b, panelOrder, hubs.data);
      PollPanelsChildren(b, panelOrder, hubs.data);
      ResidencesFoldKeys(b, s.residenceIds, panels.data);
    }
  }

  /** `_handle_ws_disconnect`: the socket is dropped and nothing else changes. */
  function Disconnect(s: LegacyState): (r: LegacyState)
    ensures !r.wsUp
    ensures r.data == s.data && r.residenceIds == s.residenceIds
  {
    s.(wsUp := false)
  }

  /** Nothing reconnects: after a disconnect, polls keep the socket down. */
  lemma NoReconnect(b: Discovery.Backend, s: LegacyState, hubOrder: seq<string>, panelOrder: seq<string>)
    requires Enumerates(hubOrder, s.data.whems.Keys) && Enumerates(panelOrder, s.data.panels.Keys)
    ensures !Poll(b, Disconnect(s), hubOrder, panelOrder).state.wsUp
  {
  }

  // ---------------------------------------------------------------------
  // Push messages
  // ---------------------------------------------------------------------

  /** A breaker after a payload: the payload's values win, every other field stays. */
  function UpdateBreaker(p: Fields, b: Breaker): (r: Breaker)
    ensures r.id == b.id && r.kind == b.kind
    ensures r.fields.Keys == b.fields.Keys + p.Keys
    ensures forall k :: k in p ==> r.fields[k] == p[k]
    ensures forall k :: k in b.fields && k !in p ==> r.fields[k] == b.fields[k]
  {
    b.(fields := Merge(b.fields, p))
  }

  function UpdateCt(p: Fields, c: Ct): (r: Ct)
    ensures r.id == c.id
    ensures r.fields.Keys == c.fields.Keys + p.Keys
    ensures forall k :: k in p ==> r.fields[k] == p[k]
    ensures forall k :: k in c.fields && k !in p ==> r.fields[k] == c.fields[k]
  {
    c.(fields := Merge(c.fields, p))
  }

  /** One breaker after every entry of `items` that names it is merged into it, in order. */
  function BreakerUpdates(b: Breaker, items: seq<Fields>, id: string, known: set<string>): Breaker
    decreases |items|
  {
    if items == [] then b
    else
      var next := if Push.BreakerTarget(items[0], known) == Some(id) then UpdateBreaker(items[0], b) else b;
      BreakerUpdates(next, items[1..], id, known)
  }

  /** The nested breaker entries of a message, applied in order to the breakers they name. */
  function ApplyBreakers(breakers: map<string, Breaker>, items: seq<Fields>): (r: Push.BreakerPass)
    ensures r.breakers.Keys == breakers.Keys
    ensures r.applied <==> Push.BreakerIds(items, breakers.Keys) != {}
    ensures forall id :: id in breakers && id !in Push.BreakerIds(items, breakers.Keys) ==> r.breakers[id] == breakers[id]
    ensures forall id :: id in breakers ==> r.breakers[id] == BreakerUpdates(breakers[id], items, id, breakers.Keys)
    decreases |items|
  {
    if items == [] then Push.BreakerPass(breakers, false)
    else
      var first := match Push.BreakerTarget(items[0], breakers.Keys)
        case None => breakers
        case Some(t) => breakers[t := UpdateBreaker(items[0], breakers[t])];
      assert first.Keys == breakers.Keys;
      var rest := ApplyBreakers(first, items[1..]);
      Push.BreakerPass(rest.breakers, Push.BreakerTarget(items[0], breakers.Keys).Some? || rest.applied)
  }

  /**
   * The integer key a value is under Python's `int` equality: a JSON
   * integer, or a boolean (`True == 1`, `False == 0`). Text such as "7"
   * matches no integer key.
   */
  function IntKey(v: Value): (r: Option<int>)
    ensures v.Int? ==> r == Some(v.i)
    ensures v.Bool? ==> r == Some(if v.b then 1 else 0)
    ensures !v.Int? && !v.Bool? ==> r.None?
  {
    match v
    case Int(i) => Some(i)
    case Bool(t) => Some(if t then 1 else 0)
    case _ => None
  }

  /** The CT a nested entry names: a truthy integer id that is a known key. */
  function ChildCtTarget(p: Fields, known: set<int>): (r: Option<int>)
    ensures r.Some? <==> Truthy(Get(p, Push.ID)) && IntKey(Get(p, Push.ID)).Some? && IntKey(Get(p, Push.ID)).value in known
    ensures r.Some? ==> r == IntKey(Get(p, Push.ID)) && r.value in known
  {
    var v := Get(p, Push.ID);
    if Truthy(v) && IntKey(v).Some? && IntKey(v).value in known then IntKey(v) else None
  }

  function ChildCtIds(items: seq<Fields>, known: set<int>): (r: set<int>)
    ensures r <= known
    ensures forall i :: 0 <= i < |items| && ChildCtTarget(items[i], known).Some? ==> ChildCtTarget(items[i], known).value in r
    decreases |items|
  {
    if items == [] then {}
    else
      var rest := ChildCtIds(items[1..], known);
      assert forall i :: 1 <= i < |items| ==> items[i] == items[1..][i - 1];
      match ChildCtTarget(items[0], known)
      case Some(t) => {t} + rest
      case None => rest
  }

  /** One CT after every entry of `items` that names it is merged into it, in order. */
  function CtUpdates(c: Ct, items: seq<Fields>, id: int, known: set<int>): Ct
    decreases |items|
  {
    if items == [] then c
    else
      var next := if ChildCtTarget(items[0], known) == Some(id) then UpdateCt(items[0], c) else c;
      CtUpdates(next, items[1..], id, known)
  }

  datatype CtPass = CtPass(cts: map<int, Ct>, applied: bool)

  /** The nested CT entries of a hub message, applied in order. */
  function ApplyCts(cts: map<int, Ct>, items: seq<Fields>): (r: CtPass)
    ensures r.cts.Keys == cts.Keys
    ensures r.applied <==> ChildCtIds(items, cts.Keys) != {}
    ensures forall id :: id in cts && id !in ChildCtIds(items, cts.Keys) ==> r.cts[id] == cts[id]
    ensures forall id :: id in cts ==> r.cts[id] == CtUpdates(cts[id], items, id, cts.Keys)
    decreases |items|
  {
    if items == [] then CtPass(cts, false)
    else
      var first := match ChildCtTarget(items[0], cts.Keys)
        case None => cts
        case Some(t) => cts[t := UpdateCt(items[0], cts[t])];
      assert first.Keys == cts.Keys;
      var rest := ApplyCts(first, items[1..]);
      CtPass(rest.cts, ChildCtTarget(items[0], cts.Keys).Some? || rest.applied)
  }

  /** Devices a message updates. */
  datatype Touched = Touched(hubs: set<string>, panels: set<string>, breakers: set<string>, cts: set<int>) {
    predicate Any() {
      hubs != {} || panels != {} || breakers != {} || cts != {}
    }
  }

  const NOTHING: Touched := Touched({}, {}, {}, {})

  /** The CT a direct CT message names: `modelId` an `int` that is a known key. */
  function DirectCtTarget(n: Push.Notification, known: set<int>): (r: set<int>)
    ensures r <= known
    ensures r != {} <==> IntKey(n.modelId).Some? && IntKey(n.modelId).value in known
    ensures r != {} ==> r == {IntKey(n.modelId).value}
  {
    if IntKey(n.modelId).Some? && IntKey(n.modelId).value in known then {IntKey(n.modelId).value} else {}
  }

  /** The devices a message addresses, read off the message and the store's keys alone. */
  function Targets(data: LegacyData, n: Push.Notification): (t: Touched)
    ensures Push.Dropped(n) ==> t == NOTHING
    ensures t.hubs <= data.whems.Keys && t.panels <= data.panels.Keys
    ensures t.breakers <= data.breakers.Keys && t.cts <= data.cts.Keys
  {
    if Push.Dropped(n) then NOTHING
    else if n.modelName == Push.HUB_MODEL then
      Touched(Push.AsSet(Push.ParentTarget(Push.OwnFields(n.data, {Push.BREAKER_MODEL, Push.CT_MODEL}), n.modelId, data.whems.Keys)), {},
              Push.BreakerIds(Push.Children(Get(n.data, Push.BREAKER_MODEL)), data.breakers.Keys),
              ChildCtIds(Push.Children(Get(n.data, Push.CT_MODEL)), data.cts.Keys))
    else if n.modelName == Push.PANEL_MODEL then
      Touched({}, Push.AsSet(Push.ParentTarget(Push.OwnFields(n.data, {Push.BREAKER_MODEL}), n.modelId, data.panels.Keys)),
              Push.BreakerIds(Push.Children(Get(n.data, Push.BREAKER_MODEL)), data.breakers.Keys), {})
    else if n.modelName == Push.BREAKER_MODEL then Touched({}, {}, Push.DirectTarget(n, data.breakers.Keys), {})
    else if n.modelName == Push.CT_MODEL then Touched({}, {}, {}, DirectCtTarget(n, data.cts.Keys))
    else NOTHING
  }

  datatype Received = Received(data: LegacyData, notified: bool)

  /** A hub message: nested breakers, nested CTs, then the hub's own attributes. */
  function HubMessage(data: LegacyData, n: Push.Notification): (r: Received)
    requires !Push.Dropped(n) && n.modelName == Push.HUB_MODEL
    ensures SameLegacyDevices(data, r.data)
    ensures r.notified <==> Targets(data, n).Any()
    ensures r.data.panels == data.panels
    ensures forall h :: h in data.whems && h !in Targets(data, n).hubs ==> r.data.whems[h] == data.whems[h]
    ensures forall h :: h in Targets(data, n).hubs ==>
              r.data.whems[h] == data.whems[h].(fields := Merge(data.whems[h].fields, Push.OwnFields(n.data, {Push.BREAKER_MODEL, Push.CT_MODEL})))
    ensures forall x :: x in data.breakers && x !in Targets(data, n).breakers ==> r.data.breakers[x] == data.breakers[x]
    ensures forall c :: c in data.cts && c !in Targets(data, n).cts ==> r.data.cts[c] == data.cts[c]
    ensures forall x :: x in data.breakers ==>
              r.data.breakers[x] == BreakerUpdates(data.breakers[x], Push.Children(Get(n.data, Push.BREAKER_MODEL)), x, data.breakers.Keys)
    ensures forall c :: c in data.cts ==>
              r.data.cts[c] == CtUpdates(data.cts[c], Push.Children(Get(n.data, Push.CT_MODEL)), c, data.cts.Keys)
  {
    var bs := ApplyBreakers(data.breakers, Push.Children(Get(n.data, Push.BREAKER_MODEL)));
    var cs := ApplyCts(data.cts, Push.Children(Get(n.data, Push.CT_MODEL)));
    var own := Push.OwnFields(n.data, {Push.BREAKER_MODEL, Push.CT_MODEL});
    var hit := Push.ParentTarget(own, n.modelId, data.whems.Keys);
    Received(data.(breakers := bs.breakers, cts := cs.cts, whems := Push.MergeHub(data.whems, hit, own)),
             bs.applied || cs.applied || hit.Some?)
  }

  /** A panel message: nested breakers, then the panel's own attributes (everything but the breaker array). */
  function PanelMessage(data: LegacyData, n: Push.Notification): (r: Received)
    requires !Push.Dropped(n) && n.modelName == Push.PANEL_MODEL
    ensures SameLegacyDevices(data, r.data)
    ensures r.notified <==> Targets(data, n).Any()
    ensures r.data.whems == data.whems && r.data.cts == data.cts
    ensures forall p :: p in data.panels && p !in Targets(data, n).panels ==> r.data.panels[p] == data.panels[p]
    ensures forall p :: p in Targets(data, n).panels ==>
              r.data.panels[p] == data.panels[p].(fields := Merge(data.panels[p].fields, Push.OwnFields(n.data, {Push.BREAKER_MODEL})))
    ensures forall x :: x in data.breakers && x !in Targets(data, n).breakers ==> r.data.breakers[x] == data.breakers[x]
    ensures forall x :: x in data.breakers ==>
              r.data.breakers[x] == BreakerUpdates(data.breakers[x], Push.Children(Get(n.data, Push.BREAKER_MODEL)), x, data.breakers.Keys)
  {
    var bs := ApplyBreakers(data.breakers, Push.Children(Get(n.data, Push.BREAKER_MODEL)));
    var own := Push.OwnFields(n.data, {Push.BREAKER_MODEL});
    var hit := Push.ParentTarget(own, n.modelId, data.panels.Keys);
    Received(data.(panels := Push.MergePanel(data.panels, hit, own), breakers := bs.breakers), bs.applied || hit.Some?)
  }

  /** A direct breaker message: the whole data merged into the breaker `str(modelId)`. */
  function BreakerMessage(data: LegacyData, n: Push.Notification): (r: Received)
    requires !Push.Dropped(n) && n.modelName == Push.BREAKER_MODEL
    ensures SameLegacyDevices(data, r.data)
    ensures r.notified <==> Targets(data, n).Any()
    ensures r.data.whems == data.whems && r.data.panels == data.panels && r.data.cts == data.cts
    ensures forall x :: x in data.breakers && x !in Targets(data, n).breakers ==> r.data.breakers[x] == data.breakers[x]
    ensures forall x :: x in Targets(data, n).breakers ==> r.data.breakers[x] == UpdateBreaker(n.data, data.breakers[x])
  {
    match Str(n.modelId)
    case Some(key) =>
      if key in data.breakers then Received(data.(breakers := data.breakers[key := UpdateBreaker(n.data, data.breakers[key])]), true)
      else Received(data, false)
    case None => Received(data, false)
  }

  /** A direct CT message: applied only when `modelId` is an integer key of the store. */
  function CtMessage(data: LegacyData, n: Push.Notification): (r: Received)
    requires !Push.Dropped(n) && n.modelName == Push.CT_MODEL
    ensures SameLegacyDevices(data, r.data)
    ensures r.notified <==> Targets(data, n).Any()
    ensures r.data.whems == data.whems && r.data.panels == data.panels && r.data.breakers == data.breakers
    ensures forall c :: c in data.cts && c !in Targets(data, n).cts ==> r.data.cts[c] == data.cts[c]
    ensures forall c :: c in Targets(data, n).cts ==> r.data.cts[c] == UpdateCt(n.data, data.cts[c])
  {
    match IntKey(n.modelId)
    case Some(key) =>
      if key in data.cts then Received(data.(cts := data.cts[key := UpdateCt(n.data, data.cts[key])]), true)
      else Received(data, false)
    case None => Received(data, false)
  }

  /**
   * The older `_handle_ws_notification`: the store keeps its devices,
   * only the addressed devices change, and listeners are told exactly
   * when some device was addressed.
   */
  function Dispatch(data: LegacyData, n: Push.Notification): (r: Received)
    ensures SameLegacyDevices(data, r.data)
    ensures r.notified <==> Targets(data, n).Any()
    ensures forall h :: h in data.whems && h !in Targets(data, n).hubs ==> r.data.whems[h] == data.whems[h]
    ensures forall p :: p in data.panels && p !in Targets(data, n).panels ==> r.data.panels[p] == data.panels[p]
    ensures forall x :: x in data.breakers && x !in Targets(data, n).breakers ==> r.data.breakers[x] == data.breakers[x]
    ensures forall c :: c in data.cts && c !in Targets(data, n).cts ==> r.data.cts[c] == data.cts[c]
  {
    if Push.Dropped(n) then Received(data, false)
    else if n.modelName == Push.HUB_MODEL then HubMessage(data, n)
    else if n.modelName == Push.PANEL_MODEL then PanelMessage(data, n)
    else if n.modelName == Push.BREAKER_MODEL then BreakerMessage(data, n)
    else if n.modelName == Push.CT_MODEL then CtMessage(data, n)
    else Received(data, false)
  }

  // ---------------------------------------------------------------------
  // Properties of the handler
  // ---------------------------------------------------------------------

  /** A message without data or model id, or of an unknown model, changes nothing and tells no one. */
  lemma IgnoredMessagesChangeNothing(data: LegacyData, n: Push.Notification)
    requires Push.Dropped(n) || n.modelName !in {Push.HUB_MODEL, Push.PANEL_MODEL, Push.BREAKER_MODEL, Push.CT_MODEL}
    ensures Dispatch(data, n) == Received(data, false)
  {
  }

  /** A hub message reaches both nested arrays: its breakers and CTs after dispatch are those of the two array passes. */
  lemma HubRouted(data: LegacyData, n: Push.Notification)
    requires !Push.Dropped(n) && n.modelName == Push.HUB_MODEL
    ensures Dispatch(data, n).data.breakers == ApplyBreakers(data.breakers, Push.Children(Get(n.data, Push.BREAKER_MODEL))).breakers
    ensures Dispatch(data, n).data.cts == ApplyCts(data.cts, Push.Children(Get(n.data, Push.CT_MODEL))).cts
  {
    assert Dispatch(data, n) == HubMessage(data, n);
  }

  /** Entries that do not name a breaker leave it as it is. */
  lemma {:induction false} UnnamedBreakerUnchanged(b: Breaker, items: seq<Fields>, id: string, known: set<string>)
    requires forall j :: 0 <= j < |items| ==> Push.BreakerTarget(items[j], known) != Some(id)
    ensures BreakerUpdates(b, items, id, known) == b
    decreases |items|
  {
    if items != [] {
      assert forall j :: 1 <= j < |items| ==> items[1..][j - 1] == items[j];
      UnnamedBreakerUnchanged(b, items[1..], id, known);
    }
  }

  /**
   * The last nested entry naming a breaker decides every value it
   * carries, counters included: the older handler merges payloads as sent.
   */
  lemma {:induction false} LastBreakerEntryWins(b: Breaker, items: seq<Fields>, id: string, known: set<string>, i: nat, k: string)
    requires i < |items| && Push.BreakerTarget(items[i], known) == Some(id)
    requires forall j :: i < j < |items| ==> Push.BreakerTarget(items[j], known) != Some(id)
    requires k in items[i]
    ensures k in BreakerUpdates(b, items, id, known).fields
    ensures BreakerUpdates(b, items, id, known).fields[k] == items[i][k]
    decreases |items|
  {
    var next := if Push.BreakerTarget(items[0], known) == Some(id) then UpdateBreaker(items[0], b) else b;
    assert BreakerUpdates(b, items, id, known) == BreakerUpdates(next, items[1..], id, known);
    if i == 0 {
      assert forall j :: 0 <= j < |items[1..]| ==> items[1..][j] == items[j + 1];
      UnnamedBreakerUnchanged(next, items[1..], id, known);
    } else {
      assert items[1..][i - 1] == items[i];
      assert forall j :: i - 1 < j < |items[1..]| ==> items[1..][j] == items[j + 1];
      LastBreakerEntryWins(next, items[1..], id, known, i - 1, k);
    }
  }

  /**
   * A direct breaker message stores every payload value as sent: an
   * energy counter is not accumulated, and a breaker whose payload names
   * no state keeps its old state (no trip state is filled in).
   */
  lemma PayloadStoredAsSent(data: LegacyData, n: Push.Notification)
    requires !Push.Dropped(n) && n.modelName == Push.BREAKER_MODEL
    requires Str(n.modelId).Some? && Str(n.modelId).value in data.breakers
    ensures var after := Dispatch(data, n).data.breakers[Str(n.modelId).value];
            && (forall s :: WireKey(s) in n.data ==> after.fields[WireKey(s)] == n.data[WireKey(s)])
            && (CURRENT_STATE !in n.data ==> after.CurrentState() == data.breakers[Str(n.modelId).value].CurrentState())
  {
    var key := Str(n.modelId).value;
    assert key in Targets(data, n).breakers;
  }

  /**
   * Integer keys decide which CT a message reaches: a nested entry with
   * id 0 is skipped (0 is falsy) while a direct message for CT 0 applies,
   * and a direct message whose `modelId` is the text "7" never reaches
   * CT 7.
   */
  lemma CtKeyingExamples(data: LegacyData, hub: string, p: Fields)
    requires 0 in data.cts && 7 in data.cts
    requires Get(p, Push.ID) == Int(0) && p != map[]
    ensures Dispatch(data, Push.Notification(Push.HUB_MODEL, Text(hub), map[Push.CT_MODEL := List([Dict(p)])])) == Received(data, false)
    ensures Dispatch(data, Push.Notification(Push.CT_MODEL, Int(0), p)).notified
    ensures Dispatch(data, Push.Notification(Push.CT_MODEL, Text("7"), p)) == Received(data, false)
  {
    var nested := Push.Notification(Push.HUB_MODEL, Text(hub), map[Push.CT_MODEL := List([Dict(p)])]);
    assert Push.Children(Get(nested.data, Push.CT_MODEL)) == [p];
    assert ChildCtTarget(p, data.cts.Keys).None?;
    assert ChildCtIds([p], data.cts.Keys) == {};
    assert Push.OwnFields(nested.data, {Push.BREAKER_MODEL, Push.CT_MODEL}) == map[];
    assert Get(nested.data, Push.BREAKER_MODEL) == Null;
    var hm := HubMessage(data, nested);
    assert hm.data.cts == data.cts;
    assert hm.data.breakers == data.breakers;
    assert hm.data.whems == data.whems;
  }

  // ---------------------------------------------------------------------
  // The client package the modules import
  // ---------------------------------------------------------------------

  /** The client package: the name the integration's setup module and switch platform import. */
  const CLIENT_PACKAGE := "aioleviton"

  /** Each module of the older integration, and the package it imports its client classes from, as written. */
  const IMPORTS_AS_WRITTEN: map<string, string> := map[
    "__init__" := CLIENT_PACKAGE,
    "coordinator" := "aiolevtion",
    "config_flow" := "aiolevtion",
    "switch" := CLIENT_PACKAGE]

  /** The same modules with the package name spelled as the setup module spells it. */
  const IMPORTS: map<string, string> := map m | m in IMPORTS_AS_WRITTEN :: CLIENT_PACKAGE

  /** The modules whose client import fails when only `installed` packages exist. */
  function Unresolved(imports: map<string, string>, installed: set<string>): (r: set<string>)
    ensures r <= imports.Keys
    ensures forall m :: m in imports ==> (m in r <==> imports[m] !in installed)
  {
    set m | m in imports && imports[m] !in installed
  }

  /**
   * As written, the coordinator and the config flow import from a package
   * that is not installed, so the coordinator (which the setup module
   * imports) and the config flow never load.
   */
  lemma LegacyImportFails()
    ensures Unresolved(IMPORTS_AS_WRITTEN, {CLIENT_PACKAGE}) == {"coordinator", "config_flow"}
  {
    var u := Unresolved(IMPORTS_AS_WRITTEN, {CLIENT_PACKAGE});
    assert "coordinator" in u && "config_flow" in u;
    assert "__init__" !in u && "switch" !in u;
  }

  /** With the package name corrected, every module loads; this is the coordinator the model follows. */
  lemma LegacyImportResolves()
    ensures IMPORTS.Keys == IMPORTS_AS_WRITTEN.Keys
    ensures Unresolved(IMPORTS, {CLIENT_PACKAGE}) == {}
  {
  }
}

=== FILE: push.dfy ===
/**
 * Routing of one push notification into the device store: hub and panel
 * messages carry nested arrays of child updates, breaker and CT messages
 * carry the device's own attributes. Streamed energy values go through
 * an energy hook before they are merged; Gen-1 breaker trips are
 * synthesised from `remoteTrip`.
 */
module Push {
  import opened Wrappers
  import opened Values
  import opened Store
  import Energy

  const ID := "id"
  const HUB_MODEL := "IotWhem"
  const PANEL_MODEL := "ResidentialBreakerPanel"
  const BREAKER_MODEL := "ResidentialBreaker"
  const CT_MODEL := "IotCt"
  const SOFTWARE_TRIP := "SoftwareTrip"

  /**
   * A decoded push message: `modelName` ("" when absent), `modelId`
   * (`Null` when absent or None) and the `data` object ({} when absent).
   */
  datatype Notification = Notification(modelName: string, modelId: Value, data: Fields)

  /** The energy rewriting applied to a streamed payload before it is merged. */
  datatype EnergyHooks = EnergyHooks(breaker: (Fields, Breaker) -> Fields, ct: (Fields, Ct) -> Fields)

  /** The hooks the live handler runs: delta accumulation. */
  const ACCUMULATE: EnergyHooks := EnergyHooks(Energy.AccumulateBreakerEnergy, Energy.AccumulateCtEnergy)

  /** The top-level names the energy module defines. */
  const ENERGY_DEFINES: set<string> := {
    "STORAGE_VERSION", "accumulate_breaker_energy", "accumulate_ct_energy",
    "calc_daily_energy", "snapshot_daily_baselines", "EnergyTracker"}

  /** The names the push module imports from the energy module. */
  const PUSH_IMPORTS: set<string> := {"normalize_breaker_energy", "normalize_ct_energy"}

  /** The energy-module names the `ACCUMULATE` hooks stand for. */
  const ACCUMULATE_NAMES: set<string> := {"accumulate_breaker_energy", "accumulate_ct_energy"}

  /**
   * As written, neither imported hook exists in the energy module, so
   * the push module cannot be imported at all.
   */
  lemma PushImportFails()
    ensures PUSH_IMPORTS * ENERGY_DEFINES == {}
    ensures PUSH_IMPORTS - ENERGY_DEFINES == PUSH_IMPORTS
  {
    assert "normalize_breaker_energy" !in ENERGY_DEFINES;
    assert "normalize_ct_energy" !in ENERGY_DEFINES;
  }

  /** The accumulate hooks the model runs are defined by the energy module. */
  lemma AccumulateImportResolves()
    ensures ACCUMULATE_NAMES <= ENERGY_DEFINES
  {
  }

  /** The effect of one message on the store, and whether listeners are told. */
  datatype Received = Received(data: LevitonData, notified: bool)

  // ---------------------------------------------------------------------
  // Child arrays
  // ---------------------------------------------------------------------

  /** The objects of a nested child array, in order; other entries are skipped. */
  function Children(v: Value): (r: seq<Fields>)
    ensures !v.List? ==> r == []
    ensures forall f :: f in r ==> v.List? && Dict(f) in v.items
    ensures v.List? ==> forall j :: 0 <= j < |v.items| && v.items[j].Dict? ==> v.items[j].entries in r
    ensures v.List? ==> |r| == |DictPositions(v.items)| && forall k :: 0 <= k < |r| ==> v.items[DictPositions(v.items)[k]] == Dict(r[k])
  {
    if v.List? then Objects(v.items) else []
  }

  /** The entries of a child array that are objects, in array order, with their duplicates. */
  function Objects(items: seq<Value>): (r: seq<Fields>)
    ensures |r| <= |items|
    ensures forall f :: f in r ==> Dict(f) in items
    ensures forall j :: 0 <= j < |items| && items[j].Dict? ==> items[j].entries in r
    ensures |r| == |DictPositions(items)|
    ensures forall k :: 0 <= k < |r| ==> items[DictPositions(items)[k]] == Dict(r[k])
  {
    var r := ObjectsFrom(items, 0);
    assert DictPositions(items) == DictPositionsFrom(items, 0);
    assert forall j :: 0 <= j < |items| && items[j].Dict? ==> items[j].entries in r by {
      forall j | 0 <= j < |items| && items[j].Dict?
        ensures items[j].entries in r
      {
        var k :| 0 <= k < |DictPositions(items)| && DictPositions(items)[k] == j;
        assert Dict(r[k]) == items[j];
      }
    }
    r
  }

  /** The object entries at or after position `i`, in array order. */
  function ObjectsFrom(items: seq<Value>, i: nat): (r: seq<Fields>)
    requires i <= |items|
    ensures |r| == |DictPositionsFrom(items, i)|
    ensures forall k :: 0 <= k < |r| ==> items[DictPositionsFrom(items, i)[k]] == Dict(r[k])
    decreases |items| - i
  {
    if i == |items| then []
    else if items[i].Dict? then [items[i].entries] + ObjectsFrom(items, i + 1)
    else ObjectsFrom(items, i + 1)
  }

  /** The positions of a child array's object entries, in increasing order, every one of them. */
  function DictPositions(items: seq<Value>): (r: seq<nat>)
    ensures forall k :: 0 <= k < |r| ==> r[k] < |items| && items[r[k]].Dict?
    ensures forall k, l :: 0 <= k < l < |r| ==> r[k] < r[l]
    ensures forall j :: 0 <= j < |items| && items[j].Dict? ==> j in r
  {
    DictPositionsFrom(items, 0)
  }

  /** The positions of the object entries at or after position `i`, in increasing order. */
  function DictPositionsFrom(items: seq<Value>, i: nat): (r: seq<nat>)
    requires i <= |items|
    ensures |r| <= |items| - i
    ensures forall k :: 0 <= k < |r| ==> i <= r[k] < |items| && items[r[k]].Dict?
    ensures forall k, l :: 0 <= k < l < |r| ==> r[k] < r[l]
    ensures forall j :: i <= j < |items| && items[j].Dict? ==> j in r
    decreases |items| - i
  {
    if i == |items| then []
    else if items[i].Dict? then [i] + DictPositionsFrom(items, i + 1)
    else DictPositionsFrom(items, i + 1)
  }

  /** The payload without the given keys (the child arrays). */
  function OwnFields(payload: Fields, excluded: set<string>): (r: Fields)
    ensures r.Keys == payload.Keys - excluded
    ensures forall k :: k in r ==> r[k] == payload[k]
  {
    map k | k in payload && k !in excluded :: payload[k]
  }

  // ---------------------------------------------------------------------
  // Breaker updates
  // ---------------------------------------------------------------------

  /**
   * The breaker a payload addresses: its `id` when that is a non-empty
   * text naming a known breaker.
   */
  function BreakerTarget(p: Fields, known: set<string>): (r: Option<string>)
    ensures r.Some? <==> Get(p, ID).Text? && Truthy(Get(p, ID)) && Get(p, ID).s in known
    ensures r.Some? ==> Get(p, ID) == Text(r.value) && r.value in known
  {
    match Get(p, ID)
    case Text(s) => if s != "" && s in known then Some(s) else None
    case _ => None
  }

  /**
   * A Gen-1 breaker reports a remote trip only through `remoteTrip`; when
   * the breaker cannot be switched back on remotely and the payload does
   * not already name a state, the state "SoftwareTrip" is filled in.
   */
  function SynthesiseTrip(p: Fields, b: Breaker): (r: Fields)
    ensures r.Keys == p.Keys + (if Truthy(Get(p, REMOTE_TRIP)) && !b.CanRemoteOn() then {CURRENT_STATE} else {})
    ensures forall k :: k in p ==> r[k] == p[k]
    ensures CURRENT_STATE !in p && Truthy(Get(p, REMOTE_TRIP)) && !b.CanRemoteOn() ==>
              r[CURRENT_STATE] == Text(SOFTWARE_TRIP)
  {
    if Truthy(Get(p, REMOTE_TRIP)) && !b.CanRemoteOn() && CURRENT_STATE !in p
    then p[CURRENT_STATE := Text(SOFTWARE_TRIP)]
    else p
  }

  /**
   * `_apply_breaker_ws_update` once the breaker is found: every value of
   * the hooked payload is stored, every other field is kept, and a
   * payload naming no state gets the synthesised trip state or keeps the
   * breaker's own.
   */
  function UpdateBreaker(p: Fields, b: Breaker, hooks: EnergyHooks): (r: Breaker)
    ensures r.id == b.id && r.kind == b.kind
    ensures r.fields.Keys == b.fields.Keys + SynthesiseTrip(hooks.breaker(p, b), b).Keys
    ensures forall k :: k in hooks.breaker(p, b) ==> r.fields[k] == hooks.breaker(p, b)[k]
    ensures forall k :: k in b.fields && k !in hooks.breaker(p, b) && k != CURRENT_STATE ==> r.fields[k] == b.fields[k]
    ensures CURRENT_STATE !in hooks.breaker(p, b) ==>
              Get(r.fields, CURRENT_STATE) ==
                if Truthy(Get(hooks.breaker(p, b), REMOTE_TRIP)) && !b.CanRemoteOn() then Text(SOFTWARE_TRIP)
                else Get(b.fields, CURRENT_STATE)
  {
    b.(fields := Merge(b.fields, SynthesiseTrip(hooks.breaker(p, b), b)))
  }

  /** The known breakers a sequence of payloads addresses. */
  function BreakerIds(items: seq<Fields>, known: set<string>): (r: set<string>)
    ensures r <= known
    ensures forall i :: 0 <= i < |items| && BreakerTarget(items[i], known).Some? ==>
              BreakerTarget(items[i], known).value in r
    decreases |items|
  {
    if items == [] then {}
    else
      var rest := BreakerIds(items[1..], known);
      assert forall i :: 1 <= i < |items| ==> items[i] == items[1..][i - 1];
      match BreakerTarget(items[0], known)
      case Some(t) => {t} + rest
      case None => rest
  }

  /**
   * One breaker after every entry of `items` that names it is applied to
   * it, in order: the reference for a child array pass, seen from a
   * single breaker.
   */
  function BreakerUpdates(b: Breaker, items: seq<Fields>, id: string, known: set<string>, hooks: EnergyHooks): Breaker
    decreases |items|
  {
    if items == [] then b
    else
      var next := if BreakerTarget(items[0], known) == Some(id) then UpdateBreaker(items[0], b, hooks) else b;
      BreakerUpdates(next, items[1..], id, known, hooks)
  }

  /** The breakers after a child array, and whether any entry was applied. */
  datatype BreakerPass = BreakerPass(breakers: map<string, Breaker>, applied: bool)

  /** The breaker entries of a child array, applied in order. */
  function ApplyBreakers(breakers: map<string, Breaker>, items: seq<Fields>, hooks: EnergyHooks): (r: BreakerPass)
    ensures r.breakers.Keys == breakers.Keys
    ensures r.applied <==> BreakerIds(items, breakers.Keys) != {}
    ensures forall id :: id in breakers && id !in BreakerIds(items, breakers.Keys) ==>
              r.breakers[id] == breakers[id]
    ensures forall id :: id in breakers ==>
              r.breakers[id].id == breakers[id].id && r.breakers[id].kind == breakers[id].kind
    ensures forall id :: id in breakers ==> r.breakers[id] == BreakerUpdates(breakers[id], items, id, breakers.Keys, hooks)
    decreases |items|
  {
    if items == [] then BreakerPass(breakers, false)
    else
      var first := match BreakerTarget(items[0], breakers.Keys)
        case None => breakers
        case Some(t) => breakers[t := UpdateBreaker(items[0], breakers[t], hooks)];
      assert first.Keys == breakers.Keys;
      var rest := ApplyBreakers(first, items[1..], hooks);
      BreakerPass(rest.breakers, BreakerTarget(items[0], breakers.Keys).Some? || rest.applied)
  }

  // ---------------------------------------------------------------------
  // CT updates
  // ---------------------------------------------------------------------

  /** The CT a nested payload addresses: `str(id)` when the id is set and that key is known. */
  function CtTarget(p: Fields, known: set<string>): (r: Option<string>)
    ensures r.Some? <==> Get(p, ID) != Null && Str(Get(p, ID)).Some? && Str(Get(p, ID)).value in known
    ensures r.Some? ==> Str(Get(p, ID)) == r && r.value in known
  {
    if Get(p, ID) == Null then None
    else
      match Str(Get(p, ID))
      case Some(key) => if key in known then Some(key) else None
      case None => None
  }

  /** A CT after a nested payload: every value of the hooked payload is stored, every other field kept. */
  function UpdateCt(p: Fields, c: Ct, hooks: EnergyHooks): (r: Ct)
    ensures r.id == c.id
    ensures r.fields.Keys == c.fields.Keys + hooks.ct(p, c).Keys
    ensures forall k :: k in hooks.ct(p, c) ==> r.fields[k] == hooks.ct(p, c)[k]
    ensures forall k :: k in c.fields && k !in hooks.ct(p, c) ==> r.fields[k] == c.fields[k]
  {
    c.(fields := Merge(c.fields, hooks.ct(p, c)))
  }

  /** The known CTs a sequence of payloads addresses. */
  function CtIds(items: seq<Fields>, known: set<string>): (r: set<string>)
    ensures r <= known
    ensures forall i :: 0 <= i < |items| && CtTarget(items[i], known).Some? ==>
              CtTarget(items[i], known).value in r
    decreases |items|
  {
    if items == [] then {}
    else
      var rest := CtIds(items[1..], known);
      assert forall i :: 1 <= i < |items| ==> items[i] == items[1..][i - 1];
      match CtTarget(items[0], known)
      case Some(t) => {t} + rest
      case None => rest
  }

  /** One CT after every entry of `items` that names it is applied to it, in order. */
  function CtUpdates(c: Ct, items: seq<Fields>, id: string, known: set<string>, hooks: EnergyHooks): Ct
    decreases |items|
  {
    if items == [] then c
    else
      var next := if CtTarget(items[0], known) == Some(id) then UpdateCt(items[0], c, hooks) else c;
      CtUpdates(next, items[1..], id, known, hooks)
  }

  datatype CtPass = CtPass(cts: map<string, Ct>, applied: bool)

  /** The CT entries of a hub's child array, applied in order. */
  function ApplyCts(cts: map<string, Ct>, items: seq<Fields>, hooks: EnergyHooks): (r: CtPass)
    ensures r.cts.Keys == cts.Keys
    ensures r.applied <==> CtIds(items, cts.Keys) != {}
    ensures forall id :: id in cts && id !in CtIds(items, cts.Keys) ==> r.cts[id] == cts[id]
    ensures forall id :: id in cts ==> r.cts[id].id == cts[id].id
    ensures forall id :: id in cts ==> r.cts[id] == CtUpdates(cts[id], items, id, cts.Keys, hooks)
    decreases |items|
  {
    if items == [] then CtPass(cts, false)
    else
      var first := match CtTarget(items[0], cts.Keys)
        case None => cts
        case Some(t) => cts[t := UpdateCt(items[0], cts[t], hooks)];
      assert first.Keys == cts.Keys;
      var rest := ApplyCts(first, items[1..], hooks);
      CtPass(rest.cts, CtTarget(items[0], cts.Keys).Some? || rest.applied)
  }

  // ---------------------------------------------------------------------
  // The handler
  // ---------------------------------------------------------------------

  /** Devices a message updates. */
  datatype Touched = Touched(hubs: set<string>, panels: set<string>, breakers: set<string>, cts: set<string>) {
    predicate Any() {
      hubs != {} || panels != {} || breakers != {} || cts != {}
    }
  }

  const NOTHING: Touched := Touched({}, {}, {}, {})

  /** Messages discarded before routing: no data or no model id. */
  predicate Dropped(n: Notification) {
    n.data == map[] || n.modelId == Null
  }

  /** The parent a hub or panel message updates: `str(modelId)`, when its own attributes are non-empty and it is known. */
  function ParentTarget(own: Fields, modelId: Value, known: set<string>): (r: Option<string>)
    ensures r.Some? <==> own != map[] && Str(modelId).Some? && Str(modelId).value in known
    ensures r.Some? ==> r == Str(modelId) && r.value in known
  {
    if own != map[] && Str(modelId).Some? && Str(modelId).value in known then Str(modelId) else None
  }

  function AsSet(o: Option<string>): (r: set<string>)
    ensures o.None? <==> r == {}
    ensures o.Some? ==> r == {o.value}
  {
    match o
    case Some(x) => {x}
    case None => {}
  }

  /** The hubs after the addressed hub, if any, merged its own attributes. */
  function MergeHub(whems: map<string, Hub>, target: Option<string>, own: Fields): (r: map<string, Hub>)
    requires target.Some? ==> target.value in whems
    ensures r.Keys == whems.Keys
    ensures forall h :: h in whems && h !in AsSet(target) ==> r[h] == whems[h]
    ensures forall h :: h in AsSet(target) ==> r[h] == whems[h].(fields := Merge(whems[h].fields, own))
  {
    match target
    case None => whems
    case Some(h) => whems[h := whems[h].(fields := Merge(whems[h].fields, own))]
  }

  /** The panels after the addressed panel, if any, merged its own attributes. */
  function MergePanel(panels: map<string, Panel>, target: Option<string>, own: Fields): (r: map<string, Panel>)
    requires target.Some? ==> target.value in panels
    ensures r.Keys == panels.Keys
    ensures forall p :: p in panels && p !in AsSet(target) ==> r[p] == panels[p]
    ensures forall p :: p in AsSet(target) ==> r[p] == panels[p].(fields := Merge(panels[p].fields, own))
  {
    match target
    case None => panels
    case Some(p) => panels[p := panels[p].(fields := Merge(panels[p].fields, own))]
  }

  /**
   * The devices a message addresses, read off the message and the store's
   * keys alone: the independent description of what the handler may touch.
   */
  function Targets(data: LevitonData, n: Notification): (t: Touched)
    ensures Dropped(n) ==> t == NOTHING
    ensures t.hubs <= data.whems.Keys && t.panels <= data.panels.Keys
    ensures t.breakers <= data.breakers.Keys && t.cts <= data.cts.Keys
  {
    if Dropped(n) then NOTHING
    else if n.modelName == HUB_MODEL then HubTargets(data, n)
    else if n.modelName == PANEL_MODEL then PanelTargets(data, n)
    else if n.modelName == BREAKER_MODEL then Touched({}, {}, BreakerIds(DirectBreakerPayload(n), data.breakers.Keys), {})
    else if n.modelName == CT_MODEL then Touched({}, {}, {}, DirectTarget(n, data.cts.Keys))
    else NOTHING
  }

  /** A hub message addresses the hub itself (when it carries own attributes) and its nested children. */
  function HubTargets(data: LevitonData, n: Notification): (t: Touched)
    ensures t.hubs <= data.whems.Keys && t.panels == {}
    ensures t.breakers <= data.breakers.Keys && t.cts <= data.cts.Keys
  {
    Touched(AsSet(ParentTarget(OwnFields(n.data, {BREAKER_MODEL, CT_MODEL}), n.modelId, data.whems.Keys)), {},
            BreakerIds(Children(Get(n.data, BREAKER_MODEL)), data.breakers.Keys),
            CtIds(Children(Get(n.data, CT_MODEL)), data.cts.Keys))
  }

  /** A panel message addresses the panel itself (when it carries own attributes) and its nested breakers. */
  function PanelTargets(data: LevitonData, n: Notification): (t: Touched)
    ensures t.hubs == {} && t.panels <= data.panels.Keys
    ensures t.breakers <= data.breakers.Keys && t.cts == {}
  {
    Touched({}, AsSet(ParentTarget(OwnFields(n.data, {BREAKER_MODEL}), n.modelId, data.panels.Keys)),
            BreakerIds(Children(Get(n.data, BREAKER_MODEL)), data.breakers.Keys), {})
  }

  /** The device a direct message names by the string form of its `modelId`, when it is known. */
  function DirectTarget(n: Notification, known: set<string>): (r: set<string>)
    ensures r <= known
    ensures r != {} <==> Str(n.modelId).Some? && Str(n.modelId).value in known
    ensures r != {} ==> r == {Str(n.modelId).value}
  {
    if Str(n.modelId).Some? && Str(n.modelId).value in known then {Str(n.modelId).value} else {}
  }

  /** A direct breaker message, its `id` forced to `str(modelId)`, as a one-entry array. */
  function DirectBreakerPayload(n: Notification): (r: seq<Fields>)
    ensures |r| <= 1
    ensures Str(n.modelId).Some? ==> r == [n.data[ID := Text(Str(n.modelId).value)]]
  {
    match Str(n.modelId)
    case Some(key) => [n.data[ID := Text(key)]]
    case None => []
  }

  /** A hub message: nested breakers, nested CTs, then the hub's own attributes. */
  function HubMessage(data: LevitonData, n: Notification, hooks: EnergyHooks): (r: Received)
    requires !Dropped(n) && n.modelName == HUB_MODEL
    ensures SameDevices(data, r.data)
    ensures r.notified <==> HubTargets(data, n).Any()
    ensures r.data.panels == data.panels
    ensures forall h :: h in data.whems && h !in HubTargets(data, n).hubs ==> r.data.whems[h] == data.whems[h]
    ensures forall h :: h in HubTargets(data, n).hubs ==>
              r.data.whems[h] == data.whems[h].(fields := Merge(data.whems[h].fields, OwnFields(n.data, {BREAKER_MODEL, CT_MODEL})))
    ensures forall b :: b in data.breakers && b !in HubTargets(data, n).breakers ==> r.data.breakers[b] == data.breakers[b]
    ensures forall c :: c in data.cts && c !in HubTargets(data, n).cts ==> r.data.cts[c] == data.cts[c]
    ensures forall b :: b in data.breakers ==>
              r.data.breakers[b] == BreakerUpdates(data.breakers[b], Children(Get(n.data, BREAKER_MODEL)), b, data.breakers.Keys, hooks)
    ensures forall c :: c in data.cts ==>
              r.data.cts[c] == CtUpdates(data.cts[c], Children(Get(n.data, CT_MODEL)), c, data.cts.Keys, hooks)
  {
    var kids := HubChildren(data, n, hooks);
    var own := OwnFields(n.data, {BREAKER_MODEL, CT_MODEL});
    var hit := ParentTarget(own, n.modelId, data.whems.Keys);
    Received(kids.data.(whems := MergeHub(data.whems, hit, own)), kids.notified || hit.Some?)
  }

  /** The nested breaker and CT arrays of a hub message, applied in that order. */
  function HubChildren(data: LevitonData, n: Notification, hooks: EnergyHooks): (r: Received)
    ensures SameDevices(data, r.data)
    ensures r.data.whems == data.whems && r.data.panels == data.panels
    ensures r.notified <==> HubTargets(data, n).breakers != {} || HubTargets(data, n).cts != {}
    ensures forall b :: b in data.breakers && b !in HubTargets(data, n).breakers ==> r.data.breakers[b] == data.breakers[b]
    ensures forall c :: c in data.cts && c !in HubTargets(data, n).cts ==> r.data.cts[c] == data.cts[c]
    ensures forall b :: b in data.breakers ==>
              r.data.breakers[b] == BreakerUpdates(data.breakers[b], Children(Get(n.data, BREAKER_MODEL)), b, data.breakers.Keys, hooks)
    ensures forall c :: c in data.cts ==>
              r.data.cts[c] == CtUpdates(data.cts[c], Children(Get(n.data, CT_MODEL)), c, data.cts.Keys, hooks)
  {
    var bs := ApplyBreakers(data.breakers, Children(Get(n.data, BREAKER_MODEL)), hooks);
    var cs := ApplyCts(data.cts, Children(Get(n.data, CT_MODEL)), hooks);
    assert bs.breakers.Keys == data.breakers.Keys && cs.cts.Keys == data.cts.Keys;
    Received(data.(breakers := bs.breakers, cts := cs.cts), bs.applied || cs.applied)
  }

  /** A panel message: nested breakers, then the panel's own attributes (everything but the breaker array). */
  function PanelMessage(data: LevitonData, n: Notification, hooks: EnergyHooks): (r: Received)
    requires !Dropped(n) && n.modelName == PANEL_MODEL
    ensures SameDevices(data, r.data)
    ensures r.notified <==> PanelTargets(data, n).Any()
    ensures r.data.whems == data.whems && r.data.cts == data.cts
    ensures forall p :: p in data.panels && p !in PanelTargets(data, n).panels ==> r.data.panels[p] == data.panels[p]
    ensures forall p :: p in PanelTargets(data, n).panels ==>
              r.data.panels[p] == data.panels[p].(fields := Merge(data.panels[p].fields, OwnFields(n.data, {BREAKER_MODEL})))
    ensures forall b :: b in data.breakers && b !in PanelTargets(data, n).breakers ==> r.data.breakers[b] == data.breakers[b]
    ensures forall b :: b in data.breakers ==>
              r.data.breakers[b] == BreakerUpdates(data.breakers[b], Children(Get(n.data, BREAKER_MODEL)), b, data.breakers.Keys, hooks)
  {
    var bs := ApplyBreakers(data.breakers, Children(Get(n.data, BREAKER_MODEL)), hooks);
    var own := OwnFields(n.data, {BREAKER_MODEL});
    var hit := ParentTarget(own, n.modelId, data.panels.Keys);
    Received(data.(panels := MergePanel(data.panels, hit, own), breakers := bs.breakers), bs.applied || hit.Some?)
  }

  /** A direct breaker message: the data is the breaker's payload, its `id` forced to `str(modelId)`. */
  function BreakerMessage(data: LevitonData, n: Notification, hooks: EnergyHooks): (r: Received)
    requires !Dropped(n) && n.modelName == BREAKER_MODEL
    ensures SameDevices(data, r.data)
    ensures r.notified <==> Targets(data, n).Any()
    ensures r.data.whems == data.whems && r.data.panels == data.panels && r.data.cts == data.cts
    ensures forall b :: b in data.breakers && b !in Targets(data, n).breakers ==> r.data.breakers[b] == data.breakers[b]
    ensures forall b :: b in Targets(data, n).breakers ==>
              r.data.breakers[b] == UpdateBreaker(n.data[ID := Text(b)], data.breakers[b], hooks)
  {
    var bs := ApplyBreakers(data.breakers, DirectBreakerPayload(n), hooks);
    assert |DirectBreakerPayload(n)| == 1 ==> DirectBreakerPayload(n)[1..] == [];
    Received(data.(breakers := bs.breakers), bs.applied)
  }

  /** A direct CT message, addressed by `str(modelId)`. */
  function CtMessage(data: LevitonData, n: Notification, hooks: EnergyHooks): (r: Received)
    requires !Dropped(n) && n.modelName == CT_MODEL
    ensures SameDevices(data, r.data)
    ensures r.notified <==> Targets(data, n).Any()
    ensures r.data.whems == data.whems && r.data.panels == data.panels && r.data.breakers == data.breakers
    ensures forall c :: c in data.cts && c !in Targets(data, n).cts ==> r.data.cts[c] == data.cts[c]
    ensures forall c :: c in Targets(data, n).cts ==> r.data.cts[c] == UpdateCt(n.data, data.cts[c], hooks)
  {
    match Str(n.modelId)
    case Some(key) =>
      if key in data.cts then Received(data.(cts := data.cts[key := UpdateCt(n.data, data.cts[key], hooks)]), true)
      else Received(data, false)
    case None => Received(data, false)
  }

  /**
   * `_handle_ws_notification`, after its staleness timestamp is reset:
   * the store keeps its devices, only the addressed devices change, and
   * listeners are told exactly when some device was addressed.
   */
  function Dispatch(data: LevitonData, n: Notification, hooks: EnergyHooks): (r: Received)
    ensures SameDevices(data, r.data)
    ensures r.notified <==> Targets(data, n).Any()
    ensures forall h :: h in data.whems && h !in Targets(data, n).hubs ==> r.data.whems[h] == data.whems[h]
    ensures forall p :: p in data.panels && p !in Targets(data, n).panels ==> r.data.panels[p] == data.panels[p]
    ensures forall b :: b in data.breakers && b !in Targets(data, n).breakers ==> r.data.breakers[b] == data.breakers[b]
    ensures forall c :: c in data.cts && c !in Targets(data, n).cts ==> r.data.cts[c] == data.cts[c]
  {
    if Dropped(n) then Received(data, false)
    else if n.modelName == HUB_MODEL then HubMessage(data, n, hooks)
    else if n.modelName == PANEL_MODEL then PanelMessage(data, n, hooks)
    else if n.modelName == BREAKER_MODEL then BreakerMessage(data, n, hooks)
    else if n.modelName == CT_MODEL then CtMessage(data, n, hooks)
    else Received(data, false)
  }

  // ---------------------------------------------------------------------
  // Properties of the handler
  // ---------------------------------------------------------------------

  /** A message without data or model id, or of an unknown model, changes nothing and tells no one. */
  lemma IgnoredMessagesChangeNothing(data: LevitonData, n: Notification, hooks: EnergyHooks)
    requires Dropped(n) || n.modelName !in {HUB_MODEL, PANEL_MODEL, BREAKER_MODEL, CT_MODEL}
    ensures Dispatch(data, n, hooks) == Received(data, false)
  {
  }

  /** The trip state after a breaker update through the live accumulation hook. */
  lemma {:induction false} TripStateAfterUpdate(p: Fields, b: Breaker)
    ensures Get(p, CURRENT_STATE).Text? ==>
              UpdateBreaker(p, b, ACCUMULATE).CurrentState() == Some(Get(p, CURRENT_STATE).s)
    ensures CURRENT_STATE !in p && Truthy(Get(p, REMOTE_TRIP)) && !b.CanRemoteOn() ==>
              UpdateBreaker(p, b, ACCUMULATE).CurrentState() == Some(SOFTWARE_TRIP)
    ensures CURRENT_STATE !in p && !(Truthy(Get(p, REMOTE_TRIP)) && !b.CanRemoteOn()) ==>
              UpdateBreaker(p, b, ACCUMULATE).CurrentState() == b.CurrentState()
  {
    var hooked := Energy.AccumulateBreakerEnergy(p, b);
    assert ACCUMULATE.breaker(p, b) == hooked;
    assert forall s :: s in BREAKER_SLOTS ==> CURRENT_STATE != WireKey(s) && REMOTE_TRIP != WireKey(s);
    assert Get(hooked, CURRENT_STATE) == Get(p, CURRENT_STATE);
    assert Get(hooked, REMOTE_TRIP) == Get(p, REMOTE_TRIP);
  }

  /** A streamed counter on a breaker is accumulated onto the stored one. */
  lemma {:induction false} BreakerEnergyAccumulated(p: Fields, b: Breaker, s: Slot)
    requires s in BREAKER_SLOTS && IntOf(p, WireKey(s)).Some?
    ensures UpdateBreaker(p, b, ACCUMULATE).Energy(s) ==
              Some(Energy.Accumulate(IntOf(p, WireKey(s)).value, OrZero(b.Energy(s))))
  {
    var hooked := Energy.AccumulateBreakerEnergy(p, b);
    assert ACCUMULATE.breaker(p, b) == hooked;
    assert WireKey(s) in hooked;
  }

  /** A streamed counter on a CT is accumulated onto the stored one, for all four counters. */
  lemma {:induction false} CtEnergyAccumulated(p: Fields, c: Ct, s: Slot)
    requires IntOf(p, WireKey(s)).Some?
    ensures UpdateCt(p, c, ACCUMULATE).Energy(s) ==
              Some(Energy.Accumulate(IntOf(p, WireKey(s)).value, OrZero(c.Energy(s))))
  {
    var hooked := Energy.AccumulateCtEnergy(p, c);
    assert ACCUMULATE.ct(p, c) == hooked;
    assert s in CT_SLOTS;
    assert WireKey(s) in hooked;
  }

  /** A direct breaker message stores `str(modelId)` as the breaker's `id`. */
  lemma {:induction false} DirectBreakerIdForced(data: LevitonData, n: Notification)
    requires !Dropped(n) && n.modelName == BREAKER_MODEL
    requires Str(n.modelId).Some? && Str(n.modelId).value != "" && Str(n.modelId).value in data.breakers
    ensures Get(Dispatch(data, n, ACCUMULATE).data.breakers[Str(n.modelId).value].fields, ID) == Text(Str(n.modelId).value)
  {
    var key := Str(n.modelId).value;
    var p := n.data[ID := Text(key)];
    assert DirectBreakerPayload(n) == [p];
    assert BreakerTarget(p, data.breakers.Keys) == Some(key);
    assert key in Targets(data, n).breakers;
    var hooked := Energy.AccumulateBreakerEnergy(p, data.breakers[key]);
    assert ACCUMULATE.breaker(p, data.breakers[key]) == hooked;
    assert forall s :: s in BREAKER_SLOTS ==> ID != WireKey(s);
    assert hooked[ID] == Text(key);
  }

  /** A child array holding one entry updates that breaker exactly as a direct message would. */
  lemma {:induction false} SingleChildApplied(breakers: map<string, Breaker>, p: Fields, hooks: EnergyHooks, id: string)
    requires BreakerTarget(p, breakers.Keys) == Some(id)
    ensures ApplyBreakers(breakers, [p], hooks).breakers[id] == UpdateBreaker(p, breakers[id], hooks)
    ensures ApplyBreakers(breakers, [p], hooks).applied
  {
    var first := breakers[id := UpdateBreaker(p, breakers[id], hooks)];
    assert [p][1..] == [];
    assert ApplyBreakers(breakers, [p], hooks) == BreakerPass(first, true);
  }

  /**
   * Under the live hook a breaker update stores every non-counter value
   * as sent, accumulates each streamed counter, and keeps every field the
   * payload does not name apart from the state it may synthesise.
   */
  lemma {:induction false} LiveBreakerUpdate(p: Fields, b: Breaker)
    ensures var r := UpdateBreaker(p, b, ACCUMULATE);
            && (forall k :: k in p && !(SlotOf(k).Some? && SlotOf(k).value in BREAKER_SLOTS) ==> r.fields[k] == p[k])
            && (forall s :: s in BREAKER_SLOTS && IntOf(p, WireKey(s)).Some? ==>
                  r.Energy(s) == Some(Energy.Accumulate(IntOf(p, WireKey(s)).value, OrZero(b.Energy(s)))))
            && (forall k :: k in b.fields && k !in p && k != CURRENT_STATE ==> r.fields[k] == b.fields[k])
  {
    var hooked := Energy.AccumulateBreakerEnergy(p, b);
    assert ACCUMULATE.breaker(p, b) == hooked;
    var r := UpdateBreaker(p, b, ACCUMULATE);
    forall s | s in BREAKER_SLOTS && IntOf(p, WireKey(s)).Some?
      ensures r.Energy(s) == Some(Energy.Accumulate(IntOf(p, WireKey(s)).value, OrZero(b.Energy(s))))
    {
      assert WireKey(s) in hooked;
    }
  }

  /** Under the live hook a CT update stores every non-counter value as sent and keeps every field the payload does not name. */
  lemma {:induction false} LiveCtUpdate(p: Fields, c: Ct)
    ensures var r := UpdateCt(p, c, ACCUMULATE);
            && (forall k :: k in p && SlotOf(k).None? ==> r.fields[k] == p[k])
            && (forall k :: k in c.fields && k !in p ==> r.fields[k] == c.fields[k])
  {
    var hooked := Energy.AccumulateCtEnergy(p, c);
    assert ACCUMULATE.ct(p, c) == hooked;
  }

  /** Entries that do not name a breaker leave it as it is. */
  lemma {:induction false} UnnamedBreakerUnchanged(b: Breaker, items: seq<Fields>, id: string, known: set<string>, hooks: EnergyHooks)
    requires forall j :: 0 <= j < |items| ==> BreakerTarget(items[j], known) != Some(id)
    ensures BreakerUpdates(b, items, id, known, hooks) == b
    decreases |items|
  {
    if items != [] {
      assert forall j :: 1 <= j < |items| ==> items[1..][j - 1] == items[j];
      UnnamedBreakerUnchanged(b, items[1..], id, known, hooks);
    }
  }

  /**
   * The last entry of a child array that names a breaker decides each
   * non-counter value it carries: under the live hook the breaker ends
   * with that entry's value, whatever earlier entries said.
   */
  lemma {:induction false} LastBreakerEntryWins(b: Breaker, items: seq<Fields>, id: string, known: set<string>, i: nat, k: string)
    requires i < |items| && BreakerTarget(items[i], known) == Some(id)
    requires forall j :: i < j < |items| ==> BreakerTarget(items[j], known) != Some(id)
    requires k in items[i] && !(SlotOf(k).Some? && SlotOf(k).value in BREAKER_SLOTS)
    ensures k in BreakerUpdates(b, items, id, known, ACCUMULATE).fields
    ensures BreakerUpdates(b, items, id, known, ACCUMULATE).fields[k] == items[i][k]
    decreases |items|
  {
    var next := if BreakerTarget(items[0], known) == Some(id) then UpdateBreaker(items[0], b, ACCUMULATE) else b;
    assert BreakerUpdates(b, items, id, known, ACCUMULATE) == BreakerUpdates(next, items[1..], id, known, ACCUMULATE);
    if i == 0 {
      LiveBreakerUpdate(items[0], b);
      assert forall j :: 0 <= j < |items[1..]| ==> items[1..][j] == items[j + 1];
      UnnamedBreakerUnchanged(next, items[1..], id, known, ACCUMULATE);
    } else {
      assert items[1..][i - 1] == items[i];
      assert forall j :: i - 1 < j < |items[1..]| ==> items[1..][j] == items[j + 1];
      LastBreakerEntryWins(next, items[1..], id, known, i - 1, k);
    }
  }

  /** A hub message reaches its nested arrays: the breakers and CTs after dispatch are those of the array passes. */
  lemma HubRouted(data: LevitonData, n: Notification, hooks: EnergyHooks)
    requires !Dropped(n) && n.modelName == HUB_MODEL
    ensures Dispatch(data, n, hooks).data.breakers ==
              ApplyBreakers(data.breakers, Children(Get(n.data, BREAKER_MODEL)), hooks).breakers
    ensures Dispatch(data, n, hooks).data.cts ==
              ApplyCts(data.cts, Children(Get(n.data, CT_MODEL)), hooks).cts
  {
    assert Dispatch(data, n, hooks) == HubMessage(data, n, hooks);
  }

  /**
   * A hub message nesting one breaker reading of 0.250 kWh onto a breaker
   * standing at 3400.000 kWh leaves the breaker at 3400.250 kWh.
   */
  lemma NestedBreakerExample(data: LevitonData, hub: string, id: string, p: Fields)
    requires id != "" && id in data.breakers
    requires data.breakers[id].Energy(Consumption) == Some(3400000)
    requires p == map[ID := Text(id), WireKey(Consumption) := Int(250)]
    ensures Dispatch(data, Notification(HUB_MODEL, Text(hub), map[BREAKER_MODEL := List([Dict(p)])]), ACCUMULATE)
              .data.breakers[id].Energy(Consumption) == Some(3400250)
  {
    var n := Notification(HUB_MODEL, Text(hub), map[BREAKER_MODEL := List([Dict(p)])]);
    assert Children(Get(n.data, BREAKER_MODEL)) == [p];
    assert BreakerTarget(p, data.breakers.Keys) == Some(id);
    HubRouted(data, n, ACCUMULATE);
    SingleChildApplied(data.breakers, p, ACCUMULATE, id);
    BreakerEnergyAccumulated(p, data.breakers[id], Consumption);
  }
}

=== FILE: sensor_descriptions.dfy ===
/**
 * The derived readings of the sensor descriptions: which leg a breaker
 * slot is on, per-breaker totals over both poles, the status mapping, the
 * calculated current, and the hub and panel aggregates (a hub sums its CT
 * clamps and falls back to its breakers; a panel sums its breakers).
 *
 * The store's dictionaries are iterated in insertion order; an aggregate
 * takes the store's values as a sequence in that order. Power is whole
 * watts, energy whole thousandths of a kWh, voltage, current and
 * frequency are reals.
 */
module SensorDescriptions {
  import opened Wrappers
  import opened Values
  import opened Store
  import Energy
  import Coordinator

  /**
   * What a value function gives: a value, `None`, or the `TypeError` that
   * Python raises when a breaker without an integer position is placed on
   * a leg.
   */
  datatype Sensed<T> = Known(v: T) | Unknown | Raises

  // ---------------------------------------------------------------------
  // Sums over the store's values
  // ---------------------------------------------------------------------

  /** `total += f(x)` for every `x`, in order, over whole numbers. */
  function SumInt<T>(xs: seq<T>, f: T -> int): int
    decreases |xs|
  {
    if xs == [] then 0 else f(xs[0]) + SumInt(xs[1..], f)
  }

  /** `total += f(x)` for every `x`, in order, over reals. */
  function SumReal<T>(xs: seq<T>, f: T -> real): real
    decreases |xs|
  {
    if xs == [] then 0.0 else f(xs[0]) + SumReal(xs[1..], f)
  }

  /** Summing non-negative terms gives a non-negative total. */
  lemma {:induction false} SumIntNonNegative<T>(xs: seq<T>, f: T -> int)
    requires forall i :: 0 <= i < |xs| ==> f(xs[i]) >= 0
    ensures SumInt(xs, f) >= 0
    decreases |xs|
  {
    if xs != [] {
      assert forall i :: 0 <= i < |xs[1..]| ==> xs[1..][i] == xs[i + 1];
      SumIntNonNegative(xs[1..], f);
    }
  }

  /** Summing multiples of ten gives a multiple of ten. */
  lemma {:induction false} SumIntTens<T>(xs: seq<T>, f: T -> int)
    requires forall i :: 0 <= i < |xs| ==> f(xs[i]) % 10 == 0
    ensures SumInt(xs, f) % 10 == 0
    decreases |xs|
  {
    if xs != [] {
      assert forall i :: 0 <= i < |xs[1..]| ==> xs[1..][i] == xs[i + 1];
      SumIntTens(xs[1..], f);
    }
  }

  /** A sum of pointwise sums is the sum of the two sums. */
  lemma {:induction false} SumIntSplit<T>(xs: seq<T>, f: T -> int, g: T -> int, h: T -> int)
    requires forall i :: 0 <= i < |xs| ==> h(xs[i]) == f(xs[i]) + g(xs[i])
    ensures SumInt(xs, h) == SumInt(xs, f) + SumInt(xs, g)
    decreases |xs|
  {
    if xs != [] {
      assert forall i :: 0 <= i < |xs[1..]| ==> xs[1..][i] == xs[i + 1];
      SumIntSplit(xs[1..], f, g, h);
    }
  }

  /** Terms that agree everywhere give the same total. */
  lemma {:induction false} SumIntSame<T>(xs: seq<T>, f: T -> int, g: T -> int)
    requires forall i :: 0 <= i < |xs| ==> f(xs[i]) == g(xs[i])
    ensures SumInt(xs, f) == SumInt(xs, g)
    decreases |xs|
  {
    if xs != [] {
      assert forall i :: 0 <= i < |xs[1..]| ==> xs[1..][i] == xs[i + 1];
      SumIntSame(xs[1..], f, g);
    }
  }

  // ---------------------------------------------------------------------
  // Legs
  // ---------------------------------------------------------------------

  /**
   * `_is_on_leg`: slots alternate between the legs in pairs, so leg 1
   * holds positions 1, 2, 5, 6, ... and leg 2 holds 3, 4, 7, 8, ...; any
   * leg other than 1 is read as leg 2.
   */
  function IsOnLeg(position: int, leg: int): (r: bool)
    ensures leg == 1 ==> (r <==> position % 4 == 1 || position % 4 == 2)
    ensures leg != 1 ==> (r <==> position % 4 == 3 || position % 4 == 0)
  {
    LegByResidue(position);
    var onLeg1 := ((position - 1) / 2) % 2 == 0;
    if leg == 1 then onLeg1 else !onLeg1
  }

  /** Python's `//` and `%` by 2 floor, as Dafny's do for a positive divisor. */
  lemma LegByResidue(position: int)
    ensures ((position - 1) / 2) % 2 == 0 <==> position % 4 == 1 || position % 4 == 2
  {
    var q := position / 4;
    var m := position % 4;
    assert position == 4 * q + m;
    if m == 0 {
      assert (position - 1) / 2 == 2 * q - 1;
    } else if m == 1 {
      assert (position - 1) / 2 == 2 * q;
    } else if m == 2 {
      assert (position - 1) / 2 == 2 * q;
    } else {
      assert (position - 1) / 2 == 2 * q + 1;
    }
  }

  /** The leg a breaker sensor reports: "1", "2", or "Both" for a two-pole breaker. */
  datatype Leg = Leg1 | Leg2 | Both {
    function Label(): string {
      match this
      case Leg1 => "1"
      case Leg2 => "2"
      case Both => "Both"
    }
  }

  /** `_breaker_leg`. */
  function BreakerLeg(b: Breaker): (r: Sensed<Leg>)
    ensures b.TwoPole() <==> r == Known(Both)
    ensures r.Raises? <==> !b.TwoPole() && b.Position().None?
    ensures r == Known(Leg1) <==> !b.TwoPole() && b.Position().Some? && b.Position().value % 4 in {1, 2}
    ensures r == Known(Leg2) <==> !b.TwoPole() && b.Position().Some? && b.Position().value % 4 in {0, 3}
  {
    if b.TwoPole() then Known(Both)
    else match b.Position()
      case None => Raises
      case Some(p) => Known(if IsOnLeg(p, 1) then Leg1 else Leg2)
  }

  // ---------------------------------------------------------------------
  // Single breakers
  // ---------------------------------------------------------------------

  /** `_breaker_power`: pole 1, plus pole 2 (missing counts 0) on a two-pole breaker. */
  function BreakerPower(b: Breaker): (r: Option<int>)
    ensures r.None? <==> b.Power().None?
    ensures r.Some? && !b.TwoPole() ==> r.value == b.Power().value
    ensures r.Some? && b.TwoPole() ==> r.value == b.Power().value + OrZero(b.Power2())
  {
    match b.Power()
    case None => None
    case Some(p) => Some(if b.TwoPole() then p + OrZero(b.Power2()) else p)
  }

  /**
   * The raw states and the status each shows. The states the test suite
   * does not spell out are written as the state constants' evident names.
   */
  const STATUS_MAP: map<string, string> := map[
    "ManualON" := "on",
    "ManualOFF" := "off",
    "COMMUNICATING" := "connecting",
    "NotCommunicating" := "offline",
    "CommunicationFailure" := "offline",
    "UNDEFINED" := "offline",
    "SoftwareTrip" := "software_trip",
    "GFCIFault" := "gfci_fault",
    "AFCIMiswire" := "afci_miswire",
    "AFCIParallelFault" := "afci_fault",
    "AFCISerialArc5AFault" := "afci_fault",
    "AFCISerialArc10AFault" := "afci_fault",
    "AFCISerialArc15AFault" := "afci_fault",
    "AFCISerialArc20AFault" := "afci_fault",
    "AFCISerialArc30AFault" := "afci_fault",
    "OverCurrentTripPhase1" := "overcurrent_trip",
    "OverCurrentTripPhase2" := "overcurrent_trip",
    "OverloadTrip" := "overload_trip",
    "ShortCircuitTrip" := "short_circuit_trip",
    "UpstreamFault" := "upstream_fault"]

  /** `BREAKER_STATUS_OPTIONS`: the statuses the enum sensor declares. */
  const STATUS_OPTIONS: set<string> := {
    "afci_fault", "afci_miswire", "connecting", "gfci_fault", "off", "offline", "on",
    "overcurrent_trip", "overload_trip", "short_circuit_trip", "software_trip", "upstream_fault"}

  /** The declared options are exactly the statuses the mapping can give. */
  lemma StatusOptionsExact()
    ensures forall s :: s in STATUS_MAP ==> STATUS_MAP[s] in STATUS_OPTIONS
    ensures forall o :: o in STATUS_OPTIONS ==> exists s :: s in STATUS_MAP && STATUS_MAP[s] == o
  {
    assert STATUS_MAP["ManualON"] == "on";
    assert STATUS_MAP["ManualOFF"] == "off";
    assert STATUS_MAP["COMMUNICATING"] == "connecting";
    assert STATUS_MAP["UNDEFINED"] == "offline";
    assert STATUS_MAP["SoftwareTrip"] == "software_trip";
    assert STATUS_MAP["GFCIFault"] == "gfci_fault";
    assert STATUS_MAP["AFCIMiswire"] == "afci_miswire";
    assert STATUS_MAP["AFCIParallelFault"] == "afci_fault";
    assert STATUS_MAP["OverCurrentTripPhase1"] == "overcurrent_trip";
    assert STATUS_MAP["OverloadTrip"] == "overload_trip";
    assert STATUS_MAP["ShortCircuitTrip"] == "short_circuit_trip";
    assert STATUS_MAP["UpstreamFault"] == "upstream_fault";
  }

  /** `_breaker_status`: the mapped status; none for no state or a state the mapping lacks. */
  function BreakerStatus(b: Breaker): (r: Option<string>)
    ensures r.None? <==> b.CurrentState().None? || b.CurrentState().value !in STATUS_MAP
    ensures r.Some? ==> r.value in STATUS_OPTIONS
  {
    StatusOptionsExact();
    match b.CurrentState()
    case None => None
    case Some(s) => if s in STATUS_MAP then Some(STATUS_MAP[s]) else None
  }

  const REMOTE_ON := "RemoteON"
  const REMOTE_OFF := "RemoteOFF"

  /** The remote-status sensor: "on" for RemoteON, "off" for RemoteOFF, none otherwise. */
  function RemoteStatus(b: Breaker): (r: Option<string>)
    ensures r == Some("on") <==> b.RemoteState() == Some(REMOTE_ON)
    ensures r == Some("off") <==> b.RemoteState() == Some(REMOTE_OFF)
    ensures r.None? <==> b.RemoteState() !in {Some(REMOTE_ON), Some(REMOTE_OFF)}
  {
    match b.RemoteState()
    case Some(s) => if s == REMOTE_ON then Some("on") else if s == REMOTE_OFF then Some("off") else None
    case None => None
  }

  /** `_breaker_protect_fw`: the SiLabs firmware, else the GFCI one, else the AFCI one (an `or` chain). */
  function ProtectFirmware(b: Breaker): (r: Value)
    ensures Truthy(r) <==> Truthy(b.FirmwareSilabs()) || Truthy(b.FirmwareGfci()) || Truthy(b.FirmwareAfci())
    ensures Truthy(b.FirmwareSilabs()) ==> r == b.FirmwareSilabs()
    ensures !Truthy(b.FirmwareSilabs()) && Truthy(b.FirmwareGfci()) ==> r == b.FirmwareGfci()
    ensures !Truthy(b.FirmwareSilabs()) && !Truthy(b.FirmwareGfci()) ==> r == b.FirmwareAfci()
  {
    if Truthy(b.FirmwareSilabs()) then b.FirmwareSilabs()
    else if Truthy(b.FirmwareGfci()) then b.FirmwareGfci()
    else b.FirmwareAfci()
  }

  /** `_breaker_energy`: lifetime consumption over the breaker's poles. */
  function BreakerEnergy(b: Breaker): (r: Option<int>)
    ensures r.None? <==> b.Energy(Consumption).None?
    ensures r.Some? && !b.TwoPole() ==> r.value == b.Energy(Consumption).value
    ensures r.Some? && b.TwoPole() ==> r.value == b.Energy(Consumption).value + OrZero(b.Energy(Consumption2))
  {
    b.TotalEnergy()
  }

  /** The breaker's daily-energy sensor: `calc_daily_energy` of its lifetime consumption. */
  function BreakerDaily(b: Breaker, baselines: map<DeviceRef, int>): (r: Option<nat>)
    ensures r.None? <==> b.Energy(Consumption).None? || BreakerRef(b.id) !in baselines
    ensures r.Some? ==> r.value % 10 == 0
    ensures r.Some? && BreakerEnergy(b).value <= baselines[BreakerRef(b.id)] ==> r.value == 0
    ensures r.Some? && BreakerEnergy(b).value > baselines[BreakerRef(b.id)] ==>
              r.value <= BreakerEnergy(b).value - baselines[BreakerRef(b.id)] + 5 &&
              BreakerEnergy(b).value - baselines[BreakerRef(b.id)] < r.value + 5
  {
    Energy.CalcDailyEnergy(BreakerRef(b.id), BreakerEnergy(b), baselines)
  }

  // ---------------------------------------------------------------------
  // CT clamps
  // ---------------------------------------------------------------------

  /** The clamp's power sensor: both legs, a missing leg counting 0. */
  function CtPower(c: Ct): (r: int)
    ensures c.Power1().None? ==> r == OrZero(c.Power2())
    ensures c.Power2().None? ==> r == OrZero(c.Power1())
    ensures c.Power1().Some? && c.Power2().Some? ==> r == c.Power1().value + c.Power2().value
  {
    OrZero(c.Power1()) + OrZero(c.Power2())
  }

  /** The clamp's current sensor: both legs, a missing leg counting 0. */
  function CtCurrent(c: Ct): (r: real)
    ensures c.Current1().None? ==> r == OrZeroReal(c.Current2())
    ensures c.Current2().None? ==> r == OrZeroReal(c.Current1())
    ensures c.Current1().Some? && c.Current2().Some? ==> r == c.Current1().value + c.Current2().value
  {
    OrZeroReal(c.Current1()) + OrZeroReal(c.Current2())
  }

  /** `_ct_energy`: lifetime consumption over both legs; a clamp with no reading shows 0. */
  function CtEnergy(c: Ct): (r: int)
    ensures c.Energy(Consumption).None? && c.Energy(Consumption2).None? ==> r == 0
    ensures c.Energy(Consumption2).None? ==> r == OrZero(c.Energy(Consumption))
    ensures c.Energy(Consumption).None? ==> r == OrZero(c.Energy(Consumption2))
    ensures c.Energy(Consumption).Some? && c.Energy(Consumption2).Some? ==> r == c.Energy(Consumption).value + c.Energy(Consumption2).value
  {
    c.TotalEnergy()
  }

  /** The clamp's lifetime import over both legs. */
  function CtImport(c: Ct): (r: int)
    ensures c.Energy(Import).None? && c.Energy(Import2).None? ==> r == 0
    ensures c.Energy(Import2).None? ==> r == OrZero(c.Energy(Import))
    ensures c.Energy(Import).None? ==> r == OrZero(c.Energy(Import2))
    ensures c.Energy(Import).Some? && c.Energy(Import2).Some? ==> r == c.Energy(Import).value + c.Energy(Import2).value
  {
    OrZero(c.Energy(Import)) + OrZero(c.Energy(Import2))
  }

  /** The clamp's daily-energy sensor, against the baseline keyed `ct_<id>`. */
  function CtDaily(c: Ct, baselines: map<DeviceRef, int>): (r: Option<nat>)
    ensures r.None? <==> CtRef(c.Key()) !in baselines
    ensures r.Some? ==> r.value % 10 == 0
    ensures r.Some? && CtEnergy(c) <= baselines[CtRef(c.Key())] ==> r.value == 0
    ensures r.Some? && CtEnergy(c) > baselines[CtRef(c.Key())] ==>
              r.value <= CtEnergy(c) - baselines[CtRef(c.Key())] + 5 && CtEnergy(c) - baselines[CtRef(c.Key())] < r.value + 5
  {
    Energy.CalcDailyEnergy(CtRef(c.Key()), Some(CtEnergy(c)), baselines)
  }

  // ---------------------------------------------------------------------
  // Firmware-update sensors
  // ---------------------------------------------------------------------

  const NO_UPDATE := "Up to date"

  /**
   * The hub's firmware-update sensor shows the downloaded version exactly
   * when the coordinator keeps a repair issue for the hub.
   */
  function HubFirmwareUpdate(h: Hub): (r: Value)
    ensures Coordinator.HubNeedsUpdate(h) ==> r == Get(h.fields, DOWNLOADED)
    ensures !Coordinator.HubNeedsUpdate(h) ==> r == Text(NO_UPDATE)
  {
    var downloaded := Get(h.fields, DOWNLOADED);
    if Truthy(downloaded) && downloaded != h.Version() then downloaded else Text(NO_UPDATE)
  }

  /**
   * The panel's firmware-update sensor shows the offered version exactly
   * when the coordinator keeps a repair issue for the panel.
   */
  function PanelFirmwareUpdate(p: Panel): (r: Value)
    ensures Coordinator.PanelNeedsUpdate(p) ==> r == Get(p.fields, UPDATE_VERSION)
    ensures !Coordinator.PanelNeedsUpdate(p) ==> r == Text(NO_UPDATE)
  {
    var availability := Get(p.fields, UPDATE_AVAILABILITY);
    if Truthy(availability) && availability != Text("UP_TO_DATE") then Get(p.fields, UPDATE_VERSION) else Text(NO_UPDATE)
  }

  // ---------------------------------------------------------------------
  // Calculated current
  // ---------------------------------------------------------------------

  const VOLTAGE_120: real := 120.0
  const VOLTAGE_208: real := 208.0
  const VOLTAGE_240: real := 240.0

  /** The calculated-current options: whether to calculate, and 208 V instead of 240 V for two-pole breakers. */
  datatype CurrentOptions = CurrentOptions(calculated: bool, voltage208: bool)

  /** Python truthiness of an optional number: present and not zero. */
  predicate NonZero(v: Option<real>) {
    v.Some? && v.value != 0.0
  }

  /** The hub a breaker names in `iot_whem_id`, when that is a non-empty text the store knows. */
  function ParentHub(b: Breaker, whems: map<string, Hub>): (r: Option<Hub>)
    ensures r.Some? <==> Truthy(b.HubRef()) && b.HubRef().Text? && b.HubRef().s in whems
    ensures r.Some? ==> r.value == whems[b.HubRef().s]
  {
    match b.HubRef()
    case Text(s) => if s != "" && s in whems then Some(whems[s]) else None
    case _ => None
  }

  /**
   * The voltage a breaker's power is divided by. A two-pole breaker uses
   * 208 V or 240 V; a one-pole breaker its own voltage, else its hub's
   * voltage on the breaker's leg, else 120 V. `onLeg` is the leg
   * convention (position, leg) in use.
   */
  function Divisor(b: Breaker, whems: map<string, Hub>, voltage208: bool, onLeg: (int, int) -> bool): (r: Sensed<real>)
    ensures r.Known? ==> r.v != 0.0
    ensures r.Raises? <==> !b.TwoPole() && !NonZero(b.RmsVoltage()) && ParentHub(b, whems).Some? && b.Position().None?
    ensures !r.Unknown?
    ensures b.TwoPole() ==> r == Known(if voltage208 then VOLTAGE_208 else VOLTAGE_240)
    ensures !b.TwoPole() && NonZero(b.RmsVoltage()) ==> r == Known(b.RmsVoltage().value)
    ensures !b.TwoPole() && !NonZero(b.RmsVoltage()) && ParentHub(b, whems).None? ==> r == Known(VOLTAGE_120)
  {
    if b.TwoPole() then Known(if voltage208 then VOLTAGE_208 else VOLTAGE_240)
    else if NonZero(b.RmsVoltage()) then Known(b.RmsVoltage().value)
    else match ParentHub(b, whems)
      case None => Known(VOLTAGE_120)
      case Some(hub) =>
        match b.Position()
        case None => Raises
        case Some(p) =>
          if onLeg(p, 1) && NonZero(hub.VoltageA()) then Known(hub.VoltageA().value)
          else if onLeg(p, 2) && NonZero(hub.VoltageB()) then Known(hub.VoltageB().value)
          else Known(VOLTAGE_120)
  }

  /** `round(x, 2)` on a real: the nearest hundredth, halves rounding up. */
  function RoundHundredths(x: real): (r: real)
    ensures x - 0.005 < r <= x + 0.005
  {
    (x * 100.0 + 0.5).Floor as real / 100.0
  }

  /** A reading that is present or `None`, as a value function's result. */
  function FromOption<T>(o: Option<T>): (r: Sensed<T>)
    ensures o.None? <==> r.Unknown?
    ensures o.Some? ==> r == Known(o.value)
  {
    match o
    case None => Unknown
    case Some(v) => Known(v)
  }

  /**
   * `_calc_current`: the reported current unless calculation is enabled
   * and the breaker has a power reading; then power over the divisor,
   * to the hundredth.
   */
  function CalcCurrentBy(b: Breaker, whems: map<string, Hub>, opts: CurrentOptions, onLeg: (int, int) -> bool): (r: Sensed<real>)
    ensures !opts.calculated || BreakerPower(b).None? ==> r == FromOption(b.RmsCurrent())
    ensures opts.calculated && BreakerPower(b).Some? ==>
              (r.Raises? <==> Divisor(b, whems, opts.voltage208, onLeg).Raises?)
    ensures opts.calculated && BreakerPower(b).Some? && r.Known? ==>
              var d := Divisor(b, whems, opts.voltage208, onLeg).v;
              var exact := BreakerPower(b).value as real / d;
              exact - 0.005 < r.v <= exact + 0.005
  {
    if !opts.calculated then FromOption(b.RmsCurrent())
    else match BreakerPower(b)
      case None => FromOption(b.RmsCurrent())
      case Some(power) =>
        match Divisor(b, whems, opts.voltage208, onLeg)
        case Raises => Raises
        case Unknown => FromOption(b.RmsCurrent())
        case Known(d) =>
          if d == 0.0 then FromOption(b.RmsCurrent())
          else Known(RoundHundredths(power as real / d))
  }

  /** The calculated current with the paired-slot leg convention. */
  function CalcCurrent(b: Breaker, whems: map<string, Hub>, opts: CurrentOptions): (r: Sensed<real>)
    ensures !opts.calculated || BreakerPower(b).None? ==> r == FromOption(b.RmsCurrent())
    ensures r.Raises? ==> b.Position().None?
  {
    CalcCurrentBy(b, whems, opts, IsOnLeg)
  }

  /**
   * A one-pole breaker without its own voltage on a known hub takes the
   * hub's voltage for its leg: leg 1 (A) for positions 1, 2, 5, 6, ...
   */
  lemma CurrentFromHubVoltage(b: Breaker, whems: map<string, Hub>, opts: CurrentOptions, p: int)
    requires opts.calculated && BreakerPower(b).Some? && !b.TwoPole() && !NonZero(b.RmsVoltage())
    requires ParentHub(b, whems).Some? && b.Position() == Some(p)
    ensures var hub := ParentHub(b, whems).value;
            p % 4 in {1, 2} && NonZero(hub.VoltageA()) ==>
              CalcCurrent(b, whems, opts) == Known(RoundHundredths(BreakerPower(b).value as real / hub.VoltageA().value))
    ensures var hub := ParentHub(b, whems).value;
            p % 4 in {0, 3} && NonZero(hub.VoltageB()) ==>
              CalcCurrent(b, whems, opts) == Known(RoundHundredths(BreakerPower(b).value as real / hub.VoltageB().value))
  {
  }

  // ---------------------------------------------------------------------
  // Averages of two legs
  // ---------------------------------------------------------------------

  /** `sum(vals) / len(vals)` over the legs that are not `None`. */
  function Average(a: Option<real>, b: Option<real>): (r: Option<real>)
    ensures r.None? <==> a.None? && b.None?
    ensures a.Some? && b.None? ==> r == a
    ensures a.None? && b.Some? ==> r == b
    ensures a.Some? && b.Some? ==> r.value - a.value == b.value - r.value
  {
    if a.Some? && b.Some? then Some((a.value + b.value) / 2.0)
    else if a.Some? then a
    else b
  }

  /** The average lies between the legs. */
  lemma AverageBetween(a: Option<real>, b: Option<real>)
    requires a.Some? && b.Some?
    ensures a.value <= b.value ==> a.value <= Average(a, b).value <= b.value
    ensures b.value <= a.value ==> b.value <= Average(a, b).value <= a.value
  {
  }

  /** `_whem_voltage`. */
  function WhemVoltage(h: Hub): (r: Option<real>)
    ensures r.None? <==> h.VoltageA().None? && h.VoltageB().None?
  {
    Average(h.VoltageA(), h.VoltageB())
  }

  /** `_whem_frequency`. */
  function WhemFrequency(h: Hub): (r: Option<real>)
    ensures r.None? <==> h.FrequencyA().None? && h.FrequencyB().None?
  {
    Average(h.FrequencyA(), h.FrequencyB())
  }

  /** `_panel_voltage`. */
  function PanelVoltage(p: Panel): (r: Option<real>)
    ensures r.None? <==> p.Voltage1().None? && p.Voltage2().None?
  {
    Average(p.Voltage1(), p.Voltage2())
  }

  // ---------------------------------------------------------------------
  // Hub aggregates: CT clamps first, breakers as the fallback
  // ---------------------------------------------------------------------

  /** The CT clamp's `iot_whem_id` is the hub's id. */
  predicate CtOf(h: Hub, c: Ct) {
    c.HubRef() == Text(h.id)
  }

  /** The breaker's `iot_whem_id` is the hub's id. */
  predicate BreakerOfHub(h: Hub, b: Breaker) {
    b.HubRef() == Text(h.id)
  }

  predicate HasCt(h: Hub, cts: seq<Ct>) {
    exists i :: 0 <= i < |cts| && CtOf(h, cts[i])
  }

  predicate HasHubBreaker(h: Hub, breakers: seq<Breaker>) {
    exists i :: 0 <= i < |breakers| && BreakerOfHub(h, breakers[i])
  }

  /** Both legs' power of the hub's clamps. */
  function HubCtPower(h: Hub, cts: seq<Ct>): int {
    SumInt(cts, c => if CtOf(h, c) then OrZero(c.Power1()) + OrZero(c.Power2()) else 0)
  }

  function HubBreakerPower(h: Hub, breakers: seq<Breaker>): int {
    SumInt(breakers, b => if BreakerOfHub(h, b) then OrZero(BreakerPower(b)) else 0)
  }

  /** Both legs' current of the hub's clamps. */
  function HubCtCurrent(h: Hub, cts: seq<Ct>): real {
    SumReal(cts, c => if CtOf(h, c) then OrZeroReal(c.Current1()) + OrZeroReal(c.Current2()) else 0.0)
  }

  function HubBreakerCurrent(h: Hub, breakers: seq<Breaker>): real {
    SumReal(breakers, b => if BreakerOfHub(h, b) then OrZeroReal(b.RmsCurrent()) else 0.0)
  }

  /** Lifetime energy of the hub's clamps, both counters. */
  function HubCtEnergy(h: Hub, cts: seq<Ct>): int {
    SumInt(cts, c => if CtOf(h, c) then c.TotalEnergy() else 0)
  }

  function HubBreakerEnergy(h: Hub, breakers: seq<Breaker>): int {
    SumInt(breakers, b => if BreakerOfHub(h, b) then OrZero(b.TotalEnergy()) else 0)
  }

  /**
   * `_whem_total_power`: the clamps' sum when the hub has a clamp,
   * otherwise the breakers' sum when it has a breaker, otherwise none.
   */
  function WhemTotalPower(h: Hub, cts: seq<Ct>, breakers: seq<Breaker>): (r: Option<int>)
    ensures r.None? <==> !HasCt(h, cts) && !HasHubBreaker(h, breakers)
    ensures HasCt(h, cts) ==> r == Some(HubCtPower(h, cts))
    ensures !HasCt(h, cts) && HasHubBreaker(h, breakers) ==> r == Some(HubBreakerPower(h, breakers))
  {
    if HasCt(h, cts) then Some(HubCtPower(h, cts))
    else if HasHubBreaker(h, breakers) then Some(HubBreakerPower(h, breakers))
    else None
  }

  /** `_whem_total_current`: the same precedence over the clamps' and breakers' currents. */
  function WhemTotalCurrent(h: Hub, cts: seq<Ct>, breakers: seq<Breaker>): (r: Option<real>)
    ensures r.None? <==> !HasCt(h, cts) && !HasHubBreaker(h, breakers)
    ensures HasCt(h, cts) ==> r == Some(HubCtCurrent(h, cts))
    ensures !HasCt(h, cts) && HasHubBreaker(h, breakers) ==> r == Some(HubBreakerCurrent(h, breakers))
  {
    if HasCt(h, cts) then Some(HubCtCurrent(h, cts))
    else if HasHubBreaker(h, breakers) then Some(HubBreakerCurrent(h, breakers))
    else None
  }

  /** `_whem_total_energy`: the same precedence over lifetime energy (rounding to thousandths changes nothing). */
  function WhemTotalEnergy(h: Hub, cts: seq<Ct>, breakers: seq<Breaker>): (r: Option<int>)
    ensures r.None? <==> !HasCt(h, cts) && !HasHubBreaker(h, breakers)
    ensures HasCt(h, cts) ==> r == Some(HubCtEnergy(h, cts))
    ensures !HasCt(h, cts) && HasHubBreaker(h, breakers) ==> r == Some(HubBreakerEnergy(h, breakers))
  {
    if HasCt(h, cts) then Some(HubCtEnergy(h, cts))
    else if HasHubBreaker(h, breakers) then Some(HubBreakerEnergy(h, breakers))
    else None
  }

  /** A clamp of the hub with a daily baseline. */
  predicate CtCounted(h: Hub, c: Ct, baselines: map<DeviceRef, int>) {
    CtOf(h, c) && CtRef(c.Key()) in baselines
  }

  predicate HasCountedCt(h: Hub, cts: seq<Ct>, baselines: map<DeviceRef, int>) {
    exists i :: 0 <= i < |cts| && CtCounted(h, cts[i], baselines)
  }

  predicate HasDailyBreaker(h: Hub, breakers: seq<Breaker>, baselines: map<DeviceRef, int>) {
    exists i :: 0 <= i < |breakers| && BreakerOfHub(h, breakers[i]) && BreakerDaily(breakers[i], baselines).Some?
  }

  /** The hub's clamps' energy since their baselines, each clamp clamped at zero. */
  function HubCtDaily(h: Hub, cts: seq<Ct>, baselines: map<DeviceRef, int>): (r: int)
    ensures r >= 0
  {
    var f := c => if CtCounted(h, c, baselines) then Max(0, c.TotalEnergy() - baselines[CtRef(c.Key())]) else 0;
    SumIntNonNegative(cts, f);
    SumInt(cts, f)
  }

  function HubBreakerDaily(h: Hub, breakers: seq<Breaker>, baselines: map<DeviceRef, int>): (r: int)
    ensures r >= 0 && r % 10 == 0
  {
    var f := b => if BreakerOfHub(h, b) && BreakerDaily(b, baselines).Some? then BreakerDaily(b, baselines).value as int else 0;
    SumIntNonNegative(breakers, f);
    SumIntTens(breakers, f);
    SumInt(breakers, f)
  }

  /**
   * `_whem_daily_energy`: the clamps with a baseline, each counted from
   * its baseline and never below zero, rounded to the hundredth; failing
   * any such clamp, the breakers' daily energies; failing those, none.
   */
  function WhemDailyEnergy(h: Hub, cts: seq<Ct>, breakers: seq<Breaker>, baselines: map<DeviceRef, int>): (r: Option<nat>)
    ensures r.None? <==> !HasCountedCt(h, cts, baselines) && !HasDailyBreaker(h, breakers, baselines)
    ensures r.Some? ==> r.value % 10 == 0
    ensures HasCountedCt(h, cts, baselines) ==> r == Some(Energy.Round2(HubCtDaily(h, cts, baselines)))
    ensures !HasCountedCt(h, cts, baselines) && HasDailyBreaker(h, breakers, baselines) ==>
              r == Some(HubBreakerDaily(h, breakers, baselines))
  {
    if HasCountedCt(h, cts, baselines) then Some(Energy.Round2(HubCtDaily(h, cts, baselines)))
    else if HasDailyBreaker(h, breakers, baselines) then
      var total := HubBreakerDaily(h, breakers, baselines);
      assert Energy.Round2(total) == total;
      Some(Energy.Round2(total))
    else None
  }

  /** The first of the hub's clamps, the one the per-leg hub sensors read. */
  function FirstCt(h: Hub, cts: seq<Ct>): (r: Option<Ct>)
    ensures r.None? <==> !HasCt(h, cts)
    ensures r.Some? ==> r.value in cts && CtOf(h, r.value)
    ensures r.Some? && CtOf(h, cts[0]) ==> r.value == cts[0]
    ensures r.Some? ==> exists i :: 0 <= i < |cts| && cts[i] == r.value && CtOf(h, cts[i]) && forall j :: 0 <= j < i ==> !CtOf(h, cts[j])
    decreases |cts|
  {
    if cts == [] then None
    else if CtOf(h, cts[0]) then Some(cts[0])
    else
      assert forall i :: 1 <= i < |cts| ==> cts[1..][i - 1] == cts[i];
      FirstCt(h, cts[1..])
  }

  /** `_whem_leg_power`: leg 1 or leg 2 power of the hub's first clamp. */
  function WhemLegPower(h: Hub, cts: seq<Ct>, leg: int): (r: Option<int>)
    ensures !HasCt(h, cts) ==> r.None?
    ensures HasCt(h, cts) ==> r == (if leg == 1 then FirstCt(h, cts).value.Power1() else FirstCt(h, cts).value.Power2())
  {
    match FirstCt(h, cts)
    case None => None
    case Some(c) => if leg == 1 then c.Power1() else c.Power2()
  }

  /** `_whem_leg_current`: leg 1 or leg 2 current of the hub's first clamp. */
  function WhemLegCurrent(h: Hub, cts: seq<Ct>, leg: int): (r: Option<real>)
    ensures !HasCt(h, cts) ==> r.None?
    ensures HasCt(h, cts) ==> r == (if leg == 1 then FirstCt(h, cts).value.Current1() else FirstCt(h, cts).value.Current2())
  {
    match FirstCt(h, cts)
    case None => None
    case Some(c) => if leg == 1 then c.Current1() else c.Current2()
  }

  /**
   * As long as the hub has a clamp, its breakers never enter the hub's
   * power, current, energy or per-leg readings.
   */
  lemma ClampsTakePrecedence(h: Hub, cts: seq<Ct>, b1: seq<Breaker>, b2: seq<Breaker>)
    requires HasCt(h, cts)
    ensures WhemTotalPower(h, cts, b1) == WhemTotalPower(h, cts, b2)
    ensures WhemTotalCurrent(h, cts, b1) == WhemTotalCurrent(h, cts, b2)
    ensures WhemTotalEnergy(h, cts, b1) == WhemTotalEnergy(h, cts, b2)
  {
  }

  // ---------------------------------------------------------------------
  // Panel aggregates: the panel's breakers
  // ---------------------------------------------------------------------

  /** The breaker's `residential_breaker_panel_id` is the panel's id. */
  predicate BreakerOfPanel(p: Panel, b: Breaker) {
    b.PanelRef() == Text(p.id)
  }

  predicate HasPanelBreaker(p: Panel, breakers: seq<Breaker>) {
    exists i :: 0 <= i < |breakers| && BreakerOfPanel(p, breakers[i])
  }

  /** Power over both poles of the panel's breakers. */
  function PanelBreakerPower(p: Panel, breakers: seq<Breaker>): int {
    SumInt(breakers, b => if BreakerOfPanel(p, b) then OrZero(BreakerPower(b)) else 0)
  }

  /** Pole-1 current of the panel's breakers (two poles carry the same current). */
  function PanelBreakerCurrent(p: Panel, breakers: seq<Breaker>): real {
    SumReal(breakers, b => if BreakerOfPanel(p, b) then OrZeroReal(b.RmsCurrent()) else 0.0)
  }

  /** Lifetime energy of the panel's breakers. */
  function PanelBreakerEnergy(p: Panel, breakers: seq<Breaker>): int {
    SumInt(breakers, b => if BreakerOfPanel(p, b) then OrZero(b.TotalEnergy()) else 0)
  }

  /** `_panel_total_power`: the panel's breakers' power over both poles. */
  function PanelTotalPower(p: Panel, breakers: seq<Breaker>): (r: Option<int>)
    ensures r.None? <==> !HasPanelBreaker(p, breakers)
    ensures r.Some? ==> r.value == PanelBreakerPower(p, breakers)
  {
    if HasPanelBreaker(p, breakers) then Some(PanelBreakerPower(p, breakers))
    else None
  }

  /** `_panel_total_current`: the panel's breakers' pole-1 current. */
  function PanelTotalCurrent(p: Panel, breakers: seq<Breaker>): (r: Option<real>)
    ensures r.None? <==> !HasPanelBreaker(p, breakers)
    ensures r.Some? ==> r.value == PanelBreakerCurrent(p, breakers)
  {
    if HasPanelBreaker(p, breakers) then Some(PanelBreakerCurrent(p, breakers))
    else None
  }

  /** `_panel_total_energy`: the panel's breakers' lifetime energy. */
  function PanelTotalEnergy(p: Panel, breakers: seq<Breaker>): (r: Option<int>)
    ensures r.None? <==> !HasPanelBreaker(p, breakers)
    ensures r.Some? ==> r.value == PanelBreakerEnergy(p, breakers)
  {
    if HasPanelBreaker(p, breakers) then Some(PanelBreakerEnergy(p, breakers))
    else None
  }

  predicate HasDailyPanelBreaker(p: Panel, breakers: seq<Breaker>, baselines: map<DeviceRef, int>) {
    exists i :: 0 <= i < |breakers| && BreakerOfPanel(p, breakers[i]) && BreakerDaily(breakers[i], baselines).Some?
  }

  /** The daily energies of the panel's breakers that have one, each already on the hundredth grain. */
  function PanelBreakerDaily(p: Panel, breakers: seq<Breaker>, baselines: map<DeviceRef, int>): (r: int)
    ensures r >= 0 && r % 10 == 0
  {
    var f := b => if BreakerOfPanel(p, b) && BreakerDaily(b, baselines).Some? then BreakerDaily(b, baselines).value as int else 0;
    SumIntNonNegative(breakers, f);
    SumIntTens(breakers, f);
    SumInt(breakers, f)
  }

  /** `_panel_daily_energy`: the daily energies of the panel's breakers that have one, rounded to the hundredth. */
  function PanelDailyEnergy(p: Panel, breakers: seq<Breaker>, baselines: map<DeviceRef, int>): (r: Option<nat>)
    ensures r.None? <==> !HasDailyPanelBreaker(p, breakers, baselines)
    ensures r.Some? ==> r.value % 10 == 0
    ensures r.Some? ==> r.value == PanelBreakerDaily(p, breakers, baselines)
  {
    if HasDailyPanelBreaker(p, breakers, baselines) then
      var total := PanelBreakerDaily(p, breakers, baselines);
      assert Energy.Round2(total) == total;
      Some(Energy.Round2(total))
    else None
  }

  /** Every breaker of the panel has an integer position: placing them on legs raises nothing. */
  predicate PanelPositioned(p: Panel, breakers: seq<Breaker>) {
    forall i :: 0 <= i < |breakers| && BreakerOfPanel(p, breakers[i]) ==> breakers[i].Position().Some?
  }

  /** A breaker of the panel on the given leg. */
  predicate OnPanelLeg(p: Panel, b: Breaker, leg: int) {
    BreakerOfPanel(p, b) && b.Position().Some? && IsOnLeg(b.Position().value, leg)
  }

  predicate HasLegBreaker(p: Panel, breakers: seq<Breaker>, leg: int) {
    exists i :: 0 <= i < |breakers| && OnPanelLeg(p, breakers[i], leg)
  }

  /** Pole-1 power of the panel's breakers on one leg. */
  function LegPowerSum(p: Panel, breakers: seq<Breaker>, leg: int): int {
    SumInt(breakers, b => if OnPanelLeg(p, b, leg) then OrZero(b.Power()) else 0)
  }

  /**
   * `_panel_leg_power`: pole-1 power of the panel's breakers on the leg;
   * none when no breaker of the panel is on it; raises when a breaker of
   * the panel has no position.
   */
  function PanelLegPower(p: Panel, breakers: seq<Breaker>, leg: int): (r: Sensed<int>)
    ensures r.Raises? <==> !PanelPositioned(p, breakers)
    ensures r.Unknown? <==> PanelPositioned(p, breakers) && !HasLegBreaker(p, breakers, leg)
    ensures r.Known? ==> r.v == LegPowerSum(p, breakers, leg)
  {
    if !PanelPositioned(p, breakers) then Raises
    else if HasLegBreaker(p, breakers, leg) then Known(LegPowerSum(p, breakers, leg))
    else Unknown
  }

  /** Pole-1 current of the panel's breakers on one leg. */
  function LegCurrentSum(p: Panel, breakers: seq<Breaker>, leg: int): real {
    SumReal(breakers, b => if OnPanelLeg(p, b, leg) then OrZeroReal(b.RmsCurrent()) else 0.0)
  }

  /** `_panel_leg_current`: pole-1 current of the panel's breakers on the leg. */
  function PanelLegCurrent(p: Panel, breakers: seq<Breaker>, leg: int): (r: Sensed<real>)
    ensures r.Raises? <==> !PanelPositioned(p, breakers)
    ensures r.Unknown? <==> PanelPositioned(p, breakers) && !HasLegBreaker(p, breakers, leg)
    ensures r.Known? ==> r.v == LegCurrentSum(p, breakers, leg)
  {
    if !PanelPositioned(p, breakers) then Raises
    else if HasLegBreaker(p, breakers, leg) then Known(LegCurrentSum(p, breakers, leg))
    else Unknown
  }

  /**
   * The two legs share out the panel: with a leg that has no breaker
   * counting zero, leg 1 plus leg 2 is the pole-1 power of every breaker
   * of the panel.
   */
  lemma {:induction false} PanelLegsCoverPanel(p: Panel, breakers: seq<Breaker>)
    requires PanelPositioned(p, breakers)
    ensures var total := SumInt(breakers, b => if BreakerOfPanel(p, b) then OrZero(b.Power()) else 0);
            LegValue(PanelLegPower(p, breakers, 1)) + LegValue(PanelLegPower(p, breakers, 2)) == total
  {
    var f := b => if OnPanelLeg(p, b, 1) then OrZero(b.Power()) else 0;
    var g := b => if OnPanelLeg(p, b, 2) then OrZero(b.Power()) else 0;
    var h := b => if BreakerOfPanel(p, b) then OrZero(b.Power()) else 0;
    forall i | 0 <= i < |breakers| ensures h(breakers[i]) == f(breakers[i]) + g(breakers[i]) {
      var b := breakers[i];
      if BreakerOfPanel(p, b) {
        assert b.Position().Some?;
        assert IsOnLeg(b.Position().value, 1) != IsOnLeg(b.Position().value, 2);
      }
    }
    SumIntSplit(breakers, f, g, h);
    if !HasLegBreaker(p, breakers, 1) {
      LegSumZero(p, breakers, 1);
    }
    if !HasLegBreaker(p, breakers, 2) {
      LegSumZero(p, breakers, 2);
    }
  }

  /**
   * Without two-pole breakers the panel's total power is exactly its two
   * legs' power: the per-leg sensors and the total agree.
   */
  lemma {:induction false} PanelTotalIsLegSum(p: Panel, breakers: seq<Breaker>)
    requires PanelPositioned(p, breakers) && HasPanelBreaker(p, breakers)
    requires forall i :: 0 <= i < |breakers| && BreakerOfPanel(p, breakers[i]) ==> !breakers[i].TwoPole()
    ensures PanelTotalPower(p, breakers) ==
              Some(LegValue(PanelLegPower(p, breakers, 1)) + LegValue(PanelLegPower(p, breakers, 2)))
  {
    PanelLegsCoverPanel(p, breakers);
    var f := b => if BreakerOfPanel(p, b) then OrZero(BreakerPower(b)) else 0;
    var g := b => if BreakerOfPanel(p, b) then OrZero(b.Power()) else 0;
    SumIntSame(breakers, f, g);
  }

  /** A leg's reading with `None` counting zero. */
  function LegValue(r: Sensed<int>): int {
    if r.Known? then r.v else 0
  }

  /** No breaker on the leg, nothing summed. */
  lemma {:induction false} LegSumZero(p: Panel, breakers: seq<Breaker>, leg: int)
    requires !HasLegBreaker(p, breakers, leg)
    ensures LegPowerSum(p, breakers, leg) == 0
    decreases |breakers|
  {
    if breakers != [] {
      assert !OnPanelLeg(p, breakers[0], leg);
      assert forall i :: 0 <= i < |breakers[1..]| ==> breakers[1..][i] == breakers[i + 1];
      LegSumZero(p, breakers[1..], leg);
    }
  }

  /**
   * `_panel_frequency`: the line frequency of the first breaker of the
   * panel on the leg whose frequency is set and non-zero; raises at a
   * breaker of the panel without a position met before it.
   */
  function PanelFrequency(p: Panel, breakers: seq<Breaker>, leg: int): (r: Sensed<real>)
    ensures r.Known? ==> exists i :: 0 <= i < |breakers| && OnPanelLeg(p, breakers[i], leg) && breakers[i].LineFrequency() == Some(r.v) && r.v != 0.0
    ensures PanelPositioned(p, breakers) ==> !r.Raises?
    ensures r.Unknown? ==> forall i :: 0 <= i < |breakers| && OnPanelLeg(p, breakers[i], leg) ==> !NonZero(breakers[i].LineFrequency())
    ensures r.Unknown? <==> forall i :: 0 <= i < |breakers| ==> FrequencyStep(p, breakers[i], leg).None?
    ensures !r.Unknown? ==> exists i :: 0 <= i < |breakers| && FrequencyStep(p, breakers[i], leg) == Some(r) &&
                                        forall j :: 0 <= j < i ==> FrequencyStep(p, breakers[j], leg).None?
    decreases |breakers|
  {
    if breakers == [] then Unknown
    else
      assert forall i :: 1 <= i < |breakers| ==> breakers[1..][i - 1] == breakers[i];
      match FrequencyStep(p, breakers[0], leg)
      case Some(s) => s
      case None => PanelFrequency(p, breakers[1..], leg)
  }

  /**
   * What one breaker decides in the `_panel_frequency` loop: a breaker of
   * the panel without a position raises, one on the leg with a non-zero
   * frequency answers, and any other lets the loop go on (`None`).
   */
  function FrequencyStep(p: Panel, b: Breaker, leg: int): (r: Option<Sensed<real>>)
    ensures r == Some(Raises) <==> BreakerOfPanel(p, b) && b.Position().None?
    ensures r.Some? && r.value.Known? <==> OnPanelLeg(p, b, leg) && NonZero(b.LineFrequency())
    ensures r.Some? && r.value.Known? ==> b.LineFrequency() == Some(r.value.v)
    ensures r != Some(Unknown)
  {
    if !BreakerOfPanel(p, b) then None
    else if b.Position().None? then Some(Raises)
    else if !IsOnLeg(b.Position().value, leg) then None
    else if NonZero(b.LineFrequency()) then Some(Known(b.LineFrequency().value))
    else None
  }

  /** Once a prefix of the breakers decides the frequency, the breakers after it do not matter. */
  lemma {:induction false} FrequencyDecidedByPrefix(p: Panel, breakers: seq<Breaker>, more: seq<Breaker>, leg: int)
    requires !PanelFrequency(p, breakers, leg).Unknown?
    ensures PanelFrequency(p, breakers + more, leg) == PanelFrequency(p, breakers, leg)
    decreases |breakers|
  {
    assert breakers != [];
    assert (breakers + more)[0] == breakers[0];
    if FrequencyStep(p, breakers[0], leg).None? {
      assert (breakers + more)[1..] == breakers[1..] + more;
      FrequencyDecidedByPrefix(p, breakers[1..], more, leg);
    }
  }

  /** `_panel_frequency_avg`: the average of the two legs' frequencies that are present. */
  function PanelFrequencyAvg(p: Panel, breakers: seq<Breaker>): (r: Sensed<real>)
    ensures PanelPositioned(p, breakers) ==> !r.Raises?
  {
    var one := PanelFrequency(p, breakers, 1);
    var two := PanelFrequency(p, breakers, 2);
    if one.Raises? || two.Raises? then Raises
    else FromOption(Average(if one.Known? then Some(one.v) else None, if two.Known? then Some(two.v) else None))
  }
}

=== FILE: sensor_platform.dfy ===
/**
 * The sensor platform: the older helper set it carries (odd positions on
 * leg 1, even on leg 2; hub totals from the CT clamps only), which
 * sensors its setup creates for which device, and the value lookup of a
 * sensor entity. The newer helpers are module SensorDescriptions; the
 * lemmas here say where the two agree.
 */
module SensorPlatform {
  import opened Wrappers
  import opened Values
  import opened Store
  import opened SensorDescriptions
  import Entities
  import Energy

  // ---------------------------------------------------------------------
  // The odd/even leg convention
  // ---------------------------------------------------------------------

  /** Odd positions on leg 1, even positions on leg 2; a leg other than 1 or 2 holds nothing. */
  function OddEvenOnLeg(position: int, leg: int): (r: bool)
    ensures leg == 1 ==> (r <==> position % 2 == 1)
    ensures leg == 2 ==> (r <==> position % 2 == 0)
    ensures leg != 1 && leg != 2 ==> !r
  {
    (leg == 1 && position % 2 == 1) || (leg == 2 && position % 2 == 0)
  }

  /** The older `_breaker_leg`. */
  function OddEvenLeg(b: Breaker): (r: Sensed<Leg>)
    ensures b.TwoPole() <==> r == Known(Both)
    ensures r.Raises? <==> !b.TwoPole() && b.Position().None?
    ensures r == Known(Leg1) <==> !b.TwoPole() && b.Position().Some? && b.Position().value % 2 == 1
    ensures r == Known(Leg2) <==> !b.TwoPole() && b.Position().Some? && b.Position().value % 2 == 0
  {
    if b.TwoPole() then Known(Both)
    else match b.Position()
      case None => Raises
      case Some(p) => Known(if p % 2 == 1 then Leg1 else Leg2)
  }

  /** A position's residue modulo 4 fixes its residue modulo 2. */
  lemma ParityFromQuarter(p: int)
    ensures p % 2 == (p % 4) % 2
  {
    var q := p / 4;
    assert p == 4 * q + p % 4;
    assert p == 2 * (2 * q) + p % 4;
  }

  /**
   * The two conventions place a one-pole breaker on the same leg exactly
   * for positions 1, 4, 5, 8, ...: positions 2, 6, ... and 3, 7, ... swap.
   */
  lemma LegConventionsAgree(b: Breaker)
    requires !b.TwoPole() && b.Position().Some?
    ensures OddEvenLeg(b) == BreakerLeg(b) <==> b.Position().value % 4 in {0, 1}
  {
    ParityFromQuarter(b.Position().value);
  }

  /** The older `_calc_current`: the hub's leg voltage chosen by odd/even position. */
  function CalcCurrentOddEven(b: Breaker, whems: map<string, Hub>, opts: CurrentOptions): (r: Sensed<real>)
    ensures !opts.calculated || BreakerPower(b).None? ==> r == FromOption(b.RmsCurrent())
    ensures r.Raises? ==> b.Position().None?
  {
    CalcCurrentBy(b, whems, opts, OddEvenOnLeg)
  }

  /** Where the leg conventions agree, so do the calculated currents. */
  lemma CalcCurrentConventionsAgree(b: Breaker, whems: map<string, Hub>, opts: CurrentOptions)
    requires b.Position().Some? ==> b.Position().value % 4 in {0, 1}
    ensures CalcCurrentOddEven(b, whems, opts) == CalcCurrent(b, whems, opts)
  {
    if b.Position().Some? {
      var p := b.Position().value;
      ParityFromQuarter(p);
      assert OddEvenOnLeg(p, 1) == IsOnLeg(p, 1);
      assert OddEvenOnLeg(p, 2) == IsOnLeg(p, 2);
    }
    assert Divisor(b, whems, opts.voltage208, OddEvenOnLeg) == Divisor(b, whems, opts.voltage208, IsOnLeg);
  }

  // ---------------------------------------------------------------------
  // Hub totals without the breaker fallback
  // ---------------------------------------------------------------------

  /** The older `_whem_total_power`: the hub's clamps only. */
  function WhemTotalPowerCtOnly(h: Hub, cts: seq<Ct>): (r: Option<int>)
    ensures r.None? <==> !HasCt(h, cts)
    ensures r.Some? ==> r.value == HubCtPower(h, cts)
  {
    if HasCt(h, cts) then Some(HubCtPower(h, cts)) else None
  }

  /** The older `_whem_total_current`: the hub's clamps only. */
  function WhemTotalCurrentCtOnly(h: Hub, cts: seq<Ct>): (r: Option<real>)
    ensures r.None? <==> !HasCt(h, cts)
    ensures r.Some? ==> r.value == HubCtCurrent(h, cts)
  {
    if HasCt(h, cts) then Some(HubCtCurrent(h, cts)) else None
  }

  /** The older `_whem_total_energy`: the hub's clamps only. */
  function WhemTotalEnergyCtOnly(h: Hub, cts: seq<Ct>): (r: Option<int>)
    ensures r.None? <==> !HasCt(h, cts)
    ensures r.Some? ==> r.value == HubCtEnergy(h, cts)
  {
    if HasCt(h, cts) then Some(HubCtEnergy(h, cts)) else None
  }

  /** The older `_whem_daily_energy`: the clamps with a baseline only, each never below zero. */
  function WhemDailyEnergyCtOnly(h: Hub, cts: seq<Ct>, baselines: map<DeviceRef, int>): (r: Option<nat>)
    ensures r.None? <==> !HasCountedCt(h, cts, baselines)
    ensures r.Some? ==> r.value % 10 == 0
    ensures r.Some? ==> r.value == Energy.Round2(HubCtDaily(h, cts, baselines))
  {
    if HasCountedCt(h, cts, baselines) then Some(Energy.Round2(HubCtDaily(h, cts, baselines))) else None
  }

  /**
   * Where the hub has a clamp the older totals are the newer ones; where
   * it has none they are absent, whatever breakers the hub feeds.
   */
  lemma CtOnlyTotalsAgree(h: Hub, cts: seq<Ct>, breakers: seq<Breaker>, baselines: map<DeviceRef, int>)
    ensures HasCt(h, cts) ==>
              WhemTotalPowerCtOnly(h, cts) == WhemTotalPower(h, cts, breakers) &&
              WhemTotalCurrentCtOnly(h, cts) == WhemTotalCurrent(h, cts, breakers) &&
              WhemTotalEnergyCtOnly(h, cts) == WhemTotalEnergy(h, cts, breakers)
    ensures HasCountedCt(h, cts, baselines) ==>
              WhemDailyEnergyCtOnly(h, cts, baselines) == WhemDailyEnergy(h, cts, breakers, baselines)
    ensures !HasCountedCt(h, cts, baselines) ==> WhemDailyEnergyCtOnly(h, cts, baselines).None?
  {
  }

  // ---------------------------------------------------------------------
  // Panel legs and frequency by odd/even position
  // ---------------------------------------------------------------------

  /** A breaker of the panel on the leg by the odd/even convention. */
  predicate OnPanelLegOddEven(p: Panel, b: Breaker, leg: int) {
    BreakerOfPanel(p, b) && b.Position().Some? && OddEvenOnLeg(b.Position().value, leg)
  }

  predicate HasLegBreakerOddEven(p: Panel, breakers: seq<Breaker>, leg: int) {
    exists i :: 0 <= i < |breakers| && OnPanelLegOddEven(p, breakers[i], leg)
  }

  function LegPowerSumOddEven(p: Panel, breakers: seq<Breaker>, leg: int): int {
    SumInt(breakers, b => if OnPanelLegOddEven(p, b, leg) then OrZero(b.Power()) else 0)
  }

  /**
   * The older `_panel_leg_power`: pole-1 power of the panel's breakers on
   * the leg; a breaker of the panel without a position raises for legs 1
   * and 2; any other leg matches nothing.
   */
  function PanelLegPowerOddEven(p: Panel, breakers: seq<Breaker>, leg: int): (r: Sensed<int>)
    ensures r.Raises? <==> (leg == 1 || leg == 2) && !PanelPositioned(p, breakers)
    ensures leg != 1 && leg != 2 ==> r.Unknown?
    ensures r.Unknown? && (leg == 1 || leg == 2) ==> !HasLegBreakerOddEven(p, breakers, leg)
    ensures r.Known? ==> r.v == LegPowerSumOddEven(p, breakers, leg)
  {
    if leg != 1 && leg != 2 then Unknown
    else if !PanelPositioned(p, breakers) then Raises
    else if HasLegBreakerOddEven(p, breakers, leg) then Known(LegPowerSumOddEven(p, breakers, leg))
    else Unknown
  }

  function LegCurrentSumOddEven(p: Panel, breakers: seq<Breaker>, leg: int): real {
    SumReal(breakers, b => if OnPanelLegOddEven(p, b, leg) then OrZeroReal(b.RmsCurrent()) else 0.0)
  }

  /** The older `_panel_leg_current`, over pole-1 current. */
  function PanelLegCurrentOddEven(p: Panel, breakers: seq<Breaker>, leg: int): (r: Sensed<real>)
    ensures r.Raises? <==> (leg == 1 || leg == 2) && !PanelPositioned(p, breakers)
    ensures leg != 1 && leg != 2 ==> r.Unknown?
    ensures r.Unknown? && (leg == 1 || leg == 2) ==> !HasLegBreakerOddEven(p, breakers, leg)
    ensures r.Known? ==> r.v == LegCurrentSumOddEven(p, breakers, leg)
  {
    if leg != 1 && leg != 2 then Unknown
    else if !PanelPositioned(p, breakers) then Raises
    else if HasLegBreakerOddEven(p, breakers, leg) then Known(LegCurrentSumOddEven(p, breakers, leg))
    else Unknown
  }

  /** No breaker on the leg, nothing summed. */
  lemma {:induction false} LegSumOddEvenZero(p: Panel, breakers: seq<Breaker>, leg: int)
    requires !HasLegBreakerOddEven(p, breakers, leg)
    ensures LegPowerSumOddEven(p, breakers, leg) == 0
    decreases |breakers|
  {
    if breakers != [] {
      assert !OnPanelLegOddEven(p, breakers[0], leg);
      assert forall i :: 0 <= i < |breakers[1..]| ==> breakers[1..][i] == breakers[i + 1];
      LegSumOddEvenZero(p, breakers[1..], leg);
    }
  }

  /** Under the odd/even convention too, the two legs share out the panel's pole-1 power. */
  lemma PanelLegsOddEvenCoverPanel(p: Panel, breakers: seq<Breaker>)
    requires PanelPositioned(p, breakers)
    ensures var total := SumInt(breakers, b => if BreakerOfPanel(p, b) then OrZero(b.Power()) else 0);
            LegValue(PanelLegPowerOddEven(p, breakers, 1)) + LegValue(PanelLegPowerOddEven(p, breakers, 2)) == total
  {
    var f := b => if OnPanelLegOddEven(p, b, 1) then OrZero(b.Power()) else 0;
    var g := b => if OnPanelLegOddEven(p, b, 2) then OrZero(b.Power()) else 0;
    var h := b => if BreakerOfPanel(p, b) then OrZero(b.Power()) else 0;
    forall i | 0 <= i < |breakers| ensures h(breakers[i]) == f(breakers[i]) + g(breakers[i]) {
      var b := breakers[i];
      if BreakerOfPanel(p, b) {
        assert b.Position().Some?;
        assert OddEvenOnLeg(b.Position().value, 1) != OddEvenOnLeg(b.Position().value, 2);
      }
    }
    SumIntSplit(breakers, f, g, h);
    if !HasLegBreakerOddEven(p, breakers, 1) {
      LegSumOddEvenZero(p, breakers, 1);
    }
    if !HasLegBreakerOddEven(p, breakers, 2) {
      LegSumOddEvenZero(p, breakers, 2);
    }
  }

  /**
   * The older `_panel_frequency`: the first breaker of the panel on the
   * leg with a frequency. Leg 1 takes odd positions and their
   * `line_frequency`; leg 2 takes even positions and their
   * `line_frequency_2`, falling back to `line_frequency`. A breaker of the
   * panel without a position raises when met for leg 1 or 2.
   */
  function PanelFrequencyOddEven(p: Panel, breakers: seq<Breaker>, leg: int): (r: Sensed<real>)
    ensures leg != 1 && leg != 2 ==> r.Unknown?
    ensures PanelPositioned(p, breakers) ==> !r.Raises?
    ensures r.Known? && leg == 1 ==>
              exists i :: 0 <= i < |breakers| && OnPanelLegOddEven(p, breakers[i], 1) && breakers[i].LineFrequency() == Some(r.v)
    ensures r.Known? && leg == 2 ==>
              exists i :: 0 <= i < |breakers| && OnPanelLegOddEven(p, breakers[i], 2) &&
                (breakers[i].LineFrequency2() == Some(r.v) ||
                 (breakers[i].LineFrequency2().None? && breakers[i].LineFrequency() == Some(r.v)))
    ensures r.Unknown? && leg == 1 ==>
              forall i :: 0 <= i < |breakers| && OnPanelLegOddEven(p, breakers[i], 1) ==> breakers[i].LineFrequency().None?
    ensures r.Unknown? && leg == 2 ==>
              forall i :: 0 <= i < |breakers| && OnPanelLegOddEven(p, breakers[i], 2) ==>
                breakers[i].LineFrequency2().None? && breakers[i].LineFrequency().None?
    ensures r.Unknown? <==> forall i :: 0 <= i < |breakers| ==> FrequencyStepOddEven(p, breakers[i], leg).None?
    ensures !r.Unknown? ==> exists i :: 0 <= i < |breakers| && FrequencyStepOddEven(p, breakers[i], leg) == Some(r) &&
                                        forall j :: 0 <= j < i ==> FrequencyStepOddEven(p, breakers[j], leg).None?
    decreases |breakers|
  {
    if breakers == [] then Unknown
    else
      assert forall i :: 1 <= i < |breakers| ==> breakers[1..][i - 1] == breakers[i];
      match FrequencyStepOddEven(p, breakers[0], leg)
      case Some(s) => s
      case None => PanelFrequencyOddEven(p, breakers[1..], leg)
  }

  /**
   * What one breaker decides in the older loop: for leg 1 or 2, a breaker
   * of the panel without a position raises, and one on the leg answers
   * with its first present frequency for that leg; any other lets the loop
   * go on (`None`).
   */
  function FrequencyStepOddEven(p: Panel, b: Breaker, leg: int): (r: Option<Sensed<real>>)
    ensures leg != 1 && leg != 2 ==> r.None?
    ensures r == Some(Raises) <==> (leg == 1 || leg == 2) && BreakerOfPanel(p, b) && b.Position().None?
    ensures r.Some? && r.value.Known? && leg == 1 <==> OnPanelLegOddEven(p, b, 1) && leg == 1 && b.LineFrequency().Some?
    ensures r.Some? && r.value.Known? && leg == 1 ==> b.LineFrequency() == Some(r.value.v)
    ensures r.Some? && r.value.Known? && leg == 2 <==>
              OnPanelLegOddEven(p, b, 2) && leg == 2 && (b.LineFrequency2().Some? || b.LineFrequency().Some?)
    ensures r.Some? && r.value.Known? && leg == 2 ==>
              r.value.v == if b.LineFrequency2().Some? then b.LineFrequency2().value else b.LineFrequency().value
    ensures r != Some(Unknown)
  {
    if !BreakerOfPanel(p, b) || (leg != 1 && leg != 2) then None
    else if b.Position().None? then Some(Raises)
    else if !OddEvenOnLeg(b.Position().value, leg) then None
    else if leg == 2 && b.LineFrequency2().Some? then Some(Known(b.LineFrequency2().value))
    else if b.LineFrequency().Some? then Some(Known(b.LineFrequency().value))
    else None
  }

  /** The older `_panel_frequency_avg`. */
  function PanelFrequencyAvgOddEven(p: Panel, breakers: seq<Breaker>): (r: Sensed<real>)
    ensures PanelPositioned(p, breakers) ==> !r.Raises?
  {
    var one := PanelFrequencyOddEven(p, breakers, 1);
    var two := PanelFrequencyOddEven(p, breakers, 2);
    if one.Raises? || two.Raises? then Raises
    else FromOption(Average(if one.Known? then Some(one.v) else None, if two.Known? then Some(two.v) else None))
  }

  // ---------------------------------------------------------------------
  // Which sensors the setup creates
  // ---------------------------------------------------------------------

  /** The breaker attributes a breaker description's `exists_fn` asks for. */
  datatype Rule = Always | SmartOrLsbma | Smart | Gen2 | SmartWithProtect

  predicate RuleHolds(rule: Rule, b: Breaker) {
    match rule
    case Always => true
    case SmartOrLsbma => b.kind.isSmart || b.kind.hasLsbma
    case Smart => b.kind.isSmart
    case Gen2 => b.kind.isGen2
    case SmartWithProtect => b.kind.isSmart && Truthy(ProtectFirmware(b))
  }

  datatype Description = Description(key: string, rule: Rule)

  /** The breaker descriptions, in order. */
  const BREAKER_SENSORS: seq<Description> := [
    Description("power", SmartOrLsbma),
    Description("current", SmartOrLsbma),
    Description("energy", SmartOrLsbma),
    Description("lifetime_energy", SmartOrLsbma),
    Description("breaker_status", Smart),
    Description("operational_status", Smart),
    Description("remote_status", Gen2),
    Description("amp_rating", Smart),
    Description("ble_mac", Smart),
    Description("ble_rssi", Smart),
    Description("firmware_ble", Smart),
    Description("firmware_meter", Smart),
    Description("firmware_protect", SmartWithProtect),
    Description("leg", Always),
    Description("poles", Always),
    Description("position", Always),
    Description("serial_number", Smart)]

  /** The CT clamp descriptions' keys. */
  const CT_SENSORS: seq<string> := [
    "power", "current", "lifetime_energy", "current_leg1", "current_leg2",
    "power_leg1", "power_leg2", "lifetime_energy_import", "usage_type"]

  /** The hub descriptions' keys. */
  const WHEM_SENSORS: seq<string> := [
    "power", "current", "energy", "voltage", "voltage_leg1", "voltage_leg2",
    "frequency", "frequency_leg1", "frequency_leg2", "power_leg1", "power_leg2",
    "current_leg1", "current_leg2", "firmware_ble", "firmware_main", "ip_address",
    "lifetime_energy", "mac_address", "residence_id", "serial_number", "wifi_rssi",
    "firmware_update"]

  /** The panel descriptions' keys. */
  const PANEL_SENSORS: seq<string> := [
    "power", "current", "energy", "voltage", "voltage_leg1", "voltage_leg2",
    "current_leg1", "current_leg2", "power_leg1", "power_leg2", "frequency",
    "frequency_leg1", "frequency_leg2", "firmware_bcm", "firmware_bsm",
    "firmware_bsm_radio", "firmware_main", "firmware_ncm", "lifetime_energy",
    "residence_id", "serial_number", "wifi_mode", "wifi_rssi", "wifi_ssid",
    "firmware_update"]

  /** The usage type of a clamp that is not in use. */
  const NOT_USED := "NOT_USED"

  /** A sensor entity: a breaker and its description, or a device of another collection and a description key. */
  datatype SensorEntity =
    | BreakerSensor(id: string, desc: Description)
    | DeviceSensor(collection: Entities.Collection, device: string, key: string)

  /** The sensors of one breaker: the descriptions whose rule the breaker meets, in order. */
  function BreakerSensors(id: string, b: Breaker, descs: seq<Description>): (r: seq<SensorEntity>)
    ensures forall e :: e in r ==> e.BreakerSensor? && e.id == id
    ensures forall d :: BreakerSensor(id, d) in r <==> d in descs && RuleHolds(d.rule, b)
    decreases |descs|
  {
    if descs == [] then []
    else
      var rest := BreakerSensors(id, b, descs[1..]);
      assert forall d :: d in descs <==> d == descs[0] || d in descs[1..];
      if RuleHolds(descs[0].rule, b) then [BreakerSensor(id, descs[0])] + rest else rest
  }

  /** The breaker part of the setup: included breakers, each with its descriptions. */
  method SetUpBreakerSensors(data: LevitonData, hideDummy: bool, order: seq<string>) returns (r: seq<SensorEntity>)
    requires Enumerates(order, data.breakers.Keys)
    ensures forall e :: e in r ==> e.BreakerSensor?
    ensures forall id, d :: BreakerSensor(id, d) in r <==>
              id in data.breakers && Entities.ShouldIncludeBreaker(data.breakers[id], hideDummy) &&
              d in BREAKER_SENSORS && RuleHolds(d.rule, data.breakers[id])
  {
    r := [];
    var i := 0;
    while i < |order|
      invariant 0 <= i <= |order|
      invariant forall e :: e in r ==> e.BreakerSensor?
      invariant forall id, d :: BreakerSensor(id, d) in r <==>
                  id in order[..i] && id in data.breakers && Entities.ShouldIncludeBreaker(data.breakers[id], hideDummy) &&
                  d in BREAKER_SENSORS && RuleHolds(d.rule, data.breakers[id])
    {
      var id := order[i];
      assert order[..i + 1] == order[..i] + [id];
      var b := data.breakers[id];
      if Entities.ShouldIncludeBreaker(b, hideDummy) {
        r := r + BreakerSensors(id, b, BREAKER_SENSORS);
      }
      i := i + 1;
    }
    assert order[..i] == order;
  }

  /** Every key of `keys` for one device of the collection. */
  function DeviceSensors(c: Entities.Collection, id: string, keys: seq<string>): (r: seq<SensorEntity>)
    ensures forall e :: e in r ==> e.DeviceSensor? && e.collection == c && e.device == id
    ensures forall k :: DeviceSensor(c, id, k) in r <==> k in keys
  {
    var r := seq(|keys|, j requires 0 <= j < |keys| => DeviceSensor(c, id, keys[j]));
    forall k | k in keys ensures DeviceSensor(c, id, k) in r {
      var j :| 0 <= j < |keys| && keys[j] == k;
      assert r[j] == DeviceSensor(c, id, k);
    }
    r
  }

  /** The part of the setup for one collection: every listed device not skipped, with every key. */
  method SetUpDeviceSensors(c: Entities.Collection, order: seq<string>, skip: set<string>, keys: seq<string>)
    returns (r: seq<SensorEntity>)
    ensures forall e :: e in r ==> e.DeviceSensor? && e.collection == c
    ensures forall id, k :: DeviceSensor(c, id, k) in r <==> id in order && id !in skip && k in keys
  {
    r := [];
    var i := 0;
    while i < |order|
      invariant 0 <= i <= |order|
      invariant forall e :: e in r ==> e.DeviceSensor? && e.collection == c
      invariant forall id, k :: DeviceSensor(c, id, k) in r <==> id in order[..i] && id !in skip && k in keys
    {
      var id := order[i];
      assert order[..i + 1] == order[..i] + [id];
      if id !in skip {
        r := r + DeviceSensors(c, id, keys);
      }
      i := i + 1;
    }
    assert order[..i] == order;
  }

  /** The clamps whose usage type is NOT_USED. */
  function UnusedCts(cts: map<string, Ct>): (r: set<string>)
    ensures forall k :: k in r <==> k in cts && cts[k].UsageType() == Text(NOT_USED)
  {
    set k | k in cts && cts[k].UsageType() == Text(NOT_USED)
  }

  /**
   * The sensor platform's setup: the included breakers with the
   * descriptions whose rule they meet, the clamps in use with every
   * clamp description, and every hub and panel with every description.
   */
  method SetUpSensors(data: LevitonData, hideDummy: bool,
                      breakerOrder: seq<string>, ctOrder: seq<string>, hubOrder: seq<string>, panelOrder: seq<string>)
    returns (entities: seq<SensorEntity>)
    requires Enumerates(breakerOrder, data.breakers.Keys) && Enumerates(ctOrder, data.cts.Keys)
    requires Enumerates(hubOrder, data.whems.Keys) && Enumerates(panelOrder, data.panels.Keys)
    ensures forall id, d :: BreakerSensor(id, d) in entities <==>
              id in data.breakers && Entities.ShouldIncludeBreaker(data.breakers[id], hideDummy) &&
              d in BREAKER_SENSORS && RuleHolds(d.rule, data.breakers[id])
    ensures forall key, k :: DeviceSensor(Entities.Cts, key, k) in entities <==>
              key in data.cts && data.cts[key].UsageType() != Text(NOT_USED) && k in CT_SENSORS
    ensures forall h, k :: DeviceSensor(Entities.Whems, h, k) in entities <==> h in data.whems && k in WHEM_SENSORS
    ensures forall p, k :: DeviceSensor(Entities.Panels, p, k) in entities <==> p in data.panels && k in PANEL_SENSORS
    ensures forall id, k :: DeviceSensor(Entities.Breakers, id, k) !in entities
  {
    var breakers := SetUpBreakerSensors(data, hideDummy, breakerOrder);
    var cts := SetUpDeviceSensors(Entities.Cts, ctOrder, UnusedCts(data.cts), CT_SENSORS);
    var hubs := SetUpDeviceSensors(Entities.Whems, hubOrder, {}, WHEM_SENSORS);
    var panels := SetUpDeviceSensors(Entities.Panels, panelOrder, {}, PANEL_SENSORS);
    entities := breakers + cts + hubs + panels;
  }

  // ---------------------------------------------------------------------
  // Value lookup
  // ---------------------------------------------------------------------

  /** `native_value`: the description's value of the device, or none when the device is gone. */
  function NativeValue<D, T>(devices: map<string, D>, id: string, value: D -> T): (r: Option<T>)
    ensures r.None? <==> id !in devices
    ensures r.Some? ==> r.value == value(devices[id])
  {
    if id in devices then Some(value(devices[id])) else None
  }

  /** An available breaker sensor always has a value to show. */
  lemma AvailableBreakerHasValue<T>(up: bool, data: LevitonData, id: string, value: Breaker -> T)
    requires Entities.Available(up, data, Entities.Breakers, id)
    ensures NativeValue(data.breakers, id, value).Some?
  {
  }
}

=== FILE: store.dfy ===
/**
 * The coordinator's device store (`LevitonData`) and the device records it
 * holds. Each record is a fixed id, the classification flags the cloud
 * client derives from the model name, and the raw attribute map that REST
 * refreshes and push notifications merge into.
 */
module Store {
  import opened Wrappers
  import opened Values

  // Attribute names on the wire.
  const POSITION := "position"
  const POLES := "poles"
  const POWER := "power"
  const POWER_2 := "power2"
  const RMS_CURRENT := "rmsCurrent"
  const RMS_CURRENT_2 := "rmsCurrent2"
  const RMS_VOLTAGE := "rmsVoltage"
  const RMS_VOLTAGE_2 := "rmsVoltage2"
  const LINE_FREQUENCY := "lineFrequency"
  const LINE_FREQUENCY_2 := "lineFrequency2"
  const CURRENT_STATE := "currentState"
  const REMOTE_STATE := "remoteState"
  const REMOTE_TRIP := "remoteTrip"
  const CAN_REMOTE_ON := "canRemoteOn"
  const BLINK_LED := "blinkLED"
  const IOT_WHEM_ID := "iotWhemId"
  const PANEL_ID := "residentialBreakerPanelId"
  const NAME := "name"
  const MODEL := "model"
  const CHANNEL := "channel"
  const USAGE_TYPE := "usageType"
  const ACTIVE_POWER := "activePower"
  const ACTIVE_POWER_2 := "activePower2"
  const CONNECTED := "connected"
  const VERSION := "version"
  const DOWNLOADED := "downloaded"
  const UPDATE_AVAILABILITY := "updateAvailability"
  const UPDATE_VERSION := "updateVersion"
  const FIRMWARE_SILABS := "firmwareVersionSilabs"
  const FIRMWARE_GFCI := "firmwareVersionGfci"
  const FIRMWARE_AFCI := "firmwareVersionAfci"
  const VOLTAGE_A := "rmsVoltageA"
  const VOLTAGE_B := "rmsVoltageB"
  const FREQUENCY_A := "frequencyA"
  const FREQUENCY_B := "frequencyB"

  /** The four energy counters a device can report. */
  datatype Slot = Consumption | Consumption2 | Import | Import2

  /** The wire attribute holding a counter, in thousandths of a kWh. */
  function WireKey(s: Slot): string {
    match s
    case Consumption => "energyConsumption"
    case Consumption2 => "energyConsumption2"
    case Import => "energyImport"
    case Import2 => "energyImport2"
  }

  /** The counter a wire attribute holds, if it holds one. */
  function SlotOf(k: string): (r: Option<Slot>)
    ensures r.Some? ==> WireKey(r.value) == k
    ensures forall s :: WireKey(s) == k ==> r == Some(s)
  {
    if k == WireKey(Consumption) then Some(Consumption)
    else if k == WireKey(Consumption2) then Some(Consumption2)
    else if k == WireKey(Import) then Some(Import)
    else if k == WireKey(Import2) then Some(Import2)
    else None
  }

  /** True for the attributes that hold an energy counter. */
  predicate IsEnergyWireKey(k: string) {
    exists s: Slot :: WireKey(s) == k
  }

  /** Breakers report three counters, CT clamps all four. */
  const BREAKER_SLOTS: seq<Slot> := [Consumption, Consumption2, Import]
  const CT_SLOTS: seq<Slot> := [Consumption, Consumption2, Import, Import2]

  /** Classification the cloud client derives from a breaker's model. */
  datatype BreakerKind = BreakerKind(
    isSmart: bool,
    isLsbma: bool,
    hasLsbma: bool,
    isPlaceholder: bool,
    isGen2: bool)

  datatype Breaker = Breaker(id: string, kind: BreakerKind, fields: Fields) {
    function Position(): Option<int> { IntOf(fields, POSITION) }
    predicate TwoPole() { IntOf(fields, POLES) == Some(2) }
    function Power(): Option<int> { IntOf(fields, POWER) }
    function Power2(): Option<int> { IntOf(fields, POWER_2) }
    function RmsCurrent(): Option<real> { RealOf(fields, RMS_CURRENT) }
    function RmsVoltage(): Option<real> { RealOf(fields, RMS_VOLTAGE) }
    function LineFrequency(): Option<real> { RealOf(fields, LINE_FREQUENCY) }
    function LineFrequency2(): Option<real> { RealOf(fields, LINE_FREQUENCY_2) }
    function Energy(s: Slot): Option<int> { IntOf(fields, WireKey(s)) }
    function CurrentState(): Option<string> { TextOf(fields, CURRENT_STATE) }
    function RemoteState(): Option<string> { TextOf(fields, REMOTE_STATE) }
    predicate CanRemoteOn() { Truthy(Get(fields, CAN_REMOTE_ON)) }
    function HubRef(): Value { Get(fields, IOT_WHEM_ID) }
    function PanelRef(): Value { Get(fields, PANEL_ID) }
    function FirmwareSilabs(): Value { Get(fields, FIRMWARE_SILABS) }
    function FirmwareGfci(): Value { Get(fields, FIRMWARE_GFCI) }
    function FirmwareAfci(): Value { Get(fields, FIRMWARE_AFCI) }

    /**
     * Lifetime consumption shown for the breaker: pole 1, plus pole 2
     * (missing counts as 0) on a two-pole breaker; absent when pole 1 is.
     */
    function TotalEnergy(): (r: Option<int>)
      ensures r.None? <==> Energy(Consumption).None?
      ensures r.Some? && !TwoPole() ==> r.value == Energy(Consumption).value
      ensures r.Some? && TwoPole() ==>
                r.value == Energy(Consumption).value + OrZero(Energy(Consumption2))
    {
      match Energy(Consumption)
      case None => None
      case Some(e) => Some(if TwoPole() then e + OrZero(Energy(Consumption2)) else e)
    }
  }

  /** A whole-home energy monitor (LWHEM hub). */
  datatype Hub = Hub(id: string, fields: Fields) {
    function Version(): Value { Get(fields, VERSION) }
    predicate Connected() { Truthy(Get(fields, CONNECTED)) }
    function VoltageA(): Option<real> { RealOf(fields, VOLTAGE_A) }
    function VoltageB(): Option<real> { RealOf(fields, VOLTAGE_B) }
    function FrequencyA(): Option<real> { RealOf(fields, FREQUENCY_A) }
    function FrequencyB(): Option<real> { RealOf(fields, FREQUENCY_B) }
  }

  /** A direct-attached (DAU, second generation) panel. */
  datatype Panel = Panel(id: string, online: bool, fields: Fields) {
    function Voltage1(): Option<real> { RealOf(fields, RMS_VOLTAGE) }
    function Voltage2(): Option<real> { RealOf(fields, RMS_VOLTAGE_2) }
  }

  /** A current-transformer clamp on a hub; the cloud gives it an integer id. */
  datatype Ct = Ct(id: int, fields: Fields) {
    /** The store key, `str(ct.id)`. */
    function Key(): string { IntToString(id) }
    function HubRef(): Value { Get(fields, IOT_WHEM_ID) }
    function Power1(): Option<int> { IntOf(fields, ACTIVE_POWER) }
    function Power2(): Option<int> { IntOf(fields, ACTIVE_POWER_2) }
    function Current1(): Option<real> { RealOf(fields, RMS_CURRENT) }
    function Current2(): Option<real> { RealOf(fields, RMS_CURRENT_2) }
    function Energy(s: Slot): Option<int> { IntOf(fields, WireKey(s)) }
    function UsageType(): Value { Get(fields, USAGE_TYPE) }

    /** Lifetime consumption over both legs, each missing leg counting 0. */
    function TotalEnergy(): (r: int)
      ensures r == OrZero(Energy(Consumption)) + OrZero(Energy(Consumption2))
      ensures Energy(Consumption).None? && Energy(Consumption2).None? ==> r == 0
    {
      OrZero(Energy(Consumption)) + OrZero(Energy(Consumption2))
    }
  }

  datatype Residence = Residence(id: int, name: string)

  /** A device whose energy the integration tracks. */
  datatype DeviceRef = BreakerRef(breaker: string) | CtRef(ct: string)

  /** One persisted counter: a device and one of its slots. */
  datatype EnergyKey = EnergyKey(device: DeviceRef, slot: Slot)

  /**
   * The device store. Hubs, panels and breakers are keyed by their string
   * id, CT clamps by `str(ct.id)`, residences by their integer id; the
   * daily baselines are keyed by the tracked device.
   */
  datatype LevitonData = LevitonData(
    whems: map<string, Hub>,
    panels: map<string, Panel>,
    breakers: map<string, Breaker>,
    cts: map<string, Ct>,
    residences: map<int, Residence>,
    dailyBaselines: map<DeviceRef, int>)

  /** The store with only the given residences: what discovery starts from. */
  function FreshStore(residences: map<int, Residence>): (d: LevitonData)
    ensures d.residences == residences
    ensures d.whems == map[] && d.panels == map[] && d.breakers == map[]
    ensures d.cts == map[] && d.dailyBaselines == map[]
  {
    LevitonData(map[], map[], map[], map[], residences, map[])
  }

  /** The same devices under the same keys; only attributes may differ. */
  predicate SameDevices(a: LevitonData, b: LevitonData) {
    && a.whems.Keys == b.whems.Keys
    && a.panels.Keys == b.panels.Keys
    && a.breakers.Keys == b.breakers.Keys
    && a.cts.Keys == b.cts.Keys
    && a.residences == b.residences
    && a.dailyBaselines == b.dailyBaselines
  }

  /** True when `order` lists exactly the keys: a dictionary's iteration order. */
  predicate Enumerates(order: seq<string>, keys: set<string>) {
    (forall x :: x in order ==> x in keys) && (forall x :: x in keys ==> x in order)
  }

  /** A dictionary's iteration order: each key exactly once. */
  predicate DictOrder(order: seq<string>, keys: set<string>) {
    Enumerates(order, keys) && forall i, j :: 0 <= i < j < |order| ==> order[i] != order[j]
  }

  /** No keys, nothing to visit. */
  lemma EmptyOrder(order: seq<string>, keys: set<string>)
    requires Enumerates(order, keys)
    ensures keys == {} ==> order == []
  {
    if order != [] {
      assert order[0] in keys;
    }
  }

  /** The store key of a CT determines its id: keys never collide. */
  lemma CtKeyInjective(a: Ct, b: Ct)
    requires a.Key() == b.Key()
    ensures a.id == b.id
  {
    IntToStringInjective(a.id, b.id);
  }
}

=== FILE: values.dfy ===
/**
 * The JSON-shaped values carried by cloud REST responses and push
 * notifications, with the few pieces of Python semantics the integration
 * relies on: truthiness, `dict.get`, `str()` of an id and `int()` of a
 * version component.
 */
module Values {
  import opened Wrappers

  /** A decoded JSON value. */
  datatype Value =
    | Null
    | Bool(b: bool)
    | Int(i: int)
    | Real(r: real)
    | Text(s: string)
    | List(items: seq<Value>)
    | Dict(entries: map<string, Value>)

  /** A JSON object: a device's attributes or one notification payload. */
  type Fields = map<string, Value>

  /** Python truthiness: `None`, `False`, `0`, `0.0`, `""`, `[]` and `{}` are false. */
  predicate Truthy(v: Value) {
    match v
    case Null => false
    case Bool(b) => b
    case Int(i) => i != 0
    case Real(r) => r != 0.0
    case Text(s) => s != ""
    case List(xs) => |xs| > 0
    case Dict(m) => |m| > 0
  }

  /** `d.get(k)`: the stored value, `None` for a missing key. */
  function Get(f: Fields, k: string): (v: Value)
    ensures k !in f ==> v == Null
    ensures k in f ==> v == f[k]
  {
    if k in f then f[k] else Null
  }

  /** An integer attribute, `None` when it is absent or not an integer. */
  function IntOf(f: Fields, k: string): (r: Option<int>)
    ensures r.Some? <==> Get(f, k).Int?
    ensures r.Some? ==> Get(f, k) == Int(r.value)
  {
    match Get(f, k)
    case Int(i) => Some(i)
    case _ => None
  }

  /** A numeric attribute read as a real (Python mixes `int` and `float` freely). */
  function RealOf(f: Fields, k: string): (r: Option<real>)
    ensures r.Some? <==> (Get(f, k).Int? || Get(f, k).Real?)
    ensures Get(f, k).Real? ==> r == Some(Get(f, k).r)
    ensures Get(f, k).Int? ==> r == Some(Get(f, k).i as real)
  {
    match Get(f, k)
    case Int(i) => Some(i as real)
    case Real(x) => Some(x)
    case _ => None
  }

  /** A text attribute, `None` when it is absent or not text. */
  function TextOf(f: Fields, k: string): (r: Option<string>)
    ensures r.Some? <==> Get(f, k).Text?
    ensures r.Some? ==> Get(f, k) == Text(r.value)
  {
    match Get(f, k)
    case Text(s) => Some(s)
    case _ => None
  }

  /** A Python `dict.update`: keys of `patch` overwrite, the others stay. */
  function Merge(f: Fields, patch: Fields): (r: Fields)
    ensures r.Keys == f.Keys + patch.Keys
    ensures forall k :: k in patch ==> r[k] == patch[k]
    ensures forall k :: k in f && k !in patch ==> r[k] == f[k]
  {
    f + patch
  }

  // ---------------------------------------------------------------------
  // Decimal rendering (`str(n)`) and parsing (`int(s)`)
  // ---------------------------------------------------------------------

  predicate IsDigit(c: char) {
    '0' <= c <= '9'
  }

  function DigitChar(d: nat): (c: char)
    requires d < 10
    ensures IsDigit(c)
  {
    ['0', '1', '2', '3', '4', '5', '6', '7', '8', '9'][d]
  }

  function DigitVal(c: char): (d: nat)
    requires IsDigit(c)
    ensures d < 10
  {
    (c as int - '0' as int)
  }

  /** `str(n)` for a non-negative integer: no leading zeros. */
  function NatToString(n: nat): (s: string)
    ensures |s| > 0
    ensures forall i :: 0 <= i < |s| ==> IsDigit(s[i])
    ensures |s| > 1 ==> s[0] != '0'
    decreases n
  {
    if n < 10 then [DigitChar(n)]
    else NatToString(n / 10) + [DigitChar(n % 10)]
  }

  /** `str(i)` for any integer. */
  function IntToString(i: int): (s: string)
    ensures |s| > 0
    ensures i < 0 <==> s[0] == '-'
  {
    if i < 0 then "-" + NatToString(-i) else NatToString(i)
  }

  /**
   * `str(v)` for the scalar values the integration turns into dictionary
   * keys; floats and containers are not rendered (None).
   */
  function Str(v: Value): (r: Option<string>)
    ensures v.Text? ==> r == Some(v.s)
    ensures v.Int? ==> r == Some(IntToString(v.i))
    ensures (v.Real? || v.List? || v.Dict?) <==> r.None?
  {
    match v
    case Null => Some("None")
    case Bool(b) => Some(if b then "True" else "False")
    case Int(i) => Some(IntToString(i))
    case Text(s) => Some(s)
    case _ => None
  }

  /** Whitespace removed by `str.strip()` (the ASCII part of Python's set). */
  predicate IsSpace(c: char) {
    c == ' ' || 9 <= c as int <= 13 || 28 <= c as int <= 31
  }

  function StripStart(s: string): (r: string)
    ensures |r| <= |s| && r == s[|s| - |r|..]
    ensures |r| > 0 ==> !IsSpace(r[0])
    ensures (|s| == 0 || !IsSpace(s[0])) ==> r == s
  {
    if |s| > 0 && IsSpace(s[0]) then StripStart(s[1..]) else s
  }

  function StripEnd(s: string): (r: string)
    ensures |r| <= |s| && r == s[..|r|]
    ensures |r| > 0 ==> !IsSpace(r[|r| - 1])
    ensures (|s| == 0 || !IsSpace(s[|s| - 1])) ==> r == s
  {
    if |s| > 0 && IsSpace(s[|s| - 1]) then StripEnd(s[..|s| - 1]) else s
  }

  /** `str.strip()`. */
  function Strip(s: string): (r: string)
    ensures |r| > 0 ==> !IsSpace(r[0]) && !IsSpace(r[|r| - 1])
  {
    StripEnd(StripStart(s))
  }

  /**
   * The digit part `int()` accepts in base 10: digits, with single
   * underscores allowed between two digits.
   */
  predicate WellFormedDigits(s: string) {
    && |s| > 0
    && IsDigit(s[0])
    && IsDigit(s[|s| - 1])
    && (forall i :: 0 <= i < |s| ==> IsDigit(s[i]) || s[i] == '_')
    && (forall i :: 0 <= i < |s| - 1 && s[i] == '_' ==> s[i + 1] != '_')
  }

  /** The number spelled by the digits of `s`, underscores ignored. */
  function DigitsValue(s: string): nat
    requires forall i :: 0 <= i < |s| ==> IsDigit(s[i]) || s[i] == '_'
  {
    if s == [] then 0
    else if s[|s| - 1] == '_' then DigitsValue(s[..|s| - 1])
    else DigitsValue(s[..|s| - 1]) * 10 + DigitVal(s[|s| - 1])
  }

  /** `int(s)`: `None` where Python raises `ValueError`. */
  function ParseInt(s: string): (r: Option<int>)
    ensures r.Some? ==> |Strip(s)| > 0
  {
    var t := Strip(s);
    if |t| > 0 && (t[0] == '-' || t[0] == '+') then
      var body := t[1..];
      if WellFormedDigits(body) then
        var n: int := DigitsValue(body);
        Some(if t[0] == '-' then -n else n)
      else None
    else if WellFormedDigits(t) then Some(DigitsValue(t))
    else None
  }

  lemma {:induction false} DigitsValueOfNat(n: nat)
    ensures DigitsValue(NatToString(n)) == n
    decreases n
  {
    var s := NatToString(n);
    if n < 10 {
      assert s[..|s| - 1] == [];
    } else {
      DigitsValueOfNat(n / 10);
      assert s[..|s| - 1] == NatToString(n / 10);
      assert s[|s| - 1] == DigitChar(n % 10);
    }
  }

  /** Text without surrounding whitespace is its own strip. */
  lemma StripUnchanged(s: string)
    requires |s| > 0 && !IsSpace(s[0]) && !IsSpace(s[|s| - 1])
    ensures Strip(s) == s
  {
    assert StripStart(s) == s;
  }

  /** A plain run of digits parses as the number it spells. */
  lemma ParseUnsigned(s: string)
    requires WellFormedDigits(s)
    ensures ParseInt(s) == Some(DigitsValue(s))
  {
    StripUnchanged(s);
  }

  /** `int(str(i)) == i`: rendering and parsing a decimal id are inverse. */
  lemma {:induction false} ParseIntToString(i: int)
    ensures ParseInt(IntToString(i)) == Some(i)
  {
    if i < 0 {
      var digits := NatToString(-i);
      var s := "-" + digits;
      assert s[1..] == digits;
      assert IntToString(i) == s;
      assert WellFormedDigits(digits);
      DigitsValueOfNat(-i);
      StripUnchanged(s);
    } else {
      var s := NatToString(i);
      assert IntToString(i) == s;
      assert WellFormedDigits(s);
      DigitsValueOfNat(i);
      ParseUnsigned(s);
    }
  }

  /** Distinct integers render as distinct decimal strings. */
  lemma IntToStringInjective(a: int, b: int)
    requires IntToString(a) == IntToString(b)
    ensures a == b
  {
    ParseIntToString(a);
    ParseIntToString(b);
  }
}

=== FILE: wrappers.dfy ===
/**
 * Small result types shared by every module of the model.
 */
module Wrappers {

  /** A value that may be absent (Python `None`). */
  datatype Option<T> = None | Some(value: T) {
    function GetOr(default: T): (r: T)
      ensures this.Some? ==> r == value
      ensures this.None? ==> r == default
    {
      match this
      case None => default
      case Some(v) => v
    }
  }

  /**
   * The outcome of one call into the cloud client: it returns a value,
   * or raises the authentication error, or raises the connection error.
   */
  datatype Call<T> = Ok(value: T) | AuthErr | ConnErr

  /** `x or 0` for an optional number. */
  function OrZero(o: Option<int>): (r: int)
    ensures o.None? ==> r == 0
    ensures o.Some? ==> r == o.value
  {
    if o.Some? then o.value else 0
  }

  /** `x or 0` for an optional real: absent and zero both count 0. */
  function OrZeroReal(o: Option<real>): (r: real)
    ensures o.None? ==> r == 0.0
    ensures o.Some? ==> r == o.value
  {
    if o.Some? then o.value else 0.0
  }

  function Max(a: int, b: int): (r: int)
    ensures r >= a && r >= b && (r == a || r == b)
  {
    if a >= b then a else b
  }

  /** Some element of a non-empty set: the next one a set iteration visits. */
  method Pick<T>(s: set<T>) returns (x: T)
    requires s != {}
    ensures x in s
  {
    x :| x in s;
  }

  /** Two maps with the same keys and the same value at every key are equal. */
  lemma MapsEqual<K, V>(a: map<K, V>, b: map<K, V>)
    requires forall k :: k in a <==> k in b
    requires forall k :: k in a ==> a[k] == b[k]
    ensures a == b
  {
  }
}
